=== FILE: README.md ===
# Peribahasa Vector — a Dafny model of the common library core

This project models the core of the Peribahasa Vector service. Peribahasa
are Malay proverbs. The model covers the shared `Codecaine.Common` library
the service is built on and the one use case that creates a proverb. Every
operation is a pure function. Collaborators that the code only calls are
parameters: the database store, the identity provider, the cache, the
clock, `Guid.NewGuid`, JSON decoding and the JWT reader. Effects such as
inserts, commits, provider calls, cache writes and published events are
returned as an ordered trace.

The modules follow the library's structure:

- `Wrappers`, `Text`, `Primitives`: `Option`/`Result`, .NET string helpers
  (white space, `Split`, `Join`, `Trim`, `ToLower`, `int` rendering and
  parsing), `Guid` and `DateTime` as numbers.
- `ValueObjects`, `Errors`, `Exceptions`, `Maybes`, `Guards`: value-object
  equality, `Error` and its subclasses, the exception hierarchy with its
  messages and its indented JSON rendering, `Maybe<T>` and the `Ensure`
  guard clauses.
- `Json`: how `System.Text.Json` escapes a string value with its default
  encoder, and the reading that undoes it.
- `Peribahasas`, `Handlers`, `CreatePeribahasa`, `ExceptionMiddleware`: the
  proverb aggregate, `BaseHandler.HandleSafelyAsync`, the create-proverb
  command handler and the HTTP exception mapping.
- `PagingMath`, `PersistencePaging`, `PaginationPaging`: the two
  `PagedResult` classes and the `Skip`/`Take` arithmetic behind them.
- `Entities`, `Predicates`, `ExpressionExtensions`, `FilterListExtensions`,
  `QueryFilters`: entities as the query layer sees them, and LINQ predicate
  expressions with their evaluation, parameter rebinding and combination.
- `Filters`, `ParseFilters`, `SpecificationBuilder`, `Sorting`: the textual
  filter language, `Enum.TryParse`, the dynamic specification builder and
  the stable `OrderBy`.
- `Specifications`, `Repositories`, `AppDbContexts`, `MongoContexts`: the
  `Specification` base class, the Entity Framework and MongoDB repositories
  over an in-memory store, `AppDbContext.SaveChangesAsync`, and the write
  side of `MongoDbContext` (audit stamps, soft delete, `ReplaceOne` and
  `DeleteOne`). `MongoDbContext` lives in `MongoDbContext .cs` (with a
  space before the extension); the table below cites the
  `MongoRepository` methods and the `IMongoDbContext` declarations through
  which it is reached, and names the context's own lines in the third
  column.
- `PromptWindows`: the message window the Ollama and OpenAI chat services
  send.
- `AuthenticationServices`: the Keycloak `AuthenticationService`, covering
  the admin-token cache, login and user creation.

Where the library's documentation and its code disagree, or the code is
easy to misread, the model follows the code:

- `Pagination.PagedResult.LastRowOnPage` is clamped by the rows on the page,
  not by the total (see Findings).
- The chat services keep the oldest messages over the limit, not the newest
  (see Findings).
- `ApplySpecification` never reads `OrderBy`, `OrderByDescending` or
  `IsDistinct`. The Entity Framework version applies `Includes`, but that
  only loads related data and never changes which rows come back.
- `MongoRepository.Where` ignores paging and ordering, while the Entity
  Framework `Where` applies them.
- The two repositories' `ApplySpecification` and `GetPagedAsync` follow the
  same rules, apart from includes, so `Repositories` models each once. The
  `IQueryable` and `IList` overloads of each `GetPaged` also share one model.
- An exception wrapped in an `ApplicationError` carries the indented JSON
  rendering of the original as its message, so the original message appears
  there escaped: an apostrophe, a quote, `<`, `>`, `&`, `+`, a backtick and
  every non-ASCII character become `\uXXXX`. The wrapped message contains
  the original verbatim only when it has none of those.
- `MongoDbContext.Remove` does not delete a soft-deletable entity such as a
  proverb: it marks it deleted and replaces the document, which stays
  findable by its id.
- The Entity Framework `Repository.Delete` and `Remove` do not delete
  anything either: `Remove` only marks the tracked entry Deleted, or lets go
  of an entity added in the same unit of work, whose pending domain events
  are then never published. The next
  `SaveChangesAsync` turns a soft-deletable entity back into a Modified row
  with `Deleted = true`, so a deleted proverb's row stays and the lookup by
  id still finds it. Only other entity types lose their row.
- The middleware refers to `AuthenticationErrors.UnauthorizedUser`, while the
  class the source declares is named `AuthenticationError`. The model treats
  both names as the one error list.

## Model

| member | source | states |
|---|---|---|
| Text.Split | src/Codecaine.Common/Pagination/ParseFilters.cs:17 | `Split` on one separator yields one more piece than there are separators, and the pieces contain no separator |
| Text.JoinSplit | src/Codecaine.Common/Pagination/ParseFilters.cs:17 | joining the pieces of a split with the separator gives back the original string |
| Text.SplitJoin | src/Codecaine.Common/Pagination/ParseFilters.cs:22 | splitting a join of separator-free pieces gives back the pieces |
| Text.SplitWithoutSeparator | src/Codecaine.Common/Pagination/ParseFilters.cs:22 | a value list without a comma is one value |
| Text.TrimStart | src/Codecaine.Common/Pagination/ParseFilters.cs:21 | `TrimStart` removes exactly the leading white space: what it drops is white space, and what it keeps starts with a non-white-space character |
| Text.TrimEnd | src/Codecaine.Common/Pagination/ParseFilters.cs:21 | `TrimEnd` removes exactly the trailing white space |
| Text.Trim | src/Codecaine.Common/Pagination/ParseFilters.cs:21 | a trimmed string neither starts nor ends with white space |
| Text.TrimKeepsInnerText | src/Codecaine.Common/Pagination/ParseFilters.cs:21 | a string that neither starts nor ends with white space is its own trim |
| Text.ToLowerIdempotent | src/Codecaine.Common/AiServices/Ollama/OllamaLargeLanguageModelService.cs:41 | lower-casing a role twice is lower-casing it once |
| Text.ParseIntToString | src/Codecaine.Common/Authentication/Providers/KeyCloak/AuthenticationService.cs:156-157 | `int.Parse` of the decimal rendering of a 32-bit integer returns that integer |
| Text.ContainsSelfSuffix | src/Codecaine.Common/Pagination/SpecificationBuilder.cs:54-57 | `prefix + needle + suffix` contains `needle`, which is the `Contains` test's positive case |
| ValueObjects.SequenceEqualIsEquality | src/Codecaine.Common/Domain/ValueObject.cs:39 | `SequenceEqual` on atomic values holds exactly when the sequences are equal |
| ValueObjects.EqualsValueObject | src/Codecaine.Common/Domain/ValueObject.cs:39 | `Equals(ValueObject)` is true exactly for a non-null argument with the same atomic values |
| ValueObjects.EqualsObject | src/Codecaine.Common/Domain/ValueObject.cs:42-60 | `Equals(object)` also requires a value object of the same runtime type |
| ValueObjects.OpEquals | src/Codecaine.Common/Domain/ValueObject.cs:15-28 | `==` holds for two nulls, or for two non-nulls with equal atoms |
| ValueObjects.OpNotEquals | src/Codecaine.Common/Domain/ValueObject.cs:36 | `!=` is the negation of `==` |
| ValueObjects.EqualsObjectImpliesEqualsValueObject | src/Codecaine.Common/Domain/ValueObject.cs:39-60 | the two `Equals` overloads agree whenever the runtime types agree |
| ValueObjects.HashConsistent | src/Codecaine.Common/Domain/ValueObject.cs:63-73 | equal value objects have equal hash codes, whatever the seed and mixing function |
| Errors.ErrorEqualsIffFields | src/Codecaine.Common/Primitives/Errors/Error.cs:34-38 | two errors are equal exactly when their code and message are equal |
| Errors.PlainAndApplicationErrorDiffer | src/Codecaine.Common/Primitives/Errors/Error.cs:34-38 | a plain `Error` and an `ApplicationError` with the same fields compare equal through `==` but not through `Equals(object)` |
| Errors.ToCodeString | src/Codecaine.Common/Primitives/Errors/Error.cs:31 | the implicit string conversion is the code, or the empty string for null |
| Errors.NoErrorProperties | src/Codecaine.Common/Primitives/Errors/Error.cs:43 | `Error.None` converts to "" like null, and equals exactly the errors with empty code and message |
| Exceptions.ArgumentMessageNamesParameter | src/Codecaine.Common/Primitives/Ensure/Ensure.cs:19-25 | an argument exception's message names its parameter |
| Exceptions.ValidationFromError | src/Codecaine.Common/Exceptions/ValidationException.cs:22-24 | the single-error constructor keeps the message and leaves `Errors` null |
| Exceptions.ValidationFromFailures | src/Codecaine.Common/Exceptions/ValidationException.cs:15-20 | the list constructor keeps the error list |
| Exceptions.JsonCarriesMessage | src/Codecaine.Common/Primitives/Errors/ErrorExtension.cs:13-26 | the rendering holds the message as a quoted JSON string whose body reads back as the message; the message appears verbatim when it needs no escaping, and never when it holds an apostrophe |
| Exceptions.RenderCarries | src/Codecaine.Common/Primitives/Errors/ErrorExtension.cs:18-25 | the indented object holds the quoted `Message` value |
| Exceptions.NoApostropheInRendering | src/Codecaine.Common/Primitives/Errors/ErrorExtension.cs:18-25 | with the default encoder no apostrophe survives in the rendering |
| Exceptions.WrappedKeepsMessage | src/Codecaine.Common/Primitives/Errors/ApplicationError.cs:12 | wrapping in `ApplicationLayerException` prefixes the code with `ApplicationError.` and keeps the inner message, JSON-escaped, in the outer one (verbatim when it needs no escaping) |
| Exceptions.WrappedArgumentMessageEscaped | src/Codecaine.Common/Primitives/Errors/ApplicationError.cs:12 | a wrapped argument exception with a parameter name does not contain its original message verbatim, because the quotes of `(Parameter 'x')` are escaped |
| Json.ParseHex4Formatted | src/Codecaine.Common/Primitives/Errors/ErrorExtension.cs:25 | the four upper-case hexadecimal digits of a `\uXXXX` escape read back as the code unit |
| Json.DecodeEscapeChar | src/Codecaine.Common/Primitives/Errors/ErrorExtension.cs:25 | each character's escape, including a surrogate pair beyond U+FFFF, reads back as that character whatever follows |
| Json.JsonUnescapeEscape | src/Codecaine.Common/Primitives/Errors/ErrorExtension.cs:25 | reading an escaped string body gives back the original text for every string |
| Json.EscapeCharLength | src/Codecaine.Common/Primitives/Errors/ErrorExtension.cs:25 | a character is written as itself exactly when it needs no escape |
| Json.JsonEscapeLength | src/Codecaine.Common/Primitives/Errors/ErrorExtension.cs:25 | escaping never shortens a string and keeps its length exactly when no character needs escaping |
| Json.JsonEscapeUnchanged | src/Codecaine.Common/Primitives/Errors/ErrorExtension.cs:25 | a string is written unchanged if and only if no character of it needs escaping |
| Json.JsonEscapeOmits | src/Codecaine.Common/Primitives/Errors/ErrorExtension.cs:25 | a character that needs escaping (other than the backslash) never appears as itself in the output |
| Json.ApostropheEscape | src/Codecaine.Common/Primitives/Errors/ErrorExtension.cs:25 | the apostrophe is written as `\u0027` |
| Maybes.Value | src/Codecaine.Common/Primitives/Maybe/Maybe.cs:33-35 | `Value` returns the stored value, and throws `InvalidOperationException` exactly when there is none |
| Maybes.NoneOf | src/Codecaine.Common/Primitives/Maybe/Maybe.cs:40 | `None` carries the `None` error and has a value exactly when the type's default is non-null |
| Maybes.ExceptionOf | src/Codecaine.Common/Primitives/Maybe/Maybe.cs:47 | `Exception(error)` carries that error and, like `None`, holds the type's default |
| Maybes.From | src/Codecaine.Common/Primitives/Maybe/Maybe.cs:54 | `From` has a value exactly for a non-null argument, and `Value` gives it back |
| Maybes.NoneReportsDefault | src/Codecaine.Common/Primitives/Maybe/Maybe.cs:26-40 | for a value type, `None` reports `HasValue` and yields the default |
| Maybes.Equals | src/Codecaine.Common/Primitives/Maybe/Maybe.cs:74-93 | two maybes are equal exactly when they store the same value or both store none; the error is ignored |
| Maybes.EqualsObject | src/Codecaine.Common/Primitives/Maybe/Maybe.cs:95-102 | `Equals(object)` compares a raw value through `From` and a maybe directly |
| Maybes.EqualsRawIsEqualsFrom | src/Codecaine.Common/Primitives/Maybe/Maybe.cs:60-102 | comparing with a raw value is comparing with its implicit conversion |
| Maybes.HashCode | src/Codecaine.Common/Primitives/Maybe/Maybe.cs:108 | an empty maybe hashes to 0, and a full one to its value's hash |
| Maybes.EqualsThenSameHash | src/Codecaine.Common/Primitives/Maybe/Maybe.cs:74-108 | equal maybes have equal hash codes |
| Guards.NotEmptyString | src/Codecaine.Common/Primitives/Ensure/Ensure.cs:19-25 | passes exactly for a string with a non-white-space character, and otherwise throws `ArgumentException` naming the argument |
| Guards.NotEmptyGuid | src/Codecaine.Common/Primitives/Ensure/Ensure.cs:34-40 | passes exactly for a non-empty `Guid` |
| Guards.NotEmptyDateTime | src/Codecaine.Common/Primitives/Ensure/Ensure.cs:49-55 | passes exactly for a non-default `DateTime` |
| Guards.NotNull | src/Codecaine.Common/Primitives/Ensure/Ensure.cs:65-72 | passes exactly for a non-null value, and otherwise throws `ArgumentNullException` |
| Guards.Null | src/Codecaine.Common/Primitives/Ensure/Ensure.cs:83-90 | passes exactly for null |
| Guards.NotInvalidEnum | src/Codecaine.Common/Primitives/Ensure/Ensure.cs:91-101 | passes exactly for a declared enum value |
| Guards.GuardsNameTheArgument | src/Codecaine.Common/Primitives/Ensure/Ensure.cs:19-90 | `NotNull` and `Null` are complementary, and a failing guard's message names the argument |
| Peribahasas.CheckFrom | src/Codecaine.PeribahasaVector.Domain/Entities/Peribahasa.cs:58-63 | the guards pass exactly when no field from `i` on is blank, and otherwise fail on the first blank one with that field's message and name |
| Peribahasas.New | src/Codecaine.PeribahasaVector.Domain/Entities/Peribahasa.cs:55-73 | the constructor succeeds exactly when all six fields are non-blank, keeps them, and sets `Content` to their space-separated join; otherwise it throws for the first blank field |
| Peribahasas.ContentIsJoin | src/Codecaine.PeribahasaVector.Domain/Entities/Peribahasa.cs:71 | the join is the interpolated `Content` string |
| Peribahasas.Create | src/Codecaine.PeribahasaVector.Domain/Entities/Peribahasa.cs:75-83 | `Create` is the constructor plus exactly one `PeribahasaCreatedDomainEvent` |
| Peribahasas.BlankFieldIsNamed | src/Codecaine.PeribahasaVector.Domain/Entities/Peribahasa.cs:58-63 | a blank field makes construction fail with a message naming that field |
| Peribahasas.FieldErrorNamesField | src/Codecaine.PeribahasaVector.Domain/Entities/Peribahasa.cs:58-63 | each field's guard message names the field |
| Handlers.Guard | src/Codecaine.Common/CQRS/Base/BaseHandler.cs:56-94 | a result passes through; a cancellation by the caller's token runs the rollback once; the listed exceptions are rethrown; anything else is wrapped in `ApplicationLayerException`; a rollback that throws replaces the exception |
| Handlers.HandleSafely | src/Codecaine.Common/CQRS/Base/BaseHandler.cs:76-87 | the generic overload rethrows `NotFoundException` unchanged, without a rollback |
| Handlers.HandleSafelyVoid | src/Codecaine.Common/CQRS/Base/BaseHandler.cs:147-160 | the void overload wraps `NotFoundException` instead of rethrowing it |
| Handlers.OnlyKnownExceptionsEscape | src/Codecaine.Common/CQRS/Base/BaseHandler.cs:56-94 | with a rollback that does not throw, only the listed exceptions or an `ApplicationLayerException` carrying the handler's code and the inner message (JSON-escaped, verbatim when it needs no escaping) escape |
| Handlers.NotFoundOnlyRethrownByGeneric | src/Codecaine.Common/CQRS/Base/BaseHandler.cs:76-87 | the two overloads differ on `NotFoundException` |
| Handlers.NestedHandlersWrapTwice | src/Codecaine.Common/CQRS/Base/BaseHandler.cs:89-93 | an unlisted exception passing through two handlers is wrapped twice |
| CreatePeribahasa.Core | src/Codecaine.PeribahasaVector.Application/UseCases/Peribahasas/Commands/CreatePeribahasa/CreatePeribahasaCommandHandler.cs:23-38 | a command with a blank field throws `ArgumentException` before any effect |
| CreatePeribahasa.Handle | src/Codecaine.PeribahasaVector.Application/UseCases/Peribahasas/Commands/CreatePeribahasa/CreatePeribahasaCommandHandler.cs:23-38 | through `HandleSafely`, that exception is wrapped with the handler's code and nothing is rolled back |
| CreatePeribahasa.HandleHappyPath | src/Codecaine.PeribahasaVector.Application/UseCases/Peribahasas/Commands/CreatePeribahasa/CreatePeribahasaCommandHandler.cs:29-37 | a valid command starts a transaction, inserts the new proverb with its creation event, commits, and returns its id |
| CreatePeribahasa.InsertExceptionRethrown | src/Codecaine.PeribahasaVector.Application/UseCases/Peribahasas/Commands/CreatePeribahasa/CreatePeribahasaCommandHandler.cs:32 | a listed exception from the insert escapes unchanged, and nothing is committed |
| CreatePeribahasa.InsertExceptionWrapped | src/Codecaine.PeribahasaVector.Application/UseCases/Peribahasas/Commands/CreatePeribahasa/CreatePeribahasaCommandHandler.cs:32 | any other exception from the insert is wrapped without rollback, keeping its message JSON-escaped |
| CreatePeribahasa.ValidCommandCreates | src/Codecaine.PeribahasaVector.Application/UseCases/Peribahasas/Commands/CreatePeribahasa/CreatePeribahasaCommandHandler.cs:29 | a valid command always yields an entity |
| CreatePeribahasa.TokenIsIgnored | src/Codecaine.PeribahasaVector.Application/UseCases/Peribahasas/Commands/CreatePeribahasa/CreatePeribahasaCommandHandler.cs:23-38 | the handler never consults the cancellation token |
| ExceptionMiddleware.StatusCodeAndErrors | src/Codecaine.Common/AspNetCore/Middleware/ExceptionHandlerMiddleware.cs:119-132 | the status is 400, 401, 404 or 500; a validation exception passes its error list through; every other exception yields exactly one error |
| ExceptionMiddleware.StatusCodeByType | src/Codecaine.Common/AspNetCore/Middleware/ExceptionHandlerMiddleware.cs:119-132 | each status code is chosen by exactly its exception types, both directions, and argument exceptions become `General.UnProcessableRequest` |
| ExceptionMiddleware.SingleErrorValidationHasNullErrors | src/Codecaine.Common/AspNetCore/Middleware/ExceptionHandlerMiddleware.cs:119-132 | a validation exception built from one error reports 400 with a null error list |
| ExceptionMiddleware.HandleException | src/Codecaine.Common/AspNetCore/Middleware/ExceptionHandlerMiddleware.cs:67-83 | the response is JSON with the mapped status and errors |
| PagingMath.Skip | src/Codecaine.Common/Persistence/PagedResult.cs:92 | `Skip(n)` drops the first `n` items, and a non-positive `n` drops none |
| PagingMath.Take | src/Codecaine.Common/Persistence/PagedResult.cs:93 | `Take(n)` is the longest prefix of at most `n` items |
| PagingMath.CeilDiv | src/Codecaine.Common/Persistence/PagedResult.cs:89-90 | the page count is the least number of pages that hold every row |
| PagingMath.PageSliceIsContiguous | src/Codecaine.Common/Persistence/PagedResult.cs:92-93 | page `p` is the contiguous slice starting at `(p-1)*size`, or empty past the end |
| PagingMath.PagesConcatenate | src/Codecaine.Common/Persistence/PagedResult.cs:87-93 | the pages 1 to the page count, concatenated, are the whole query |
| PagingMath.EmptyPagesAfterEnd | src/Codecaine.Common/Persistence/PagedResult.cs:92-93 | pages that start past the end are empty |
| PagingMath.PagesFromSuffix | src/Codecaine.Common/Persistence/PagedResult.cs:92-93 | the pages from `p` on concatenate to the rows from `(p-1)*size` on |
| PersistencePaging.GetPaged | src/Codecaine.Common/Persistence/PagedResult.cs:82-122 | the result records page, size and row count, its page count is the ceiling of rows over size, and it holds at most one page |
| PersistencePaging.ResultsAreSlice | src/Codecaine.Common/Persistence/PagedResult.cs:92-93 | the results are exactly the page's slice of the query |
| PersistencePaging.RowsMatchResults | src/Codecaine.Common/Persistence/PagedResult.cs:34-45 | on a non-empty page, `FirstRowOnPage`..`LastRowOnPage` numbers exactly the returned rows |
| PersistencePaging.AllPagesReturnEverything | src/Codecaine.Common/Persistence/PagedResult.cs:82-96 | reading every page returns every row once, in order |
| PaginationPaging.GetPaged | src/Codecaine.Common/Pagination/PagedResult.cs:89-132 | the result keeps the given items and total, and the page count covers the total |
| PaginationPaging.LastRowBeforeFirstRow | src/Codecaine.Common/Pagination/PagedResult.cs:47-50 | as written, page 2 of 25 rows at 10 per page reports first row 11 and last row 10 |
| PaginationPaging.RowsOfTotalMatchPage | src/Codecaine.Common/Pagination/PagedResult.cs:39-50 | with the last row clamped by the total count, the row range numbers exactly the page's items |
| Entities.FindProperty | src/Codecaine.Common/Pagination/SpecificationBuilder.cs:36 | the case-insensitive lookup returns a property whose name matches, and fails exactly when none does |
| Entities.FindPropertyUnique | src/Codecaine.Common/Pagination/SpecificationBuilder.cs:36 | in a schema without case-insensitive duplicates, the lookup finds the one matching property |
| Entities.Property | src/Codecaine.Common/Pagination/SpecificationBuilder.cs:36 | reading the `Id` property gives the entity's id |
| Entities.PropertyOfConforming | src/Codecaine.Common/Pagination/SpecificationBuilder.cs:36-37 | every declared property can be read from a conforming entity, with the declared type |
| Entities.ValueLessStrictTotal | src/Codecaine.Common/Persistence/EfCore/Repository.cs:168-175 | the ordering used for sorting is irreflexive, transitive and total |
| Entities.StringLessTransitive | src/Codecaine.Common/Persistence/EfCore/Repository.cs:168-175 | ordinal string order is transitive |
| Entities.StringLessTotal | src/Codecaine.Common/Persistence/EfCore/Repository.cs:168-175 | of two different strings, one precedes the other |
| Predicates.AndThen | src/Codecaine.Common/Pagination/ExpressionExtensions.cs:17 | `&&` short-circuits: a false or throwing left side decides, a true one defers to the right |
| Predicates.OrThen | src/Codecaine.Common/Pagination/ExpressionExtensions.cs:28 | `\|\|` short-circuits: a true or throwing left side decides, a false one defers to the right |
| Predicates.CompareValues | src/Codecaine.Common/Pagination/SpecificationBuilder.cs:48-53 | among the modelled property types (`int`, `string` and `Guid`), equality is defined on each, and the ordering operators only on integers |
| Predicates.FreeInVars | src/Codecaine.Common/Persistence/LinqFilterListExtensions.cs:117-141 | the free parameters of an expression are among its parameters |
| Predicates.EvalAgree | src/Codecaine.Common/Persistence/LinqFilterListExtensions.cs:117-141 | evaluation depends only on the free parameters |
| Predicates.ClosedIgnoresEnvironment | src/Codecaine.Common/Persistence/LinqFilterListExtensions.cs:47 | a closed lambda's value depends only on its argument |
| Predicates.RebindFree | src/Codecaine.Common/Persistence/LinqFilterListExtensions.cs:137-140 | after `ReplaceVisitor`, the old parameter no longer occurs free |
| Predicates.RebindVars | src/Codecaine.Common/Persistence/LinqFilterListExtensions.cs:137-140 | rebinding introduces no parameter but the new one |
| Predicates.RebindSound | src/Codecaine.Common/Persistence/LinqFilterListExtensions.cs:137-140 | rebinding to a fresh parameter preserves meaning, with the new parameter bound where the old one was |
| Predicates.RebindLambdaSound | src/Codecaine.Common/Persistence/LinqFilterListExtensions.cs:47 | a rebound lambda body means on `x` what the lambda meant on `x` |
| ExpressionExtensions.LambdaAndAlso | src/Codecaine.Common/Pagination/ExpressionExtensions.cs:12-21 | the result takes the fresh parameter and stays closed |
| ExpressionExtensions.LambdaOrElse | src/Codecaine.Common/Pagination/ExpressionExtensions.cs:23-32 | the result takes the fresh parameter and stays closed |
| ExpressionExtensions.AndAlsoMeaning | src/Codecaine.Common/Pagination/ExpressionExtensions.cs:12-21 | the combined lambda is the short-circuit conjunction of the two |
| ExpressionExtensions.OrElseMeaning | src/Codecaine.Common/Pagination/ExpressionExtensions.cs:23-32 | the combined lambda is the short-circuit disjunction of the two |
| FilterListExtensions.Fold | src/Codecaine.Common/Persistence/LinqFilterListExtensions.cs:95-107 | the folded lambda takes the last filter's parameter |
| FilterListExtensions.Combine | src/Codecaine.Common/Persistence/LinqFilterListExtensions.cs:77-112 | one filter is returned as it is, and more take the last filter's parameter |
| FilterListExtensions.AllOfIsConjunction | src/Codecaine.Common/Persistence/LinqFilterListExtensions.cs:77-112 | the reference conjunction is true exactly when every filter is true, and false exactly when the first non-true one is false |
| FilterListExtensions.AnyOfIsDisjunction | src/Codecaine.Common/Persistence/LinqFilterListExtensions.cs:24-58 | the reference disjunction is false exactly when every filter is false, and true exactly when the first non-false one is true |
| FilterListExtensions.ReduceFromIsReference | src/Codecaine.Common/Persistence/LinqFilterListExtensions.cs:44-53 | the left-nested evaluation equals the reference fold |
| FilterListExtensions.StepMeaning | src/Codecaine.Common/Persistence/LinqFilterListExtensions.cs:47-51 | one rebinding step keeps the result closed and means the connective of the two filters |
| FilterListExtensions.FoldMeaning | src/Codecaine.Common/Persistence/LinqFilterListExtensions.cs:42-55 | the fold of filters with distinct parameter objects evaluates like the left-nested connective |
| FilterListExtensions.CombineMeaning | src/Codecaine.Common/Persistence/LinqFilterListExtensions.cs:24-112 | `CombineAnd`/`CombineOr` of closed filters with distinct parameter objects means their conjunction or disjunction |
| FilterListExtensions.EmptyCombinesToTrue | src/Codecaine.Common/Persistence/LinqFilterListExtensions.cs:28-33 | an empty list combines to `x => true` for both connectives, which is the empty disjunction's opposite |
| FilterListExtensions.CombineNestsLeft | src/Codecaine.Common/Persistence/LinqFilterListExtensions.cs:97-107 | appending a filter adds one step on the outside |
| QueryFilters.Empty | src/Codecaine.Common/Persistence/QueryFilter.cs:20-24 | the default constructor starts with no filters |
| QueryFilters.Single | src/Codecaine.Common/Persistence/QueryFilter.cs:29-33 | the one-filter constructor holds just that filter |
| QueryFilters.Add | src/Codecaine.Common/Persistence/QueryFilter.cs:40-44 | `Add` appends and returns the new filter's index |
| QueryFilters.Insert | src/Codecaine.Common/Persistence/QueryFilter.cs:51-54 | `Insert` places the filter at the index and shifts the rest, and throws exactly for an index outside 0..count |
| QueryFilters.RemoveAt | src/Codecaine.Common/Persistence/QueryFilter.cs:60-63 | `RemoveAt` drops one filter and shifts the rest, and throws exactly for an index outside the list |
| QueryFilters.Replace | src/Codecaine.Common/Persistence/QueryFilter.cs:70-74 | `Replace` changes only the indexed filter, and throws exactly for an index outside the list |
| QueryFilters.RemoveAtUndoesInsert | src/Codecaine.Common/Persistence/QueryFilter.cs:51-63 | removing at the index just inserted restores the list |
| QueryFilters.ReplaceWithSameIsIdentity | src/Codecaine.Common/Persistence/QueryFilter.cs:70-74 | replacing a filter with itself changes nothing |
| QueryFilters.Clear | src/Codecaine.Common/Persistence/QueryFilter.cs:79-82 | `Clear` leaves no filters |
| QueryFilters.CombineMeanings | src/Codecaine.Common/Persistence/QueryFilter.cs:88-109 | `Combine` is `CombineAnd`, accepting exactly what every filter accepts; `CombineOr` is the disjunction; a cleared filter accepts everything |
| QueryFilters.ToStringReportsCount | src/Codecaine.Common/Persistence/QueryFilter.cs:115-118 | the text ends in the bracketed count, which parses back to the number of filters |
| Filters.FromCode | src/Codecaine.Common/Pagination/FilterOperator.cs:9-19 | a number converts to a named operator exactly when it is 0..7 |
| Filters.CodeRoundTrip | src/Codecaine.Common/Pagination/FilterOperator.cs:9-19 | converting an operator to its number and back is the identity, and so is number to operator to number |
| Filters.LookupFindsName | src/Codecaine.Common/Pagination/ParseFilters.cs:21 | text equal to a declared name ignoring case is found at that name |
| Filters.NameParsesIgnoringCase | src/Codecaine.Common/Pagination/ParseFilters.cs:21 | every operator name, in any letter case, parses to that operator |
| Filters.NumberParses | src/Codecaine.Common/Pagination/ParseFilters.cs:21 | the decimal text of any 32-bit value parses to the operator with that number, named or not |
| Filters.UnparseableFallsBackToEquals | src/Codecaine.Common/Pagination/ParseFilters.cs:21 | blank text, or number-like text outside the 32-bit range, is no operator and falls back to `Equals` |
| Filters.NamesDistinctIgnoringCase | src/Codecaine.Common/Pagination/FilterOperator.cs:9-19 | no two operator names are equal ignoring case |
| ParseFilters.ParseOne | src/Codecaine.Common/Pagination/ParseFilters.cs:17-30 | a raw filter yields a criterion exactly when it has at least two `\|`; the criterion has the requested logic, at least one value, and a property without `\|` |
| ParseFilters.ParseFilterCriterion | src/Codecaine.Common/Pagination/ParseFilters.cs:11-34 | never more criteria than raw filters, each with the requested logic |
| ParseFilters.ParseConcat | src/Codecaine.Common/Pagination/ParseFilters.cs:15-31 | parsing distributes over concatenation of the raw lists, keeping order |
| ParseFilters.ParseSingle | src/Codecaine.Common/Pagination/ParseFilters.cs:18 | a raw filter with fewer than two `\|` is skipped, and any other yields one criterion |
| ParseFilters.ParsedShape | src/Codecaine.Common/Pagination/ParseFilters.cs:17-22 | a parsed raw filter spells property, operator text and values around its separators |
| ParseFilters.FormatRoundTrip | src/Codecaine.Common/Pagination/ParseFilters.cs:17-29 | writing a criterion as `property\|Operator\|v1,v2` and parsing it gives the criterion back |
| SpecificationBuilder.Criteria | src/Codecaine.Common/Pagination/Specifications/AndSpecification.cs:17 | the combined criteria of closed specifications are closed |
| SpecificationBuilder.ChangeType | src/Codecaine.Common/Pagination/SpecificationBuilder.cs:43 | among the modelled property types, a converted value has the property's type, strings convert to themselves, and a `Guid` target fails |
| SpecificationBuilder.ChangeTypeReadsInt | src/Codecaine.Common/Pagination/SpecificationBuilder.cs:43 | a 32-bit integer's text, padded with blanks, converts to that integer |
| SpecificationBuilder.ValuePredicate | src/Codecaine.Common/Pagination/SpecificationBuilder.cs:43-63 | one value's comparison is built exactly when the value converts, the operator is named, and an ordering operator meets an integer property |
| SpecificationBuilder.FoldValues | src/Codecaine.Common/Pagination/SpecificationBuilder.cs:41-66 | folding values yields an expression exactly when some value was folded, with only the parameter free |
| SpecificationBuilder.FoldValuesFails | src/Codecaine.Common/Pagination/SpecificationBuilder.cs:41-66 | the fold succeeds exactly when every value's comparison builds, and fails with one of their errors |
| SpecificationBuilder.ToSpecification | src/Codecaine.Common/Pagination/SpecificationBuilder.cs:33-70 | a built specification is a closed `DynamicSpecification` over the fresh parameter |
| SpecificationBuilder.ToSpecificationSucceeds | src/Codecaine.Common/Pagination/SpecificationBuilder.cs:33-70 | building succeeds exactly when the property exists, there is a value, and every value's comparison builds |
| SpecificationBuilder.ToSpecificationErrors | src/Codecaine.Common/Pagination/SpecificationBuilder.cs:36-68 | an unknown property fails with `PropertyNotDefined`, an empty value list with the null-body error, an unnamed operator with `NotImplementedException`, and an unconvertible value fails the whole criterion |
| SpecificationBuilder.ValuePredicateMeaning | src/Codecaine.Common/Pagination/SpecificationBuilder.cs:46-63 | one value's comparison means the operator applied to the entity's property and the value, with `Contains` and `In` on the `ToString` text |
| SpecificationBuilder.FoldValuesMeaning | src/Codecaine.Common/Pagination/SpecificationBuilder.cs:65 | the `OrElse` fold holds exactly when some value holds |
| SpecificationBuilder.CriterionMeaning | src/Codecaine.Common/Pagination/SpecificationBuilder.cs:33-70 | a built criterion accepts an entity exactly when the entity meets it |
| SpecificationBuilder.BuildFrom | src/Codecaine.Common/Pagination/SpecificationBuilder.cs:18-28 | the fold produces a specification exactly when it started with one or had a filter, and keeps it closed |
| SpecificationBuilder.Build | src/Codecaine.Common/Pagination/SpecificationBuilder.cs:14-31 | `Build` returns null exactly for an empty list, and otherwise a closed specification |
| SpecificationBuilder.BuildMeaning | src/Codecaine.Common/Pagination/SpecificationBuilder.cs:14-31 | the built specification accepts an entity by the left-nested And/Or of the criteria, each joined by its own logic |
| SpecificationBuilder.BuildEmpty | src/Codecaine.Common/Pagination/SpecificationBuilder.cs:14-30 | no filters build no specification |
| SpecificationBuilder.FirstLogicIgnored | src/Codecaine.Common/Pagination/SpecificationBuilder.cs:22-23 | the first criterion's logic never matters |
| SpecificationBuilder.BuildNestsLeft | src/Codecaine.Common/Pagination/SpecificationBuilder.cs:22-26 | appending a criterion wraps the whole previous specification |
| Sorting.BeforeStrictTotal | src/Codecaine.Common/Persistence/EfCore/Repository.cs:170-174 | the sort order, ascending or descending, is a strict total order on keys |
| Sorting.SortBy | src/Codecaine.Common/AiServices/Ollama/OllamaLargeLanguageModelService.cs:30 | `OrderBy` returns a permutation of its input |
| Sorting.SortBySorted | src/Codecaine.Common/AiServices/Ollama/OllamaLargeLanguageModelService.cs:30 | the output of `OrderBy` is ordered by the key |
| Sorting.SortByStable | src/Codecaine.Common/AiServices/Ollama/OllamaLargeLanguageModelService.cs:30 | `OrderBy` is stable: elements with equal keys keep their input order |
| Sorting.SortBySortedIsIdentity | src/Codecaine.Common/AiServices/Ollama/OllamaLargeLanguageModelService.cs:30 | sorting an already-ordered sequence changes nothing |
| Sorting.InsertSortedKeepsSorted | src/Codecaine.Common/AiServices/Ollama/OllamaLargeLanguageModelService.cs:30 | inserting into an ordered sequence keeps it ordered |
| Specifications.New | src/Codecaine.Common/Persistence/Specification.cs:16-52 | a new specification sets only its predicate |
| Specifications.ApplyPaging | src/Codecaine.Common/Persistence/Specification.cs:68-72 | sets page number and size and nothing else |
| Specifications.ApplyDistinct | src/Codecaine.Common/Persistence/Specification.cs:82 | sets the distinct flag and nothing else |
| Specifications.ApplyOrderByExpression | src/Codecaine.Common/Persistence/Specification.cs:88-89 | sets the ascending expression and nothing else |
| Specifications.ApplyOrderByDescendingExpression | src/Codecaine.Common/Persistence/Specification.cs:109-110 | sets the descending expression and nothing else |
| Specifications.ApplyOrderBy | src/Codecaine.Common/Persistence/Specification.cs:95-96 | sets the ascending property name and nothing else |
| Specifications.ApplyOrderByDescending | src/Codecaine.Common/Persistence/Specification.cs:102-103 | sets the descending property name and nothing else |
| Specifications.AddInclude | src/Codecaine.Common/Persistence/Specification.cs:58-61 | appends one include and changes nothing else |
| Specifications.OrderNamesIndependent | src/Codecaine.Common/Persistence/Specification.cs:95-103 | setting the two order names commutes |
| Specifications.IncludesInCallOrder | src/Codecaine.Common/Persistence/Specification.cs:58-61 | includes are kept in call order |
| Specifications.IsSatisfiedBy | src/Codecaine.Common/Persistence/Specification.cs:117 | `IsSatisfiedBy` runs the same predicate the implicit conversion hands to queries |
| Specifications.WritersKeepPredicate | src/Codecaine.Common/Persistence/Specification.cs:58-110 | no writer changes which entities the specification accepts |
| Repositories.Filter | src/Codecaine.Common/Persistence/EfCore/Repository.cs:155 | an entity is kept exactly when it is stored and the specification accepts it |
| Repositories.FilterCount | src/Codecaine.Common/Persistence/EfCore/Repository.cs:155-157 | the number of filtered rows is the number of stored rows that match |
| Repositories.FilterAllMatch | src/Codecaine.Common/Persistence/EfCore/Repository.cs:155 | filtering rows that all match changes nothing |
| Repositories.OrderByName | src/Codecaine.Common/Persistence/EfCore/Repository.cs:168-175 | ordering by a name sorts by the case-insensitively found property, and fails exactly when there is none |
| Repositories.Order | src/Codecaine.Common/Persistence/EfCore/Repository.cs:163-175 | whichever ordering is in force, the ordered rows are a permutation of the filtered rows |
| Repositories.Page | src/Codecaine.Common/Persistence/EfCore/Repository.cs:177-186 | the page holds only ordered rows, and at most `PageSize` of them when a size is set |
| Repositories.ApplySpecification | src/Codecaine.Common/Persistence/EfCore/Repository.cs:150-189 | every returned item is a stored entity the specification accepts, and there are at most `PageSize` of them |
| Repositories.ApplySpecificationCount | src/Codecaine.Common/Persistence/EfCore/Repository.cs:157 | the total count is the number of matches, taken before ordering and paging |
| Repositories.ApplySpecificationFails | src/Codecaine.Common/Persistence/EfCore/Repository.cs:168-175 | the query fails exactly when the order name in force names no property, with the no-such-property exception; without order names it never fails |
| Repositories.ApplySpecificationPlain | src/Codecaine.Common/Persistence/EfCore/Repository.cs:150-189 | without paging or order names, every match is returned in store order |
| Repositories.ApplySpecificationDefaultOrder | src/Codecaine.Common/Persistence/EfCore/Repository.cs:163-166 | paging without order names orders the page by `Id` |
| Repositories.ApplySpecificationPageNumberOnly | src/Codecaine.Common/Persistence/EfCore/Repository.cs:177-181 | a page number without a size skips one row per page and cuts nothing off |
| Repositories.OrderByStringWins | src/Codecaine.Common/Persistence/EfCore/Repository.cs:168-175 | a set ascending name makes the descending one irrelevant |
| Repositories.ApplySpecificationOrdered | src/Codecaine.Common/Persistence/EfCore/Repository.cs:168-186 | with an order name in force, the returned page is sorted by that property |
| Repositories.UnusedFieldsIgnored | src/Codecaine.Common/Persistence/EfCore/Repository.cs:150-189 | the expression orderings, the distinct flag and the includes never change the result |
| Repositories.OnlyQueryFieldsRead | src/Codecaine.Common/Persistence/MongoDB/MongoRepository.cs:107-138 | two specifications that agree on predicate, paging and order names give the same query |
| Repositories.GetPagedBySpecification | src/Codecaine.Common/Persistence/EfCore/Repository.cs:140-148 | the paged call returns matching items and the number of matches before paging |
| Repositories.EfWhere | src/Codecaine.Common/Persistence/EfCore/Repository.cs:93-97 | the Entity Framework `Where` returns the fully applied specification |
| Repositories.MongoWhere | src/Codecaine.Common/Persistence/MongoDB/MongoRepository.cs:62-65 | the Mongo `Where` returns every match, unordered and unpaged |
| Repositories.WhereDifference | src/Codecaine.Common/Persistence/MongoDB/MongoRepository.cs:62-65 | the two `Where` methods agree exactly when the specification sets no paging and no order names |
| Repositories.SortByProperty | src/Codecaine.Common/Persistence/EfCore/Repository.cs:120-132 | sorting by `sortBy` finds the property ignoring case, or throws |
| Repositories.GetPagedAsync | src/Codecaine.Common/Persistence/EfCore/Repository.cs:109-138 | the page holds at most `pageSize` items |
| Repositories.GetPagedAsyncSound | src/Codecaine.Common/Persistence/EfCore/Repository.cs:109-138 | fails exactly when `sortBy` names no property; the count is every match, or the whole store without a specification; the items are the contiguous slice from `(page-1)*pageSize`, sorted by `sortBy` when given |
| Repositories.GetQueryable | src/Codecaine.Common/Persistence/EfCore/Repository.cs:45-50 | returns only stored entities |
| Repositories.GetQueryableMatchesAll | src/Codecaine.Common/Persistence/EfCore/Repository.cs:45-50 | an entity is returned exactly when every filter accepts it, and a cleared filter returns the whole store |
| Repositories.MongoGetBydIdAsync | src/Codecaine.Common/Persistence/MongoDB/MongoRepository.cs:32-35 | delegates to the context lookup, which finds a document with the id exactly when one is stored, soft-deleted or not, with no special case for the empty id |
| Repositories.Remove | src/Codecaine.Common/Persistence/EfCore/Repository.cs:68 | removing marks the entity's tracked entry Deleted, attaching it first when its key is not tracked, or lets go of an entry that was only Added, after which the key is no longer tracked; no other entry changes, and the identity map stays free of duplicate keys |
| Repositories.EfDelete | src/Codecaine.Common/Persistence/EfCore/Repository.cs:26-31 | deleting an unknown or empty id throws from `Maybe.Value`; a known id leaves the entity's entry marked for deletion, or untracked when it was added in this unit of work, and no other key's entry changes |
| Repositories.EfDeleteKeepsSoftDeletableRow | src/Codecaine.Common/Persistence/EfCore/Repository.cs:26-31 | after a delete of a soft-deletable entity and a successful save, the entity's row is still stored and the lookup by id still finds it |
| Repositories.EfDeleteThenSave | src/Codecaine.Common/Persistence/EfCore/Repository.cs:26-31 | a delete followed by the save, with no other removal in the unit of work: a soft-deletable auditable entity is kept with `Deleted = true` and the save's time, one without `ModifiedBy` makes the save throw, any other entity loses exactly its row, and a just-added one is let go of while every row stays |
| Repositories.AddedThenRemovedPublishesNothing | src/Codecaine.Common/Persistence/EfCore/Repository.cs:68 | removing an entity added in the same unit of work drops its pending domain events: the save publishes exactly the events of the rest of the tracker |
| Repositories.AddedAggregateRemovedPublishesNothing | src/Codecaine.Common/Persistence/EfCore/Repository.cs:68 | an aggregate inserted and removed in one unit of work saves with nothing published and nothing written |
| Repositories.MongoDeleteSound | src/Codecaine.Common/Persistence/MongoDB/MongoRepository.cs:23-30 | an unknown id leaves the collection unchanged; a known id of a soft-deletable type keeps the document, marked deleted and still findable, and changes no other; of any other type it deletes that document and keeps the rest in order; an empty id is found where the Entity Framework `Delete` throws |
| MongoContexts.GetBydIdAsync | src/Codecaine.Common/Persistence/MongoDB/Interfaces/IMongoDbContext.cs:19-20 | `Find(x => x.Id == id).FirstOrDefaultAsync()` (context lines 36-40): a value exactly when some document has the id, and then a stored document with that id; deleted documents are not filtered |
| MongoContexts.SetAuditProperties | src/Codecaine.Common/Persistence/MongoDB/MongoRepository.cs:39-42 | the context's stamping (lines 153-171): an auditable entity always gets `ModifiedOnUtc`/`ModifiedBy`, and `CreatedOnUtc`/`CreatedBy` only while `CreatedOnUtc` is the default; other types are untouched |
| MongoContexts.MarkAsDeleted | src/Codecaine.Common/Persistence/MongoDB/MongoRepository.cs:44-47 | the context's `IsMarkAsDeleted` (lines 174-185): true exactly for a soft-deletable type, which gets `Deleted` and `DeletedOnUtc`; nothing else changes |
| MongoContexts.ReplaceOne | src/Codecaine.Common/Persistence/MongoDB/MongoRepository.cs:49-52 | the first document with the id is replaced and the others kept; an unknown id changes nothing |
| MongoContexts.DeleteOne | src/Codecaine.Common/Persistence/MongoDB/MongoRepository.cs:44-47 | the first document with the id is deleted and the rest kept in order; an unknown id changes nothing |
| MongoContexts.Insert | src/Codecaine.Common/Persistence/MongoDB/MongoRepository.cs:39-42 | the context's `Insert` (lines 52-65): the stamped entity is appended and the existing documents are kept |
| MongoContexts.InsertRange | src/Codecaine.Common/Persistence/MongoDB/Interfaces/IMongoDbContext.cs:35-36 | the context's `InsertRange` (lines 67-73): each entity is inserted in order, the `k`-th stamped with the `k`-th clock reading |
| MongoContexts.InsertThenFind | src/Codecaine.Common/Persistence/MongoDB/MongoRepository.cs:39-42 | an inserted entity with a new id is found again by that id, as stamped, and ids stay unique |
| MongoContexts.UpdateSound | src/Codecaine.Common/Persistence/MongoDB/MongoRepository.cs:49-52 | the context's `Update` (lines 101-114) writes the stamped entity over the first document with its id and changes no other; an unknown id changes nothing |
| MongoContexts.ReplaceOneKeepsIds | src/Codecaine.Common/Persistence/MongoDB/MongoRepository.cs:49-52 | replacing keeps every document's id |
| MongoContexts.DeleteOneKeepsUnique | src/Codecaine.Common/Persistence/MongoDB/MongoRepository.cs:44-47 | deleting keeps ids unique and, with unique ids, leaves no document with the deleted id |
| MongoContexts.RemoveSoftDeletable | src/Codecaine.Common/Persistence/MongoDB/MongoRepository.cs:44-47 | the context's `Remove` (lines 75-83) of a soft-deletable entity keeps the document, marked deleted at the first clock reading and stamped as modified at the second for an auditable type, changes no other document, and the id still finds it |
| MongoContexts.RemoveHard | src/Codecaine.Common/Persistence/MongoDB/MongoRepository.cs:44-47 | the context's `Remove` (lines 85-93) of any other entity deletes its document and keeps the rest in order; with unique ids the id then finds nothing |
| MongoContexts.RemoveUnknown | src/Codecaine.Common/Persistence/MongoDB/MongoRepository.cs:44-47 | removing an entity whose id is not stored changes nothing |
| AppDbContexts.FirstWithId | src/Codecaine.Common/Persistence/EfCore/AppDbContext.cs:53 | finds an entity with the id, and fails exactly when none has it |
| AppDbContexts.GetBydIdAsync | src/Codecaine.Common/Persistence/EfCore/AppDbContext.cs:47-54 | the empty id yields `None`, and any other id yields `None` exactly when no entity has it |
| AppDbContexts.UpdateAuditableEntities | src/Codecaine.Common/Persistence/EfCore/AppDbContext.cs:106-122 | the audit pass treats each entry on its own and keeps the tracker's length |
| AppDbContexts.AuditStamps | src/Codecaine.Common/Persistence/EfCore/AppDbContext.cs:108-121 | added auditable entries get creation stamps, modified ones get modification stamps, and nothing else changes |
| AppDbContexts.Undelete | src/Codecaine.Common/Persistence/EfCore/AppDbContext.cs:153-172 | the recursive pass only turns Deleted entries into Unchanged, leaves no listed reference Deleted, and every entry it undoes references no Deleted entry |
| AppDbContexts.UpdateSoftDeletableEntitiesSound | src/Codecaine.Common/Persistence/EfCore/AppDbContext.cs:128-146 | after the pass no soft-deletable entry is Deleted, every entry is unchanged, undeleted or stamped, and it fails only on an entry with no `ModifiedBy` column |
| AppDbContexts.SoftDeleteFromSound | src/Codecaine.Common/Persistence/EfCore/AppDbContext.cs:130-145 | the loop invariant of the soft-delete pass is kept to the end |
| AppDbContexts.CollectEvents | src/Codecaine.Common/Persistence/EfCore/AppDbContext.cs:180-185 | the collected events are exactly the pending events of the aggregate roots the change tracker lists |
| AppDbContexts.CollectEventsSkipsUntracked | src/Codecaine.Common/Persistence/EfCore/AppDbContext.cs:180-183 | an entry the context no longer tracks contributes no events: the collection is that of the tracker without it |
| AppDbContexts.PublishDomainEvents | src/Codecaine.Common/Persistence/EfCore/AppDbContext.cs:178-192 | publishing clears the events of every tracked aggregate, leaves an entry the context no longer tracks as it was, and changes nothing else |
| AppDbContexts.PublishDomainEventsComplete | src/Codecaine.Common/Persistence/EfCore/AppDbContext.cs:178-192 | every pending event of a tracked aggregate root is published, nothing else is (in particular nothing of an entry the context let go of), and a second publication finds nothing |
| AppDbContexts.CountPending | src/Codecaine.Common/Persistence/EfCore/AppDbContext.cs:85 | the written count is at most the entries, and zero exactly when nothing is pending |
| AppDbContexts.SaveChangesAsyncSound | src/Codecaine.Common/Persistence/EfCore/AppDbContext.cs:77-86 | a save publishes exactly the events pending in tracked aggregates before it, passes over untracked entries unchanged, leaves no soft-deletable entry Deleted, and fails only on an entry that has no `ModifiedBy` column |
| AppDbContexts.SaveWithoutDeletion | src/Codecaine.Common/Persistence/EfCore/AppDbContext.cs:77-86 | a save with nothing marked for deletion succeeds and keeps every stored row |
| AppDbContexts.TrackedAt | src/Codecaine.Common/Persistence/EfCore/AppDbContext.cs:53 | finds a tracked entry with the key, and fails exactly when no tracked entry has it; an entry the context let go of is skipped |
| AppDbContexts.Track | src/Codecaine.Common/Persistence/EfCore/AppDbContext.cs:53 | a tracking query answers with the entry still tracking the key, or appends one Unchanged entry for it, keeping tracked keys unique |
| AppDbContexts.Remove | src/Codecaine.Common/Persistence/EfCore/AppDbContext.cs:67-69 | `Set<TEntity>().Remove` changes only the entry's state: Deleted, or Detached when it was only Added |
| AppDbContexts.Persist | src/Codecaine.Common/Persistence/EfCore/AppDbContext.cs:85 | a stored row survives the save exactly when no entry tracking its key is still Deleted |
| AppDbContexts.SaveKeepsSoftDeletableRows | src/Codecaine.Common/Persistence/EfCore/AppDbContext.cs:128-146 | a successful save keeps every entry's key and kind and deletes no row of a soft-deletable entity |
| AppDbContexts.SaveSingleDeletion | src/Codecaine.Common/Persistence/EfCore/AppDbContext.cs:77-146 | with one entry marked Deleted, a save writes a soft-deletable auditable entity back as Modified with `Deleted = true`, `DeletedOnUtc` and `ModifiedBy` set and every row kept; throws when it has no `ModifiedBy`; and otherwise deletes exactly that entity's rows |
| AppDbContexts.SoftDeletedKeepsModifiedOn | src/Codecaine.Common/Persistence/EfCore/AppDbContext.cs:79-82 | an entity soft-deleted by a save keeps its old `ModifiedOnUtc`, because the audit pass runs first |
| PromptWindows.NewMessage | src/Codecaine.Common/AiServices/Model/PromptMessage.cs:16-21 | the message keeps role and content and is stamped with the clock reading |
| PromptWindows.DefaultMessage | src/Codecaine.Common/AiServices/Model/PromptMessage.cs:11-15 | the parameterless message has role "user" and empty content |
| PromptWindows.Chronological | src/Codecaine.Common/AiServices/Ollama/OllamaLargeLanguageModelService.cs:30 | the messages are reordered by time stamp, as a permutation |
| PromptWindows.SelectMessages | src/Codecaine.Common/AiServices/Ollama/OllamaLargeLanguageModelService.cs:30-35 | the window has `min(max(limit,0), count)` messages and is a prefix of the time order |
| PromptWindows.SelectMessagesSound | src/Codecaine.Common/AiServices/OpenAi/OpenAiLargeLanguageModelService.cs:25-30 | the window is time-ordered, holds only given messages, is every message within the limit, and over it is the oldest ones |
| PromptWindows.ToRequestMessages | src/Codecaine.Common/AiServices/Ollama/OllamaLargeLanguageModelService.cs:39-43 | each message becomes an entry with its lower-cased role and its content, in order |
| PromptWindows.OllamaChatRequest | src/Codecaine.Common/AiServices/Ollama/OllamaLargeLanguageModelService.cs:36-45 | the Ollama request names the model, never streams, and carries the window |
| PromptWindows.OpenAiChatRequest | src/Codecaine.Common/AiServices/OpenAi/OpenAiLargeLanguageModelService.cs:31-39 | the OpenAI request names the model and carries the window |
| PromptWindows.ServicesAgree | src/Codecaine.Common/AiServices/OpenAi/OpenAiLargeLanguageModelService.cs:25-38 | both services send the same messages |
| PromptWindows.EqualTimesKeepOrder | src/Codecaine.Common/AiServices/Ollama/OllamaLargeLanguageModelService.cs:30 | messages with equal time stamps keep their given order |
| PromptWindows.NewestMessageDropped | src/Codecaine.Common/AiServices/Ollama/OllamaLargeLanguageModelService.cs:32-35 | as written, two messages with a limit of one send the older and drop the newer |
| PromptWindows.SelectLatestMessages | src/Codecaine.Common/AiServices/Ollama/OllamaLargeLanguageModelService.cs:32-35 | the corrected window has the same size as the original |
| PromptWindows.SelectLatestKeepsNewest | src/Codecaine.Common/AiServices/Ollama/OllamaLargeLanguageModelService.cs:32-35 | the corrected window is the time-ordered tail and ends with a newest message |
| AuthenticationServices.WrapAdminTokenException | src/Codecaine.Common/Authentication/Providers/KeyCloak/AuthenticationService.cs:89-101 | a timeout rejection and any other exception become a `CommonLibraryException`, each with its own code and a message that ends with the inner one |
| AuthenticationServices.FetchAdminToken | src/Codecaine.Common/Authentication/Providers/KeyCloak/AuthenticationService.cs:44-55 | a fetch asks the provider exactly once, first, and afterwards only writes the cache |
| AuthenticationServices.GetAdminAccessToken | src/Codecaine.Common/Authentication/Providers/KeyCloak/AuthenticationService.cs:37-102 | failures are always `InvalidAdminToken`, exceptions are always `CommonLibraryException`, and the provider is asked exactly when the entry is missing or expired |
| AuthenticationServices.FreshEntryServed | src/Codecaine.Common/Authentication/Providers/KeyCloak/AuthenticationService.cs:58-70 | an unexpired entry is served as it is, without a provider call or a cache change |
| AuthenticationServices.MissAsksProviderOnce | src/Codecaine.Common/Authentication/Providers/KeyCloak/AuthenticationService.cs:42-48 | a miss asks the provider once, and a refusal returns `InvalidAdminToken` with the cache untouched |
| AuthenticationServices.AnswerStoredBeforeRead | src/Codecaine.Common/Authentication/Providers/KeyCloak/AuthenticationService.cs:49-54 | the provider's raw answer is cached before it is read, even when it reads as null |
| AuthenticationServices.NullEntryIsNotAMiss | src/Codecaine.Common/Authentication/Providers/KeyCloak/AuthenticationService.cs:58-64 | a cached entry that reads as null fails without asking the provider |
| AuthenticationServices.ExpiredEntryRefetched | src/Codecaine.Common/Authentication/Providers/KeyCloak/AuthenticationService.cs:66-87 | an expired entry is refetched once; a refusal keeps the stale entry, and a good answer replaces it and is returned |
| AuthenticationServices.ExceptionsRethrownWrapped | src/Codecaine.Common/Authentication/Providers/KeyCloak/AuthenticationService.cs:89-101 | provider exceptions and unreadable JSON come out wrapped, never as a failed result |
| AuthenticationServices.AdminTokenMatchesCache | src/Codecaine.Common/Authentication/Providers/KeyCloak/AuthenticationService.cs:37-88 | the cache changes only in the admin slot, to the provider's answer, and a returned token is the one the cache holds |
| AuthenticationServices.TokenReusedWhileValid | src/Codecaine.Common/Authentication/Providers/KeyCloak/AuthenticationService.cs:58-70 | a token fetched once is served again from the cache, with no provider call, until it expires |
| AuthenticationServices.Int32Parse | src/Codecaine.Common/Authentication/Providers/KeyCloak/AuthenticationService.cs:156-157 | a null text throws `ArgumentNullException`, and a parsed value is what `ChangeType` reads |
| AuthenticationServices.BaseLogin | src/Codecaine.Common/Authentication/Providers/KeyCloak/AuthenticationService.cs:120-170 | a login makes one request, publishes at most one event, leaves the cache alone, and fails only with `InvalidUserNameOrPassword` or `SubIdNotExist` |
| AuthenticationServices.OneLoginRequest | src/Codecaine.Common/Authentication/Providers/KeyCloak/AuthenticationService.cs:124-146 | a password login happens exactly when the refresh token is null or empty, and exactly one login request is made |
| AuthenticationServices.OneEventPerReturn | src/Codecaine.Common/Authentication/Providers/KeyCloak/AuthenticationService.cs:130-168 | a returning login publishes exactly one event whose success flag matches the result, and a throwing one publishes none |
| AuthenticationServices.ReadLoginMeaning | src/Codecaine.Common/Authentication/Providers/KeyCloak/AuthenticationService.cs:156-167 | the token response is read exactly when both lifetimes parse; each expiry is its own `DateTime.UtcNow` reading plus those seconds, and the user id comes from the access token |
| AuthenticationServices.LoginSucceedsExactly | src/Codecaine.Common/Authentication/Providers/KeyCloak/AuthenticationService.cs:120-170 | a login succeeds with `t` exactly when the provider answers, the answer parses and reads as `t`, and its subject is not empty |
| AuthenticationServices.EmptySubjectRejected | src/Codecaine.Common/Authentication/Providers/KeyCloak/AuthenticationService.cs:161-166 | an access token with the empty subject fails with `SubIdNotExist` |
| AuthenticationServices.Login | src/Codecaine.Common/Authentication/Providers/KeyCloak/AuthenticationService.cs:172-175 | `Login` is a password login |
| AuthenticationServices.LoginFromRefreshToken | src/Codecaine.Common/Authentication/Providers/KeyCloak/AuthenticationService.cs:177-180 | a non-empty refresh token makes a refresh login |
| AuthenticationServices.EmptyRefreshTokenUsesPassword | src/Codecaine.Common/Authentication/Providers/KeyCloak/AuthenticationService.cs:177-180 | a refresh-token login with an empty or null token takes the password branch with empty credentials, the same as `Login("", "")` |
| AuthenticationServices.CreateUser | src/Codecaine.Common/Authentication/Providers/KeyCloak/AuthenticationService.cs:182-205 | user creation checks the name first and fails only with the four listed errors |
| AuthenticationServices.TakenUserNameStopsEarly | src/Codecaine.Common/Authentication/Providers/KeyCloak/AuthenticationService.cs:185-189 | a taken name fails with `UserNameAlreadyExist` after the check alone |
| AuthenticationServices.FailedCheckContinues | src/Codecaine.Common/Authentication/Providers/KeyCloak/AuthenticationService.cs:185-190 | a failed name check does not stop creation: with no cached admin token, the next step asks for one |
| AuthenticationServices.CreationNeedsAdminToken | src/Codecaine.Common/Authentication/Providers/KeyCloak/AuthenticationService.cs:190-204 | without an admin token no user is requested; with one the user is requested, and success logs in while failure is `InvalidUserNameOrPassword` |

## Left out

- I/O is outside the model: HTTP, the database, MongoDB, Redis, Keycloak, the mediator and the logger. Each is a parameter or an effect in a trace.
- Concurrency is outside the model: `Task.WhenAll` over the event publications is modelled as publication in tracker order.
- The clock (`DateTime.UtcNow`) and `Guid.NewGuid` are parameters, and a `DateTime` is its tick count.
- Integer arithmetic is unbounded. The paging products, `(page - 1) * pageSize` and `AddSeconds` are not wrapped or range-checked as `int`/`DateTime` would be.
- PersistencePaging.GetPaged: requires `pageSize > 0`. The source divides as `double` and rounds up with `Math.Ceiling`; a zero or negative size (infinity or NaN cast to `int`) is not modelled.
- PaginationPaging.GetPaged: requires `pageSize > 0`, for the same reason as the other `GetPaged`.
- Providers reject a negative `Skip` or `Take` count; the model clamps it to zero, as LINQ to Objects does.
- Dynamic LINQ order strings are modelled only as a single property name, looked up ignoring case; expressions, several keys and `asc`/`desc` words inside the string are not.
- Database ordering of equal keys is modelled as a stable sort, and string keys use ordinal comparison, not a collation or culture.
- A predicate that throws while the database evaluates it is modelled as not matching the row.
- `ToLower` and case-insensitive comparison fold ASCII letters only.
- A `Guid` is rendered by its number, not in the 8-4-4-4-12 hexadecimal form.
- The hash seed and the mixing step of `GetHashCode` are parameters.
- Exceptions.ValidationFromFailures: the failure-list constructor's `Distinct()` is not applied, so duplicate errors are kept.
- Exceptions.JsonCarriesMessage: `ToJsonString` renders only the `Type` and `Message` members; the `Source`, `TargetSite`, `StackTrace` and `InnerException` members that follow them are left out, so the rendering is the source's up to the message value.
- Exceptions.RenderCarries: the indented writer's line break is `Environment.NewLine`; the model uses `"\n"`, as on Linux, not Windows' `"\r\n"`.
- Exceptions.WrappedKeepsMessage: the inner message is promised only in its JSON-escaped form; it appears verbatim only when none of its characters needs escaping, as `Exceptions.WrappedArgumentMessageEscaped` shows.
- The `ex == null` branch of `ToJsonString` is not modelled: every caller passes a caught exception.
- The `PeribahasaCreatedDomainEvent` carries the proverb's id, not the entity.
- `base.SaveChangesAsync` is modelled as the count of pending entries and, through `AppDbContexts.Persist`, the rows it deletes; the inserted rows and written column values are not carried over to the store.
- Entity Framework's own checks on `Remove` are not modelled: removing an instance whose key the context already tracks through another instance throws there, while the model removes the tracked entry. Cascade deletes configured in the model are not followed either.
- MongoDB's `StartSessionAsync`, `StartTransactionAsync` and `CommitAsync`, with its domain-event publishing, are not modelled; a session's writes are shown as applied to the collection.
- MongoContexts.Insert: always appends. Whether the server rejects a second document with the same id depends on how `Entity.Id` is mapped, and `Entity` is not part of this model.
- MongoContexts.GetBydIdAsync: `ReplaceOne`, `DeleteOne` and `Find` reach the first matching document in natural order; a server may pick another when several documents share an id.
- `Includes` and eager loading are not modelled; the include list is only recorded.
- `Repository.Delete` is `async void`; its exception is modelled as the returned failure, not as an unobserved crash.
- FilterListExtensions.CombineMeaning requires the filters to use distinct parameter objects; lambdas that share one parameter object are not covered.
- Entities.Kind: property types are limited to `int`, `string` and `Guid`. The proverb entity also has `DateTime CreatedOnUtc`, `DateTime?` `ModifiedOnUtc` and `DeletedOnUtc`, `Guid?` `CreatedBy` and `ModifiedBy`, and `bool Deleted`. Filtering on those is not modelled. There, `Convert.ChangeType` parses `bool` and `DateTime` text, and always throws `InvalidCastException` for a nullable property type. `Expression.GreaterThan` and its kin are defined on `DateTime`. So what `Predicates.CompareValues` and `SpecificationBuilder.ChangeType` state holds only for the three modelled types. Comparison operators on `Guid`, which newer runtimes define, are not modelled either.
- Entities.FindPropertyUnique: a type with two properties whose names differ only in case (an `AmbiguousMatchException`) is excluded by the schema's well-formedness.
- The Entity Framework repository's `Insert` and `Update`, and both repositories' `AnyAsync` and `FirstOrDefaultAsync`, hand the call straight to the store and are not modelled.
- `GetIdByUserName`, `ResetPassword` and `GetRoleIdByNameAsync` pass straight through to the provider and are not modelled.
- Newtonsoft's `DeserializeObject<TokenResponse>` and `JObject.Parse` are abstract functions in the environment.
- The `content == null` branch of `BaseLogin` cannot be reached after `JObject.Parse`, which throws instead of returning null; it is not modelled.
- Cache service, mediator and JWT service exceptions are not modelled.
- `OnModelCreating`, `BeginTransactionAsync`, dependency injection and configuration are outside the model.

## Findings

| source | as written | input that shows it | evidently intended | confidence | as-written member | corrected member |
|---|---|---|---|---|---|---|
| src/Codecaine.Common/Pagination/PagedResult.cs:47-50 | `LastRowOnPage` clamps `CurrentPage * PageSize` by `RowCount`, the number of items on the page | 25 rows in total, page 2 of size 10: `FirstRowOnPage` is 11 and `LastRowOnPage` is 10 | clamp by `TotalCount`, so that the range numbers the page's rows | not executed | PaginationPaging.LastRowBeforeFirstRow | PaginationPaging.RowsOfTotalMatchPage |
| src/Codecaine.Common/AiServices/Ollama/OllamaLargeLanguageModelService.cs:30-35 (same in OpenAi/OpenAiLargeLanguageModelService.cs:25-30) | the messages are sorted oldest first and `Take(maxMessage)` keeps the oldest | two messages stamped 1 and 2 with a limit of 1: only the older one is sent | keep the newest `maxMessage` messages, in time order | not executed | PromptWindows.NewestMessageDropped | PromptWindows.SelectLatestKeepsNewest |

=== FILE: app_db_context.dfy ===
/**
  `AppDbContext`: the lookup by id and the work `SaveChangesAsync` does
  before handing over to Entity Framework. The change tracker is a sequence
  of entries; an entry's references are the positions of the entries its
  reference navigations point to (a position outside the tracker is a
  navigation with no tracked target).
 */
module AppDbContexts {
  import opened Wrappers
  import opened Primitives
  import opened Entities
  import opened Exceptions
  import opened Maybes
  import opened Peribahasas

  // ---------------------------------------------------------------------
  // GetBydIdAsync
  // ---------------------------------------------------------------------

  /** `FirstOrDefault(e => e.Id == id)` over the stored entities. */
  function FirstWithId(store: seq<Entity>, id: Guid): (r: Option<Entity>)
    ensures r.Some? ==> r.value in store && r.value.id == id
    ensures r.None? <==> forall i :: 0 <= i < |store| ==> store[i].id != id
  {
    if |store| == 0 then None
    else if store[0].id == id then Some(store[0])
    else FirstWithId(store[1..], id)
  }

  /** `GetBydIdAsync(id)`: the empty id is answered with `None` without a
      query. */
  function GetBydIdAsync(store: seq<Entity>, id: Guid): (m: Maybe<Entity>)
    ensures id == EmptyGuid ==> HasNoValue(m)
    ensures id != EmptyGuid ==> (HasNoValue(m) <==> forall i :: 0 <= i < |store| ==> store[i].id != id)
    ensures HasValue(m) ==> m.stored.value in store && m.stored.value.id == id
  {
    if id == EmptyGuid then NoneOf(None) else From(FirstWithId(store, id))
  }

  // ---------------------------------------------------------------------
  // The change tracker
  // ---------------------------------------------------------------------

  datatype EntityState = Detached | Unchanged | Deleted | Modified | Added

  /** One tracked entry. `id` is the tracked entity's key. `auditable`,
      `softDeletable` and `aggregate` say which
      of `IAuditableEntity`, `ISoftDeletableEntity` and `AggregateRoot` the
      entity is; the audit and soft-delete columns are only meaningful when
      the matching flag is set. `events` are an aggregate's pending domain
      events. */
  datatype Entry = Entry(
    id: Guid,
    state: EntityState,
    auditable: bool,
    softDeletable: bool,
    aggregate: bool,
    createdOnUtc: DateTime,
    createdBy: Option<Guid>,
    modifiedOnUtc: Option<DateTime>,
    modifiedBy: Option<Guid>,
    deletedOnUtc: Option<DateTime>,
    deleted: bool,
    references: seq<nat>,
    events: seq<DomainEvent>)

  type Tracker = seq<Entry>

  /** An entry the context still tracks. A Detached entry is one it has let
      go of, such as an entity removed in the unit of work that added it:
      `ChangeTracker.Entries()` no longer lists it and the identity map no
      longer resolves its key, so every pass and lookup below skips it. */
  predicate Tracked(e: Entry) {
    e.state != Detached
  }

  // ---------------------------------------------------------------------
  // UpdateAuditableEntities
  // ---------------------------------------------------------------------

  function Audit(e: Entry, saveBy: Guid, now: DateTime): Entry {
    if !e.auditable then e
    else if e.state == Added then e.(createdOnUtc := now, createdBy := Some(saveBy))
    else if e.state == Modified then e.(modifiedOnUtc := Some(now), modifiedBy := Some(saveBy))
    else e
  }

  /** `UpdateAuditableEntities(saveBy, utcNow)`. */
  function UpdateAuditableEntities(t: Tracker, saveBy: Guid, now: DateTime): (r: Tracker)
    ensures |r| == |t|
    ensures forall i :: 0 <= i < |t| ==> r[i] == Audit(t[i], saveBy, now)
  {
    if |t| == 0 then [] else [Audit(t[0], saveBy, now)] + UpdateAuditableEntities(t[1..], saveBy, now)
  }

  /** Added entries get the creation stamp, modified ones the modification
      stamp; every other entry, and every state, is left alone. */
  lemma AuditStamps(t: Tracker, saveBy: Guid, now: DateTime, i: nat)
    requires i < |t|
    ensures var r := UpdateAuditableEntities(t, saveBy, now);
            && r[i].state == t[i].state
            && (t[i].auditable && t[i].state == Added ==>
                  r[i].createdOnUtc == now && r[i].createdBy == Some(saveBy)
                  && r[i].(createdOnUtc := t[i].createdOnUtc, createdBy := t[i].createdBy) == t[i])
            && (t[i].auditable && t[i].state == Modified ==>
                  r[i].modifiedOnUtc == Some(now) && r[i].modifiedBy == Some(saveBy)
                  && r[i].(modifiedOnUtc := t[i].modifiedOnUtc, modifiedBy := t[i].modifiedBy) == t[i])
            && (!t[i].auditable || (t[i].state != Added && t[i].state != Modified) ==> r[i] == t[i])
  {
  }

  // ---------------------------------------------------------------------
  // UpdateSoftDeletableEntities and the recursive un-deletion
  // ---------------------------------------------------------------------

  function DeletedSet(t: Tracker): set<nat> {
    set i | 0 <= i < |t| && t[i].state == Deleted
  }

  /** `t2` differs from `t1` only in entries turned from Deleted into
      Unchanged. */
  predicate OnlyUndeletes(t1: Tracker, t2: Tracker) {
    && |t2| == |t1|
    && forall j :: 0 <= j < |t1| ==>
         t2[j] == t1[j] || (t1[j].state == Deleted && t2[j] == t1[j].(state := Unchanged))
  }

  lemma OnlyUndeletesTransitive(t1: Tracker, t2: Tracker, t3: Tracker)
    requires OnlyUndeletes(t1, t2) && OnlyUndeletes(t2, t3)
    ensures OnlyUndeletes(t1, t3)
  {
  }

  lemma UndeleteShrinks(t: Tracker, k: nat)
    requires k < |t| && t[k].state == Deleted
    ensures DeletedSet(t[k := t[k].(state := Unchanged)]) == DeletedSet(t) - {k}
    ensures |DeletedSet(t[k := t[k].(state := Unchanged)])| < |DeletedSet(t)|
  {
    assert k in DeletedSet(t);
  }

  lemma OnlyUndeletesShrinks(t1: Tracker, t2: Tracker)
    requires OnlyUndeletes(t1, t2)
    ensures DeletedSet(t2) <= DeletedSet(t1)
    ensures |DeletedSet(t2)| <= |DeletedSet(t1)|
  {
    SubsetCardinality(DeletedSet(t2), DeletedSet(t1));
  }

  lemma {:induction false} SubsetCardinality(a: set<nat>, b: set<nat>)
    requires a <= b
    ensures |a| <= |b|
    decreases |b|
  {
    if a != {} {
      var x :| x in a;
      SubsetCardinality(a - {x}, b - {x});
    }
  }

  /** Every reference of entry `j` that points into the tracker points at an
      entry that is not Deleted. */
  predicate ReferencesKept(t: Tracker, refs: seq<nat>) {
    forall m :: 0 <= m < |refs| && refs[m] < |t| ==> t[refs[m]].state != Deleted
  }

  /** The `foreach` of `UpdateDeletedEntityEntryReferencesToUnchanged` from
      the `k`-th reference on: a target still Deleted when it is reached is
      made Unchanged and its own references are handled the same way. */
  function Undelete(t: Tracker, refs: seq<nat>, k: nat): (r: Tracker)
    requires k <= |refs|
    ensures OnlyUndeletes(t, r)
    ensures forall m :: k <= m < |refs| && refs[m] < |t| ==> r[refs[m]].state != Deleted
    ensures forall j :: 0 <= j < |t| && t[j].state == Deleted && r[j].state == Unchanged ==>
              ReferencesKept(r, t[j].references)
    decreases |DeletedSet(t)|, |refs| - k
  {
    if k == |refs| then t
    else
      var target := refs[k];
      if target < |t| && t[target].state == Deleted then
        var t1 := t[target := t[target].(state := Unchanged)];
        UndeleteShrinks(t, target);
        var t2 := Undelete(t1, t1[target].references, 0);
        OnlyUndeletesShrinks(t1, t2);
        var t3 := Undelete(t2, refs, k + 1);
        OnlyUndeletesTransitive(t1, t2, t3);
        UndeleteSteps(t, refs, k, t1, t2, t3);
        t3
      else
        var t3 := Undelete(t, refs, k + 1);
        assert forall m :: k <= m < |refs| && refs[m] < |t| ==> t3[refs[m]].state != Deleted by {
          forall m | k <= m < |refs| && refs[m] < |t| ensures t3[refs[m]].state != Deleted {
            if m == k {
              assert t[refs[k]].state != Deleted;
            }
          }
        }
        t3
  }

  /** The bookkeeping for one undeleted target: what the nested and the
      remaining iterations guarantee adds up to the postcondition. */
  lemma UndeleteSteps(t: Tracker, refs: seq<nat>, k: nat, t1: Tracker, t2: Tracker, t3: Tracker)
    requires k < |refs| && refs[k] < |t| && t[refs[k]].state == Deleted
    requires t1 == t[refs[k] := t[refs[k]].(state := Unchanged)]
    requires OnlyUndeletes(t1, t2) && OnlyUndeletes(t2, t3)
    requires ReferencesKept(t2, t1[refs[k]].references)
    requires forall j :: 0 <= j < |t1| && t1[j].state == Deleted && t2[j].state == Unchanged ==>
               ReferencesKept(t2, t1[j].references)
    requires forall m :: k + 1 <= m < |refs| && refs[m] < |t2| ==> t3[refs[m]].state != Deleted
    requires forall j :: 0 <= j < |t2| && t2[j].state == Deleted && t3[j].state == Unchanged ==>
               ReferencesKept(t3, t2[j].references)
    ensures OnlyUndeletes(t, t3)
    ensures forall m :: k <= m < |refs| && refs[m] < |t| ==> t3[refs[m]].state != Deleted
    ensures forall j :: 0 <= j < |t| && t[j].state == Deleted && t3[j].state == Unchanged ==>
              ReferencesKept(t3, t[j].references)
  {
    var target := refs[k];
    assert OnlyUndeletes(t, t1);
    OnlyUndeletesTransitive(t, t1, t2);
    OnlyUndeletesTransitive(t, t2, t3);
    forall j | 0 <= j < |t| && t[j].state == Deleted && t3[j].state == Unchanged
      ensures ReferencesKept(t3, t[j].references)
    {
      assert t[j].references == t1[j].references == t2[j].references;
      if j == target || t2[j].state == Unchanged {
        assert NoNewDeletes(t2, t3);
        KeptStaysKept(t2, t3, t[j].references);
      }
    }
  }

  /** Undeleting more entries never makes a reference point at a Deleted
      entry again. */
  lemma KeptStaysKept(t2: Tracker, t3: Tracker, refs: seq<nat>)
    requires NoNewDeletes(t2, t3) && ReferencesKept(t2, refs)
    ensures ReferencesKept(t3, refs)
  {
  }

  /** `t3` has no Deleted entry that was not Deleted in `t2`. */
  predicate NoNewDeletes(t2: Tracker, t3: Tracker) {
    && |t3| == |t2|
    && forall j :: 0 <= j < |t2| && t3[j].state == Deleted ==> t2[j].state == Deleted
  }

  /** What soft-deleting does to one Deleted entry. */
  function SoftDelete(e: Entry, saveBy: Guid, now: DateTime): Entry {
    e.(deletedOnUtc := Some(now), modifiedBy := Some(saveBy), deleted := true, state := Modified)
  }

  /** Writing `ModifiedBy` on an entity that has no such property. */
  const ModifiedByMissing: Exception :=
    InvalidOperationException("The property 'ModifiedBy' could not be found. Ensure that the property exists and has been included in the model.")

  /** The `foreach` of `UpdateSoftDeletableEntities` from entry `i` on. The
      state is read when the entry is reached, so an entry undeleted as the
      reference of an earlier one is skipped. */
  function SoftDeleteFrom(t: Tracker, saveBy: Guid, now: DateTime, i: nat): (r: Result<Tracker, Exception>)
    requires i <= |t|
    ensures r.Success? ==> |r.value| == |t|
    decreases |t| - i
  {
    if i == |t| then Success(t)
    else if !t[i].softDeletable || t[i].state != Deleted then SoftDeleteFrom(t, saveBy, now, i + 1)
    else if !t[i].auditable then Failure(ModifiedByMissing)
    else
      var t1 := t[i := SoftDelete(t[i], saveBy, now)];
      SoftDeleteFrom(Undelete(t1, t1[i].references, 0), saveBy, now, i + 1)
  }

  /** `UpdateSoftDeletableEntities(saveBy, utcNow)`. */
  function UpdateSoftDeletableEntities(t: Tracker, saveBy: Guid, now: DateTime): (r: Result<Tracker, Exception>)
    ensures r.Success? ==> |r.value| == |t|
  {
    SoftDeleteFrom(t, saveBy, now, 0)
  }

  /** How an entry may come out of the soft-delete pass: as it was, undeleted
      (Deleted to Unchanged), or soft-deleted with the save's stamp. */
  predicate SoftDeleteOutcome(before: Entry, after: Entry, saveBy: Guid, now: DateTime) {
    || after == before
    || (before.state == Deleted && after == before.(state := Unchanged))
    || (before.state == Deleted && before.softDeletable && after == SoftDelete(before, saveBy, now))
  }

  /** After the pass: no soft-deletable entry is left Deleted; entries that
      were not Deleted are untouched; every entry the pass soft-deleted or
      undeleted has no reference left pointing at a Deleted entry. */
  predicate SoftDeleteDone(t: Tracker, r: Tracker, saveBy: Guid, now: DateTime, upto: nat) {
    && |r| == |t|
    && (forall j :: 0 <= j < |t| ==> SoftDeleteOutcome(t[j], r[j], saveBy, now))
    && (forall j :: 0 <= j < upto && j < |t| && t[j].softDeletable ==> r[j].state != Deleted)
    && (forall j :: 0 <= j < |t| && t[j].state == Deleted && r[j].state != Deleted ==>
          ReferencesKept(r, t[j].references))
  }

  /** A soft-deletable entry marked for deletion that has no `ModifiedBy`
      column to stamp. */
  predicate UnauditedDeletion(e: Entry) {
    e.softDeletable && !e.auditable && e.state == Deleted
  }

  lemma {:induction false} SoftDeleteFromSound(t0: Tracker, t: Tracker, saveBy: Guid, now: DateTime, i: nat)
    requires i <= |t|
    requires SoftDeleteDone(t0, t, saveBy, now, i)
    ensures var r := SoftDeleteFrom(t, saveBy, now, i);
            && (r.Success? ==> SoftDeleteDone(t0, r.value, saveBy, now, |t|))
            && (r.Failure? ==> r.error == ModifiedByMissing
                               && exists j :: 0 <= j < |t0| && UnauditedDeletion(t0[j]))
    decreases |t| - i
  {
    if i < |t| {
      if !t[i].softDeletable || t[i].state != Deleted {
        assert SoftDeleteDone(t0, t, saveBy, now, i + 1) by {
          forall j | 0 <= j < i + 1 && j < |t0| && t0[j].softDeletable ensures t[j].state != Deleted {
            if j == i {
              assert SoftDeleteOutcome(t0[i], t[i], saveBy, now);
            }
          }
        }
        SoftDeleteFromSound(t0, t, saveBy, now, i + 1);
      } else if !t[i].auditable {
        assert UnauditedDeletion(t0[i]) by {
          assert SoftDeleteOutcome(t0[i], t[i], saveBy, now);
        }
      } else {
        var t1 := t[i := SoftDelete(t[i], saveBy, now)];
        var t2 := Undelete(t1, t1[i].references, 0);
        SoftDeleteStep(t0, t, saveBy, now, i, t1, t2);
        SoftDeleteFromSound(t0, t2, saveBy, now, i + 1);
      }
    }
  }

  lemma SoftDeleteStep(t0: Tracker, t: Tracker, saveBy: Guid, now: DateTime, i: nat,
                          t1: Tracker, t2: Tracker)
    requires i < |t| && t[i].softDeletable && t[i].state == Deleted
    requires SoftDeleteDone(t0, t, saveBy, now, i)
    requires t1 == t[i := SoftDelete(t[i], saveBy, now)]
    requires OnlyUndeletes(t1, t2)
    requires ReferencesKept(t2, t1[i].references)
    requires forall j :: 0 <= j < |t1| && t1[j].state == Deleted && t2[j].state == Unchanged ==>
               ReferencesKept(t2, t1[j].references)
    ensures SoftDeleteDone(t0, t2, saveBy, now, i + 1)
  {
    assert t0[i].state == Deleted by {
      assert SoftDeleteOutcome(t0[i], t[i], saveBy, now);
    }
    forall j | 0 <= j < |t0| ensures SoftDeleteOutcome(t0[j], t2[j], saveBy, now) {
      assert SoftDeleteOutcome(t0[j], t[j], saveBy, now);
    }
    forall j | 0 <= j < |t0| && t0[j].state == Deleted && t2[j].state != Deleted
      ensures ReferencesKept(t2, t0[j].references)
    {
      assert SoftDeleteOutcome(t0[j], t[j], saveBy, now);
      assert t0[j].references == t[j].references == t1[j].references;
      if j != i && t[j].state != Deleted {
        assert NoNewDeletes(t, t1) && NoNewDeletes(t1, t2);
        KeptStaysKept(t, t1, t0[j].references);
        KeptStaysKept(t1, t2, t0[j].references);
      }
    }
  }

  /** The soft-delete pass as a whole: when it succeeds, no soft-deletable
      entry is still Deleted, every entry is unchanged, undeleted or
      soft-deleted with this save's stamp, and whatever it soft-deleted or
      undeleted references no Deleted entry; it fails only when a
      soft-deletable entry marked for deletion has no `ModifiedBy`. */
  lemma UpdateSoftDeletableEntitiesSound(t: Tracker, saveBy: Guid, now: DateTime)
    ensures var r := UpdateSoftDeletableEntities(t, saveBy, now);
            && (r.Success? ==> SoftDeleteDone(t, r.value, saveBy, now, |t|))
            && (r.Failure? ==> r.error == ModifiedByMissing
                               && exists j :: 0 <= j < |t| && UnauditedDeletion(t[j]))
  {
    SoftDeleteFromSound(t, t, saveBy, now, 0);
  }

  // ---------------------------------------------------------------------
  // PublishDomainEvents
  // ---------------------------------------------------------------------

  /** An entry `ChangeTracker.Entries<AggregateRoot>()` lists. */
  predicate TrackedAggregate(e: Entry) {
    e.aggregate && Tracked(e)
  }

  /** `ev` is a pending event of some tracked aggregate root in `t`. */
  predicate Pends(t: Tracker, ev: DomainEvent) {
    exists k :: 0 <= k < |t| && TrackedAggregate(t[k]) && ev in t[k].events
  }

  lemma PendsCons(t: Tracker, ev: DomainEvent)
    requires |t| >= 1
    ensures Pends(t, ev) <==> (TrackedAggregate(t[0]) && ev in t[0].events) || Pends(t[1..], ev)
  {
    if Pends(t[1..], ev) {
      var k :| 0 <= k < |t[1..]| && TrackedAggregate(t[1..][k]) && ev in t[1..][k].events;
      assert t[k + 1] == t[1..][k];
    }
    if Pends(t, ev) && !(TrackedAggregate(t[0]) && ev in t[0].events) {
      var k :| 0 <= k < |t| && TrackedAggregate(t[k]) && ev in t[k].events;
      assert t[1..][k - 1] == t[k];
    }
  }

  /** The pending events of every tracked aggregate root, in tracker order. */
  function CollectEvents(t: Tracker): (r: seq<DomainEvent>)
    ensures forall ev :: ev in r <==> Pends(t, ev)
  {
    if |t| == 0 then []
    else
      var r := (if TrackedAggregate(t[0]) then t[0].events else []) + CollectEvents(t[1..]);
      assert forall ev :: ev in r <==> Pends(t, ev) by {
        forall ev ensures ev in r <==> Pends(t, ev) {
          PendsCons(t, ev);
        }
      }
      r
  }

  function ClearEvents(e: Entry): Entry {
    if TrackedAggregate(e) then e.(events := []) else e
  }

  /** `PublishDomainEvents`: the tracker with every tracked aggregate's
      events cleared, and the events handed to the mediator, in the order
      the publications are started. An entry the context no longer tracks
      is not touched. */
  function PublishDomainEvents(t: Tracker): (r: (Tracker, seq<DomainEvent>))
    ensures |r.0| == |t|
    ensures forall k :: 0 <= k < |t| ==> r.0[k].(events := t[k].events) == t[k]
    ensures forall k :: 0 <= k < |t| && TrackedAggregate(t[k]) ==> r.0[k].events == []
    ensures forall k :: 0 <= k < |t| && !Tracked(t[k]) ==> r.0[k] == t[k]
  {
    (seq(|t|, k requires 0 <= k < |t| => ClearEvents(t[k])), CollectEvents(t))
  }

  /** Every pending event of a tracked aggregate root is published, nothing
      else is, and a second publication finds nothing left. */
  lemma PublishDomainEventsComplete(t: Tracker)
    ensures var (t2, published) := PublishDomainEvents(t);
            && (forall ev :: ev in published <==> Pends(t, ev))
            && PublishDomainEvents(t2).1 == []
  {
    var t2 := PublishDomainEvents(t).0;
    NoEventsLeft(t2);
  }

  lemma {:induction false} NoEventsLeft(t: Tracker)
    requires forall k :: 0 <= k < |t| && TrackedAggregate(t[k]) ==> t[k].events == []
    ensures CollectEvents(t) == []
    decreases |t|
  {
    if |t| > 0 {
      NoEventsLeft(t[1..]);
    }
  }

  /** An entry the context no longer tracks adds nothing to the published
      events: they are those of the tracker without it. */
  lemma {:induction false} CollectEventsSkipsUntracked(t: Tracker, k: nat)
    requires k < |t| && !Tracked(t[k])
    ensures CollectEvents(t) == CollectEvents(t[..k] + t[k + 1..])
    decreases k
  {
    if k == 0 {
      assert t[..0] + t[1..] == t[1..];
    } else {
      CollectEventsSkipsUntracked(t[1..], k - 1);
      assert (t[..k] + t[k + 1..])[1..] == t[1..][..k - 1] + t[1..][k..];
    }
  }

  /** Two trackers whose entries are tracked alike and carry the same
      aggregate flags and events. */
  predicate SameEvents(t1: Tracker, t2: Tracker) {
    && |t1| == |t2|
    && forall k :: 0 <= k < |t1| ==>
         TrackedAggregate(t1[k]) == TrackedAggregate(t2[k]) && t1[k].events == t2[k].events
  }

  lemma {:induction false} CollectEventsSame(t1: Tracker, t2: Tracker)
    requires SameEvents(t1, t2)
    ensures CollectEvents(t1) == CollectEvents(t2)
    decreases |t1|
  {
    if |t1| > 0 {
      CollectEventsSame(t1[1..], t2[1..]);
    }
  }

  // ---------------------------------------------------------------------
  // SaveChangesAsync
  // ---------------------------------------------------------------------

  /** What a save leaves behind: the tracker handed to Entity Framework, the
      published events and the number of entries it writes. */
  datatype Saved = Saved(tracker: Tracker, published: seq<DomainEvent>, written: nat)

  predicate Pending(e: Entry) {
    e.state == Added || e.state == Modified || e.state == Deleted
  }

  /** The number of entries `base.SaveChangesAsync` writes. */
  function CountPending(t: Tracker): (n: nat)
    ensures n <= |t|
    ensures n == 0 <==> forall k :: 0 <= k < |t| ==> !Pending(t[k])
  {
    if |t| == 0 then 0 else (if Pending(t[0]) then 1 else 0) + CountPending(t[1..])
  }

  /** `SaveChangesAsync(saveBy)` with the clock reading `now`. */
  function SaveChangesAsync(t: Tracker, saveBy: Guid, now: DateTime): Result<Saved, Exception> {
    var audited := UpdateAuditableEntities(t, saveBy, now);
    var softDeleted :- UpdateSoftDeletableEntities(audited, saveBy, now);
    var (published, events) := PublishDomainEvents(softDeleted);
    Success(Saved(published, events, CountPending(published)))
  }

  /** A save publishes exactly the events pending before it, passes over
      every entry the context no longer tracks, leaves no
      soft-deletable entry to be physically deleted, and fails only on a
      soft-deletable entity marked for deletion that has no `ModifiedBy`. */
  lemma SaveChangesAsyncSound(t: Tracker, saveBy: Guid, now: DateTime)
    ensures var r := SaveChangesAsync(t, saveBy, now);
            && (r.Success? ==>
                  && |r.value.tracker| == |t|
                  && r.value.published == CollectEvents(t)
                  && (forall k :: 0 <= k < |t| && t[k].softDeletable ==> r.value.tracker[k].state != Deleted)
                  && (forall k :: 0 <= k < |t| && TrackedAggregate(t[k]) ==> r.value.tracker[k].events == [])
                  && (forall k :: 0 <= k < |t| && !Tracked(t[k]) ==> r.value.tracker[k] == t[k]))
            && (r.Failure? ==> r.error == ModifiedByMissing
                               && exists j :: 0 <= j < |t| && UnauditedDeletion(t[j]))
  {
    var audited := UpdateAuditableEntities(t, saveBy, now);
    UpdateSoftDeletableEntitiesSound(audited, saveBy, now);
    var r := UpdateSoftDeletableEntities(audited, saveBy, now);
    if r.Success? {
      SoftDeletedTracker(t, audited, r.value, saveBy, now);
      CollectEventsSame(t, r.value);
    } else {
      var j :| 0 <= j < |audited| && UnauditedDeletion(audited[j]);
      assert UnauditedDeletion(t[j]);
    }
  }

  /** The tracker the two passes leave carries the original events, and no
      soft-deletable entry of it is Deleted. */
  lemma SoftDeletedTracker(t: Tracker, audited: Tracker, softDeleted: Tracker, saveBy: Guid, now: DateTime)
    requires audited == UpdateAuditableEntities(t, saveBy, now)
    requires SoftDeleteDone(audited, softDeleted, saveBy, now, |audited|)
    ensures SameEvents(t, softDeleted)
    ensures forall k :: 0 <= k < |t| && t[k].softDeletable ==> softDeleted[k].state != Deleted
    ensures forall k :: 0 <= k < |t| && !Tracked(t[k]) ==> softDeleted[k] == t[k]
  {
    forall k | 0 <= k < |t|
      ensures TrackedAggregate(t[k]) == TrackedAggregate(softDeleted[k]) && t[k].events == softDeleted[k].events
      ensures t[k].softDeletable == audited[k].softDeletable
      ensures !Tracked(t[k]) ==> softDeleted[k] == t[k]
    {
      assert audited[k] == Audit(t[k], saveBy, now);
      assert SoftDeleteOutcome(audited[k], softDeleted[k], saveBy, now);
    }
  }

  /** An entity soft-deleted by a save keeps its old `ModifiedOnUtc`: the
      audit pass runs before it becomes Modified. */
  lemma SoftDeletedKeepsModifiedOn(t: Tracker, saveBy: Guid, now: DateTime, k: nat)
    requires k < |t| && t[k].state == Deleted
    requires SaveChangesAsync(t, saveBy, now).Success?
    ensures var e := SaveChangesAsync(t, saveBy, now).value.tracker[k];
            e.modifiedOnUtc == t[k].modifiedOnUtc && e.createdOnUtc == t[k].createdOnUtc
  {
    var audited := UpdateAuditableEntities(t, saveBy, now);
    UpdateSoftDeletableEntitiesSound(audited, saveBy, now);
    var r := UpdateSoftDeletableEntities(audited, saveBy, now);
    assert audited[k] == t[k];
    assert SoftDeleteOutcome(audited[k], r.value[k], saveBy, now);
  }

  // ---------------------------------------------------------------------
  // Tracking, Remove and what a save writes
  // ---------------------------------------------------------------------

  /** Position of the first entry tracking the key `id`; an entry the
      context has let go of tracks nothing. */
  function TrackedAt(t: Tracker, id: Guid): (r: Option<nat>)
    ensures r.Some? ==> r.value < |t| && t[r.value].id == id && Tracked(t[r.value])
    ensures r.None? <==> forall j :: 0 <= j < |t| && Tracked(t[j]) ==> t[j].id != id
  {
    if |t| == 0 then None
    else if t[0].id == id && Tracked(t[0]) then Some(0)
    else
      match TrackedAt(t[1..], id)
      case None => None
      case Some(j) => Some(j + 1)
  }

  /** The identity map: no key is tracked twice. */
  predicate UniqueKeys(t: Tracker) {
    forall i, j :: 0 <= i < j < |t| && Tracked(t[i]) && Tracked(t[j]) ==> t[i].id != t[j].id
  }

  /** With unique keys, the tracked entry of a key is the one `TrackedAt`
      finds. */
  lemma TrackedAtUnique(t: Tracker, k: nat)
    requires UniqueKeys(t) && k < |t| && Tracked(t[k])
    ensures TrackedAt(t, t[k].id) == Some(k)
  {
    assert TrackedAt(t, t[k].id).Some?;
  }

  /** The entity with key `id` is tracked as Added in this unit of work. */
  predicate AddedAt(t: Tracker, id: Guid) {
    TrackedAt(t, id).Some? && t[TrackedAt(t, id).value].state == Added
  }

  /** What a tracking query leaves in the tracker for an entity it loaded:
      the entry already tracking that key, or a new Unchanged entry. The
      result is the tracker and the entry's position. */
  function Track(t: Tracker, loaded: Entry): (r: (Tracker, nat))
    ensures r.1 < |r.0| && r.0[r.1].id == loaded.id && Tracked(r.0[r.1])
    ensures |t| <= |r.0| <= |t| + 1 && r.0[..|t|] == t
    ensures r.1 < |t| ==> r.0 == t
    ensures r.1 == |t| ==> r.0[r.1] == loaded.(state := Unchanged)
                           && forall j :: 0 <= j < |t| && Tracked(t[j]) ==> t[j].id != loaded.id
    ensures UniqueKeys(t) ==> UniqueKeys(r.0)
  {
    match TrackedAt(t, loaded.id)
    case Some(k) => (t, k)
    case None => (t + [loaded.(state := Unchanged)], |t|)
  }

  /** `Remove(entity)`, that is `Set<TEntity>().Remove(entity)`, on a
      tracked entry: as Entity Framework's `DbSet.Remove` does, the entry is
      marked Deleted, or detached when it was only Added in this unit of
      work. Nothing reaches the database before `SaveChangesAsync`. */
  function Remove(t: Tracker, k: nat): (r: Tracker)
    requires k < |t|
    ensures |r| == |t| && forall j :: 0 <= j < |t| && j != k ==> r[j] == t[j]
    ensures r[k].(state := t[k].state) == t[k]
    ensures r[k].state == Deleted <==> t[k].state != Added
    ensures r[k].state == Detached <==> t[k].state == Added
  {
    t[k := t[k].(state := if t[k].state == Added then Detached else Deleted)]
  }

  /** The save deletes the row with key `id`: an entry tracking that key is
      still Deleted when `base.SaveChangesAsync` runs. */
  predicate DeletesRow(t: Tracker, id: Guid) {
    exists j :: 0 <= j < |t| && t[j].id == id && t[j].state == Deleted
  }

  /** The stored rows that survive `base.SaveChangesAsync` given the tracker
      handed to it. Only row deletion is followed here; inserted rows and
      written columns are what the tracker's entries say. */
  function Persist(store: seq<Entity>, t: Tracker): (r: seq<Entity>)
    ensures forall e :: e in r <==> e in store && !DeletesRow(t, e.id)
  {
    if |store| == 0 then []
    else
      assert forall e :: e in store <==> e == store[0] || e in store[1..];
      (if DeletesRow(t, store[0].id) then [] else [store[0]]) + Persist(store[1..], t)
  }

  /** The tracker a successful save hands to Entity Framework is the
      published form of the two passes' result. */
  lemma SavedTracker(t: Tracker, saveBy: Guid, now: DateTime)
    requires SaveChangesAsync(t, saveBy, now).Success?
    ensures var soft := UpdateSoftDeletableEntities(UpdateAuditableEntities(t, saveBy, now), saveBy, now);
            && soft.Success?
            && SaveChangesAsync(t, saveBy, now).value.tracker == PublishDomainEvents(soft.value).0
  {
  }

  /** Entries whose key, kind, state and soft-delete columns agree. */
  predicate SameRow(x: Entry, y: Entry) {
    && x.id == y.id && x.state == y.state && x.softDeletable == y.softDeletable && x.auditable == y.auditable
    && x.deleted == y.deleted && x.deletedOnUtc == y.deletedOnUtc && x.modifiedBy == y.modifiedBy
  }

  /** The audit pass changes no key, kind or state, and leaves a Deleted
      entry as it is. */
  lemma AuditKeepsRows(t: Tracker, saveBy: Guid, now: DateTime)
    ensures var a := UpdateAuditableEntities(t, saveBy, now);
            && |a| == |t|
            && (forall j :: 0 <= j < |t| ==>
                  a[j].id == t[j].id && a[j].state == t[j].state && a[j].softDeletable == t[j].softDeletable)
            && (forall j :: 0 <= j < |t| && t[j].state == Deleted ==> a[j] == t[j])
  {
    var a := UpdateAuditableEntities(t, saveBy, now);
    forall j | 0 <= j < |t| ensures a[j] == Audit(t[j], saveBy, now) {
    }
  }

  /** Publishing domain events changes only the events. */
  lemma PublishKeepsRows(t: Tracker)
    ensures var p := PublishDomainEvents(t).0;
            |p| == |t| && forall j :: 0 <= j < |t| ==> SameRow(p[j], t[j])
  {
    var p := PublishDomainEvents(t).0;
    forall j | 0 <= j < |t| ensures SameRow(p[j], t[j]) {
      assert p[j].(events := t[j].events) == t[j];
    }
  }

  /** A save keeps every entry's key and kind, and leaves no soft-deletable
      entry Deleted, so the row of a soft-deletable entity is never deleted. */
  lemma SaveKeepsSoftDeletableRows(t: Tracker, saveBy: Guid, now: DateTime, id: Guid)
    requires SaveChangesAsync(t, saveBy, now).Success?
    requires forall j :: 0 <= j < |t| && t[j].id == id && Tracked(t[j]) ==> t[j].softDeletable
    ensures var saved := SaveChangesAsync(t, saveBy, now).value.tracker;
            && |saved| == |t|
            && (forall j :: 0 <= j < |t| ==> saved[j].id == t[j].id && saved[j].softDeletable == t[j].softDeletable)
            && !DeletesRow(saved, id)
  {
    SavedTracker(t, saveBy, now);
    var audited := UpdateAuditableEntities(t, saveBy, now);
    AuditKeepsRows(t, saveBy, now);
    UpdateSoftDeletableEntitiesSound(audited, saveBy, now);
    var r := UpdateSoftDeletableEntities(audited, saveBy, now).value;
    PublishKeepsRows(r);
    var saved := PublishDomainEvents(r).0;
    forall j | 0 <= j < |t|
      ensures saved[j].id == t[j].id && saved[j].softDeletable == t[j].softDeletable
      ensures t[j].softDeletable ==> saved[j].state != Deleted
      ensures !Tracked(t[j]) ==> !Tracked(saved[j])
    {
      assert SoftDeleteOutcome(audited[j], r[j], saveBy, now);
      assert SameRow(saved[j], r[j]);
    }
  }

  /** With no other entry Deleted, the `foreach` skips to entry `k`: a
      soft-deletable one is soft-deleted (or fails without `ModifiedBy`),
      any other one is left Deleted, and nothing else changes. */
  lemma {:induction false} SingleDeletionFrom(t: Tracker, saveBy: Guid, now: DateTime, k: nat, i: nat)
    requires i <= k < |t| && DeletedSet(t) == {k}
    ensures SoftDeleteFrom(t, saveBy, now, i)
            == if !t[k].softDeletable then Success(t)
               else if !t[k].auditable then Failure(ModifiedByMissing)
               else Success(t[k := SoftDelete(t[k], saveBy, now)])
    decreases |t| - i
  {
    assert k in DeletedSet(t);
    if i < k {
      assert i !in DeletedSet(t);
      SingleDeletionFrom(t, saveBy, now, k, i + 1);
    } else if !t[k].softDeletable {
      NothingDeletedFrom(t, saveBy, now, k + 1);
    } else if t[k].auditable {
      var t1 := t[k := SoftDelete(t[k], saveBy, now)];
      assert DeletedSet(t1) == {} by {
        forall j | 0 <= j < |t1| ensures t1[j].state != Deleted {
          if j != k {
            assert j !in DeletedSet(t);
          }
        }
      }
      UndeleteNothing(t1, t1[k].references, 0);
      NothingDeletedFrom(t1, saveBy, now, k + 1);
    }
  }

  /** With no Deleted entry from `i` on, the rest of the `foreach` changes
      nothing. */
  lemma {:induction false} NothingDeletedFrom(t: Tracker, saveBy: Guid, now: DateTime, i: nat)
    requires i <= |t| && forall j :: i <= j < |t| ==> j !in DeletedSet(t)
    ensures SoftDeleteFrom(t, saveBy, now, i) == Success(t)
    decreases |t| - i
  {
    if i < |t| {
      assert i !in DeletedSet(t);
      NothingDeletedFrom(t, saveBy, now, i + 1);
    }
  }

  /** Un-deleting references in a tracker with no Deleted entry does nothing. */
  lemma {:induction false} UndeleteNothing(t: Tracker, refs: seq<nat>, k: nat)
    requires k <= |refs| && DeletedSet(t) == {}
    ensures Undelete(t, refs, k) == t
    decreases |refs| - k
  {
    if k < |refs| {
      if refs[k] < |t| {
        assert refs[k] !in DeletedSet(t);
      }
      UndeleteNothing(t, refs, k + 1);
    }
  }

  /** The soft-delete pass of a save whose only Deleted entry is `k`. */
  lemma SoftPassSingleDeletion(t: Tracker, saveBy: Guid, now: DateTime, k: nat)
    requires k < |t| && DeletedSet(t) == {k}
    requires !t[k].softDeletable || t[k].auditable
    ensures var r := UpdateSoftDeletableEntities(UpdateAuditableEntities(t, saveBy, now), saveBy, now);
            && r.Success? && |r.value| == |t|
            && (forall j :: 0 <= j < |t| && j != k ==> r.value[j].id == t[j].id && r.value[j].state != Deleted)
            && r.value[k] == if t[k].softDeletable then SoftDelete(t[k], saveBy, now) else t[k]
  {
    var audited := UpdateAuditableEntities(t, saveBy, now);
    AuditKeepsRows(t, saveBy, now);
    assert DeletedSet(audited) == DeletedSet(t);
    SingleDeletionFrom(audited, saveBy, now, k, 0);
    forall j | 0 <= j < |t| && j != k ensures audited[j].state != Deleted {
      assert j !in DeletedSet(t);
    }
  }

  /** The same, read on the tracker the save hands on. */
  lemma SavedSingleDeletion(t: Tracker, saveBy: Guid, now: DateTime, k: nat)
    requires k < |t| && DeletedSet(t) == {k}
    requires !t[k].softDeletable || t[k].auditable
    ensures SaveChangesAsync(t, saveBy, now).Success?
    ensures var saved := SaveChangesAsync(t, saveBy, now).value.tracker;
            && |saved| == |t|
            && (forall j :: 0 <= j < |t| ==> saved[j].id == t[j].id)
            && (forall j :: 0 <= j < |t| && j != k ==> saved[j].state != Deleted)
            && SameRow(saved[k], if t[k].softDeletable then SoftDelete(t[k], saveBy, now) else t[k])
  {
    SoftPassSingleDeletion(t, saveBy, now, k);
    var r := UpdateSoftDeletableEntities(UpdateAuditableEntities(t, saveBy, now), saveBy, now).value;
    SavedTracker(t, saveBy, now);
    PublishKeepsRows(r);
  }

  /** A save whose only Deleted entry is `k`: a soft-deletable, auditable
      entity is written back as Modified with `Deleted = true` and this
      save's `DeletedOnUtc`, and its row stays; one without `ModifiedBy`
      makes the save throw; any other entity's row is deleted. */
  lemma SaveSingleDeletion(store: seq<Entity>, t: Tracker, saveBy: Guid, now: DateTime, k: nat)
    requires k < |t| && DeletedSet(t) == {k}
    ensures var s := SaveChangesAsync(t, saveBy, now);
            && (t[k].softDeletable && t[k].auditable ==>
                  && s.Success?
                  && s.value.tracker[k].state == Modified && s.value.tracker[k].deleted
                  && s.value.tracker[k].deletedOnUtc == Some(now)
                  && s.value.tracker[k].modifiedBy == Some(saveBy)
                  && Persist(store, s.value.tracker) == store)
            && (t[k].softDeletable && !t[k].auditable ==> s == Failure(ModifiedByMissing))
            && (!t[k].softDeletable ==>
                  && s.Success? && s.value.tracker[k].state == Deleted
                  && forall e :: e in Persist(store, s.value.tracker) <==> e in store && e.id != t[k].id)
  {
    if t[k].softDeletable && !t[k].auditable {
      var audited := UpdateAuditableEntities(t, saveBy, now);
      AuditKeepsRows(t, saveBy, now);
      assert DeletedSet(audited) == DeletedSet(t);
      SingleDeletionFrom(audited, saveBy, now, k, 0);
    } else {
      SavedSingleDeletion(t, saveBy, now, k);
      var saved := SaveChangesAsync(t, saveBy, now).value.tracker;
      if t[k].softDeletable {
        assert forall e :: e in store ==> !DeletesRow(saved, e.id);
        PersistNothing(store, saved);
      } else {
        forall id: Guid ensures DeletesRow(saved, id) <==> id == t[k].id {
          if DeletesRow(saved, id) {
            var j :| 0 <= j < |saved| && saved[j].id == id && saved[j].state == Deleted;
          }
        }
      }
    }
  }

  /** With no entry marked Deleted, the audit pass marks none and the
      soft-delete pass then changes nothing. */
  lemma PassesWithoutDeletion(t: Tracker, saveBy: Guid, now: DateTime)
    requires DeletedSet(t) == {}
    ensures var audited := UpdateAuditableEntities(t, saveBy, now);
            && DeletedSet(audited) == {}
            && UpdateSoftDeletableEntities(audited, saveBy, now) == Success(audited)
  {
    var audited := UpdateAuditableEntities(t, saveBy, now);
    AuditKeepsRows(t, saveBy, now);
    assert DeletedSet(audited) == {} by {
      forall j | 0 <= j < |audited| ensures audited[j].state != Deleted {
        assert j !in DeletedSet(t);
      }
    }
    NothingDeletedFrom(audited, saveBy, now, 0);
  }

  /** A save with no entry marked Deleted succeeds, deletes no row and
      leaves no entry Deleted. */
  lemma SaveWithoutDeletion(store: seq<Entity>, t: Tracker, saveBy: Guid, now: DateTime)
    requires DeletedSet(t) == {}
    ensures var s := SaveChangesAsync(t, saveBy, now);
            && s.Success? && DeletedSet(s.value.tracker) == {}
            && Persist(store, s.value.tracker) == store
  {
    PassesWithoutDeletion(t, saveBy, now);
    var audited := UpdateAuditableEntities(t, saveBy, now);
    var saved := PublishDomainEvents(audited).0;
    assert SaveChangesAsync(t, saveBy, now) == Success(Saved(saved, CollectEvents(audited), CountPending(saved)));
    PublishKeepsRows(audited);
    assert DeletedSet(saved) == {} by {
      forall j | 0 <= j < |saved| ensures saved[j].state != Deleted {
        assert SameRow(saved[j], audited[j]);
        assert j !in DeletedSet(audited);
      }
    }
    NothingDeletedKeepsRows(store, saved);
  }

  /** A tracker with no entry Deleted keeps every stored row. */
  lemma NothingDeletedKeepsRows(store: seq<Entity>, t: Tracker)
    requires DeletedSet(t) == {}
    ensures Persist(store, t) == store
  {
    forall j | 0 <= j < |t| ensures t[j].state != Deleted {
      assert j !in DeletedSet(t);
    }
    PersistNothing(store, t);
  }

  /** A tracker that deletes no stored row leaves the store as it is. */
  lemma {:induction false} PersistNothing(store: seq<Entity>, t: Tracker)
    requires forall e :: e in store ==> !DeletesRow(t, e.id)
    ensures Persist(store, t) == store
    decreases |store|
  {
    if |store| > 0 {
      assert store[0] in store;
      assert forall e :: e in store[1..] ==> e in store;
      PersistNothing(store[1..], t);
    }
  }
}

=== FILE: auth_service.dfy ===
/**
  `AuthenticationService` (the Keycloak flavour): the cache-aside gate in
  front of the provider's admin token, the login flow shared by password and
  refresh-token logins, and user creation. The identity provider, the cache,
  the mediator, the JSON readers, the JWT reader and the clock are not part
  of the model: their answers are parameters, and what the service does to
  them (provider calls, cache writes, published events) is returned as a
  trace in the order the service does it.
 */
module AuthenticationServices {
  import opened Wrappers
  import opened Text
  import opened Primitives
  import opened Entities
  import opened Errors
  import opened Exceptions
  import opened Handlers
  import SB = SpecificationBuilder

  /** The one cache slot the service uses. */
  const AdminTokenKey: string := "authenticate-admin"

  /** The distributed cache: key to stored text. */
  type Cache = map<string, string>

  /** `DateTime.AddSeconds` works in ticks of 100 ns. */
  const TicksPerSecond: int := 10_000_000

  // ---------------------------------------------------------------------
  // Errors, events and the data the flows pass around
  // ---------------------------------------------------------------------

  /** `TokenResponse`: the access token, the refresh token, their expiry
      instants and the user's subject id. */
  datatype TokenResponse = TokenResponse(
    token: NullableString,
    refreshToken: NullableString,
    expiredIn: DateTime,
    refreshExpiredIn: DateTime,
    userId: Guid)

  /** `UserLogedInProviderEvent(userName, isAuthenticated, ip)`. */
  datatype UserLoggedIn = UserLoggedIn(userName: NullableString, isAuthenticated: bool, ip: string)

  /** How one call to the identity provider ends: a successful `Result`, a
      failed one, or an exception. */
  datatype Answer<T> = Gave(value: T) | Refused | Raised(ex: Exception)

  /** The provider's answer to each call the service can make. No operation
      makes the same call twice, so one answer per call is enough. */
  datatype Provider = Provider(
    adminToken: Answer<string>,
    passwordLogin: Answer<string>,
    refreshLogin: Answer<string>,
    userNameExists: Answer<bool>,
    createUser: Answer<()>)

  /** How `JsonConvert.DeserializeObject<TokenResponse>` ends on a text: an
      object, `null`, or a `JsonReaderException` with its message. */
  datatype Decoded = Decoded(response: TokenResponse) | DecodedNull | Unreadable(message: string)

  /** A parsed `JObject`, each property as its `ToString()` text. */
  type JsonObject = map<string, string>

  /** The service's other collaborators. `now` is a `DateTime.UtcNow`
      reading and `refreshNow` the separate reading a login takes for the
      refresh token's expiry; `parse` is `JObject.Parse`, failing with the
      reader's message; `subIdOf` is `IJwtService.GetSubId`. */
  datatype Env = Env(
    now: DateTime,
    refreshNow: DateTime,
    decode: string -> Decoded,
    parse: string -> Result<JsonObject, string>,
    subIdOf: NullableString -> Guid)

  /** What the service does to its collaborators, in order. */
  datatype Effect =
    | AdminTokenRequested
    | CacheWritten(key: string, value: string)
    | PasswordLoginRequested(userName: string, password: string)
    | RefreshLoginRequested(refreshToken: string)
    | Published(event: UserLoggedIn)
    | UserNameChecked(userName: string)
    | UserCreationRequested(userName: string, email: string, firstName: string, lastName: string, password: string)

  /** A run of one service operation: how it completed, the cache after it,
      and its effects. */
  datatype Run<R> = Run(outcome: Completion<Result<R, Error>>, cache: Cache, trace: seq<Effect>)

  /** The exception Newtonsoft throws on malformed JSON. */
  function JsonReaderException(message: string): Exception {
    OtherException("Newtonsoft.Json.JsonReaderException", message)
  }

  /** How often `e` occurs in `trace`. */
  function Count(trace: seq<Effect>, e: Effect): nat {
    if |trace| == 0 then 0
    else (if trace[0] == e then 1 else 0) + Count(trace[1..], e)
  }

  /** The events published in `trace`, in order. */
  function Events(trace: seq<Effect>): seq<UserLoggedIn> {
    if |trace| == 0 then []
    else (if trace[0].Published? then [trace[0].event] else []) + Events(trace[1..])
  }

  lemma CountShort(a: Effect, b: Effect, e: Effect)
    ensures Count([a], e) == (if a == e then 1 else 0)
    ensures Count([a, b], e) == (if a == e then 1 else 0) + (if b == e then 1 else 0)
  {
    assert [a][1..] == [];
    assert [a, b][1..] == [b];
    assert [b][1..] == [];
  }

  lemma {:induction false} EventsConcat(a: seq<Effect>, b: seq<Effect>)
    ensures Events(a + b) == Events(a) + Events(b)
    decreases |a|
  {
    if |a| > 0 {
      assert (a + b)[0] == a[0] && (a + b)[1..] == a[1..] + b;
      EventsConcat(a[1..], b);
      var head := if a[0].Published? then [a[0].event] else [];
      assert Events(a + b) == head + (Events(a[1..]) + Events(b));
      assert Events(a) == head + Events(a[1..]);
    } else {
      assert a + b == b;
    }
  }

  // ---------------------------------------------------------------------
  // GetAdminAccessToken
  // ---------------------------------------------------------------------

  /** The two catch clauses: a timeout rejection and any other exception
      become a `CommonLibraryException`, each with its own code. */
  function WrapAdminTokenException(ex: Exception): (r: Exception)
    ensures r.CommonLibraryException?
    ensures ex.TimeoutRejectedException? ==>
              r.error.code == "GetAdminAccessTokenTimeoutRejectedException"
              && r.error.message == "An error occurred while GetAdminAccessToken.TimeOut: " + Message(ex)
    ensures !ex.TimeoutRejectedException? ==>
              r.error.code == "GetAdminAccessTokenException"
              && r.error.message == "An error occurred while GetAdminAccessToken: " + Message(ex)
  {
    if ex.TimeoutRejectedException? then
      CommonLibraryException(NewError("GetAdminAccessTokenTimeoutRejectedException",
                                      "An error occurred while GetAdminAccessToken.TimeOut: " + Message(ex)))
    else
      CommonLibraryException(NewError("GetAdminAccessTokenException",
                                      "An error occurred while GetAdminAccessToken: " + Message(ex)))
  }

  /** The outcome of reading a token response: its token, `InvalidAdminToken`
      for `null`, or the reader's exception wrapped by the catch clauses. */
  function TokenOf(d: Decoded): Completion<Result<NullableString, Error>> {
    match d
    case Decoded(t) => Returned(Success(t.token))
    case DecodedNull => Returned(Failure(InvalidAdminToken))
    case Unreadable(m) => Threw(WrapAdminTokenException(JsonReaderException(m)))
  }

  /** Asking the provider for a fresh admin token: on success the raw answer
      is stored before it is read. */
  function FetchAdminToken(cache: Cache, provider: Provider, env: Env): (r: Run<NullableString>)
    ensures |r.trace| >= 1 && r.trace[0] == AdminTokenRequested
    ensures Count(r.trace, AdminTokenRequested) == 1
    ensures forall i :: 1 <= i < |r.trace| ==> r.trace[i].CacheWritten?
  {
    CountShort(AdminTokenRequested, AdminTokenRequested, AdminTokenRequested);
    match provider.adminToken
    case Raised(ex) => Run(Threw(WrapAdminTokenException(ex)), cache, [AdminTokenRequested])
    case Refused => Run(Returned(Failure(InvalidAdminToken)), cache, [AdminTokenRequested])
    case Gave(raw) =>
      CountShort(AdminTokenRequested, CacheWritten(AdminTokenKey, raw), AdminTokenRequested);
      Run(TokenOf(env.decode(raw)), cache[AdminTokenKey := raw],
          [AdminTokenRequested, CacheWritten(AdminTokenKey, raw)])
  }

  /** The cached entry can be served: it reads as a token response whose
      expiry is strictly later than now. */
  predicate Fresh(cache: Cache, env: Env) {
    && AdminTokenKey in cache
    && env.decode(cache[AdminTokenKey]).Decoded?
    && env.now < env.decode(cache[AdminTokenKey]).response.expiredIn
  }

  /** The provider has to be asked: no entry, or one that reads as an expired
      token response. */
  predicate NeedsFetch(cache: Cache, env: Env) {
    AdminTokenKey !in cache
    || (env.decode(cache[AdminTokenKey]).Decoded? && !Fresh(cache, env))
  }

  /** `GetAdminAccessToken()`. */
  function GetAdminAccessToken(cache: Cache, provider: Provider, env: Env): (r: Run<NullableString>)
    ensures r.outcome.Returned? && r.outcome.value.Failure? ==> r.outcome.value.error == InvalidAdminToken
    ensures r.outcome.Threw? ==> r.outcome.ex.CommonLibraryException?
    ensures NeedsFetch(cache, env) <==> Count(r.trace, AdminTokenRequested) == 1
    ensures !NeedsFetch(cache, env) <==> r.trace == []
    ensures forall i :: 0 <= i < |r.trace| ==> r.trace[i] == AdminTokenRequested || r.trace[i].CacheWritten?
  {
    if AdminTokenKey !in cache then
      FetchAdminToken(cache, provider, env)
    else
      match env.decode(cache[AdminTokenKey])
      case Unreadable(m) => Run(Threw(WrapAdminTokenException(JsonReaderException(m))), cache, [])
      case DecodedNull => Run(Returned(Failure(InvalidAdminToken)), cache, [])
      case Decoded(t) =>
        if env.now < t.expiredIn then Run(Returned(Success(t.token)), cache, [])
        else FetchAdminToken(cache, provider, env)
  }

  /** A fresh cache entry is served as it is: its token, no provider call,
      the cache unchanged. */
  lemma FreshEntryServed(cache: Cache, provider: Provider, env: Env)
    requires Fresh(cache, env)
    ensures var r := GetAdminAccessToken(cache, provider, env);
            && r.outcome == Returned(Success(env.decode(cache[AdminTokenKey]).response.token))
            && r.cache == cache
            && r.trace == []
  {
  }

  /** On a miss the provider is asked exactly once; if it refuses, the result
      is `InvalidAdminToken` and the cache is left alone. */
  lemma MissAsksProviderOnce(cache: Cache, provider: Provider, env: Env)
    requires AdminTokenKey !in cache
    ensures var r := GetAdminAccessToken(cache, provider, env);
            && r.trace[0] == AdminTokenRequested
            && Count(r.trace, AdminTokenRequested) == 1
            && (provider.adminToken.Refused? ==>
                  r.outcome == Returned(Failure(InvalidAdminToken)) && r.cache == cache)
  {
  }

  /** Whenever the provider answers, its raw text is stored under the admin
      key before being read, so even an answer that reads as `null` replaces
      the slot while the call fails. */
  lemma AnswerStoredBeforeRead(cache: Cache, provider: Provider, env: Env)
    requires NeedsFetch(cache, env) && provider.adminToken.Gave?
    ensures var raw := provider.adminToken.value;
            var r := GetAdminAccessToken(cache, provider, env);
            && r.cache == cache[AdminTokenKey := raw]
            && r.trace == [AdminTokenRequested, CacheWritten(AdminTokenKey, raw)]
            && (env.decode(raw).DecodedNull? ==> r.outcome == Returned(Failure(InvalidAdminToken)))
  {
  }

  /** An entry that is present but reads as `null` is not a miss: the call
      fails with `InvalidAdminToken` without asking the provider. */
  lemma NullEntryIsNotAMiss(cache: Cache, provider: Provider, env: Env)
    requires AdminTokenKey in cache && env.decode(cache[AdminTokenKey]).DecodedNull?
    ensures GetAdminAccessToken(cache, provider, env) == Run(Returned(Failure(InvalidAdminToken)), cache, [])
  {
  }

  /** An expired entry is refetched once. A refusal leaves the stale entry in
      place; an answer that reads as a token response replaces the entry and
      its token is returned. */
  lemma ExpiredEntryRefetched(cache: Cache, provider: Provider, env: Env)
    requires AdminTokenKey in cache && env.decode(cache[AdminTokenKey]).Decoded?
    requires env.decode(cache[AdminTokenKey]).response.expiredIn <= env.now
    ensures var r := GetAdminAccessToken(cache, provider, env);
            && Count(r.trace, AdminTokenRequested) == 1
            && (provider.adminToken.Refused? ==>
                  r.cache[AdminTokenKey] == cache[AdminTokenKey] && r.outcome == Returned(Failure(InvalidAdminToken)))
            && (provider.adminToken.Gave? && env.decode(provider.adminToken.value).Decoded? ==>
                  r.cache[AdminTokenKey] == provider.adminToken.value
                  && r.outcome == Returned(Success(env.decode(provider.adminToken.value).response.token)))
  {
  }

  /** Exceptions are never turned into a failed `Result`: a provider
      exception, or an unreadable answer or entry, comes out as a thrown
      `CommonLibraryException` coded by whether it was a timeout. */
  lemma ExceptionsRethrownWrapped(cache: Cache, provider: Provider, env: Env)
    ensures var r := GetAdminAccessToken(cache, provider, env);
            && (NeedsFetch(cache, env) && provider.adminToken.Raised? ==>
                  r.outcome == Threw(WrapAdminTokenException(provider.adminToken.ex)))
            && (AdminTokenKey in cache && env.decode(cache[AdminTokenKey]).Unreadable? ==>
                  r.outcome == Threw(WrapAdminTokenException(JsonReaderException(env.decode(cache[AdminTokenKey]).message))))
  {
    if NeedsFetch(cache, env) {
      assert GetAdminAccessToken(cache, provider, env) == FetchAdminToken(cache, provider, env);
    }
  }

  /** The gate's invariant: the cache changes only in the admin slot, and
      only to the provider's raw answer; a returned token is always the token
      of the entry the cache now holds. */
  lemma {:induction false} AdminTokenMatchesCache(cache: Cache, provider: Provider, env: Env)
    ensures var r := GetAdminAccessToken(cache, provider, env);
            && (r.cache == cache
                || (provider.adminToken.Gave? && r.cache == cache[AdminTokenKey := provider.adminToken.value]))
            && (r.outcome.Returned? && r.outcome.value.Success? ==>
                  && AdminTokenKey in r.cache
                  && env.decode(r.cache[AdminTokenKey]).Decoded?
                  && env.decode(r.cache[AdminTokenKey]).response.token == r.outcome.value.value)
  {
    var r := GetAdminAccessToken(cache, provider, env);
    if NeedsFetch(cache, env) {
      assert r == FetchAdminToken(cache, provider, env);
      if provider.adminToken.Gave? {
        assert r.cache[AdminTokenKey] == provider.adminToken.value;
      }
    } else {
      assert r.cache == cache;
    }
  }

  /** Once a token has been fetched, a later call while it is still valid is
      served from the cache with the same token and no provider call. */
  lemma {:induction false} TokenReusedWhileValid(cache: Cache, provider: Provider, later: Provider, env: Env, now: DateTime)
    requires var r := GetAdminAccessToken(cache, provider, env);
             r.outcome.Returned? && r.outcome.value.Success?
    requires var r := GetAdminAccessToken(cache, provider, env);
             now < env.decode(r.cache[AdminTokenKey]).response.expiredIn
    ensures var r := GetAdminAccessToken(cache, provider, env);
            GetAdminAccessToken(r.cache, later, env.(now := now)) == Run(r.outcome, r.cache, [])
  {
    AdminTokenMatchesCache(cache, provider, env);
  }

  // ---------------------------------------------------------------------
  // BaseLogin, Login, LoginFromRefreshToken
  // ---------------------------------------------------------------------

  /** `content[name]?.ToString()`. */
  function Field(content: JsonObject, name: string): NullableString {
    if name in content then Some(content[name]) else None
  }

  /** `int.Parse(s)`: a null text throws `ArgumentNullException`; otherwise
      the conversion `Convert.ChangeType` performs for `Int32`. */
  function Int32Parse(s: NullableString): (r: Result<int, Exception>)
    ensures s.None? ==> r.Failure? && r.error.ArgumentNullException?
    ensures s.Some? && r.Success? ==> SB.ChangeType(s.value, IntKind) == Success(IntValue(r.value))
  {
    if s.None? then Failure(ArgumentNullException(Some("s"), "Value cannot be null."))
    else
      match SB.ChangeType(s.value, IntKind)
      case Success(v) => assert KindOf(v) == IntKind; Success(v.n)
      case Failure(e) => Failure(e)
  }

  /** `DateTime.AddSeconds`. */
  function AddSeconds(t: DateTime, seconds: int): DateTime {
    t + seconds * TicksPerSecond
  }

  /** The password grant is used exactly when no refresh token is given. */
  predicate UsesPassword(refreshToken: NullableString) {
    IsNullOrEmpty(refreshToken)
  }

  /** The login request `BaseLogin` makes. */
  function LoginRequest(userName: string, password: string, refreshToken: NullableString): Effect {
    if UsesPassword(refreshToken) then PasswordLoginRequested(userName, password)
    else RefreshLoginRequested(refreshToken.value)
  }

  /** The provider's answer to that request. */
  function LoginAnswer(provider: Provider, refreshToken: NullableString): Answer<string> {
    if UsesPassword(refreshToken) then provider.passwordLogin else provider.refreshLogin
  }

  /** The token response built from a login answer, or the exception reading
      it throws: both lifetimes must parse as integers; the subject id comes
      from the access token. */
  function ReadLogin(content: JsonObject, env: Env): Result<TokenResponse, Exception> {
    var expiresIn :- Int32Parse(Field(content, "expires_in"));
    var refreshExpiresIn :- Int32Parse(Field(content, "refresh_expires_in"));
    var accessToken := Field(content, "access_token");
    Success(TokenResponse(accessToken, Field(content, "refresh_token"),
                          AddSeconds(env.now, expiresIn), AddSeconds(env.refreshNow, refreshExpiresIn),
                          env.subIdOf(accessToken)))
  }

  /** `BaseLogin(username, password, refreshtoken)`. */
  function BaseLogin(userName: string, password: string, refreshToken: NullableString,
                     cache: Cache, provider: Provider, env: Env): (r: Run<TokenResponse>)
    ensures r.cache == cache
    ensures |r.trace| >= 1 && r.trace[0] == LoginRequest(userName, password, refreshToken)
    ensures |r.trace| <= 2 && forall i :: 1 <= i < |r.trace| ==> r.trace[i].Published?
    ensures r.outcome.Returned? && r.outcome.value.Failure? ==>
              r.outcome.value.error in {InvalidUserNameOrPassword, SubIdNotExist}
  {
    var request := [LoginRequest(userName, password, refreshToken)];
    var rejected := Published(UserLoggedIn(Some(userName), false, ""));
    match LoginAnswer(provider, refreshToken)
    case Raised(ex) => Run(Threw(ex), cache, request)
    case Refused => Run(Returned(Failure(InvalidUserNameOrPassword)), cache, request + [rejected])
    case Gave(json) =>
      match env.parse(json)
      case Failure(m) => Run(Threw(JsonReaderException(m)), cache, request)
      case Success(content) =>
        match ReadLogin(content, env)
        case Failure(ex) => Run(Threw(ex), cache, request)
        case Success(t) =>
          if t.userId == EmptyGuid then
            Run(Returned(Failure(SubIdNotExist)), cache, request + [rejected])
          else
            Run(Returned(Success(t)), cache, request + [Published(UserLoggedIn(Some(userName), true, ""))])
  }

  /** `Login(username, password)`. */
  function Login(userName: string, password: string, cache: Cache, provider: Provider, env: Env): (r: Run<TokenResponse>)
    ensures |r.trace| >= 1 && r.trace[0] == PasswordLoginRequested(userName, password)
  {
    BaseLogin(userName, password, Some(""), cache, provider, env)
  }

  /** `LoginFromRefreshToken(refreshToken)`: a login with empty credentials
      and the given refresh token. */
  function LoginFromRefreshToken(refreshToken: NullableString, cache: Cache, provider: Provider, env: Env): (r: Run<TokenResponse>)
    ensures |r.trace| >= 1
    ensures !IsNullOrEmpty(refreshToken) ==> r.trace[0] == RefreshLoginRequested(refreshToken.value)
  {
    BaseLogin("", "", refreshToken, cache, provider, env)
  }

  /** Exactly one login request is made, by password exactly when the refresh
      token is empty. */
  lemma {:induction false} OneLoginRequest(userName: string, password: string, refreshToken: NullableString,
                                           cache: Cache, provider: Provider, env: Env)
    ensures var r := BaseLogin(userName, password, refreshToken, cache, provider, env);
            && (UsesPassword(refreshToken) <==> r.trace[0].PasswordLoginRequested?)
            && (!UsesPassword(refreshToken) <==> r.trace[0].RefreshLoginRequested?)
            && Count(r.trace, LoginRequest(userName, password, refreshToken)) == 1
  {
    var r := BaseLogin(userName, password, refreshToken, cache, provider, env);
    var request := LoginRequest(userName, password, refreshToken);
    if |r.trace| == 1 {
      CountShort(request, request, request);
      assert r.trace == [request];
    } else {
      CountShort(request, r.trace[1], request);
      assert r.trace == [request, r.trace[1]];
    }
  }

  /** Every return publishes exactly one login event, authenticated exactly
      when the login succeeded, under the given user name; an exception
      publishes none. */
  lemma {:induction false} OneEventPerReturn(userName: string, password: string, refreshToken: NullableString,
                                             cache: Cache, provider: Provider, env: Env)
    ensures var r := BaseLogin(userName, password, refreshToken, cache, provider, env);
            && (r.outcome.Returned? ==>
                  Events(r.trace) == [UserLoggedIn(Some(userName), r.outcome.value.Success?, "")])
            && (r.outcome.Threw? ==> Events(r.trace) == [])
  {
    var r := BaseLogin(userName, password, refreshToken, cache, provider, env);
    var request := LoginRequest(userName, password, refreshToken);
    EventsConcat([request], r.trace[1..]);
    assert [request] + r.trace[1..] == r.trace;
    assert Events([request]) == [];
    if r.outcome.Returned? {
      assert |r.trace| == 2;
      assert Events(r.trace[1..]) == [r.trace[1].event] + Events([]);
    } else {
      assert r.trace[1..] == [];
    }
  }

  /** Reading a login answer succeeds exactly when both lifetimes parse; the
      response then holds the access and refresh tokens as given, each expiry
      is its own clock reading plus its lifetime in seconds, and the subject
      id is read from the access token. */
  lemma ReadLoginMeaning(content: JsonObject, env: Env, t: TokenResponse)
    ensures ReadLogin(content, env) == Success(t) <==>
              && Int32Parse(Field(content, "expires_in")).Success?
              && Int32Parse(Field(content, "refresh_expires_in")).Success?
              && t.token == Field(content, "access_token")
              && t.refreshToken == Field(content, "refresh_token")
              && t.expiredIn == env.now + Int32Parse(Field(content, "expires_in")).value * TicksPerSecond
              && t.refreshExpiredIn == env.refreshNow + Int32Parse(Field(content, "refresh_expires_in")).value * TicksPerSecond
              && t.userId == env.subIdOf(t.token)
  {
    ReadLoginCases(content, env);
    var accessToken := Field(content, "access_token");
    TokenFromParses(Int32Parse(Field(content, "expires_in")), Int32Parse(Field(content, "refresh_expires_in")),
                    ReadLogin(content, env), t, accessToken, Field(content, "refresh_token"),
                    env.now, env.refreshNow, env.subIdOf(accessToken));
  }

  /** The iff of `ReadLoginMeaning` over the two parses taken as given. */
  lemma TokenFromParses(expiresIn: Result<int, Exception>, refreshExpiresIn: Result<int, Exception>,
                        r: Result<TokenResponse, Exception>, t: TokenResponse,
                        accessToken: NullableString, refreshToken: NullableString, now: DateTime,
                        refreshNow: DateTime, userId: Guid)
    requires r == if expiresIn.Success? && refreshExpiresIn.Success? then
                    Success(TokenResponse(accessToken, refreshToken,
                                          AddSeconds(now, expiresIn.value), AddSeconds(refreshNow, refreshExpiresIn.value),
                                          userId))
                  else if expiresIn.Failure? then Failure(expiresIn.error)
                  else Failure(refreshExpiresIn.error)
    ensures r == Success(t) <==>
              && expiresIn.Success? && refreshExpiresIn.Success?
              && t.token == accessToken && t.refreshToken == refreshToken
              && t.expiredIn == now + expiresIn.value * TicksPerSecond
              && t.refreshExpiredIn == refreshNow + refreshExpiresIn.value * TicksPerSecond
              && t.userId == userId
  {
  }

  /** The two outcomes of reading the token response, one step each. */
  lemma ReadLoginCases(content: JsonObject, env: Env)
    ensures var expiresIn := Int32Parse(Field(content, "expires_in"));
            var refreshExpiresIn := Int32Parse(Field(content, "refresh_expires_in"));
            var accessToken := Field(content, "access_token");
            ReadLogin(content, env)
            == if expiresIn.Success? && refreshExpiresIn.Success? then
                 Success(TokenResponse(accessToken, Field(content, "refresh_token"),
                                       AddSeconds(env.now, expiresIn.value), AddSeconds(env.refreshNow, refreshExpiresIn.value),
                                       env.subIdOf(accessToken)))
               else if expiresIn.Failure? then Failure(expiresIn.error)
               else Failure(refreshExpiresIn.error)
  {
  }

  /** A login succeeds exactly when the provider gave an answer that parses
      and reads as a token response with a non-empty subject id, and it
      returns that response. */
  lemma LoginSucceedsExactly(userName: string, password: string, refreshToken: NullableString,
                             cache: Cache, provider: Provider, env: Env, t: TokenResponse)
    ensures var r := BaseLogin(userName, password, refreshToken, cache, provider, env);
            r.outcome == Returned(Success(t)) <==>
              && LoginAnswer(provider, refreshToken).Gave?
              && env.parse(LoginAnswer(provider, refreshToken).value).Success?
              && ReadLogin(env.parse(LoginAnswer(provider, refreshToken).value).value, env) == Success(t)
              && t.userId != EmptyGuid
  {
  }

  /** A login whose access token has no subject id fails with
      `SubIdNotExist`. */
  lemma EmptySubjectRejected(userName: string, password: string, refreshToken: NullableString,
                             cache: Cache, provider: Provider, env: Env)
    requires LoginAnswer(provider, refreshToken).Gave?
    requires env.parse(LoginAnswer(provider, refreshToken).value).Success?
    requires var content := env.parse(LoginAnswer(provider, refreshToken).value).value;
             && ReadLogin(content, env).Success?
             && env.subIdOf(Field(content, "access_token")) == EmptyGuid
    ensures BaseLogin(userName, password, refreshToken, cache, provider, env).outcome
            == Returned(Failure(SubIdNotExist))
  {
  }

  /** A refresh-token login with an empty token is a password login with
      empty credentials. */
  lemma EmptyRefreshTokenUsesPassword(cache: Cache, provider: Provider, env: Env)
    ensures LoginFromRefreshToken(Some(""), cache, provider, env).trace[0] == PasswordLoginRequested("", "")
    ensures LoginFromRefreshToken(None, cache, provider, env) == Login("", "", cache, provider, env)
  {
  }

  // ---------------------------------------------------------------------
  // CreateUser
  // ---------------------------------------------------------------------

  /** `CreateUser(username, email, firstName, lastName, password)`. */
  function CreateUser(userName: string, email: string, firstName: string, lastName: string, password: string,
                      cache: Cache, provider: Provider, env: Env): (r: Run<TokenResponse>)
    ensures |r.trace| >= 1 && r.trace[0] == UserNameChecked(userName)
    ensures r.outcome.Returned? && r.outcome.value.Failure? ==>
              r.outcome.value.error in {UserNameAlreadyExist, InvalidAdminToken, InvalidUserNameOrPassword, SubIdNotExist}
  {
    var checked := [UserNameChecked(userName)];
    match provider.userNameExists
    case Raised(ex) => Run(Threw(ex), cache, checked)
    case Gave(true) => Run(Returned(Failure(UserNameAlreadyExist)), cache, checked)
    case _ =>
      var admin := GetAdminAccessToken(cache, provider, env);
      var fetched := checked + admin.trace;
      match admin.outcome
      case Threw(ex) => Run(Threw(ex), admin.cache, fetched)
      case Returned(Failure(_)) => Run(Returned(Failure(InvalidAdminToken)), admin.cache, fetched)
      case Returned(Success(_)) =>
        var created := fetched + [UserCreationRequested(userName, email, firstName, lastName, password)];
        match provider.createUser
        case Raised(ex) => Run(Threw(ex), admin.cache, created)
        case Refused => Run(Returned(Failure(InvalidUserNameOrPassword)), admin.cache, created)
        case Gave(_) =>
          var login := Login(userName, password, admin.cache, provider, env);
          Run(login.outcome, login.cache, created + login.trace)
  }

  /** A user name the provider reports as taken stops the flow before the
      admin token is asked for. */
  lemma TakenUserNameStopsEarly(userName: string, email: string, firstName: string, lastName: string, password: string,
                                cache: Cache, provider: Provider, env: Env)
    requires provider.userNameExists == Gave(true)
    ensures CreateUser(userName, email, firstName, lastName, password, cache, provider, env)
            == Run(Returned(Failure(UserNameAlreadyExist)), cache, [UserNameChecked(userName)])
  {
  }

  /** A failed existence check is not a taken name: the flow goes on to the
      admin token. */
  lemma FailedCheckContinues(userName: string, email: string, firstName: string, lastName: string, password: string,
                             cache: Cache, provider: Provider, env: Env)
    requires provider.userNameExists.Refused?
    requires AdminTokenKey !in cache
    ensures CreateUser(userName, email, firstName, lastName, password, cache, provider, env).trace[1] == AdminTokenRequested
  {
  }

  /** The provider is asked to create the user only after the admin token
      was obtained; without it the flow fails with `InvalidAdminToken`, and
      with it the result is the provider's verdict followed by a login. */
  lemma CreationNeedsAdminToken(userName: string, email: string, firstName: string, lastName: string,
                                password: string, cache: Cache, provider: Provider, env: Env)
    requires provider.userNameExists != Gave(true) && !provider.userNameExists.Raised?
    ensures var admin := GetAdminAccessToken(cache, provider, env);
            var r := CreateUser(userName, email, firstName, lastName, password, cache, provider, env);
            var request := UserCreationRequested(userName, email, firstName, lastName, password);
            && (admin.outcome == Returned(Failure(InvalidAdminToken)) ==>
                  r.outcome == Returned(Failure(InvalidAdminToken)) && request !in r.trace)
            && (admin.outcome.Returned? && admin.outcome.value.Success? ==>
                  && request in r.trace
                  && (provider.createUser.Refused? ==> r.outcome == Returned(Failure(InvalidUserNameOrPassword)))
                  && (provider.createUser.Gave? ==>
                        r.outcome == Login(userName, password, admin.cache, provider, env).outcome))
  {
    var admin := GetAdminAccessToken(cache, provider, env);
    var r := CreateUser(userName, email, firstName, lastName, password, cache, provider, env);
    var request := UserCreationRequested(userName, email, firstName, lastName, password);
    if admin.outcome == Returned(Failure(InvalidAdminToken)) {
      assert r.trace == [UserNameChecked(userName)] + admin.trace;
      assert request !in admin.trace;
    } else if admin.outcome.Returned? && admin.outcome.value.Success? {
      var created := [UserNameChecked(userName)] + admin.trace + [request];
      assert created[|created| - 1] == request;
      assert created <= r.trace;
    }
  }
}

=== FILE: base_handler.dfy ===
/**
  `BaseHandler.HandleSafelyAsync`: runs a handler's core operation and decides,
  from the way it completed, whether to return its result, run the rollback,
  rethrow the exception or wrap it in an `ApplicationLayerException`.
 */
module Handlers {
  import opened Wrappers
  import opened Errors
  import opened Exceptions
  import Json

  /** How an operation completed: it returned a value or threw. */
  datatype Completion<R> = Returned(value: R) | Threw(ex: Exception)

  /** The optional `CancellationToken?` passed to the handler. */
  datatype CancellationToken = NoToken | Token(cancellationRequested: bool)

  /** How the supplied rollback delegate completes when it is run. */
  datatype Rollback = RollsBack | RollbackThrows(ex: Exception)

  /** The handler's completion and how many times the rollback was run. */
  datatype Handled<R> = Handled(outcome: Completion<R>, rollbackRuns: nat)

  /** The guard on the first catch clause: an `OperationCanceledException`
      while the token reports a cancellation request. */
  predicate CancelledByToken(ex: Exception, token: CancellationToken) {
    ex.OperationCanceledException? && token == Token(true)
  }

  /** The exception types the generic overload rethrows unchanged. */
  predicate Rethrown(ex: Exception, rethrowNotFound: bool) {
    ex.DomainException? || ex.InfrastructureException? || (rethrowNotFound && ex.NotFoundException?)
  }

  /** Shared body of both overloads; `rethrowNotFound` is the one place they
      differ. `handlerType` is `GetType().FullName` of the concrete handler. */
  function Guard<R>(handlerType: string, core: Completion<R>, token: CancellationToken,
                    rollback: Option<Rollback>, rethrowNotFound: bool): (h: Handled<R>)
    ensures h.rollbackRuns <= 1
    ensures h.rollbackRuns == 1 <==> core.Threw? && CancelledByToken(core.ex, token) && rollback.Some?
    ensures core.Returned? ==> h.outcome == core
    ensures core.Threw? && !CancelledByToken(core.ex, token) && Rethrown(core.ex, rethrowNotFound)
            ==> h.outcome == core
    ensures core.Threw? && !Rethrown(core.ex, rethrowNotFound)
            && !(CancelledByToken(core.ex, token) && rollback.Some? && rollback.value.RollbackThrows?)
            ==> h.outcome == Threw(ApplicationLayerException(NewApplicationError(handlerType, core.ex)))
    ensures core.Threw? && CancelledByToken(core.ex, token) && rollback.Some? && rollback.value.RollbackThrows?
            ==> h.outcome == Threw(rollback.value.ex)
  {
    match core
    case Returned(_) => Handled(core, 0)
    case Threw(ex) =>
      if CancelledByToken(ex, token) then
        match rollback
        case None => Handled(Threw(ApplicationLayerException(NewApplicationError(handlerType, ex))), 0)
        case Some(RollbackThrows(rex)) => Handled(Threw(rex), 1)
        case Some(RollsBack) => Handled(Threw(ApplicationLayerException(NewApplicationError(handlerType, ex))), 1)
      else if Rethrown(ex, rethrowNotFound) then Handled(core, 0)
      else Handled(Threw(ApplicationLayerException(NewApplicationError(handlerType, ex))), 0)
  }

  /** `HandleSafelyAsync(Func<Task<TResult>>, …)`. */
  function HandleSafely<R>(handlerType: string, core: Completion<R>, token: CancellationToken,
                           rollback: Option<Rollback>): (h: Handled<R>)
    ensures core.Threw? && core.ex.NotFoundException? && !CancelledByToken(core.ex, token)
            ==> h == Handled(core, 0)
  {
    Guard(handlerType, core, token, rollback, true)
  }

  /** `HandleSafelyAsync(Func<Task>, …)`: the same rules without the
      `NotFoundException` clause. */
  function HandleSafelyVoid(handlerType: string, core: Completion<()>, token: CancellationToken,
                            rollback: Option<Rollback>): (h: Handled<()>)
    ensures core.Threw? && core.ex.NotFoundException?
            ==> h == Handled(Threw(ApplicationLayerException(NewApplicationError(handlerType, core.ex))), 0)
  {
    Guard(handlerType, core, token, rollback, false)
  }

  /** Unless a rollback itself throws, the only exceptions that leave a handler
      are `ApplicationLayerException` and the three rethrown types; every other
      exception is wrapped with the handler's type name in its code and the
      original message, escaped as the JSON writer escapes it, inside its
      message. */
  lemma OnlyKnownExceptionsEscape<R>(handlerType: string, core: Completion<R>, token: CancellationToken,
                                     rollback: Option<Rollback>)
    requires rollback.None? || rollback == Some(RollsBack)
    ensures var h := HandleSafely(handlerType, core, token, rollback);
            h.outcome.Threw? ==> (h.outcome.ex.ApplicationLayerException? || Rethrown(h.outcome.ex, true))
    ensures var h := HandleSafely(handlerType, core, token, rollback);
            h.outcome.Threw? && h.outcome.ex.ApplicationLayerException? && core.Threw?
            ==> h.outcome.ex.error.code == "ApplicationError." + handlerType
                && Text.Contains(Message(h.outcome.ex), Json.JsonEscape(Message(core.ex)))
                && (Json.PlainText(Message(core.ex)) ==> Text.Contains(Message(h.outcome.ex), Message(core.ex)))
  {
    var h := HandleSafely(handlerType, core, token, rollback);
    if core.Threw? {
      WrappedKeepsMessage(handlerType, core.ex);
    }
  }

  /** The two overloads differ exactly on `NotFoundException`: the generic one
      rethrows it, the other wraps it. */
  lemma NotFoundOnlyRethrownByGeneric(handlerType: string, e: Error, token: CancellationToken,
                                      rollback: Option<Rollback>)
    ensures HandleSafely<()>(handlerType, Threw(NotFoundException(e)), token, rollback).outcome
            == Threw(NotFoundException(e))
    ensures HandleSafelyVoid(handlerType, Threw(NotFoundException(e)), token, rollback).outcome
            == Threw(ApplicationLayerException(NewApplicationError(handlerType, NotFoundException(e))))
  {
  }

  /** An `ApplicationLayerException` is not among the rethrown types, so a
      handler nested inside another has its exception wrapped a second time. */
  lemma NestedHandlersWrapTwice<R>(outer: string, inner: string, ex: Exception)
    requires !ex.OperationCanceledException? && !Rethrown(ex, true)
    ensures var once := HandleSafely<R>(inner, Threw(ex), NoToken, None).outcome;
            && once == Threw(ApplicationLayerException(NewApplicationError(inner, ex)))
            && HandleSafely<R>(outer, once, NoToken, None).outcome
               == Threw(ApplicationLayerException(NewApplicationError(outer, once.ex)))
  {
  }
}

=== FILE: create_peribahasa.dfy ===
/**
  `CreatePeribahasaCommandHandler.Handle`: build the entity, start a
  transaction, insert, commit, and answer with the new id, all inside
  `HandleSafelyAsync`. The collaborators' calls are recorded as a trace.
 */
module CreatePeribahasa {
  import opened Wrappers
  import opened Text
  import opened Primitives
  import opened Errors
  import opened Exceptions
  import Json
  import opened Peribahasas
  import opened Handlers

  datatype Command = Command(
    teks: NullableString, maksud: NullableString, teksTranslation: NullableString,
    maksudTranslation: NullableString, context: NullableString, source: NullableString)

  datatype Response = Response(id: Guid)

  /** One call made on the unit of work or the repository. */
  datatype Effect = StartTransaction(transactionId: Guid) | Insert(entity: Peribahasa) | Commit(entity: Peribahasa)

  /** How each collaborator call completes: `None` when it succeeds, or the
      exception it throws. */
  datatype Collaborators = Collaborators(
    startTransaction: Option<Exception>, insert: Option<Exception>, commit: Option<Exception>)

  const HandlerType: string :=
    "Codecaine.PeribahasaVector.Application.UseCases.Peribahasas.Commands.CreatePeribahasa.CreatePeribahasaCommandHandler"

  /** Every argument of the command is non-blank. */
  predicate ValidCommand(cmd: Command) {
    && !IsNullOrWhiteSpace(cmd.teks) && !IsNullOrWhiteSpace(cmd.maksud)
    && !IsNullOrWhiteSpace(cmd.teksTranslation) && !IsNullOrWhiteSpace(cmd.maksudTranslation)
    && !IsNullOrWhiteSpace(cmd.context) && !IsNullOrWhiteSpace(cmd.source)
  }

  /** The lambda passed to `HandleSafelyAsync`, with the calls it made.
      `entityId` and `transactionId` are the two `Guid.NewGuid()` results. */
  function Core(cmd: Command, entityId: NewGuid, transactionId: NewGuid, collab: Collaborators)
    : (r: (Completion<Result<Response, Error>>, seq<Effect>))
    ensures !ValidCommand(cmd) ==> r.1 == [] && r.0.Threw? && r.0.ex.ArgumentException?
  {
    var created := Create(entityId, cmd.teks, cmd.maksud, cmd.teksTranslation, cmd.maksudTranslation,
                          cmd.context, cmd.source);
    if created.Failure? then (Threw(created.error), [])
    else
      var p := created.value;
      var t1 := [StartTransaction(transactionId)];
      if collab.startTransaction.Some? then (Threw(collab.startTransaction.value), t1)
      else
        var t2 := t1 + [Insert(p)];
        if collab.insert.Some? then (Threw(collab.insert.value), t2)
        else
          var t3 := t2 + [Commit(p)];
          if collab.commit.Some? then (Threw(collab.commit.value), t3)
          else (Returned(Success(Response(p.id))), t3)
  }

  /** `Handle(request, cancellationToken)`. The token is not handed on to
      `HandleSafelyAsync`, and no rollback is supplied. */
  function Handle(cmd: Command, token: CancellationToken, entityId: NewGuid, transactionId: NewGuid,
                  collab: Collaborators): (r: (Handled<Result<Response, Error>>, seq<Effect>))
    // A blank field stops the handler before any call, and the argument exception is wrapped.
    ensures !ValidCommand(cmd) ==>
              && r.1 == [] && r.0.rollbackRuns == 0 && r.0.outcome.Threw?
              && r.0.outcome.ex.ApplicationLayerException?
              && r.0.outcome.ex.error.code == "ApplicationError." + HandlerType
  {
    var core := Core(cmd, entityId, transactionId, collab);
    (HandleSafely(HandlerType, core.0, NoToken, None), core.1)
  }

  /** The happy path: three calls in order, the commit receives the inserted
      entity, and the response carries that entity's non-empty id. */
  lemma HandleHappyPath(cmd: Command, token: CancellationToken, entityId: NewGuid, transactionId: NewGuid)
    requires ValidCommand(cmd)
    ensures var r := Handle(cmd, token, entityId, transactionId, Collaborators(None, None, None));
            && r.0 == Handled(Returned(Success(Response(entityId))), 0)
            && |r.1| == 3 && r.1[0] == StartTransaction(transactionId)
            && r.1[1].Insert? && r.1[2] == Commit(r.1[1].entity)
            && r.1[1].entity.id == entityId != EmptyGuid
            && r.1[1].entity.domainEvents == [PeribahasaCreatedDomainEvent(entityId)]
  {
    ValidCommandCreates(cmd, entityId);
  }

  /** Domain, infrastructure and not-found exceptions from the insert
      propagate unchanged, after two calls. */
  lemma InsertExceptionRethrown(cmd: Command, token: CancellationToken, entityId: NewGuid, transactionId: NewGuid,
                                ex: Exception, commit: Option<Exception>)
    requires ValidCommand(cmd) && Rethrown(ex, true)
    ensures var r := Handle(cmd, token, entityId, transactionId, Collaborators(None, Some(ex), commit));
            r.0.outcome == Threw(ex) && |r.1| == 2 && r.1[1].Insert?
  {
    ValidCommandCreates(cmd, entityId);
  }

  /** Any other exception from the insert, a cancellation included, is
      wrapped without rollback, and its message is kept inside, escaped as
      the JSON writer escapes it. */
  lemma InsertExceptionWrapped(cmd: Command, token: CancellationToken, entityId: NewGuid, transactionId: NewGuid,
                               ex: Exception, commit: Option<Exception>)
    requires ValidCommand(cmd) && !Rethrown(ex, true)
    ensures var r := Handle(cmd, token, entityId, transactionId, Collaborators(None, Some(ex), commit));
            && r.0 == Handled(Threw(ApplicationLayerException(NewApplicationError(HandlerType, ex))), 0)
            && Contains(Message(r.0.outcome.ex), Json.JsonEscape(Message(ex)))
  {
    InsertFailureThrows(cmd, token, entityId, transactionId, ex, commit);
    WrappedKeepsMessage(HandlerType, ex);
  }

  /** The outcome part of `InsertExceptionWrapped`, on its own. */
  lemma InsertFailureThrows(cmd: Command, token: CancellationToken, entityId: NewGuid, transactionId: NewGuid,
                            ex: Exception, commit: Option<Exception>)
    requires ValidCommand(cmd) && !Rethrown(ex, true)
    ensures Handle(cmd, token, entityId, transactionId, Collaborators(None, Some(ex), commit)).0
            == Handled(Threw(ApplicationLayerException(NewApplicationError(HandlerType, ex))), 0)
  {
    InsertFailureInCore(cmd, entityId, transactionId, ex, commit);
    assert HandleSafely<Result<Response, Error>>(HandlerType, Threw(ex), NoToken, None)
           == Handled(Threw(ApplicationLayerException(NewApplicationError(HandlerType, ex))), 0);
  }

  /** An insert that throws ends the core lambda with that exception. */
  lemma InsertFailureInCore(cmd: Command, entityId: NewGuid, transactionId: NewGuid, ex: Exception,
                            commit: Option<Exception>)
    requires ValidCommand(cmd)
    ensures Core(cmd, entityId, transactionId, Collaborators(None, Some(ex), commit)).0 == Threw(ex)
  {
    ValidCommandCreates(cmd, entityId);
  }

  /** A command without blank fields builds an entity with the given id and
      its creation event. */
  lemma ValidCommandCreates(cmd: Command, entityId: NewGuid)
    requires ValidCommand(cmd)
    ensures var created := Create(entityId, cmd.teks, cmd.maksud, cmd.teksTranslation, cmd.maksudTranslation,
                                  cmd.context, cmd.source);
            && created.Success? && created.value.id == entityId
            && created.value.domainEvents == [PeribahasaCreatedDomainEvent(entityId)]
  {
  }

  /** The cancellation token the caller passes has no effect on the outcome. */
  lemma TokenIsIgnored(cmd: Command, t1: CancellationToken, t2: CancellationToken, entityId: NewGuid,
                       transactionId: NewGuid, collab: Collaborators)
    ensures Handle(cmd, t1, entityId, transactionId, collab) == Handle(cmd, t2, entityId, transactionId, collab)
  {
  }
}

=== FILE: ensure.dfy ===
/**
  The `Ensure` guards: each either lets the value through or names the
  offending argument in the exception it throws.
 */
module Guards {
  import opened Wrappers
  import opened Text
  import opened Primitives
  import opened Exceptions

  /** `Ensure.NotEmpty(string, …)`. */
  function NotEmptyString(value: NullableString, message: string, argumentName: string): (r: Outcome<Exception>)
    ensures r.Pass? <==> value.Some? && exists i :: 0 <= i < |value.value| && !IsWhiteSpace(value.value[i])
    ensures r.Fail? ==> r.error == ArgumentException(message, Some(argumentName))
  {
    if IsNullOrWhiteSpace(value) then Fail(ArgumentException(message, Some(argumentName))) else Pass
  }

  /** `Ensure.NotEmpty(Guid, …)`. */
  function NotEmptyGuid(value: Guid, message: string, argumentName: string): (r: Outcome<Exception>)
    ensures r.Pass? <==> value > 0
    ensures r.Fail? ==> r.error == ArgumentException(message, Some(argumentName))
  {
    if value == EmptyGuid then Fail(ArgumentException(message, Some(argumentName))) else Pass
  }

  /** `Ensure.NotEmpty(DateTime, …)`. */
  function NotEmptyDateTime(value: DateTime, message: string, argumentName: string): (r: Outcome<Exception>)
    ensures r.Pass? <==> value != 0
    ensures r.Fail? ==> r.error == ArgumentException(message, Some(argumentName))
  {
    if value == DefaultDateTime then Fail(ArgumentException(message, Some(argumentName))) else Pass
  }

  /** `Ensure.NotNull`. Note the argument order of `ArgumentNullException`:
      parameter name first, then message. */
  function NotNull<T>(value: Option<T>, message: string, argumentName: string): (r: Outcome<Exception>)
    ensures r.Pass? <==> value.Some?
    ensures r.Fail? ==> r.error == ArgumentNullException(Some(argumentName), message)
  {
    if value.None? then Fail(ArgumentNullException(Some(argumentName), message)) else Pass
  }

  /** `Ensure.Null`: the converse of `NotNull`, throwing the same exception type. */
  function Null<T>(value: Option<T>, message: string, argumentName: string): (r: Outcome<Exception>)
    ensures r.Pass? <==> value.None?
    ensures r.Fail? ==> r.error == ArgumentNullException(Some(argumentName), message)
  {
    if value.Some? then Fail(ArgumentNullException(Some(argumentName), message)) else Pass
  }

  /** `Ensure.NotInvalidEnum`: `declared` holds the values `Enum.IsDefined`
      accepts for the enum type. */
  function NotInvalidEnum(value: int, declared: set<int>, message: string, argumentName: string): (r: Outcome<Exception>)
    ensures r.Pass? <==> value in declared
    ensures r.Fail? ==> r.error == ArgumentException(message, Some(argumentName))
  {
    if !(value in declared) then Fail(ArgumentException(message, Some(argumentName))) else Pass
  }

  /** `NotNull` and `Null` reject exactly complementary inputs, and every guard
      that fails names its argument in the exception message. */
  lemma GuardsNameTheArgument<T>(value: Option<T>, s: NullableString, message: string, argumentName: string)
    requires argumentName != ""
    ensures NotNull(value, message, argumentName).Pass? != Null(value, message, argumentName).Pass?
    ensures NotEmptyString(s, message, argumentName).Fail?
            ==> Contains(Message(NotEmptyString(s, message, argumentName).error), argumentName)
    ensures Contains(Message(NotNull<T>(None, message, argumentName).error), argumentName)
  {
    ArgumentMessageNamesParameter(message, argumentName);
  }
}

=== FILE: entities.dfy ===
/**
  Entities as the query layer sees them: an `Id` plus named scalar
  properties, and the type's schema that says which properties exist and of
  which kind. This is what filters read, what dynamic ordering sorts on and
  what the repositories store.
 */
module Entities {
  import opened Wrappers
  import opened Text
  import opened Primitives

  /** A property value: a 32-bit integer, a string or a `Guid`. */
  datatype Value = IntValue(n: int) | TextValue(s: string) | GuidValue(g: Guid)

  /** The CLR type of a property. */
  datatype Kind = IntKind | TextKind | GuidKind

  function KindOf(v: Value): Kind {
    match v
    case IntValue(_) => IntKind
    case TextValue(_) => TextKind
    case GuidValue(_) => GuidKind
  }

  /** An entity: its `Id` and the values of its other properties. */
  datatype Entity = Entity(id: Guid, fields: map<string, Value>)

  /** A public instance property of an entity type. */
  datatype PropertyInfo = PropertyInfo(name: string, kind: Kind)

  /** The properties of an entity type, in declaration order. */
  type Schema = seq<PropertyInfo>

  const IdProperty: string := "Id"

  /** Every entity type derives from `Entity` and so has a `Guid` `Id`; no two
      of its property names differ only in letter case (which would make a
      by-name lookup ambiguous). */
  predicate WellFormedSchema(schema: Schema) {
    && PropertyInfo(IdProperty, GuidKind) in schema
    && forall i, j :: 0 <= i < j < |schema| ==> !EqualsIgnoreCase(schema[i].name, schema[j].name)
  }

  /** `e` is an instance of the entity type described by `schema`. */
  predicate Conforms(e: Entity, schema: Schema) {
    && WellFormedSchema(schema)
    && forall i :: 0 <= i < |schema| && schema[i].name != IdProperty ==>
         schema[i].name in e.fields && KindOf(e.fields[schema[i].name]) == schema[i].kind
  }

  /** `Type.GetProperty(name, BindingFlags.IgnoreCase | ...)`, the lookup
      `Expression.Property` performs: the property whose name equals `name`
      ignoring case. */
  function FindProperty(schema: Schema, name: string): (r: Option<PropertyInfo>)
    ensures r.Some? ==> r.value in schema && EqualsIgnoreCase(r.value.name, name)
    ensures r.None? <==> forall i :: 0 <= i < |schema| ==> !EqualsIgnoreCase(schema[i].name, name)
  {
    if |schema| == 0 then None
    else if EqualsIgnoreCase(schema[0].name, name) then Some(schema[0])
    else FindProperty(schema[1..], name)
  }

  /** In a well-formed schema the lookup finds the one property of that name,
      whatever the case in which the name is written. */
  lemma FindPropertyUnique(schema: Schema, name: string, k: nat)
    requires WellFormedSchema(schema)
    requires k < |schema| && EqualsIgnoreCase(schema[k].name, name)
    ensures FindProperty(schema, name) == Some(schema[k])
  {
    var r := FindProperty(schema, name);
    var i :| 0 <= i < |schema| && schema[i] == r.value;
  }

  /** Reading property `name` of `e`; `None` when there is no such property. */
  function Property(e: Entity, name: string): (r: Option<Value>)
    ensures name == IdProperty ==> r == Some(GuidValue(e.id))
  {
    if name == IdProperty then Some(GuidValue(e.id))
    else if name in e.fields then Some(e.fields[name])
    else None
  }

  /** Every property the schema declares can be read from a conforming entity,
      and its value has the declared kind. */
  lemma PropertyOfConforming(e: Entity, schema: Schema, p: PropertyInfo)
    requires Conforms(e, schema)
    requires p in schema
    ensures Property(e, p.name).Some?
    ensures KindOf(Property(e, p.name).value) == p.kind
  {
    var i :| 0 <= i < |schema| && schema[i] == p;
    if p.name == IdProperty {
      var j :| 0 <= j < |schema| && schema[j] == PropertyInfo(IdProperty, GuidKind);
    }
  }

  /** `ToString()` of a property value. A `Guid` is rendered by its number;
      the filters that call `ToString()` never reach a `Guid` property (its
      value conversion fails first), so its exact format plays no part. */
  function ValueToString(v: Value): string {
    match v
    case IntValue(n) => IntToString(n)
    case TextValue(s) => s
    case GuidValue(g) => NatToString(g)
  }

  /** Ordinal lexicographic order on strings. */
  predicate StringLess(a: string, b: string)
    decreases |a|
  {
    if |a| == 0 then |b| > 0
    else if |b| == 0 then false
    else if a[0] != b[0] then a[0] < b[0]
    else StringLess(a[1..], b[1..])
  }

  function KindRank(k: Kind): nat {
    match k
    case IntKind => 0
    case TextKind => 1
    case GuidKind => 2
  }

  /** The order a sort key follows: numbers and `Guid`s numerically, strings
      ordinally; values of different kinds (which never meet in one column)
      by kind. */
  predicate ValueLess(a: Value, b: Value) {
    if KindOf(a) != KindOf(b) then KindRank(KindOf(a)) < KindRank(KindOf(b))
    else match a
      case IntValue(x) => x < b.n
      case TextValue(x) => StringLess(x, b.s)
      case GuidValue(x) => x < b.g
  }

  lemma {:induction false} StringLessIrreflexive(a: string)
    ensures !StringLess(a, a)
    decreases |a|
  {
    if |a| > 0 {
      StringLessIrreflexive(a[1..]);
    }
  }

  lemma {:induction false} StringLessTransitive(a: string, b: string, c: string)
    requires StringLess(a, b) && StringLess(b, c)
    ensures StringLess(a, c)
    decreases |a|
  {
    if |a| > 0 && a[0] == b[0] && b[0] == c[0] {
      StringLessTransitive(a[1..], b[1..], c[1..]);
    }
  }

  lemma {:induction false} StringLessTotal(a: string, b: string)
    ensures a == b || StringLess(a, b) || StringLess(b, a)
    decreases |a|
  {
    if |a| > 0 && |b| > 0 && a[0] == b[0] {
      StringLessTotal(a[1..], b[1..]);
      if a[1..] == b[1..] {
        assert a == [a[0]] + a[1..] && b == [b[0]] + b[1..];
      }
    }
  }

  /** `ValueLess` is a strict total order. */
  lemma ValueLessStrictTotal(a: Value, b: Value, c: Value)
    ensures !ValueLess(a, a)
    ensures ValueLess(a, b) && ValueLess(b, c) ==> ValueLess(a, c)
    ensures a == b || ValueLess(a, b) || ValueLess(b, a)
  {
    if a.TextValue? {
      StringLessIrreflexive(a.s);
      if b.TextValue? {
        StringLessTotal(a.s, b.s);
        if c.TextValue? && ValueLess(a, b) && ValueLess(b, c) {
          StringLessTransitive(a.s, b.s, c.s);
        }
      }
    }
  }
}

=== FILE: errors.dfy ===
/**
  `Error`: a value object made of a code and a message, the catalogues of
  general and authentication errors, and the two derived error kinds whose
  code carries a prefix.
 */
module Errors {
  import opened Wrappers
  import opened ValueObjects

  /** The runtime class of an error: `Error` itself or one of its subclasses. */
  datatype ErrorKind = PlainError | ApplicationErrorKind | InfrastructureErrorKind

  datatype Error = Error(code: string, message: string, kind: ErrorKind)

  /** `new Error(code, message)`. */
  function NewError(code: string, message: string): Error {
    Error(code, message, PlainError)
  }

  function RuntimeType(k: ErrorKind): string {
    match k
    case PlainError => "Codecaine.Common.Primitives.Errors.Error"
    case ApplicationErrorKind => "Codecaine.Common.Primitives.Errors.ApplicationError"
    case InfrastructureErrorKind => "Codecaine.Common.Primitives.Errors.InfrastructureError"
  }

  /** The atomic values of an error: its code, then its message. */
  function AsValueObject(e: Error): ValueObject {
    ValueObject(RuntimeType(e.kind), [Str(e.code), Str(e.message)])
  }

  /** The `==` operator on (possibly null) errors. */
  function ErrorEquals(a: Option<Error>, b: Option<Error>): bool {
    OpEquals(ToValueObject(a), ToValueObject(b))
  }

  function ToValueObject(e: Option<Error>): Option<ValueObject> {
    match e
    case None => None
    case Some(x) => Some(AsValueObject(x))
  }

  /** Two errors are equal under `==` iff both are null or their codes and
      their messages are equal; the error kind plays no part. */
  lemma ErrorEqualsIffFields(a: Option<Error>, b: Option<Error>)
    ensures ErrorEquals(a, b) <==>
            (a.None? && b.None?)
            || (a.Some? && b.Some? && a.value.code == b.value.code && a.value.message == b.value.message)
  {
    if a.Some? && b.Some? {
      var sa := AsValueObject(a.value).atoms;
      var sb := AsValueObject(b.value).atoms;
      if sa == sb {
        assert sa[0] == sb[0] && sa[1] == sb[1];
      }
    }
  }

  /** `Equals(object)` also compares runtime types, so an `Error` and an
      `ApplicationError` with the same code and message are `==` but not
      `Equals`. */
  lemma PlainAndApplicationErrorDiffer(code: string, message: string)
    ensures ErrorEquals(Some(NewError(code, message)), Some(Error(code, message, ApplicationErrorKind)))
    ensures !EqualsObject(AsValueObject(NewError(code, message)),
                          Some(VO(AsValueObject(Error(code, message, ApplicationErrorKind)))))
  {
    ErrorEqualsIffFields(Some(NewError(code, message)), Some(Error(code, message, ApplicationErrorKind)));
    assert RuntimeType(PlainError) != RuntimeType(ApplicationErrorKind) by {
      assert RuntimeType(PlainError)[36] != RuntimeType(ApplicationErrorKind)[36];
    }
  }

  /** The implicit conversion to `string`: the code, or "" for a null error. */
  function ToCodeString(e: Option<Error>): (s: string)
    ensures e.Some? ==> s == e.value.code
    ensures e.None? ==> s == ""
  {
    match e
    case None => ""
    case Some(x) => x.code
  }

  /** `Error.None`. */
  const NoError: Error := NewError("", "")

  /** `Error.None` and a null error both convert to the empty string, and
      `Error.None` equals every error whose code and message are empty. */
  lemma NoErrorProperties(e: Error)
    ensures ToCodeString(Some(NoError)) == ToCodeString(None) == ""
    ensures ErrorEquals(Some(NoError), Some(e)) <==> e.code == "" && e.message == ""
  {
    ErrorEqualsIffFields(Some(NoError), Some(e));
  }

  // General errors.

  const UnProcessableRequest: Error :=
    NewError("General.UnProcessableRequest", "The server could not process the request.")
  const ServerError: Error :=
    NewError("General.ServerError", "The server encountered an unrecoverable error.")

  // Authentication errors (`AuthenticationError`).

  const InvalidUserNameOrPassword: Error :=
    NewError("Authentication.InvalidUserNameOrPassword", "The specified username or password are incorrect.")
  const InvalidAdminToken: Error :=
    NewError("Authentication.InvalidAdminToken", "The specified token is incorrect.")
  const SubIdNotExist: Error :=
    NewError("Authentication.SubIdNotExist", "Token SubId is not valid")
  const UserNameAlreadyExist: Error :=
    NewError("Authentication.UserNameAlreadyExist", "The specified username already exist.")
  const UnauthorizedUser: Error :=
    NewError("Authentication.UnauthorizedUser", "User is not Authenticate.")
}

=== FILE: exception_middleware.dfy ===
/**
  `ExceptionHandlerMiddleware`: the mapping from an unhandled exception to an
  HTTP status code and the list of errors written in the JSON response.
 */
module ExceptionMiddleware {
  import opened Wrappers
  import opened Errors
  import opened Exceptions

  const BadRequest: int := 400
  const Unauthorized: int := 401
  const NotFound: int := 404
  const InternalServerError: int := 500

  /** What `HandleExceptionAsync` writes: the content type, the status code and
      the errors of the `ErrorResponse` body (`None` models a null list). */
  datatype Response = Response(contentType: string, statusCode: int, errors: Option<seq<Error>>)

  /** `GetHttpStatusCodeAndErrors`: the first matching case in declaration order. */
  function StatusCodeAndErrors(ex: Exception): (r: (int, Option<seq<Error>>))
    ensures r.0 in {BadRequest, Unauthorized, NotFound, InternalServerError}
    ensures ex.ValidationException? ==> r == (BadRequest, ex.errors)
    ensures !ex.ValidationException? ==> r.1.Some? && |r.1.value| == 1
  {
    match ex
    case ValidationException(errors, _, _) => (BadRequest, errors)
    case DomainException(e) => (BadRequest, Some([e]))
    case ArgumentException(_, _) =>
      (BadRequest, Some([NewError(ToCodeString(Some(UnProcessableRequest)), Message(ex))]))
    case ArgumentNullException(_, _) =>
      (BadRequest, Some([NewError(ToCodeString(Some(UnProcessableRequest)), Message(ex))]))
    case ArgumentOutOfRangeException(_, _) =>
      (BadRequest, Some([NewError(ToCodeString(Some(UnProcessableRequest)), Message(ex))]))
    case AuthenticationException(_) => (Unauthorized, Some([UnauthorizedUser]))
    case ApplicationLayerException(e) => (InternalServerError, Some([e]))
    case InfrastructureException(e) => (InternalServerError, Some([e]))
    case NotFoundException(e) => (NotFound, Some([e]))
    case CommonLibraryException(e) => (InternalServerError, Some([e]))
    case _ => (InternalServerError, Some([ServerError]))
  }

  /** Each status code is chosen by exactly these exception types, and the
      single error reported is the one the exception carries, the fixed
      authentication error, or the general server error. */
  lemma StatusCodeByType(ex: Exception)
    ensures StatusCodeAndErrors(ex).0 == BadRequest
            <==> ex.ValidationException? || ex.DomainException? || IsArgumentException(ex)
    ensures StatusCodeAndErrors(ex).0 == Unauthorized <==> ex.AuthenticationException?
    ensures StatusCodeAndErrors(ex).0 == NotFound <==> ex.NotFoundException?
    ensures StatusCodeAndErrors(ex).0 == InternalServerError
            <==> ex.ApplicationLayerException? || ex.InfrastructureException? || ex.CommonLibraryException?
                 || ex.InvalidOperationException? || ex.NotImplementedException?
                 || ex.OperationCanceledException? || ex.TimeoutRejectedException? || ex.OtherException?
    ensures (ex.DomainException? || ex.ApplicationLayerException? || ex.InfrastructureException?
             || ex.NotFoundException? || ex.CommonLibraryException?)
            ==> StatusCodeAndErrors(ex).1 == Some([ex.error])
    ensures IsArgumentException(ex)
            ==> StatusCodeAndErrors(ex).1 == Some([NewError("General.UnProcessableRequest", Message(ex))])
  {
  }

  /** A `ValidationException` built from a single error reports a null error
      list. */
  lemma SingleErrorValidationHasNullErrors(e: Error)
    ensures StatusCodeAndErrors(ValidationFromError(e)) == (BadRequest, None)
  {
  }

  /** `HandleExceptionAsync`. */
  function HandleException(ex: Exception): (resp: Response)
    ensures resp.contentType == "application/json"
    ensures (resp.statusCode, resp.errors) == StatusCodeAndErrors(ex)
  {
    var (status, errors) := StatusCodeAndErrors(ex);
    Response("application/json", status, errors)
  }
}

=== FILE: exceptions.dfy ===
/**
  The exceptions the core throws and classifies, with the `Message` each one
  reports and the JSON rendering used when one is wrapped in an
  `ApplicationError`.
 */
module Exceptions {
  import opened Wrappers
  import opened Text
  import opened Errors
  import opened Json

  datatype Exception =
    | ArgumentException(text: string, paramName: NullableString)
    | ArgumentNullException(paramName: NullableString, text: string)
    | ArgumentOutOfRangeException(paramName: NullableString, text: string)
    | InvalidOperationException(text: string)
    | NotImplementedException(text: string)
    | OperationCanceledException(text: string)
    | TimeoutRejectedException(text: string)
    | AuthenticationException(text: string)
      /** `errors` is null unless built from validation failures; `single` is
          null unless built from a single error. */
    | ValidationException(errors: Option<seq<Error>>, single: Option<Error>, text: string)
    | DomainException(error: Error)
    | ApplicationLayerException(error: Error)
    | InfrastructureException(error: Error)
    | NotFoundException(error: Error)
    | CommonLibraryException(error: Error)
    | OtherException(typeName: string, text: string)

  /** `ArgumentNullException` and `ArgumentOutOfRangeException` derive from
      `ArgumentException`. */
  predicate IsArgumentException(ex: Exception) {
    ex.ArgumentException? || ex.ArgumentNullException? || ex.ArgumentOutOfRangeException?
  }

  /** The suffix .NET appends to an argument exception's message when a
      parameter name is present. */
  function WithParamName(text: string, paramName: NullableString): string {
    if IsNullOrEmpty(paramName) then text else text + " (Parameter '" + paramName.value + "')"
  }

  /** `Exception.Message`. */
  function Message(ex: Exception): string {
    match ex
    case ArgumentException(t, p) => WithParamName(t, p)
    case ArgumentNullException(p, t) => WithParamName(t, p)
    case ArgumentOutOfRangeException(p, t) => WithParamName(t, p)
    case InvalidOperationException(t) => t
    case NotImplementedException(t) => t
    case OperationCanceledException(t) => t
    case TimeoutRejectedException(t) => t
    case AuthenticationException(t) => t
    case ValidationException(_, _, t) => t
    case DomainException(e) => e.message
    case ApplicationLayerException(e) => e.message
    case InfrastructureException(e) => e.message
    case NotFoundException(e) => e.message
    case CommonLibraryException(e) => e.message
    case OtherException(_, t) => t
  }

  /** The message of an argument exception names its parameter. */
  lemma ArgumentMessageNamesParameter(text: string, paramName: string)
    requires paramName != ""
    ensures Contains(Message(ArgumentException(text, Some(paramName))), paramName)
    ensures Contains(Message(ArgumentNullException(Some(paramName), text)), paramName)
  {
    var m := Message(ArgumentException(text, Some(paramName)));
    assert m == (text + " (Parameter '") + paramName + "')";
    ContainsSelfSuffix(text + " (Parameter '", paramName, "')");
  }

  /** `new ValidationException(error)`: one error, no `Errors` list. */
  function ValidationFromError(e: Error): (ex: Exception)
    ensures ex.ValidationException? && ex.errors.None? && Message(ex) == e.message
  {
    ValidationException(None, Some(e), e.message)
  }

  /** `new ValidationException(failures)`: a list of errors and a fixed
      message. */
  function ValidationFromFailures(errors: seq<Error>): (ex: Exception)
    ensures ex.ValidationException? && ex.errors == Some(errors) && ex.single.None?
  {
    ValidationException(Some(errors), None, "One or more validation failures has occurred.")
  }

  /** `GetType().FullName`. */
  function FullName(ex: Exception): string {
    match ex
    case ArgumentException(_, _) => "System.ArgumentException"
    case ArgumentNullException(_, _) => "System.ArgumentNullException"
    case ArgumentOutOfRangeException(_, _) => "System.ArgumentOutOfRangeException"
    case InvalidOperationException(_) => "System.InvalidOperationException"
    case NotImplementedException(_) => "System.NotImplementedException"
    case OperationCanceledException(_) => "System.OperationCanceledException"
    case TimeoutRejectedException(_) => "Polly.Timeout.TimeoutRejectedException"
    case AuthenticationException(_) => "System.Security.Authentication.AuthenticationException"
    case ValidationException(_, _, _) => "Codecaine.Common.Exceptions.ValidationException"
    case DomainException(_) => "Codecaine.Common.Exceptions.DomainException"
    case ApplicationLayerException(_) => "Codecaine.Common.Exceptions.ApplicationLayerException"
    case InfrastructureException(_) => "Codecaine.Common.Exceptions.InfrastructureException"
    case NotFoundException(_) => "Codecaine.Common.Exceptions.NotFoundException"
    case CommonLibraryException(_) => "Codecaine.Common.Exceptions.CommonLibraryException"
    case OtherException(t, _) => t
  }

  /** `Environment.NewLine` on the platforms the services are deployed to,
      which the indented writer puts between members. */
  const NewLine: string := "\n"

  /** A JSON string value: the escaped text between quotes. */
  function Quoted(s: string): string {
    "\"" + JsonEscape(s) + "\""
  }

  /** The indented object up to the `Message` value: the opening brace,
      the `Type` member and the `Message` member's name, each member on its
      own line indented by two spaces. */
  function Opening(typeName: string): string {
    "{" + NewLine + "  \"Type\": " + Quoted(typeName) + "," + NewLine + "  \"Message\": "
  }

  const Closing: string := NewLine + "}"

  /** The indented object with the members `Type` and `Message`. */
  function Render(typeName: string, message: string): string {
    Opening(typeName) + Quoted(message) + Closing
  }

  /** `ex.ToJsonString()`, written indented, reduced to its first two
      members: the type name and the message. */
  function ToJsonString(ex: Exception): string {
    Render(FullName(ex), Message(ex))
  }

  /** The JSON rendering carries the message as a quoted JSON string whose
      body reads back as the original text; the message appears verbatim
      when it holds no character the writer escapes, and a message with an
      apostrophe (as every argument exception with a parameter name has) is
      not found verbatim in its rendering. */
  lemma JsonCarriesMessage(ex: Exception)
    ensures Contains(ToJsonString(ex), Quoted(Message(ex)))
    ensures JsonUnescape(JsonEscape(Message(ex))) == Some(Message(ex))
    ensures PlainText(Message(ex)) ==> Contains(ToJsonString(ex), Message(ex))
    ensures '\'' in Message(ex) ==> !Contains(ToJsonString(ex), Message(ex))
  {
    var m := Message(ex);
    RenderCarries(FullName(ex), m);
    JsonUnescapeEscape(m);
    QuotedContains(ToJsonString(ex), m);
    if '\'' in m {
      NoApostropheInRendering(FullName(ex), m);
      ApostropheNotContained(ToJsonString(ex), m);
    }
  }

  lemma RenderCarries(typeName: string, message: string)
    ensures Contains(Render(typeName, message), Quoted(message))
  {
    ContainsSelfSuffix(Opening(typeName), Quoted(message), Closing);
  }

  /** The rendering holds no apostrophe: the framing has none and the
      writer escapes every one in the values. */
  lemma NoApostropheInRendering(typeName: string, message: string)
    ensures '\'' !in Render(typeName, message)
  {
    JsonEscapeOmits(typeName, '\'');
    JsonEscapeOmits(message, '\'');
  }

  lemma ApostropheNotContained(haystack: string, needle: string)
    requires '\'' !in haystack && '\'' in needle
    ensures !Contains(haystack, needle)
  {
  }

  /** `new ApplicationError(code, ex)`. */
  function NewApplicationError(code: string, ex: Exception): Error {
    Error("ApplicationError." + code, ToJsonString(ex), ApplicationErrorKind)
  }

  /** `new InfrastructureError(code, ex)`. */
  function NewInfrastructureError(code: string, ex: Exception): Error {
    Error("InfrastructureError." + code, ToJsonString(ex), InfrastructureErrorKind)
  }

  /** Wrapping an exception in an `ApplicationLayerException` keeps the
      original message, escaped as the JSON writer escapes it, inside the new
      one (verbatim when it needs no escaping), and the code is the type name
      with the "ApplicationError." prefix. */
  lemma WrappedKeepsMessage(typeName: string, ex: Exception)
    ensures var w := ApplicationLayerException(NewApplicationError(typeName, ex));
            && Contains(Message(w), JsonEscape(Message(ex)))
            && (PlainText(Message(ex)) ==> Contains(Message(w), Message(ex)))
            && w.error.code == "ApplicationError." + typeName
            && w.error.kind == ApplicationErrorKind
  {
    var w := ApplicationLayerException(NewApplicationError(typeName, ex));
    var m := Message(ex);
    assert Message(w) == Render(FullName(ex), m);
    RenderCarries(FullName(ex), m);
    QuotedContains(Message(w), m);
  }

  /** A text holding a quoted JSON string holds its escaped body, and the
      plain text itself when nothing needed escaping. */
  lemma QuotedContains(haystack: string, m: string)
    requires Contains(haystack, Quoted(m))
    ensures Contains(haystack, JsonEscape(m))
    ensures PlainText(m) ==> Contains(haystack, m)
  {
    ContainsInfix(haystack, "\"", JsonEscape(m), "\"");
    if PlainText(m) {
      JsonEscapeUnchanged(m);
    }
  }

  /** The message of a `Guid.Empty` guard failure names its parameter in
      quotes, so its wrapped form does not contain it verbatim. */
  lemma WrappedArgumentMessageEscaped(typeName: string, text: string, paramName: string)
    requires paramName != ""
    ensures var ex := ArgumentException(text, Some(paramName));
            !Contains(Message(ApplicationLayerException(NewApplicationError(typeName, ex))), Message(ex))
  {
    var ex := ArgumentException(text, Some(paramName));
    assert Message(ex) == text + " (Parameter '" + paramName + "')";
    assert Message(ex)[|text| + 12] == '\'';
    JsonCarriesMessage(ex);
  }
}

=== FILE: expression_extensions.dfy ===
/**
  The `AndAlso` and `OrElse` extension methods that the And/Or
  specifications use to join two predicates: a new lambda over a fresh
  parameter whose body invokes both operands on it.
 */
module ExpressionExtensions {
  import opened Wrappers
  import opened Entities
  import opened Predicates

  /** `left.AndAlso(right)`; `parameter` is the one `Expression.Parameter`
      creates. */
  function LambdaAndAlso(left: Lambda, right: Lambda, parameter: ParamId): (r: Lambda)
    ensures r.param == parameter
    ensures Closed(left) && Closed(right) ==> Closed(r)
  {
    var body := AndAlso(Invoke(left, parameter), Invoke(right, parameter));
    assert Free(body) == Free(Invoke(left, parameter)) + Free(Invoke(right, parameter));
    Lambda(parameter, body)
  }

  /** `left.OrElse(right)`. */
  function LambdaOrElse(left: Lambda, right: Lambda, parameter: ParamId): (r: Lambda)
    ensures r.param == parameter
    ensures Closed(left) && Closed(right) ==> Closed(r)
  {
    var body := OrElse(Invoke(left, parameter), Invoke(right, parameter));
    assert Free(body) == Free(Invoke(left, parameter)) + Free(Invoke(right, parameter));
    Lambda(parameter, body)
  }

  /** The conjunction evaluates to `left(x) && right(x)`, `right` only being
      consulted when `left(x)` is true; which parameter is fresh does not
      matter. */
  lemma AndAlsoMeaning(left: Lambda, right: Lambda, parameter: ParamId, x: Entity, oracle: Oracle)
    requires Closed(left) && Closed(right)
    ensures Apply(LambdaAndAlso(left, right, parameter), x, oracle)
            == AndThen(Apply(left, x, oracle), Apply(right, x, oracle))
    ensures Apply(left, x, oracle) == Some(false) ==> Apply(LambdaAndAlso(left, right, parameter), x, oracle) == Some(false)
    ensures Apply(left, x, oracle) == Some(true) ==> Apply(LambdaAndAlso(left, right, parameter), x, oracle) == Apply(right, x, oracle)
  {
    var env := map[parameter := x];
    ClosedIgnoresEnvironment(left, env, x, oracle);
    ClosedIgnoresEnvironment(right, env, x, oracle);
    assert Eval(Invoke(left, parameter), env, oracle) == Apply(left, x, oracle);
    assert Eval(Invoke(right, parameter), env, oracle) == Apply(right, x, oracle);
  }

  /** The disjunction evaluates to `left(x) || right(x)`, `right` only being
      consulted when `left(x)` is false. */
  lemma OrElseMeaning(left: Lambda, right: Lambda, parameter: ParamId, x: Entity, oracle: Oracle)
    requires Closed(left) && Closed(right)
    ensures Apply(LambdaOrElse(left, right, parameter), x, oracle)
            == OrThen(Apply(left, x, oracle), Apply(right, x, oracle))
    ensures Apply(left, x, oracle) == Some(true) ==> Apply(LambdaOrElse(left, right, parameter), x, oracle) == Some(true)
    ensures Apply(left, x, oracle) == Some(false) ==> Apply(LambdaOrElse(left, right, parameter), x, oracle) == Apply(right, x, oracle)
  {
    var env := map[parameter := x];
    ClosedIgnoresEnvironment(left, env, x, oracle);
    ClosedIgnoresEnvironment(right, env, x, oracle);
    assert Eval(Invoke(left, parameter), env, oracle) == Apply(left, x, oracle);
    assert Eval(Invoke(right, parameter), env, oracle) == Apply(right, x, oracle);
  }
}

=== FILE: filter_list_extensions.dfy ===
/**
  `LinqFilterListExtensions.CombineAnd` and `CombineOr`: folding a list of
  filters into one lambda. The empty list gives `x => true` for both, a
  single filter is returned as it is, and longer lists are folded from the
  left, each step rebinding the accumulated body to the next filter's
  parameter and joining it with the next body.
 */
module FilterListExtensions {
  import opened Wrappers
  import opened Entities
  import opened Predicates

  /** Which of the two combinators. */
  datatype Connective = And | Or

  function Join(op: Connective, l: Expr, r: Expr): Expr {
    if op == And then AndAlso(l, r) else OrElse(l, r)
  }

  function Connect(op: Connective, a: Option<bool>, b: Option<bool>): Option<bool> {
    if op == And then AndThen(a, b) else OrThen(a, b)
  }

  /** `x => true`. */
  const AlwaysTrue: Lambda := Lambda(0, Const(true))

  /** One iteration of the `foreach` loop. */
  function Step(op: Connective, result: Lambda, next: Lambda): Lambda {
    Lambda(next.param, Join(op, Rebind(result.body, result.param, next.param), next.body))
  }

  function Fold(op: Connective, result: Lambda, rest: seq<Lambda>): (r: Lambda)
    ensures |rest| >= 1 ==> r.param == rest[|rest| - 1].param
    decreases |rest|
  {
    if |rest| == 0 then result else Fold(op, Step(op, result, rest[0]), rest[1..])
  }

  /** The `switch` on the number of filters. */
  function Combine(op: Connective, filters: seq<Lambda>): (r: Lambda)
    ensures |filters| == 1 ==> r == filters[0]
    ensures |filters| >= 1 ==> r.param == filters[|filters| - 1].param
  {
    if |filters| == 0 then AlwaysTrue
    else if |filters| == 1 then filters[0]
    else Fold(op, filters[0], filters[1..])
  }

  function CombineAnd(filters: seq<Lambda>): Lambda {
    Combine(And, filters)
  }

  function CombineOr(filters: seq<Lambda>): Lambda {
    Combine(Or, filters)
  }

  // ---------------------------------------------------------------------
  // Reference meanings
  // ---------------------------------------------------------------------

  /** Short-circuit conjunction of the filters on `x`, evaluated left to
      right: the first filter that is false or throws decides. */
  function AllOf(filters: seq<Lambda>, x: Entity, oracle: Oracle): Option<bool> {
    if |filters| == 0 then Some(true)
    else AndThen(Apply(filters[0], x, oracle), AllOf(filters[1..], x, oracle))
  }

  /** Short-circuit disjunction: the first filter that is true or throws
      decides. */
  function AnyOf(filters: seq<Lambda>, x: Entity, oracle: Oracle): Option<bool> {
    if |filters| == 0 then Some(false)
    else OrThen(Apply(filters[0], x, oracle), AnyOf(filters[1..], x, oracle))
  }

  function Reference(op: Connective, filters: seq<Lambda>, x: Entity, oracle: Oracle): Option<bool> {
    if op == And then AllOf(filters, x, oracle) else AnyOf(filters, x, oracle)
  }

  /** `AllOf` is the conjunction: true iff every filter is true, false iff
      some filter is false and every filter before it is true. */
  lemma {:induction false} AllOfIsConjunction(filters: seq<Lambda>, x: Entity, oracle: Oracle)
    ensures AllOf(filters, x, oracle) == Some(true)
            <==> forall i :: 0 <= i < |filters| ==> Apply(filters[i], x, oracle) == Some(true)
    ensures AllOf(filters, x, oracle) == Some(false)
            <==> exists i :: 0 <= i < |filters| && Apply(filters[i], x, oracle) == Some(false)
                             && forall j :: 0 <= j < i ==> Apply(filters[j], x, oracle) == Some(true)
  {
    if |filters| > 0 {
      AllOfIsConjunction(filters[1..], x, oracle);
      var tail := filters[1..];
      if Apply(filters[0], x, oracle) == Some(true) {
        if AllOf(filters, x, oracle) == Some(false) {
          var i :| 0 <= i < |tail| && Apply(tail[i], x, oracle) == Some(false)
                   && forall j :: 0 <= j < i ==> Apply(tail[j], x, oracle) == Some(true);
          assert forall j :: 0 <= j < i + 1 ==> Apply(filters[j], x, oracle) == Some(true) by {
            forall j | 0 <= j < i + 1 ensures Apply(filters[j], x, oracle) == Some(true) {
              if j > 0 { assert filters[j] == tail[j - 1]; }
            }
          }
          assert filters[i + 1] == tail[i];
        }
        if exists i :: 0 <= i < |filters| && Apply(filters[i], x, oracle) == Some(false)
                       && forall j :: 0 <= j < i ==> Apply(filters[j], x, oracle) == Some(true) {
          var i :| 0 <= i < |filters| && Apply(filters[i], x, oracle) == Some(false)
                   && forall j :: 0 <= j < i ==> Apply(filters[j], x, oracle) == Some(true);
          assert i > 0;
          assert tail[i - 1] == filters[i];
          assert forall j :: 0 <= j < i - 1 ==> Apply(tail[j], x, oracle) == Some(true) by {
            forall j | 0 <= j < i - 1 ensures Apply(tail[j], x, oracle) == Some(true) {
              assert tail[j] == filters[j + 1];
            }
          }
        }
        if forall i :: 0 <= i < |tail| ==> Apply(tail[i], x, oracle) == Some(true) {
          forall i | 0 <= i < |filters| ensures Apply(filters[i], x, oracle) == Some(true) {
            if i > 0 { assert filters[i] == tail[i - 1]; }
          }
        }
      }
    }
  }

  /** `AnyOf` is the disjunction: false iff every filter is false, true iff
      some filter is true and every filter before it is false. */
  lemma {:induction false} AnyOfIsDisjunction(filters: seq<Lambda>, x: Entity, oracle: Oracle)
    ensures AnyOf(filters, x, oracle) == Some(false)
            <==> forall i :: 0 <= i < |filters| ==> Apply(filters[i], x, oracle) == Some(false)
    ensures AnyOf(filters, x, oracle) == Some(true)
            <==> exists i :: 0 <= i < |filters| && Apply(filters[i], x, oracle) == Some(true)
                             && forall j :: 0 <= j < i ==> Apply(filters[j], x, oracle) == Some(false)
  {
    if |filters| > 0 {
      AnyOfIsDisjunction(filters[1..], x, oracle);
      var tail := filters[1..];
      if Apply(filters[0], x, oracle) == Some(false) {
        if AnyOf(filters, x, oracle) == Some(true) {
          var i :| 0 <= i < |tail| && Apply(tail[i], x, oracle) == Some(true)
                   && forall j :: 0 <= j < i ==> Apply(tail[j], x, oracle) == Some(false);
          assert forall j :: 0 <= j < i + 1 ==> Apply(filters[j], x, oracle) == Some(false) by {
            forall j | 0 <= j < i + 1 ensures Apply(filters[j], x, oracle) == Some(false) {
              if j > 0 { assert filters[j] == tail[j - 1]; }
            }
          }
          assert filters[i + 1] == tail[i];
        }
        if exists i :: 0 <= i < |filters| && Apply(filters[i], x, oracle) == Some(true)
                       && forall j :: 0 <= j < i ==> Apply(filters[j], x, oracle) == Some(false) {
          var i :| 0 <= i < |filters| && Apply(filters[i], x, oracle) == Some(true)
                   && forall j :: 0 <= j < i ==> Apply(filters[j], x, oracle) == Some(false);
          assert i > 0;
          assert tail[i - 1] == filters[i];
          assert forall j :: 0 <= j < i - 1 ==> Apply(tail[j], x, oracle) == Some(false) by {
            forall j | 0 <= j < i - 1 ensures Apply(tail[j], x, oracle) == Some(false) {
              assert tail[j] == filters[j + 1];
            }
          }
        }
        if forall i :: 0 <= i < |tail| ==> Apply(tail[i], x, oracle) == Some(false) {
          forall i | 0 <= i < |filters| ensures Apply(filters[i], x, oracle) == Some(false) {
            if i > 0 { assert filters[i] == tail[i - 1]; }
          }
        }
      }
    }
  }

  // ---------------------------------------------------------------------
  // The fold computes the reference meaning
  // ---------------------------------------------------------------------

  /** The outcomes combined in the fold's order: `((a op f1) op f2) ...`. */
  function ReduceFrom(op: Connective, acc: Option<bool>, rest: seq<Lambda>, x: Entity, oracle: Oracle): Option<bool>
    decreases |rest|
  {
    if |rest| == 0 then acc
    else ReduceFrom(op, Connect(op, acc, Apply(rest[0], x, oracle)), rest[1..], x, oracle)
  }

  /** Left nesting and right nesting agree: short-circuit `&&` and `||` are
      associative on outcomes. */
  lemma {:induction false} ReduceFromIsReference(op: Connective, acc: Option<bool>, rest: seq<Lambda>, x: Entity, oracle: Oracle)
    ensures ReduceFrom(op, acc, rest, x, oracle) == Connect(op, acc, Reference(op, rest, x, oracle))
    decreases |rest|
  {
    if |rest| > 0 {
      ReduceFromIsReference(op, Connect(op, acc, Apply(rest[0], x, oracle)), rest[1..], x, oracle);
    }
  }

  /** A step keeps the accumulated lambda closed, introduces no parameter
      beyond those of the two lambdas, and evaluates to the two outcomes
      joined. */
  lemma StepMeaning(op: Connective, result: Lambda, next: Lambda, x: Entity, oracle: Oracle)
    requires Closed(result) && Closed(next)
    requires LambdaVars(result) !! LambdaVars(next)
    ensures Closed(Step(op, result, next))
    ensures LambdaVars(Step(op, result, next)) <= LambdaVars(result) + LambdaVars(next)
    ensures Apply(Step(op, result, next), x, oracle)
            == Connect(op, Apply(result, x, oracle), Apply(next, x, oracle))
  {
    RebindFree(result.body, result.param, next.param);
    RebindVars(result.body, result.param, next.param);
    RebindSound(result.body, result.param, next.param, map[result.param := x], map[next.param := x], oracle);
  }

  lemma {:induction false} FoldMeaning(op: Connective, result: Lambda, rest: seq<Lambda>, x: Entity, oracle: Oracle)
    requires Closed(result) && AllClosed(rest) && Hygienic(rest)
    requires forall i :: 0 <= i < |rest| ==> LambdaVars(result) !! LambdaVars(rest[i])
    ensures Apply(Fold(op, result, rest), x, oracle) == ReduceFrom(op, Apply(result, x, oracle), rest, x, oracle)
    decreases |rest|
  {
    if |rest| > 0 {
      StepMeaning(op, result, rest[0], x, oracle);
      var next := Step(op, result, rest[0]);
      assert forall i :: 0 <= i < |rest| - 1 ==> LambdaVars(next) !! LambdaVars(rest[1..][i]) by {
        forall i | 0 <= i < |rest| - 1 ensures LambdaVars(next) !! LambdaVars(rest[1..][i]) {
          assert rest[1..][i] == rest[i + 1];
          assert LambdaVars(rest[0]) !! LambdaVars(rest[i + 1]);
        }
      }
      FoldMeaning(op, next, rest[1..], x, oracle);
    }
  }

  /** `CombineAnd` evaluates on every entity to the conjunction of the
      filters and `CombineOr` to their disjunction, for any non-empty list of
      closed filters that do not share parameter objects. */
  lemma CombineMeaning(op: Connective, filters: seq<Lambda>, x: Entity, oracle: Oracle)
    requires |filters| >= 1
    requires AllClosed(filters) && Hygienic(filters)
    ensures Apply(Combine(op, filters), x, oracle) == Reference(op, filters, x, oracle)
  {
    var head, tail := filters[0], filters[1..];
    assert forall i :: 0 <= i < |tail| ==> tail[i] == filters[i + 1];
    assert Hygienic(tail);
    if |filters| >= 2 {
      FoldMeaning(op, head, tail, x, oracle);
    }
    ReduceFromIsReference(op, Apply(head, x, oracle), tail, x, oracle);
  }

  /** Both combinators turn an empty list into `x => true`; for `CombineOr`
      that is not the empty disjunction, which would be false. */
  lemma EmptyCombinesToTrue(x: Entity, oracle: Oracle)
    ensures Apply(CombineAnd([]), x, oracle) == Some(true) == AllOf([], x, oracle)
    ensures Apply(CombineOr([]), x, oracle) == Some(true) != AnyOf([], x, oracle)
  {
  }

  lemma {:induction false} FoldSnoc(op: Connective, result: Lambda, rest: seq<Lambda>, last: Lambda)
    ensures Fold(op, result, rest + [last]) == Step(op, Fold(op, result, rest), last)
    decreases |rest|
  {
    if |rest| == 0 {
      assert (rest + [last])[1..] == [];
    } else {
      assert (rest + [last])[1..] == rest[1..] + [last];
      FoldSnoc(op, Step(op, result, rest[0]), rest[1..], last);
    }
  }

  /** The combination nests to the left in input order: combining a list
      with one more filter at the end is one more step on the combination of
      the list. */
  lemma CombineNestsLeft(op: Connective, filters: seq<Lambda>, last: Lambda)
    requires |filters| >= 1
    ensures Combine(op, filters + [last]) == Step(op, Combine(op, filters), last)
  {
    var all := filters + [last];
    assert all[0] == filters[0];
    if |filters| == 1 {
      assert all[1..] == [last];
      assert Fold(op, Step(op, filters[0], last), []) == Step(op, filters[0], last);
    } else {
      assert all[1..] == filters[1..] + [last];
      FoldSnoc(op, filters[0], filters[1..], last);
    }
  }
}

=== FILE: filters.dfy ===
/**
  The filter vocabulary of the pagination layer: `FilterOperator`,
  `FilterLogic`, `FilterCriterion`, and `Enum.TryParse<FilterOperator>` with
  `ignoreCase: true`, which turns the operator text of a raw filter into an
  operator.
 */
module Filters {
  import opened Wrappers
  import opened Text

  /** `FilterOperator`. An enum variable can hold any `int`; `Undefined(code)`
      stands for a value that has no name. */
  datatype FilterOperator =
    | Equals | NotEquals | GreaterThan | GreaterThanOrEqual
    | LessThan | LessThanOrEqual | Contains | In
    | Undefined(code: int)

  datatype FilterLogic = And | Or

  datatype FilterCriterion = FilterCriterion(
    property: string,
    op: FilterOperator,
    values: seq<string>,
    logic: FilterLogic)

  /** `new FilterCriterion()`: no property, `Equals`, no values, `And`. */
  const DefaultCriterion: FilterCriterion := FilterCriterion("", Equals, [], And)

  /** The declared names, indexed by their numeric value. */
  const Names: seq<string> :=
    ["Equals", "NotEquals", "GreaterThan", "GreaterThanOrEqual",
     "LessThan", "LessThanOrEqual", "Contains", "In"]

  /** `(FilterOperator)n`. */
  function FromCode(n: int): (op: FilterOperator)
    ensures 0 <= n < |Names| <==> !op.Undefined?
  {
    if n == 0 then Equals
    else if n == 1 then NotEquals
    else if n == 2 then GreaterThan
    else if n == 3 then GreaterThanOrEqual
    else if n == 4 then LessThan
    else if n == 5 then LessThanOrEqual
    else if n == 6 then Contains
    else if n == 7 then In
    else Undefined(n)
  }

  /** `(int)op`. */
  function Code(op: FilterOperator): int {
    match op
    case Equals => 0
    case NotEquals => 1
    case GreaterThan => 2
    case GreaterThanOrEqual => 3
    case LessThan => 4
    case LessThanOrEqual => 5
    case Contains => 6
    case In => 7
    case Undefined(n) => n
  }

  /** An operator is the same value as the number it converts to. */
  lemma CodeRoundTrip(op: FilterOperator, n: int)
    requires !op.Undefined? || !(0 <= op.code < |Names|)
    ensures FromCode(Code(op)) == op
    ensures Code(FromCode(n)) == n
  {
  }

  /** The index of the declared name equal to `s` ignoring case. */
  function LookupName(s: string): (r: Option<nat>)
    ensures r.Some? ==> r.value < |Names| && EqualsIgnoreCase(Names[r.value], s)
    ensures r.None? ==> forall i :: 0 <= i < |Names| ==> !EqualsIgnoreCase(Names[i], s)
  {
    LookupFrom(s, 0)
  }

  function LookupFrom(s: string, i: nat): (r: Option<nat>)
    requires i <= |Names|
    ensures r.Some? ==> i <= r.value < |Names| && EqualsIgnoreCase(Names[r.value], s)
    ensures r.None? ==> forall j :: i <= j < |Names| ==> !EqualsIgnoreCase(Names[j], s)
    decreases |Names| - i
  {
    if i == |Names| then None
    else if EqualsIgnoreCase(Names[i], s) then Some(i)
    else LookupFrom(s, i + 1)
  }

  /** Bitwise OR of two values below 8. */
  function BitOr(a: nat, b: nat): (r: nat)
    requires a < 8 && b < 8
    ensures r < 8
    ensures b == 0 ==> r == a
  {
    (if a % 2 == 1 || b % 2 == 1 then 1 else 0)
    + (if (a / 2) % 2 == 1 || (b / 2) % 2 == 1 then 2 else 0)
    + (if (a / 4) % 2 == 1 || (b / 4) % 2 == 1 then 4 else 0)
  }

  /** The comma-separated name list of a flags value: every trimmed segment
      must be a declared name, and the values are OR-ed together. */
  function OrNames(segments: seq<string>): (r: Option<nat>)
    ensures r.Some? ==> r.value < |Names|
  {
    if |segments| == 0 then Some(0)
    else
      var code := LookupName(Trim(segments[0]));
      var rest := OrNames(segments[1..]);
      if code.None? || rest.None? then None else Some(BitOr(code.value, rest.value))
  }

  /** `Enum.TryParse<FilterOperator>(s, true, out op)`. Surrounding white space
      is ignored; text that starts like a number is read as the numeric value
      (any 32-bit value is accepted, named or not); anything else must be a
      comma-separated list of names, compared ignoring case. */
  function TryParseOperator(s: string): Option<FilterOperator> {
    var t := Trim(s);
    if |t| == 0 then None
    else if IsDigit(t[0]) || t[0] == '-' || t[0] == '+' then
      var n := ParseInt(t);
      if n.None? then None else Some(FromCode(n.value))
    else
      var code := OrNames(Split(t, ','));
      if code.None? then None else Some(FromCode(code.value))
  }

  /** `TryParse(...) ? op : FilterOperator.Equals`. */
  function OperatorOrEquals(s: string): FilterOperator {
    TryParseOperator(s).GetOr(Equals)
  }

  /** Lower-casing keeps white space, digits, signs and commas as they are and
      maps nothing else onto them. */
  lemma ToLowerCharKeepsPunctuation(c: char)
    ensures IsWhiteSpace(ToLowerChar(c)) <==> IsWhiteSpace(c)
    ensures IsDigit(ToLowerChar(c)) <==> IsDigit(c)
    ensures ToLowerChar(c) == ',' <==> c == ','
    ensures ToLowerChar(c) == '-' <==> c == '-'
    ensures ToLowerChar(c) == '+' <==> c == '+'
  {
  }

  /** Every declared name is made of letters only. */
  lemma NamesAreLetters(k: nat)
    requires k < |Names|
    ensures forall i :: 0 <= i < |Names[k]| ==> 'a' <= ToLowerChar(Names[k][i]) <= 'z'
  {
  }

  /** No two declared names are equal ignoring case: they differ in length
      or in their first letter. */
  lemma NamesDistinctIgnoringCase(i: nat, j: nat)
    requires i < j < |Names|
    ensures ToLower(Names[i]) != ToLower(Names[j])
  {
    if |Names[i]| == |Names[j]| {
      assert i == 4 && j == 6;
      assert ToLower(Names[i])[0] == 'l' && ToLower(Names[j])[0] == 'c';
    }
  }

  /** A string equal to the `k`-th name ignoring case is found at `k`. */
  lemma LookupFindsName(k: nat, s: string)
    requires k < |Names| && EqualsIgnoreCase(Names[k], s)
    ensures LookupName(s) == Some(k)
  {
    var r := LookupName(s);
    if r.value < k {
      NamesDistinctIgnoringCase(r.value, k);
    } else if r.value > k {
      NamesDistinctIgnoringCase(k, r.value);
    }
  }

  /** Text equal to a name ignoring case has the name's shape: no white
      space, no digits, signs or commas. */
  lemma ShapedLikeName(k: nat, s: string)
    requires k < |Names| && EqualsIgnoreCase(Names[k], s)
    ensures |s| >= 1 && Trim(s) == s
    ensures !IsDigit(s[0]) && s[0] != '-' && s[0] != '+'
    ensures ',' !in s
  {
    NamesAreLetters(k);
    var name := Names[k];
    assert |s| == |name|;
    forall i | 0 <= i < |s|
      ensures 'a' <= ToLowerChar(s[i]) <= 'z'
    {
      assert ToLower(s)[i] == ToLower(name)[i];
    }
    ToLowerCharKeepsPunctuation(s[0]);
    ToLowerCharKeepsPunctuation(s[|s| - 1]);
    TrimKeepsInnerText(s);
    forall i | 0 <= i < |s| ensures s[i] != ',' {
      ToLowerCharKeepsPunctuation(s[i]);
    }
  }

  /** The text of the comma-free name list `s` parses to the value that
      `OrNames` gives it. */
  lemma ParsesAsSingleName(s: string, k: nat)
    requires |s| >= 1 && Trim(s) == s
    requires !IsDigit(s[0]) && s[0] != '-' && s[0] != '+'
    requires Split(s, ',') == [s]
    requires LookupName(s) == Some(k)
    ensures TryParseOperator(s) == Some(FromCode(k))
  {
    OrNamesSingle(s, k);
    var t := Trim(s);
    assert t == s;
    assert OrNames(Split(t, ',')) == Some(k);
  }

  lemma OrNamesSingle(s: string, k: nat)
    requires Trim(s) == s && LookupName(s) == Some(k)
    ensures OrNames([s]) == Some(k)
  {
    assert [s][1..] == [];
    assert OrNames([]) == Some(0);
  }

  /** Every declared name, written in any letter case and with no surrounding
      white space, parses to its operator. */
  lemma NameParsesIgnoringCase(op: FilterOperator, s: string)
    requires !op.Undefined?
    requires EqualsIgnoreCase(s, Names[Code(op)])
    ensures TryParseOperator(s) == Some(op)
    ensures OperatorOrEquals(s) == op
  {
    var k: nat := Code(op);
    ShapedLikeName(k, s);
    SplitWithoutSeparator(s, ',');
    LookupFindsName(k, s);
    ParsesAsSingleName(s, k);
    CodeRoundTrip(op, k);
  }

  /** The decimal text of any 32-bit value parses to that value, named or
      not. */
  lemma NumberParses(n: int)
    requires Int32Min <= n <= Int32Max
    ensures TryParseOperator(IntToString(n)) == Some(FromCode(n))
  {
    var s := IntToString(n);
    ParseIntToString(n);
    assert |s| >= 1;
    assert IsDigit(s[0]) || s[0] == '-';
    assert !IsWhiteSpace(s[0]);
    assert IsDigit(s[|s| - 1]) by {
      if n < 0 { assert s[|s| - 1] == NatToString(-n)[|NatToString(-n)| - 1]; }
    }
    TrimKeepsInnerText(s);
  }

  /** Text that is blank, or that looks like a number but is not a 32-bit
      one, does not parse, so `ParseFilters` falls back to `Equals`. */
  lemma UnparseableFallsBackToEquals(s: string)
    requires var t := Trim(s);
             |t| == 0 || ((IsDigit(t[0]) || t[0] == '-' || t[0] == '+') && ParseInt(t).None?)
    ensures TryParseOperator(s).None?
    ensures OperatorOrEquals(s) == Equals
  {
  }
}

=== FILE: json.dfy ===
/**
  String escaping as `System.Text.Json` writes string values with its default
  encoder, and the matching reading of a JSON string body (section 7 of
  RFC 8259). The writer escapes every character outside printable ASCII and
  the HTML-sensitive characters; `\n`, `\r`, `\t`, `\\`, backspace and form
  feed get their two-character forms, every other escaped character becomes
  `\uXXXX` with upper-case hexadecimal digits, and a character beyond U+FFFF
  becomes the escapes of its UTF-16 surrogate pair.
 */
module Json {
  import opened Wrappers

  // ---------------------------------------------------------------------
  // Hexadecimal digits
  // ---------------------------------------------------------------------

  /** The digit `d` as `"X4"` formatting writes it. */
  function HexDigit(d: nat): (c: char)
    requires d < 16
    ensures ('0' <= c <= '9') || ('A' <= c <= 'F')
  {
    if d < 10 then ('0' as int + d) as char else ('A' as int + d - 10) as char
  }

  /** The value of a hexadecimal digit in either letter case. */
  function HexValue(c: char): (r: Option<nat>)
    ensures r.Some? ==> r.value < 16
    ensures r.None? <==> !(('0' <= c <= '9') || ('A' <= c <= 'F') || ('a' <= c <= 'f'))
  {
    if '0' <= c <= '9' then Some(c as int - '0' as int)
    else if 'A' <= c <= 'F' then Some(c as int - 'A' as int + 10)
    else if 'a' <= c <= 'f' then Some(c as int - 'a' as int + 10)
    else None
  }

  lemma HexValueOfDigit(d: nat)
    requires d < 16
    ensures HexValue(HexDigit(d)) == Some(d)
  {
  }

  /** Two upper-case hexadecimal digits of a byte. */
  function Hex2(n: nat): (r: string)
    requires n < 0x100
    ensures |r| == 2
    ensures forall i :: 0 <= i < 2 ==> ('0' <= r[i] <= '9') || ('A' <= r[i] <= 'F')
  {
    [HexDigit(n / 0x10), HexDigit(n % 0x10)]
  }

  /** `n.TryFormat(..., "X4")`: four upper-case hexadecimal digits. */
  function Hex4(n: nat): (r: string)
    requires n < 0x1_0000
    ensures |r| == 4
    ensures forall i :: 0 <= i < 4 ==> ('0' <= r[i] <= '9') || ('A' <= r[i] <= 'F')
  {
    Hex2(n / 0x100) + Hex2(n % 0x100)
  }

  /** Two hexadecimal digits read as a number. */
  function ParseHex2(s: string): (r: Option<nat>)
    requires |s| == 2
    ensures r.Some? ==> r.value < 0x100
  {
    var a, b := HexValue(s[0]), HexValue(s[1]);
    if a.None? || b.None? then None else Some(a.value * 0x10 + b.value)
  }

  /** Four hexadecimal digits read as a number. */
  function ParseHex4(s: string): (r: Option<nat>)
    requires |s| == 4
    ensures r.Some? ==> r.value < 0x1_0000
  {
    var hi, lo := ParseHex2(s[..2]), ParseHex2(s[2..]);
    if hi.None? || lo.None? then None else Some(hi.value * 0x100 + lo.value)
  }

  lemma ParseHex2Formatted(n: nat)
    requires n < 0x100
    ensures ParseHex2(Hex2(n)) == Some(n)
  {
    HexValueOfDigit(n / 0x10);
    HexValueOfDigit(n % 0x10);
  }

  /** Reading back four formatted digits gives the number. */
  lemma ParseHex4Formatted(n: nat)
    requires n < 0x1_0000
    ensures ParseHex4(Hex4(n)) == Some(n)
  {
    var s := Hex4(n);
    assert s[..2] == Hex2(n / 0x100) && s[2..] == Hex2(n % 0x100);
    ParseHex2Formatted(n / 0x100);
    ParseHex2Formatted(n % 0x100);
  }

  // ---------------------------------------------------------------------
  // Writing
  // ---------------------------------------------------------------------

  /** The characters the default encoder does not write as themselves:
      control characters, DEL and everything beyond ASCII, the quote and
      the backslash, and the HTML-sensitive `&`, `'`, `+`, `<`, `>` and
      the backtick. */
  predicate NeedsEscaping(c: char) {
    c < ' ' || c > '~' || c in "\"&'+<>\\`"
  }

  /** No character of `s` needs escaping. */
  predicate PlainText(s: string) {
    forall i :: 0 <= i < |s| ==> !NeedsEscaping(s[i])
  }

  /** `\uXXXX` for one UTF-16 code unit. */
  function UnicodeEscape(unit: nat): (r: string)
    requires unit < 0x1_0000
    ensures |r| == 6
  {
    "\\u" + Hex4(unit)
  }

  const FirstHighSurrogate: nat := 0xD800
  const FirstLowSurrogate: nat := 0xDC00
  const FirstSupplementary: nat := 0x1_0000

  /** The UTF-16 surrogate pair of a character beyond U+FFFF. */
  function HighSurrogate(c: char): (u: nat)
    requires c as int >= FirstSupplementary
    ensures FirstHighSurrogate <= u < FirstLowSurrogate
  {
    FirstHighSurrogate + (c as int - FirstSupplementary) / 0x400
  }

  function LowSurrogate(c: char): (u: nat)
    requires c as int >= FirstSupplementary
    ensures FirstLowSurrogate <= u < 0xE000
  {
    FirstLowSurrogate + (c as int - FirstSupplementary) % 0x400
  }

  /** The character a surrogate pair encodes. */
  function FromSurrogates(high: nat, low: nat): (c: char)
    requires FirstHighSurrogate <= high < FirstLowSurrogate && FirstLowSurrogate <= low < 0xE000
    ensures c as int >= FirstSupplementary
  {
    (FirstSupplementary + (high - FirstHighSurrogate) * 0x400 + (low - FirstLowSurrogate)) as char
  }

  /** How the writer emits one character. */
  function EscapeChar(c: char): (r: string)
  {
    if c == '\n' then "\\n"
    else if c == '\r' then "\\r"
    else if c == '\t' then "\\t"
    else if c == '\\' then "\\\\"
    else if c == '\U{0008}' then "\\b"
    else if c == '\U{000C}' then "\\f"
    else if !NeedsEscaping(c) then [c]
    else if (c as int) < FirstSupplementary then UnicodeEscape(c as int)
    else UnicodeEscape(HighSurrogate(c)) + UnicodeEscape(LowSurrogate(c))
  }

  /** A string value's body as the writer emits it. */
  function JsonEscape(s: string): (r: string)
  {
    if |s| == 0 then "" else EscapeChar(s[0]) + JsonEscape(s[1..])
  }

  // ---------------------------------------------------------------------
  // Reading
  // ---------------------------------------------------------------------

  /** The character that starts the string body `s`, and how many
      characters of `s` encode it; `None` when `s` does not start with a
      plain character or a well-formed escape. */
  function DecodeNext(s: string): (r: Option<(char, nat)>)
    requires |s| > 0
    ensures r.Some? ==> 1 <= r.value.1 <= |s|
  {
    if s[0] != '\\' then
      if s[0] < ' ' || s[0] == '"' then None else Some((s[0], 1))
    else if |s| < 2 then None
    else if s[1] == 'u' then DecodeUnicode(s)
    else if s[1] == '"' then Some(('"', 2))
    else if s[1] == '\\' then Some(('\\', 2))
    else if s[1] == '/' then Some(('/', 2))
    else if s[1] == 'b' then Some(('\U{0008}', 2))
    else if s[1] == 'f' then Some(('\U{000C}', 2))
    else if s[1] == 'n' then Some(('\n', 2))
    else if s[1] == 'r' then Some(('\r', 2))
    else if s[1] == 't' then Some(('\t', 2))
    else None
  }

  /** A `\uXXXX` escape, or two of them forming a surrogate pair. A lone
      surrogate does not encode a character. */
  function DecodeUnicode(s: string): (r: Option<(char, nat)>)
    requires |s| >= 2 && s[0] == '\\' && s[1] == 'u'
    ensures r.Some? ==> 6 <= r.value.1 <= |s|
  {
    if |s| < 6 then None
    else
      var v := ParseHex4(s[2..6]);
      if v.None? then None
      else if FirstHighSurrogate <= v.value < FirstLowSurrogate then
        if |s| < 12 || s[6] != '\\' || s[7] != 'u' then None
        else
          var w := ParseHex4(s[8..12]);
          if w.Some? && FirstLowSurrogate <= w.value < 0xE000 then Some((FromSurrogates(v.value, w.value), 12))
          else None
      else if FirstLowSurrogate <= v.value < 0xE000 then None
      else Some((v.value as char, 6))
  }

  /** The text a JSON string body stands for, or `None` when it is not a
      well-formed body. */
  function JsonUnescape(s: string): (r: Option<string>)
    decreases |s|
  {
    if |s| == 0 then Some("")
    else
      var next := DecodeNext(s);
      if next.None? then None
      else
        var rest := JsonUnescape(s[next.value.1..]);
        if rest.None? then None else Some([next.value.0] + rest.value)
  }

  // ---------------------------------------------------------------------
  // Properties
  // ---------------------------------------------------------------------

  /** A character's escape is read back as that character, whatever
      follows it. */
  lemma DecodeEscapeChar(c: char, rest: string)
    ensures |EscapeChar(c)| >= 1
    ensures DecodeNext(EscapeChar(c) + rest) == Some((c, |EscapeChar(c)|))
  {
    if c == '\n' || c == '\r' || c == '\t' || c == '\\' || c == '\U{0008}' || c == '\U{000C}' {
      DecodeShortEscape(c, rest);
    } else if !NeedsEscaping(c) {
      assert (EscapeChar(c) + rest)[0] == c;
    } else if (c as int) < FirstSupplementary {
      DecodeUnitEscape(c, rest);
    } else {
      DecodePairEscape(c, rest);
    }
  }

  lemma DecodeShortEscape(c: char, rest: string)
    requires c == '\n' || c == '\r' || c == '\t' || c == '\\' || c == '\U{0008}' || c == '\U{000C}'
    ensures DecodeNext(EscapeChar(c) + rest) == Some((c, 2))
  {
    var s := EscapeChar(c) + rest;
    assert s[0] == '\\' && s[1] == EscapeChar(c)[1];
  }

  lemma DecodeUnitEscape(c: char, rest: string)
    requires NeedsEscaping(c) && (c as int) < FirstSupplementary
    requires !(c == '\n' || c == '\r' || c == '\t' || c == '\\' || c == '\U{0008}' || c == '\U{000C}')
    ensures DecodeNext(EscapeChar(c) + rest) == Some((c, 6))
  {
    var n := c as int;
    var s := UnicodeEscape(n) + rest;
    assert EscapeChar(c) == UnicodeEscape(n);
    ParseHex4Formatted(n);
    assert s[0] == '\\' && s[1] == 'u';
    assert s[2..6] == Hex4(n);
  }

  lemma DecodePairEscape(c: char, rest: string)
    requires (c as int) >= FirstSupplementary
    ensures DecodeNext(EscapeChar(c) + rest) == Some((c, 12))
  {
    var hi, lo := HighSurrogate(c), LowSurrogate(c);
    var s := UnicodeEscape(hi) + UnicodeEscape(lo) + rest;
    assert EscapeChar(c) == UnicodeEscape(hi) + UnicodeEscape(lo);
    ParseHex4Formatted(hi);
    ParseHex4Formatted(lo);
    assert s[0] == '\\' && s[1] == 'u' && s[6] == '\\' && s[7] == 'u';
    assert s[2..6] == Hex4(hi);
    assert s[8..12] == Hex4(lo);
    assert FromSurrogates(hi, lo) == c;
  }

  /** Reading a written string body gives back the original text: the
      escaping loses nothing. */
  lemma {:induction false} JsonUnescapeEscape(s: string)
    ensures JsonUnescape(JsonEscape(s)) == Some(s)
    decreases |s|
  {
    if |s| > 0 {
      var e, tail := EscapeChar(s[0]), JsonEscape(s[1..]);
      DecodeEscapeChar(s[0], tail);
      assert JsonEscape(s) == e + tail;
      assert (e + tail)[|e|..] == tail;
      JsonUnescapeEscape(s[1..]);
      assert [s[0]] + s[1..] == s;
    }
  }

  /** A character is written as itself exactly when it needs no escape;
      otherwise its escape is longer. */
  lemma EscapeCharLength(c: char)
    ensures !NeedsEscaping(c) ==> EscapeChar(c) == [c]
    ensures NeedsEscaping(c) ==> |EscapeChar(c)| >= 2
  {
  }

  /** Escaping never shortens the text, and keeps its length exactly when no
      character needs escaping. */
  lemma {:induction false} JsonEscapeLength(s: string)
    ensures |JsonEscape(s)| >= |s|
    ensures |JsonEscape(s)| == |s| <==> PlainText(s)
    decreases |s|
  {
    if |s| > 0 {
      EscapeCharLength(s[0]);
      JsonEscapeLength(s[1..]);
      assert PlainText(s) <==> !NeedsEscaping(s[0]) && PlainText(s[1..]) by {
        if !NeedsEscaping(s[0]) && PlainText(s[1..]) {
          forall i | 0 <= i < |s| ensures !NeedsEscaping(s[i]) {
            if i > 0 { assert s[i] == s[1..][i - 1]; }
          }
        }
        if PlainText(s) {
          forall i | 0 <= i < |s| - 1 ensures !NeedsEscaping(s[1..][i]) {
            assert s[1..][i] == s[i + 1];
          }
        }
      }
    }
  }

  /** Plain text is written unchanged, and only plain text is. */
  lemma {:induction false} JsonEscapeUnchanged(s: string)
    ensures JsonEscape(s) == s <==> PlainText(s)
    decreases |s|
  {
    JsonEscapeLength(s);
    if |s| > 0 && PlainText(s) {
      EscapeCharLength(s[0]);
      assert PlainText(s[1..]) by {
        forall i | 0 <= i < |s| - 1 ensures !NeedsEscaping(s[1..][i]) {
          assert s[1..][i] == s[i + 1];
        }
      }
      JsonEscapeUnchanged(s[1..]);
      assert [s[0]] + s[1..] == s;
    }
  }

  /** A character that needs escaping never appears as itself in written
      output. */
  lemma EscapeCharOmits(c: char, x: char)
    requires NeedsEscaping(x) && x != '\\'
    ensures x !in EscapeChar(c)
  {
    var e := EscapeChar(c);
    if NeedsEscaping(c) && (c as int) < FirstSupplementary && !(c in "\n\r\t\\\U{0008}\U{000C}") {
      assert e == ['\\', 'u'] + Hex4(c as int);
    } else if NeedsEscaping(c) && (c as int) >= FirstSupplementary {
      assert e == ['\\', 'u'] + Hex4(HighSurrogate(c)) + ['\\', 'u'] + Hex4(LowSurrogate(c));
    }
  }

  lemma {:induction false} JsonEscapeOmits(s: string, x: char)
    requires NeedsEscaping(x) && x != '\\'
    ensures x !in JsonEscape(s)
    decreases |s|
  {
    if |s| > 0 {
      EscapeCharOmits(s[0], x);
      JsonEscapeOmits(s[1..], x);
    }
  }

  /** The apostrophes of the `(Parameter 'x')` suffix .NET appends to an
      argument exception's message are written as `\u0027`. */
  lemma ApostropheEscape()
    ensures JsonEscape("'") == "\\u0027"
  {
    assert "'"[1..] == "";
  }
}

=== FILE: maybe.dfy ===
/**
  `Maybe<T>`: an optional value that also carries an error. Whether it "has a
  value" is decided only by the stored value being non-null, so for a value
  type even `None` reports a value (the stored `default(T)`).
 */
module Maybes {
  import opened Wrappers
  import opened Errors
  import opened Exceptions

  /** The stored value (`None` models null) and the attached error (`None`
      models a null `Error` property). */
  datatype Maybe<T> = Maybe(stored: Option<T>, error: Option<Error>)

  predicate HasNoValue<T>(m: Maybe<T>) {
    m.stored.None?
  }

  predicate HasValue<T>(m: Maybe<T>) {
    !HasNoValue(m)
  }

  /** `Value`: the stored value, or an `InvalidOperationException`. */
  function Value<T>(m: Maybe<T>): (r: Result<T, Exception>)
    ensures r.Success? <==> m.stored.Some?
    ensures r.Success? ==> m.stored == Some(r.value)
    ensures r.Failure? ==> r.error.InvalidOperationException?
  {
    if HasValue(m) then Success(m.stored.value)
    else Failure(InvalidOperationException("The value cannot be accessed because it does not exist."))
  }

  const NoneError: Error := NewError("None", "Not Exist")

  /** `Maybe<T>.None`. `dflt` is `default(T)`: `None` (null) for a reference
      type, `Some(zero)` for a value type. */
  function NoneOf<T>(dflt: Option<T>): (m: Maybe<T>)
    ensures m.error == Some(NoneError)
    ensures HasValue(m) <==> dflt.Some?
  {
    Maybe(dflt, Some(NoneError))
  }

  /** `Maybe<T>.Exception(error)`. */
  function ExceptionOf<T>(dflt: Option<T>, err: Error): (m: Maybe<T>)
    ensures m.error == Some(err)
    ensures HasValue(m) <==> dflt.Some?
  {
    Maybe(dflt, Some(err))
  }

  /** `Maybe<T>.From(value)` and the implicit conversion from `T`. */
  function From<T>(v: Option<T>): (m: Maybe<T>)
    ensures HasValue(m) <==> v.Some?
    ensures v.Some? ==> Value(m) == Success(v.value)
    ensures m.error.None?
  {
    Maybe(v, None)
  }

  /** For a reference type `None` and `Exception` hold no value; for a value
      type `None` reports a value, the zero of the type. */
  lemma NoneReportsDefault<T>(zero: T, err: Error)
    ensures HasNoValue(NoneOf<T>(None)) && HasNoValue(ExceptionOf<T>(None, err))
    ensures HasValue(NoneOf(Some(zero))) && Value(NoneOf(Some(zero))) == Success(zero)
    ensures NoneOf<T>(None).error.value.code == "None"
  {
  }

  /** `Equals(Maybe<T> other)`: false for null; two empties are equal; an empty
      and a non-empty are not; two non-empties compare their values. */
  function Equals<T(==)>(self: Maybe<T>, other: Option<Maybe<T>>): (r: bool)
    ensures r <==> other.Some? && self.stored == other.value.stored
  {
    if other.None? then false
    else if HasNoValue(self) && HasNoValue(other.value) then true
    else if HasNoValue(self) || HasNoValue(other.value) then false
    else self.stored.value == other.value.stored.value
  }

  /** What `Equals(object)` can be handed: a raw `T`, another `Maybe<T>`, or an
      object of an unrelated type. */
  datatype Argument<T> = Raw(v: T) | Wrapped(m: Maybe<T>) | Unrelated

  /** `Equals(object obj)`. */
  function EqualsObject<T(==)>(self: Maybe<T>, obj: Option<Argument<T>>): (r: bool)
    ensures r <==> obj.Some? && ((obj.value.Raw? && self.stored == Some(obj.value.v))
                                 || (obj.value.Wrapped? && self.stored == obj.value.m.stored))
  {
    match obj
    case None => false
    case Some(Raw(v)) => Equals(self, Some(Maybe(Some(v), None)))
    case Some(Wrapped(m)) => Equals(self, Some(m))
    case Some(Unrelated) => false
  }

  /** Comparing with a raw value is comparing with `From` of it, and equality
      ignores the attached error. */
  lemma EqualsRawIsEqualsFrom<T>(self: Maybe<T>, v: T, e1: Option<Error>, e2: Option<Error>)
    ensures EqualsObject(self, Some(Raw(v))) == Equals(self, Some(From(Some(v))))
    ensures Equals(Maybe(self.stored, e1), Some(Maybe(self.stored, e2)))
  {
  }

  /** `GetHashCode()`: the value's hash, or 0 when there is none. */
  function HashCode<T>(self: Maybe<T>, hash: T -> int): (h: int)
    ensures HasNoValue(self) ==> h == 0
    ensures HasValue(self) ==> h == hash(self.stored.value)
  {
    if HasValue(self) then hash(self.stored.value) else 0
  }

  /** Equal instances hash alike. */
  lemma EqualsThenSameHash<T>(a: Maybe<T>, b: Maybe<T>, hash: T -> int)
    requires Equals(a, Some(b))
    ensures HashCode(a, hash) == HashCode(b, hash)
  {
  }
}

=== FILE: mongo_context.dfy ===
/**
  The write side of `MongoDbContext`: the documents of one collection in
  natural order, each an entity with the audit and soft-delete columns the
  context stamps. In stand-alone mode `Insert`, `Update` and `Remove` act on
  the collection at once; with a session they act inside the session's
  transaction, and the collection below is what that transaction commits.
  `SaveBy` (set by `StartTransactionAsync`) and each reading of the clock
  are parameters.
 */
module MongoContexts {
  import opened Wrappers
  import opened Primitives
  import opened Entities
  import opened Maybes

  /** Which of `IAuditableEntity` and `ISoftDeletableEntity` the entity type
      implements. */
  datatype EntityType = EntityType(auditable: bool, softDeletable: bool)

  /** A stored document. The audit columns are meaningful only for an
      auditable type, the soft-delete columns only for a soft-deletable one. */
  datatype Document = Document(
    entity: Entity,
    createdOnUtc: DateTime,
    createdBy: Option<Guid>,
    modifiedOnUtc: Option<DateTime>,
    modifiedBy: Option<Guid>,
    deletedOnUtc: Option<DateTime>,
    deleted: bool)

  type Collection = seq<Document>

  function Id(d: Document): Guid {
    d.entity.id
  }

  /** The position of the first document with the id, in natural order: the
      one that `Find(x => x.Id == id)`, `ReplaceOne` and `DeleteOne` reach. */
  function IndexOfId(c: Collection, id: Guid): (r: Option<nat>)
    ensures r.Some? ==> r.value < |c| && Id(c[r.value]) == id
    ensures r.Some? ==> forall j :: 0 <= j < r.value ==> Id(c[j]) != id
    ensures r.None? <==> forall j :: 0 <= j < |c| ==> Id(c[j]) != id
  {
    if |c| == 0 then None
    else if Id(c[0]) == id then Some(0)
    else
      var k := IndexOfId(c[1..], id);
      if k.None? then None
      else
        assert forall j :: 1 <= j < k.value + 1 ==> Id(c[j]) == Id(c[1..][j - 1]);
        Some(k.value + 1)
  }

  /** `GetBydIdAsync(id)`: the first document with the id, soft-deleted or
      not, wrapped in a `Maybe`. */
  function GetBydIdAsync(c: Collection, id: Guid): (m: Maybe<Document>)
    ensures HasNoValue(m) <==> forall j :: 0 <= j < |c| ==> Id(c[j]) != id
    ensures HasValue(m) ==> exists k :: 0 <= k < |c| && m.stored.value == c[k]
    ensures HasValue(m) ==> Id(m.stored.value) == id
  {
    var k := IndexOfId(c, id);
    From(if k.Some? then Some(c[k.value]) else None)
  }

  // ---------------------------------------------------------------------
  // Stamping
  // ---------------------------------------------------------------------

  /** `SetAuditProperties(entity, SaveBy)` with the clock reading `now`. */
  function SetAuditProperties(t: EntityType, d: Document, saveBy: Guid, now: DateTime): (r: Document)
    ensures !t.auditable ==> r == d
    ensures r.entity == d.entity && r.deleted == d.deleted && r.deletedOnUtc == d.deletedOnUtc
    ensures t.auditable ==> r.modifiedOnUtc == Some(now) && r.modifiedBy == Some(saveBy)
    ensures t.auditable && d.createdOnUtc == DefaultDateTime ==> r.createdOnUtc == now && r.createdBy == Some(saveBy)
    ensures d.createdOnUtc != DefaultDateTime ==> r.createdOnUtc == d.createdOnUtc && r.createdBy == d.createdBy
  {
    if !t.auditable then d
    else
      var created := if d.createdOnUtc == DefaultDateTime then d.(createdOnUtc := now, createdBy := Some(saveBy)) else d;
      created.(modifiedOnUtc := Some(now), modifiedBy := Some(saveBy))
  }

  /** `IsMarkAsDeleted(entity)`: for a soft-deletable type it sets `Deleted`
      and `DeletedOnUtc` and answers true. */
  function MarkAsDeleted(t: EntityType, d: Document, now: DateTime): (r: (bool, Document))
    ensures r.0 == t.softDeletable
    ensures r.1.entity == d.entity && r.1.createdOnUtc == d.createdOnUtc && r.1.createdBy == d.createdBy
    ensures r.1.modifiedOnUtc == d.modifiedOnUtc && r.1.modifiedBy == d.modifiedBy
    ensures r.0 ==> r.1.deleted && r.1.deletedOnUtc == Some(now)
    ensures !r.0 ==> r.1 == d
  {
    if t.softDeletable then (true, d.(deleted := true, deletedOnUtc := Some(now))) else (false, d)
  }

  // ---------------------------------------------------------------------
  // Collection operations
  // ---------------------------------------------------------------------

  /** `ReplaceOne(x => x.Id == d.Id, d)`. */
  function ReplaceOne(c: Collection, d: Document): (r: Collection)
    ensures |r| == |c|
    ensures IndexOfId(c, Id(d)).None? ==> r == c
    ensures IndexOfId(c, Id(d)).Some? ==>
              r[IndexOfId(c, Id(d)).value] == d
              && forall j :: 0 <= j < |c| && j != IndexOfId(c, Id(d)).value ==> r[j] == c[j]
  {
    var k := IndexOfId(c, Id(d));
    if k.None? then c else c[k.value := d]
  }

  /** `DeleteOne(x => x.Id == id)`. */
  function DeleteOne(c: Collection, id: Guid): (r: Collection)
    ensures IndexOfId(c, id).None? ==> r == c
    ensures IndexOfId(c, id).Some? ==>
              var k := IndexOfId(c, id).value;
              |r| == |c| - 1 && r == c[..k] + c[k + 1..]
  {
    var k := IndexOfId(c, id);
    if k.None? then c else c[..k.value] + c[k.value + 1..]
  }

  /** `Insert(entity)`: stamped, then `InsertOne`. */
  function Insert(t: EntityType, c: Collection, d: Document, saveBy: Guid, now: DateTime): (r: Collection)
    ensures |r| == |c| + 1 && r[..|c|] == c
    ensures r[|c|] == SetAuditProperties(t, d, saveBy, now)
  {
    c + [SetAuditProperties(t, d, saveBy, now)]
  }

  /** `InsertRange(entities)`: each entity inserted in turn; the `k`-th is
      stamped with the clock's `k`-th reading. */
  function InsertRange(t: EntityType, c: Collection, ds: seq<Document>, saveBy: Guid, clock: nat -> DateTime): (r: Collection)
    ensures |r| == |c| + |ds| && r[..|c|] == c
    ensures forall k :: 0 <= k < |ds| ==> r[|c| + k] == SetAuditProperties(t, ds[k], saveBy, clock(k))
    decreases |ds|
  {
    if |ds| == 0 then c
    else
      var rest := InsertRange(t, Insert(t, c, ds[0], saveBy, clock(0)), ds[1..], saveBy, (k: nat) => clock(k + 1));
      rest
  }

  /** `Update(entity)`: stamped, then `ReplaceOne` by id. */
  function Update(t: EntityType, c: Collection, d: Document, saveBy: Guid, now: DateTime): (r: Collection)
  {
    ReplaceOne(c, SetAuditProperties(t, d, saveBy, now))
  }

  /** `Remove(entity)`: a soft-deletable entity is marked and written back
      with `Update`; any other is deleted by id. `markedAt` and `stampedAt`
      are the clock readings of `IsMarkAsDeleted` and of the update's
      `SetAuditProperties`. */
  function Remove(t: EntityType, c: Collection, d: Document, saveBy: Guid, markedAt: DateTime, stampedAt: DateTime): (r: Collection)
  {
    var marked := MarkAsDeleted(t, d, markedAt);
    if marked.0 then Update(t, c, marked.1, saveBy, stampedAt) else DeleteOne(c, Id(d))
  }

  // ---------------------------------------------------------------------
  // Properties
  // ---------------------------------------------------------------------

  /** No two documents share an id. */
  predicate UniqueIds(c: Collection) {
    forall i, j :: 0 <= i < j < |c| ==> Id(c[i]) != Id(c[j])
  }

  /** An inserted document with a new id is found again by its id, as
      stamped. */
  lemma InsertThenFind(t: EntityType, c: Collection, d: Document, saveBy: Guid, now: DateTime)
    requires forall j :: 0 <= j < |c| ==> Id(c[j]) != Id(d)
    ensures var r := Insert(t, c, d, saveBy, now);
            && (UniqueIds(c) ==> UniqueIds(r))
            && GetBydIdAsync(r, Id(d)).stored == Some(SetAuditProperties(t, d, saveBy, now))
  {
    var r := Insert(t, c, d, saveBy, now);
    var k := IndexOfId(r, Id(d));
    assert Id(r[|c|]) == Id(d);
    assert k == Some(|c|);
  }

  /** `Update` and `Remove` change no document's id, so ids stay unique. */
  lemma ReplaceOneKeepsIds(c: Collection, d: Document)
    ensures forall j :: 0 <= j < |c| ==> Id(ReplaceOne(c, d)[j]) == Id(c[j])
  {
  }

  lemma DeleteOneKeepsUnique(c: Collection, id: Guid)
    requires UniqueIds(c)
    ensures UniqueIds(DeleteOne(c, id))
    ensures forall j :: 0 <= j < |DeleteOne(c, id)| ==> Id(DeleteOne(c, id)[j]) != id
  {
    var k := IndexOfId(c, id);
    if k.Some? {
      var r := DeleteOne(c, id);
      assert forall j :: 0 <= j < |r| ==> r[j] == c[if j < k.value then j else j + 1];
    }
  }

  /** Updating writes the stamped document over the first one with its id
      and leaves every other document as it was; an id that is not stored
      changes nothing (`ReplaceOne` does not insert). */
  lemma UpdateSound(t: EntityType, c: Collection, d: Document, saveBy: Guid, now: DateTime)
    ensures (forall j :: 0 <= j < |c| ==> Id(c[j]) != Id(d)) ==> Update(t, c, d, saveBy, now) == c
    ensures forall k :: 0 <= k < |c| && Id(c[k]) == Id(d) && (forall j :: 0 <= j < k ==> Id(c[j]) != Id(d)) ==>
              var r := Update(t, c, d, saveBy, now);
              && |r| == |c| && r[k] == SetAuditProperties(t, d, saveBy, now)
              && forall j :: 0 <= j < |c| && j != k ==> r[j] == c[j]
  {
    var stamped := SetAuditProperties(t, d, saveBy, now);
    assert Id(stamped) == Id(d);
  }

  /** Removing a soft-deletable entity keeps its document, now marked
      deleted and (for an auditable type) stamped as modified, and leaves
      every other document as it was; the id still finds it. */
  lemma RemoveSoftDeletable(t: EntityType, c: Collection, d: Document, saveBy: Guid,
                            markedAt: DateTime, stampedAt: DateTime, k: nat)
    requires t.softDeletable
    requires k < |c| && Id(c[k]) == Id(d) && forall j :: 0 <= j < k ==> Id(c[j]) != Id(d)
    ensures var r := Remove(t, c, d, saveBy, markedAt, stampedAt);
            && |r| == |c|
            && r[k].entity == d.entity && r[k].deleted && r[k].deletedOnUtc == Some(markedAt)
            && (t.auditable ==> r[k].modifiedOnUtc == Some(stampedAt) && r[k].modifiedBy == Some(saveBy))
            && (forall j :: 0 <= j < |c| && j != k ==> r[j] == c[j])
            && GetBydIdAsync(r, Id(d)).stored == Some(r[k])
  {
    var r := Remove(t, c, d, saveBy, markedAt, stampedAt);
    assert IndexOfId(c, Id(d)) == Some(k);
    ReplaceOneKeepsIds(c, SetAuditProperties(t, MarkAsDeleted(t, d, markedAt).1, saveBy, stampedAt));
    assert IndexOfId(r, Id(d)) == Some(k) by {
      assert forall j :: 0 <= j < k ==> Id(r[j]) != Id(d);
    }
  }

  /** Removing any other entity deletes its document and keeps the rest in
      order; with unique ids the id then finds nothing. */
  lemma RemoveHard(t: EntityType, c: Collection, d: Document, saveBy: Guid,
                   markedAt: DateTime, stampedAt: DateTime, k: nat)
    requires !t.softDeletable
    requires k < |c| && Id(c[k]) == Id(d) && forall j :: 0 <= j < k ==> Id(c[j]) != Id(d)
    ensures var r := Remove(t, c, d, saveBy, markedAt, stampedAt);
            && r == c[..k] + c[k + 1..]
            && (UniqueIds(c) ==> HasNoValue(GetBydIdAsync(r, Id(d))) && UniqueIds(r))
  {
    assert IndexOfId(c, Id(d)) == Some(k);
    if UniqueIds(c) {
      DeleteOneKeepsUnique(c, Id(d));
    }
  }

  /** Removing an entity whose id is not stored changes nothing. */
  lemma RemoveUnknown(t: EntityType, c: Collection, d: Document, saveBy: Guid, markedAt: DateTime, stampedAt: DateTime)
    requires forall j :: 0 <= j < |c| ==> Id(c[j]) != Id(d)
    ensures Remove(t, c, d, saveBy, markedAt, stampedAt) == c
  {
    assert IndexOfId(c, Id(MarkAsDeleted(t, d, markedAt).1)).None?;
  }
}

=== FILE: pagination_paging.dfy ===
/**
  `Codecaine.Common.Pagination.PagedResult`: wraps rows that were already
  paged by the caller, together with the caller's total count.
 */
module PaginationPaging {
  import opened PagingMath

  datatype PagedResult<T> = PagedResult(
    currentPage: int, pageCount: int, pageSize: int, rowCount: int, totalCount: int, results: seq<T>)
  {
    function FirstRowOnPage(): int {
      FirstRow(currentPage, pageSize)
    }

    /** As written: clamped by `RowCount`, the number of rows this page holds. */
    function LastRowOnPage(): int {
      LastRow(currentPage, pageSize, rowCount)
    }

    /** Clamped by `TotalCount`, the number of rows in the whole result. */
    function LastRowOnPageOfTotal(): int {
      LastRow(currentPage, pageSize, totalCount)
    }
  }

  /** `GetPaged(totalCount, page, pageSize)`; the `IQueryable` overload
      materialises the query whole and the `IList` overload keeps the list
      itself, so both hold exactly the input rows. */
  function GetPaged<T>(items: seq<T>, totalCount: int, page: int, pageSize: int): (r: PagedResult<T>)
    requires pageSize > 0
    ensures r.results == items && r.rowCount == |items| && r.totalCount == totalCount
    ensures r.currentPage == page && r.pageSize == pageSize
    ensures (r.pageCount - 1) * pageSize < totalCount <= r.pageCount * pageSize
  {
    PagedResult(page, CeilDiv(totalCount, pageSize), pageSize, |items|, totalCount, items)
  }

  /** A page as a repository returns it: the rows at offset
      `(page - 1) * pageSize` of a result of `totalCount` rows, on a page
      that holds at least one row. */
  predicate IsPageOf(items: seq<int>, totalCount: int, page: int, pageSize: int) {
    && pageSize > 0 && page >= 1 && totalCount >= 0
    && (page - 1) * pageSize < totalCount
    && |items| == Min(pageSize, totalCount - (page - 1) * pageSize)
  }

  /** As written, the second page of 25 rows in pages of 10 reports rows 11 to
      10: `LastRowOnPage` is clamped by the 10 rows held, not by the total. */
  lemma LastRowBeforeFirstRow()
    ensures var items := seq(10, i => i);
            && IsPageOf(items, 25, 2, 10)
            && GetPaged(items, 25, 2, 10).FirstRowOnPage() == 11
            && GetPaged(items, 25, 2, 10).LastRowOnPage() == 10
  {
  }

  /** Clamped by the total, the row range of any page of a repository result
      spans exactly the rows the page holds. */
  lemma RowsOfTotalMatchPage(items: seq<int>, totalCount: int, page: int, pageSize: int)
    requires IsPageOf(items, totalCount, page, pageSize)
    ensures var r := GetPaged(items, totalCount, page, pageSize);
            r.LastRowOnPageOfTotal() - r.FirstRowOnPage() + 1 == |items| >= 1
  {
    MulSucc(page, pageSize);
  }
}

=== FILE: paging_math.dfy ===
/**
  The arithmetic and LINQ slicing shared by the paged results and the
  repositories: `Skip`, `Take`, the integer form of `Math.Ceiling(a / b)` and
  the first/last row formulas of `PagedResultBase`.
 */
module PagingMath {

  function Min(a: int, b: int): int {
    if a <= b then a else b
  }

  function Max(a: int, b: int): int {
    if a >= b then a else b
  }

  /** `Enumerable.Skip(n)`: a non-positive count skips nothing. */
  function Skip<T>(s: seq<T>, n: int): (r: seq<T>)
    ensures |r| == |s| - Min(Max(n, 0), |s|)
    ensures forall i :: 0 <= i < |r| ==> r[i] == s[i + Min(Max(n, 0), |s|)]
  {
    if n <= 0 then s else if n >= |s| then [] else s[n..]
  }

  /** `Enumerable.Take(n)`: a non-positive count takes nothing. */
  function Take<T>(s: seq<T>, n: int): (r: seq<T>)
    ensures |r| == Min(Max(n, 0), |s|)
    ensures r <= s
  {
    if n <= 0 then [] else if n >= |s| then s else s[..n]
  }

  /** `(int)Math.Ceiling((double)a / b)` for a positive divisor, on exact
      integers: the least `q` with `a <= q * b`. */
  function CeilDiv(a: int, b: int): (q: int)
    requires b > 0
    ensures (q - 1) * b < a <= q * b
  {
    var q := (a + b - 1) / b;
    assert q * b <= a + b - 1 < q * b + b;
    q
  }

  /** `FirstRowOnPage`. */
  function FirstRow(currentPage: int, pageSize: int): int {
    (currentPage - 1) * pageSize + 1
  }

  /** `LastRowOnPage`, clamped by the given row count. */
  function LastRow(currentPage: int, pageSize: int, rowCount: int): int {
    Min(currentPage * pageSize, rowCount)
  }

  /** The slice `Skip((page - 1) * pageSize).Take(pageSize)`. */
  function PageSlice<T>(s: seq<T>, page: int, pageSize: int): seq<T> {
    Take(Skip(s, (page - 1) * pageSize), pageSize)
  }

  lemma MulSucc(p: int, n: int)
    ensures p * n == (p - 1) * n + n
  {
  }

  lemma MulMono(a: int, b: int, n: int)
    requires a >= b && n > 0
    ensures a * n >= b * n
  {
  }

  /** `Skip(off).Take(n)` for a non-negative offset and a positive count. */
  lemma SliceAt<T>(s: seq<T>, off: int, n: int)
    requires off >= 0 && n > 0
    ensures |Take(Skip(s, off), n)| == Min(n, Max(0, |s| - off))
    ensures off < |s| ==> Take(Skip(s, off), n) == s[off..Min(off + n, |s|)]
    ensures off >= |s| ==> Take(Skip(s, off), n) == []
  {
    if off < |s| {
      var k := Skip(s, off);
      assert k == s[off..];
      if n >= |k| {
        assert Take(k, n) == s[off..|s|];
      } else {
        assert Take(k, n) == s[off..off + n];
      }
    }
  }

  /** A page is the contiguous run of at most `pageSize` elements that starts
      at offset `(page - 1) * pageSize`; a page past the end is empty. */
  lemma PageSliceIsContiguous<T>(s: seq<T>, page: int, pageSize: int)
    requires pageSize > 0 && page >= 1
    ensures var off := (page - 1) * pageSize;
            && |PageSlice(s, page, pageSize)| == Min(pageSize, Max(0, |s| - off))
            && (off < |s| ==> PageSlice(s, page, pageSize) == s[off..Min(off + pageSize, |s|)])
            && (off >= |s| ==> PageSlice(s, page, pageSize) == [])
  {
    MulMono(page - 1, 0, pageSize);
    SliceAt(s, (page - 1) * pageSize, pageSize);
  }

  /** The concatenation of pages `page..lastPage`. */
  function PagesFrom<T>(s: seq<T>, pageSize: int, page: int, lastPage: int): seq<T>
    decreases lastPage - page + 1
  {
    if page > lastPage then [] else PageSlice(s, page, pageSize) + PagesFrom(s, pageSize, page + 1, lastPage)
  }

  /** Pages that start at or after the end of the sequence are all empty. */
  lemma {:induction false} EmptyPagesAfterEnd<T>(s: seq<T>, pageSize: int, page: int, lastPage: int)
    requires pageSize > 0 && page >= 1
    requires (page - 1) * pageSize >= |s|
    ensures PagesFrom(s, pageSize, page, lastPage) == []
    decreases lastPage - page + 1
  {
    if page <= lastPage {
      PageSliceIsContiguous(s, page, pageSize);
      MulSucc(page + 1, pageSize);
      EmptyPagesAfterEnd(s, pageSize, page + 1, lastPage);
    }
  }

  /** Pages `page..lastPage` together hold everything from the start of `page`
      onwards when `lastPage` reaches the end of the sequence. */
  lemma {:induction false} PagesFromSuffix<T>(s: seq<T>, pageSize: int, page: int, lastPage: int)
    requires pageSize > 0 && page >= 1
    requires (page - 1) * pageSize <= |s| <= lastPage * pageSize
    ensures PagesFrom(s, pageSize, page, lastPage) == s[(page - 1) * pageSize..]
    decreases lastPage - page + 1
  {
    if page > lastPage {
      MulMono(page - 1, lastPage, pageSize);
    } else if page * pageSize <= |s| {
      PagesFromSuffix(s, pageSize, page + 1, lastPage);
      PageThenRest(s, pageSize, page, lastPage);
    } else {
      EmptyPagesAfterEnd(s, pageSize, page + 1, lastPage);
      LastPageToEnd(s, pageSize, page, lastPage);
    }
  }

  /** A page that ends inside the sequence, followed by everything from the
      next page's start, is everything from this page's start. */
  lemma PageThenRest<T>(s: seq<T>, pageSize: int, page: int, lastPage: int)
    requires pageSize > 0 && 1 <= page <= lastPage && page * pageSize <= |s|
    requires PagesFrom(s, pageSize, page + 1, lastPage) == s[page * pageSize..]
    ensures PagesFrom(s, pageSize, page, lastPage) == s[(page - 1) * pageSize..]
  {
    var off := (page - 1) * pageSize;
    var next := page * pageSize;
    MulSucc(page, pageSize);
    PageSliceIsContiguous(s, page, pageSize);
    assert PageSlice(s, page, pageSize) == s[off..next];
    assert PagesFrom(s, pageSize, page, lastPage) == s[off..next] + s[next..];
    assert s[off..] == s[off..next] + s[next..];
  }

  /** A page that reaches the end of the sequence holds all of it from its
      start when every later page is empty. */
  lemma LastPageToEnd<T>(s: seq<T>, pageSize: int, page: int, lastPage: int)
    requires pageSize > 0 && 1 <= page <= lastPage && (page - 1) * pageSize <= |s| < page * pageSize
    requires PagesFrom(s, pageSize, page + 1, lastPage) == []
    ensures PagesFrom(s, pageSize, page, lastPage) == s[(page - 1) * pageSize..]
  {
    MulSucc(page, pageSize);
    PageSliceIsContiguous(s, page, pageSize);
  }

  /** Reading pages 1 to `ceil(|s| / pageSize)` in order gives back the whole
      sequence. */
  lemma PagesConcatenate<T>(s: seq<T>, pageSize: int)
    requires pageSize > 0
    ensures PagesFrom(s, pageSize, 1, CeilDiv(|s|, pageSize)) == s
  {
    PagesFromSuffix(s, pageSize, 1, CeilDiv(|s|, pageSize));
  }
}

=== FILE: parse_filters.dfy ===
/**
  `ParseFilters.ParseFilterCriterion`: raw query-string filters of the form
  `property|operator|v1,v2,...` become filter criteria. A raw filter with
  fewer than three `|`-separated parts is skipped; parts after the third are
  ignored.
 */
module ParseFilters {
  import opened Wrappers
  import opened Text
  import opened Filters

  function LogicOf(orLogic: bool): FilterLogic {
    if orLogic then Or else And
  }

  /** The body of the `foreach` for one raw filter; `None` is `continue`. */
  function ParseOne(raw: string, orLogic: bool): (r: Option<FilterCriterion>)
    ensures r.Some? <==> CountChar(raw, '|') >= 2
    ensures r.Some? ==> r.value.logic == LogicOf(orLogic) && |r.value.values| >= 1
    ensures r.Some? ==> '|' !in r.value.property
  {
    var parts := Split(raw, '|');
    if |parts| < 3 then None
    else Some(FilterCriterion(parts[0], OperatorOrEquals(parts[1]), Split(parts[2], ','), LogicOf(orLogic)))
  }

  function ParseFilterCriterion(rawFilters: seq<string>, orLogic: bool): (r: seq<FilterCriterion>)
    ensures |r| <= |rawFilters|
    ensures forall k :: 0 <= k < |r| ==> r[k].logic == LogicOf(orLogic) && |r[k].values| >= 1
  {
    if |rawFilters| == 0 then []
    else
      Prepend(ParseOne(rawFilters[0], orLogic), ParseFilterCriterion(rawFilters[1..], orLogic))
  }

  function Prepend(o: Option<FilterCriterion>, rest: seq<FilterCriterion>): seq<FilterCriterion> {
    if o.Some? then [o.value] + rest else rest
  }

  /** Parsing distributes over concatenation: each raw filter is handled on
      its own and the output keeps the input order. */
  lemma {:induction false} ParseConcat(a: seq<string>, b: seq<string>, orLogic: bool)
    ensures ParseFilterCriterion(a + b, orLogic)
            == ParseFilterCriterion(a, orLogic) + ParseFilterCriterion(b, orLogic)
  {
    if |a| == 0 {
      assert a + b == b;
    } else {
      assert (a + b)[0] == a[0];
      assert (a + b)[1..] == a[1..] + b;
      ParseConcat(a[1..], b, orLogic);
      var o := ParseOne(a[0], orLogic);
      assert Prepend(o, ParseFilterCriterion(a[1..], orLogic) + ParseFilterCriterion(b, orLogic))
             == Prepend(o, ParseFilterCriterion(a[1..], orLogic)) + ParseFilterCriterion(b, orLogic);
    }
  }

  /** A raw filter with fewer than two separators contributes nothing; one
      with two or more contributes exactly one criterion. */
  lemma ParseSingle(raw: string, orLogic: bool)
    ensures CountChar(raw, '|') < 2 ==> ParseFilterCriterion([raw], orLogic) == []
    ensures CountChar(raw, '|') >= 2 ==> ParseFilterCriterion([raw], orLogic) == [ParseOne(raw, orLogic).value]
  {
    assert [raw][1..] == [];
  }

  lemma JoinAvoids(parts: seq<string>, sep: char, c: char)
    requires |parts| >= 1 && c != sep
    requires forall k :: 0 <= k < |parts| ==> c !in parts[k]
    ensures c !in Join(parts, sep)
  {
    if |parts| > 1 {
      JoinAvoids(parts[1..], sep, c);
    }
  }

  /** A criterion read from `raw` is exactly what `raw` spells: the property
      up to the first `|`, the operator text up to the second, the values
      joined by commas, and then nothing or a further `|` part. */
  lemma ParsedShape(raw: string, orLogic: bool)
    requires ParseOne(raw, orLogic).Some?
    ensures exists opText: string, rest: string :: Spells(raw, ParseOne(raw, orLogic).value, opText, rest)
  {
    var c := ParseOne(raw, orLogic).value;
    var parts := Split(raw, '|');
    var rest := if |parts| == 3 then "" else "|" + Join(parts[3..], '|');
    SplitShape(raw, '|');
    JoinSplit(parts[2], ',');
    assert c == FilterCriterion(parts[0], OperatorOrEquals(parts[1]), Split(parts[2], ','), LogicOf(orLogic));
    assert raw == c.property + "|" + parts[1] + "|" + Join(c.values, ',') + rest;
    assert '|' !in parts[1];
    assert rest == "" || rest[0] == '|';
    assert c.op == OperatorOrEquals(parts[1]);
    assert Spells(raw, c, parts[1], rest);
  }

  /** `raw` is `c` written out with operator text `opText`, followed by
      nothing or by further `|`-separated text. */
  predicate Spells(raw: string, c: FilterCriterion, opText: string, rest: string)
    requires |c.values| >= 1
  {
    && raw == c.property + "|" + opText + "|" + Join(c.values, ',') + rest
    && '|' !in opText
    && c.op == OperatorOrEquals(opText)
    && (rest == "" || rest[0] == '|')
  }

  /** A string with at least two separators is its first three pieces and the
      rest, separated. */
  lemma SplitShape(s: string, sep: char)
    requires CountChar(s, sep) >= 2
    ensures var parts := Split(s, sep);
            s == parts[0] + [sep] + parts[1] + [sep] + parts[2]
                 + (if |parts| == 3 then [] else [sep] + Join(parts[3..], sep))
  {
    JoinSplit(s, sep);
    JoinThree(Split(s, sep), sep);
  }

  /** Unfolding a join of at least three pieces twice. */
  lemma JoinThree(parts: seq<string>, sep: char)
    requires |parts| >= 3
    ensures Join(parts, sep)
            == parts[0] + [sep] + parts[1] + [sep] + parts[2]
               + (if |parts| == 3 then [] else [sep] + Join(parts[3..], sep))
  {
    var tail := if |parts| == 3 then [] else [sep] + Join(parts[3..], sep);
    assert parts[2..][0] == parts[2] && parts[2..][1..] == parts[3..];
    assert Join(parts[2..], sep) == parts[2] + tail;
    assert parts[1..][0] == parts[1] && parts[1..][1..] == parts[2..];
    assert Join(parts[1..], sep) == parts[1] + [sep] + (parts[2] + tail);
  }

  /** The text a criterion with a declared operator is written as. */
  function Format(c: FilterCriterion): string
    requires !c.op.Undefined? && |c.values| >= 1
  {
    c.property + "|" + Names[Code(c.op)] + "|" + Join(c.values, ',')
  }

  /** Writing a criterion out and parsing it back gives the criterion, as long
      as its property and values contain no separators. */
  lemma FormatRoundTrip(c: FilterCriterion, orLogic: bool)
    requires !c.op.Undefined? && |c.values| >= 1
    requires '|' !in c.property
    requires forall k :: 0 <= k < |c.values| ==> '|' !in c.values[k] && ',' !in c.values[k]
    requires c.logic == LogicOf(orLogic)
    ensures ParseFilterCriterion([Format(c)], orLogic) == [c]
  {
    var name := Names[Code(c.op)];
    var joined := Join(c.values, ',');
    NamesAreLetters(Code(c.op));
    assert '|' !in name by {
      forall i | 0 <= i < |name| ensures name[i] != '|' {
        assert 'a' <= ToLowerChar(name[i]) <= 'z';
      }
    }
    JoinAvoids(c.values, ',', '|');
    var parts := [c.property, name, joined];
    JoinThree(parts, '|');
    assert Join(parts, '|') == Format(c);
    SplitJoin(parts, '|');
    SplitJoin(c.values, ',');
    NameParsesIgnoringCase(c.op, name);
    ParseSingle(Format(c), orLogic);
  }
}

=== FILE: peribahasa.dfy ===
/**
  The `Peribahasa` aggregate: six required text fields, the `Content` string
  built from them, and the domain event raised by `Create`.
 */
module Peribahasas {
  import opened Wrappers
  import opened Text
  import opened Primitives
  import opened Exceptions
  import opened Guards

  datatype DomainEvent = PeribahasaCreatedDomainEvent(peribahasaId: Guid)

  datatype Peribahasa = Peribahasa(
    id: Guid,
    teks: string,
    maksud: string,
    teksTranslation: string,
    maksudTranslation: string,
    context: string,
    source: string,
    content: string,
    domainEvents: seq<DomainEvent>)

  /** The property names the guards report, in the order they are checked. */
  const FieldNames: seq<string> :=
    ["Teks", "Maksud", "TeksTranslation", "MaksudTranslation", "Context", "Source"]

  /** The guard messages, in the same order. */
  const FieldMessages: seq<string> :=
    ["The teks is required.", "The maksud is required.", "The translation is required.",
     "The maksudTranslation is required.", "The Context is required.", "The Source is required."]

  /** Runs the guards for arguments `i..` in order and stops at the first
      blank one. */
  function CheckFrom(args: seq<NullableString>, i: nat): (r: Outcome<Exception>)
    requires |args| == 6 && i <= 6
    ensures r.Pass? <==> forall j :: i <= j < 6 ==> !IsNullOrWhiteSpace(args[j])
    ensures r.Fail? ==> exists k :: i <= k < 6 && IsNullOrWhiteSpace(args[k])
                         && (forall j :: i <= j < k ==> !IsNullOrWhiteSpace(args[j]))
                         && r.error == ArgumentException(FieldMessages[k], Some(FieldNames[k]))
    decreases 6 - i
  {
    if i == 6 then Pass
    else
      var g := NotEmptyString(args[i], FieldMessages[i], FieldNames[i]);
      if g.Fail? then g else CheckFrom(args, i + 1)
  }

  /** The constructor, given the id `Guid.NewGuid()` produced. */
  function New(id: NewGuid, teks: NullableString, maksud: NullableString, translation: NullableString,
               maksudTranslation: NullableString, context: NullableString, source: NullableString)
    : (r: Result<Peribahasa, Exception>)
    ensures var args := [teks, maksud, translation, maksudTranslation, context, source];
            && (r.Success? <==> forall j :: 0 <= j < 6 ==> !IsNullOrWhiteSpace(args[j]))
            && (r.Failure? ==> exists k :: 0 <= k < 6 && IsNullOrWhiteSpace(args[k])
                                && (forall j :: 0 <= j < k ==> !IsNullOrWhiteSpace(args[j]))
                                && r.error == ArgumentException(FieldMessages[k], Some(FieldNames[k])))
            && (r.Success? ==> var p := r.value;
                  && p.id == id && p.domainEvents == []
                  && [Some(p.teks), Some(p.maksud), Some(p.teksTranslation), Some(p.maksudTranslation),
                      Some(p.context), Some(p.source)] == args
                  && p.content == Join([p.teks, p.maksud, p.teksTranslation, p.maksudTranslation,
                                        p.context, p.source], ' '))
  {
    var args := [teks, maksud, translation, maksudTranslation, context, source];
    var g := CheckFrom(args, 0);
    if g.Fail? then Failure(g.error)
    else
      assert !IsNullOrWhiteSpace(args[0]) && !IsNullOrWhiteSpace(args[5]);
      var t, m, tt, mt, c, s := teks.value, maksud.value, translation.value, maksudTranslation.value,
                                context.value, source.value;
      ContentIsJoin(t, m, tt, mt, c, s);
      Success(Peribahasa(id, t, m, tt, mt, c, s,
                         t + " " + m + " " + tt + " " + mt + " " + c + " " + s, []))
  }

  /** The interpolated `Content` is the six strings joined by single spaces. */
  lemma ContentIsJoin(t: string, m: string, tt: string, mt: string, c: string, s: string)
    ensures Join([t, m, tt, mt, c, s], ' ') == t + " " + m + " " + tt + " " + mt + " " + c + " " + s
  {
    var parts := [t, m, tt, mt, c, s];
    assert parts[1..] == [m, tt, mt, c, s];
    assert parts[1..][1..] == [tt, mt, c, s];
    assert parts[1..][1..][1..] == [mt, c, s];
    assert parts[1..][1..][1..][1..] == [c, s];
    assert parts[1..][1..][1..][1..][1..] == [s];
    assert Join([c, s], ' ') == c + " " + s;
    assert Join([mt, c, s], ' ') == mt + " " + (c + " " + s);
    assert Join([tt, mt, c, s], ' ') == tt + " " + (mt + " " + (c + " " + s));
    assert Join([m, tt, mt, c, s], ' ') == m + " " + (tt + " " + (mt + " " + (c + " " + s)));
  }

  /** `Peribahasa.Create`: the constructor, then one `PeribahasaCreatedDomainEvent`
      for the new entity. */
  function Create(id: NewGuid, teks: NullableString, maksud: NullableString, translation: NullableString,
                  maksudTranslation: NullableString, context: NullableString, source: NullableString)
    : (r: Result<Peribahasa, Exception>)
    ensures var n := New(id, teks, maksud, translation, maksudTranslation, context, source);
            && r.Success? == n.Success?
            && (r.Failure? ==> r.error == n.error)
            && (r.Success? ==> r.value.domainEvents == [PeribahasaCreatedDomainEvent(id)]
                               && r.value.(domainEvents := []) == n.value)
  {
    var p :- New(id, teks, maksud, translation, maksudTranslation, context, source);
    Success(p.(domainEvents := p.domainEvents + [PeribahasaCreatedDomainEvent(p.id)]))
  }

  /** The exception for a blank field names that field, so a blank `teks`
      reports "Teks" and a blank `source` reports "Source". */
  lemma BlankFieldIsNamed(id: NewGuid, args: seq<NullableString>, k: nat)
    requires |args| == 6 && k < 6
    requires IsNullOrWhiteSpace(args[k])
    requires forall j :: 0 <= j < k ==> !IsNullOrWhiteSpace(args[j])
    ensures var r := New(id, args[0], args[1], args[2], args[3], args[4], args[5]);
            r.Failure? && Contains(Message(r.error), FieldNames[k])
  {
    var r := New(id, args[0], args[1], args[2], args[3], args[4], args[5]);
    assert r.Failure? && r.error == ArgumentException(FieldMessages[k], Some(FieldNames[k])) by {
      assert [args[0], args[1], args[2], args[3], args[4], args[5]] == args;
      var k' :| 0 <= k' < 6 && IsNullOrWhiteSpace(args[k'])
                && (forall j :: 0 <= j < k' ==> !IsNullOrWhiteSpace(args[j]))
                && r.error == ArgumentException(FieldMessages[k'], Some(FieldNames[k']));
      assert k' == k;
    }
    FieldErrorNamesField(k);
  }

  /** Each guard's exception message contains the name of its field. */
  lemma FieldErrorNamesField(k: nat)
    requires k < 6
    ensures Contains(Message(ArgumentException(FieldMessages[k], Some(FieldNames[k]))), FieldNames[k])
  {
    ArgumentMessageNamesParameter(FieldMessages[k], FieldNames[k]);
  }
}

=== FILE: persistence_paging.dfy ===
/**
  `Codecaine.Common.Persistence.PagedResult`: a page cut out of the full
  sequence, with the full count and the number of pages.
 */
module PersistencePaging {
  import opened PagingMath

  datatype PagedResult<T> = PagedResult(
    currentPage: int, pageCount: int, pageSize: int, rowCount: int, results: seq<T>)
  {
    function FirstRowOnPage(): int {
      FirstRow(currentPage, pageSize)
    }

    function LastRowOnPage(): int {
      LastRow(currentPage, pageSize, rowCount)
    }
  }

  /** `GetPaged(page, pageSize)`; the `IQueryable` and `IList` overloads
      compute the same thing. */
  function GetPaged<T>(query: seq<T>, page: int, pageSize: int): (r: PagedResult<T>)
    requires pageSize > 0
    ensures r.currentPage == page && r.pageSize == pageSize && r.rowCount == |query|
    ensures (r.pageCount - 1) * pageSize < |query| <= r.pageCount * pageSize
    ensures |r.results| <= pageSize
  {
    PagedResult(page, CeilDiv(|query|, pageSize), pageSize, |query|, PageSlice(query, page, pageSize))
  }

  /** `Results` is the contiguous slice at offset `(page - 1) * pageSize`, of
      length `min(pageSize, max(0, RowCount - offset))`; a page that starts
      past the end is empty while the counts stay as they are. */
  lemma ResultsAreSlice<T>(query: seq<T>, page: int, pageSize: int)
    requires pageSize > 0 && page >= 1
    ensures var r := GetPaged(query, page, pageSize);
            var off := (page - 1) * pageSize;
            && |r.results| == Min(pageSize, Max(0, r.rowCount - off))
            && (off < |query| ==> r.results == query[off..Min(off + pageSize, |query|)])
            && (off >= |query| ==> r.results == [] && r.rowCount == |query|)
  {
    PageSliceIsContiguous(query, page, pageSize);
  }

  /** On a page that holds rows, `FirstRowOnPage..LastRowOnPage` are the
      1-based positions of exactly the rows in `Results`. */
  lemma RowsMatchResults<T>(query: seq<T>, page: int, pageSize: int)
    requires pageSize > 0 && page >= 1
    requires (page - 1) * pageSize < |query|
    ensures var r := GetPaged(query, page, pageSize);
            && r.LastRowOnPage() - r.FirstRowOnPage() + 1 == |r.results|
            && forall i :: 0 <= i < |r.results| ==> r.results[i] == query[r.FirstRowOnPage() - 1 + i]
  {
    MulSucc(page, pageSize);
  }

  /** Reading every page in turn returns the whole sequence in order. */
  lemma AllPagesReturnEverything<T>(query: seq<T>, pageSize: int)
    requires pageSize > 0
    ensures PagesFrom(query, pageSize, 1, GetPaged(query, 1, pageSize).pageCount) == query
  {
    PagesConcatenate(query, pageSize);
  }
}

=== FILE: predicates.dfy ===
/**
  Boolean expression trees over entities, the `Expression<Func<T, bool>>`
  values that filters, specifications and the filter combinators build and
  rewrite. Evaluation returns `None` when the compiled delegate would throw,
  so that short-circuiting is observable: the right operand of `AndAlso`
  only matters when the left one is true.
 */
module Predicates {
  import opened Wrappers
  import opened Text
  import opened Entities

  /** A `ParameterExpression`. Each `Expression.Parameter` call creates a new
      object; the model tells them apart by number. */
  type ParamId = nat

  datatype CmpOp = Eq | Ne | Gt | Ge | Lt | Le

  datatype Expr =
    | Const(b: bool)
      /** A predicate on the entity bound to `target` whose body the model
          does not look into (any lambda written in application code). */
    | Opaque(tag: nat, target: ParamId)
      /** `Expression.Equal` and friends: `target.prop op operand`. */
    | Compare(op: CmpOp, target: ParamId, prop: string, operand: Value)
      /** `target.prop.ToString().Contains(needle)`. */
    | TextContains(target: ParamId, prop: string, needle: string)
      /** `values.Contains(target.prop.ToString())`. */
    | MemberOf(target: ParamId, prop: string, values: seq<string>)
    | AndAlso(left: Expr, right: Expr)
    | OrElse(left: Expr, right: Expr)
      /** `Expression.Invoke(fn, arg)`, applying a lambda to a parameter. */
    | Invoke(fn: Lambda, arg: ParamId)

  /** A one-parameter lambda `param => body`. */
  datatype Lambda = Lambda(param: ParamId, body: Expr)

  /** The entities the parameters in scope are bound to. */
  type Env = map<ParamId, Entity>

  /** The meaning of the opaque predicates. */
  type Oracle = (nat, Entity) -> Option<bool>

  /** Short-circuit `&&` on outcomes: the right outcome is used only when the
      left one is `true`. */
  function AndThen(a: Option<bool>, b: Option<bool>): (r: Option<bool>)
    ensures a != Some(true) ==> r == a
    ensures a == Some(true) ==> r == b
  {
    if a == Some(true) then b else a
  }

  /** Short-circuit `||` on outcomes: the right outcome is used only when the
      left one is `false`. */
  function OrThen(a: Option<bool>, b: Option<bool>): (r: Option<bool>)
    ensures a != Some(false) ==> r == a
    ensures a == Some(false) ==> r == b
  {
    if a == Some(false) then b else a
  }

  function Read(env: Env, target: ParamId, prop: string): Option<Value> {
    if target in env then Property(env[target], prop) else None
  }

  /** The binary comparison operators on a property value. The ordering
      operators exist only for numbers; on anything else they throw. */
  function CompareValues(op: CmpOp, actual: Value, operand: Value): (r: Option<bool>)
    ensures op == Eq ==> r == Some(actual == operand)
    ensures op == Ne ==> r == Some(actual != operand)
    ensures op !in {Eq, Ne} ==> (r.Some? <==> actual.IntValue? && operand.IntValue?)
  {
    match op
    case Eq => Some(actual == operand)
    case Ne => Some(actual != operand)
    case _ =>
      if actual.IntValue? && operand.IntValue? then
        var a, b := actual.n, operand.n;
        Some(match op
             case Gt => a > b
             case Ge => a >= b
             case Lt => a < b
             case _ => a <= b)
      else None
  }

  /** Running the compiled expression: `Some(b)` when it returns `b`, `None`
      when it throws. */
  function Eval(e: Expr, env: Env, oracle: Oracle): Option<bool>
    decreases e
  {
    match e
    case Const(b) => Some(b)
    case Opaque(tag, t) => if t in env then oracle(tag, env[t]) else None
    case Compare(op, t, p, operand) =>
      var v := Read(env, t, p);
      if v.None? then None else CompareValues(op, v.value, operand)
    case TextContains(t, p, needle) =>
      var v := Read(env, t, p);
      if v.None? then None else Some(Contains(ValueToString(v.value), needle))
    case MemberOf(t, p, values) =>
      var v := Read(env, t, p);
      if v.None? then None else Some(ValueToString(v.value) in values)
    case AndAlso(l, r) => AndThen(Eval(l, env, oracle), Eval(r, env, oracle))
    case OrElse(l, r) => OrThen(Eval(l, env, oracle), Eval(r, env, oracle))
    case Invoke(fn, a) =>
      if a in env then Eval(fn.body, env[fn.param := env[a]], oracle) else None
  }

  /** Calling the compiled lambda `f` on entity `x`. */
  function Apply(f: Lambda, x: Entity, oracle: Oracle): Option<bool> {
    Eval(f.body, map[f.param := x], oracle)
  }

  /** The parameters `e` refers to without binding them. */
  function Free(e: Expr): set<ParamId> {
    match e
    case Const(_) => {}
    case Opaque(_, t) => {t}
    case Compare(_, t, _, _) => {t}
    case TextContains(t, _, _) => {t}
    case MemberOf(t, _, _) => {t}
    case AndAlso(l, r) => Free(l) + Free(r)
    case OrElse(l, r) => Free(l) + Free(r)
    case Invoke(fn, a) => (Free(fn.body) - {fn.param}) + {a}
  }

  /** Every parameter occurring in `e`, bound or free. */
  function Vars(e: Expr): set<ParamId> {
    match e
    case Const(_) => {}
    case Opaque(_, t) => {t}
    case Compare(_, t, _, _) => {t}
    case TextContains(t, _, _) => {t}
    case MemberOf(t, _, _) => {t}
    case AndAlso(l, r) => Vars(l) + Vars(r)
    case OrElse(l, r) => Vars(l) + Vars(r)
    case Invoke(fn, a) => Vars(fn.body) + {fn.param, a}
  }

  function LambdaVars(f: Lambda): set<ParamId> {
    {f.param} + Vars(f.body)
  }

  /** A lambda that refers to no parameter but its own, as every filter and
      specification predicate in the system does. */
  predicate Closed(f: Lambda) {
    Free(f.body) <= {f.param}
  }

  /** No two filters of the list share a parameter object. */
  predicate Hygienic(filters: seq<Lambda>) {
    forall i, j :: 0 <= i < j < |filters| ==> LambdaVars(filters[i]) !! LambdaVars(filters[j])
  }

  predicate AllClosed(filters: seq<Lambda>) {
    forall i :: 0 <= i < |filters| ==> Closed(filters[i])
  }

  lemma {:induction false} FreeInVars(e: Expr)
    ensures Free(e) <= Vars(e)
  {
    match e
    case AndAlso(l, r) => FreeInVars(l); FreeInVars(r);
    case OrElse(l, r) => FreeInVars(l); FreeInVars(r);
    case Invoke(fn, a) => FreeInVars(fn.body);
    case _ =>
  }

  /** Two environments that agree on the parameters in `s`. */
  predicate AgreeOn(s: set<ParamId>, env1: Env, env2: Env) {
    forall y :: y in s ==> (y in env1 <==> y in env2) && (y in env1 ==> env1[y] == env2[y])
  }

  /** Evaluation looks only at the free parameters. */
  lemma {:induction false} EvalAgree(e: Expr, env1: Env, env2: Env, oracle: Oracle)
    requires AgreeOn(Free(e), env1, env2)
    ensures Eval(e, env1, oracle) == Eval(e, env2, oracle)
  {
    match e
    case AndAlso(l, r) =>
      EvalAgree(l, env1, env2, oracle);
      EvalAgree(r, env1, env2, oracle);
    case OrElse(l, r) =>
      EvalAgree(l, env1, env2, oracle);
      EvalAgree(r, env1, env2, oracle);
    case Invoke(fn, a) =>
      if a in env1 {
        var e1 := env1[fn.param := env1[a]];
        var e2 := env2[fn.param := env2[a]];
        assert AgreeOn(Free(fn.body), e1, e2) by {
          forall y | y in Free(fn.body)
            ensures (y in e1 <==> y in e2) && (y in e1 ==> e1[y] == e2[y])
          {
            if y != fn.param {
              assert y in Free(e);
            }
          }
        }
        EvalAgree(fn.body, e1, e2, oracle);
      }
    case _ =>
  }

  /** A closed lambda depends only on its argument, never on the rest of the
      environment it is evaluated in. */
  lemma ClosedIgnoresEnvironment(f: Lambda, env: Env, x: Entity, oracle: Oracle)
    requires Closed(f)
    ensures Eval(f.body, env[f.param := x], oracle) == Apply(f, x, oracle)
  {
    EvalAgree(f.body, env[f.param := x], map[f.param := x], oracle);
  }

  function Rename(y: ParamId, from: ParamId, to: ParamId): ParamId {
    if y == from then to else y
  }

  /** `new ReplaceVisitor(from, to).Visit(e)`: every occurrence of the
      parameter object `from`, binding ones included, becomes `to`. */
  function Rebind(e: Expr, from: ParamId, to: ParamId): Expr {
    match e
    case Const(b) => Const(b)
    case Opaque(tag, t) => Opaque(tag, Rename(t, from, to))
    case Compare(op, t, p, v) => Compare(op, Rename(t, from, to), p, v)
    case TextContains(t, p, n) => TextContains(Rename(t, from, to), p, n)
    case MemberOf(t, p, vs) => MemberOf(Rename(t, from, to), p, vs)
    case AndAlso(l, r) => AndAlso(Rebind(l, from, to), Rebind(r, from, to))
    case OrElse(l, r) => OrElse(Rebind(l, from, to), Rebind(r, from, to))
    case Invoke(fn, a) =>
      Invoke(Lambda(Rename(fn.param, from, to), Rebind(fn.body, from, to)), Rename(a, from, to))
  }

  /** After rebinding, `from` no longer occurs free and only `to` can have
      become free. */
  lemma {:induction false} RebindFree(e: Expr, from: ParamId, to: ParamId)
    ensures Free(Rebind(e, from, to)) <= (Free(e) - {from}) + {to}
  {
    match e
    case AndAlso(l, r) => RebindFree(l, from, to); RebindFree(r, from, to);
    case OrElse(l, r) => RebindFree(l, from, to); RebindFree(r, from, to);
    case Invoke(fn, a) => RebindFree(fn.body, from, to);
    case _ =>
  }

  /** Rebinding introduces no parameter other than `to`. */
  lemma {:induction false} RebindVars(e: Expr, from: ParamId, to: ParamId)
    ensures Vars(Rebind(e, from, to)) <= Vars(e) + {to}
  {
    match e
    case AndAlso(l, r) => RebindVars(l, from, to); RebindVars(r, from, to);
    case OrElse(l, r) => RebindVars(l, from, to); RebindVars(r, from, to);
    case Invoke(fn, a) => RebindVars(fn.body, from, to);
    case _ =>
  }

  /** Rebinding `from` to a parameter `to` that does not occur in `e` does
      not change the meaning: evaluating the rebound tree with `to` bound to
      an entity gives what the original gives with `from` bound to it. */
  lemma {:induction false} RebindSound(e: Expr, from: ParamId, to: ParamId, env1: Env, env2: Env, oracle: Oracle)
    requires to !in Vars(e)
    requires from in env1 <==> to in env2
    requires from in env1 ==> env1[from] == env2[to]
    requires AgreeOn(Free(e) - {from}, env1, env2)
    ensures Eval(Rebind(e, from, to), env2, oracle) == Eval(e, env1, oracle)
  {
    match e
    case AndAlso(l, r) =>
      RebindSound(l, from, to, env1, env2, oracle);
      RebindSound(r, from, to, env1, env2, oracle);
    case OrElse(l, r) =>
      RebindSound(l, from, to, env1, env2, oracle);
      RebindSound(r, from, to, env1, env2, oracle);
    case Invoke(fn, a) =>
      var p, a' := Rename(fn.param, from, to), Rename(a, from, to);
      assert a' in env2 <==> a in env1;
      if a in env1 {
        assert env2[a'] == env1[a];
        var e1 := env1[fn.param := env1[a]];
        var e2 := env2[p := env2[a']];
        FreeInVars(fn.body);
        assert AgreeOn(Free(fn.body) - {from}, e1, e2) by {
          forall y | y in Free(fn.body) - {from}
            ensures (y in e1 <==> y in e2) && (y in e1 ==> e1[y] == e2[y])
          {
            if y != fn.param {
              assert y in Free(e) - {from};
            }
          }
        }
        RebindSound(fn.body, from, to, e1, e2, oracle);
      }
    case _ =>
  }

  /** Rebinding a lambda's own parameter to a parameter its body does not
      mention gives a lambda with the same meaning. */
  lemma RebindLambdaSound(f: Lambda, to: ParamId, x: Entity, oracle: Oracle)
    requires Closed(f)
    requires to !in Vars(f.body)
    ensures Closed(Lambda(to, Rebind(f.body, f.param, to)))
    ensures Apply(Lambda(to, Rebind(f.body, f.param, to)), x, oracle) == Apply(f, x, oracle)
  {
    RebindFree(f.body, f.param, to);
    RebindSound(f.body, f.param, to, map[f.param := x], map[to := x], oracle);
  }
}

=== FILE: primitives.dfy ===
/** Scalar types shared by the domain and persistence layers. */
module Primitives {

  /** A `Guid`; `Guid.Empty` is 0 and every other number is a distinct id. */
  type Guid = nat

  const EmptyGuid: Guid := 0

  /** A `Guid` as `Guid.NewGuid()` returns it: never `Guid.Empty`. */
  type NewGuid = g: Guid | g != EmptyGuid witness 1

  /** A `DateTime` as a tick count; `default(DateTime)` is 0. */
  type DateTime = int

  const DefaultDateTime: DateTime := 0
}

=== FILE: prompt_window.dfy ===
/**
  The message window both chat services (`OllamaLargeLanguageModelService`
  and `OpenAiLargeLanguageModelService`) build before calling the model:
  the conversation is ordered by time stamp, cut to `MaxMessages`, and each
  message becomes a request entry with a lower-case role. The HTTP call and
  the reply's parsing are not part of this module.
 */
module PromptWindows {
  import opened Wrappers
  import opened Text
  import opened Primitives
  import opened Entities
  import opened Sorting
  import opened PagingMath

  /** A chat message; the time stamp is the UTC clock reading taken when it
      was created. */
  datatype PromptMessage = PromptMessage(role: string, content: string, timeStamp: DateTime)

  /** `new PromptMessage()`: role "user", empty content, default time. */
  function DefaultMessage(): (m: PromptMessage)
    ensures m.role == "user" && m.content == "" && m.timeStamp == 0
  {
    PromptMessage("user", "", 0)
  }

  /** `new PromptMessage(role, content)` with the clock reading `now`. */
  function NewMessage(role: string, content: string, now: DateTime): (m: PromptMessage)
    ensures m.role == role && m.content == content && m.timeStamp == now
  {
    PromptMessage(role, content, now)
  }

  /** One entry of the request body's `messages` list. */
  datatype RequestMessage = RequestMessage(role: string, content: string)

  /** The sort key `OrderBy(m => m.TimeStamp)`. */
  function TimeKey(m: PromptMessage): Key {
    Some(IntValue(m.timeStamp))
  }

  /** The messages in time-stamp order, ties in their original order. */
  function Chronological(messages: seq<PromptMessage>): (r: seq<PromptMessage>)
    ensures |r| == |messages| && multiset(r) == multiset(messages)
    ensures Sorted(r, TimeKey, false)
  {
    SortBySorted(messages, TimeKey, false);
    SortBy(messages, TimeKey, false)
  }

  /** As written: sorted, and over `maxMessages` only the first (oldest)
      `maxMessages` are kept. */
  function SelectMessages(messages: seq<PromptMessage>, maxMessages: int): (r: seq<PromptMessage>)
    ensures |r| == Min(Max(maxMessages, 0), |messages|)
    ensures r <= Chronological(messages)
  {
    var sorted := Chronological(messages);
    if |sorted| > maxMessages then Take(sorted, maxMessages) else sorted
  }

  /** `Select(m => new { role = m.Role.ToLower(), content = m.Content })`. */
  function ToRequestMessages(messages: seq<PromptMessage>): (r: seq<RequestMessage>)
    ensures |r| == |messages|
    ensures forall i :: 0 <= i < |messages| ==>
              r[i].role == ToLower(messages[i].role) && r[i].content == messages[i].content
  {
    seq(|messages|, i requires 0 <= i < |messages| => RequestMessage(ToLower(messages[i].role), messages[i].content))
  }

  /** The Ollama chat request; `stream` is always off. */
  datatype OllamaRequest = OllamaRequest(model: string, messages: seq<RequestMessage>, stream: bool)

  /** The OpenAI chat-completions request. */
  datatype OpenAiRequest = OpenAiRequest(model: string, messages: seq<RequestMessage>)

  /** The request `OllamaLargeLanguageModelService.GenerateTextAsync` posts. */
  function OllamaChatRequest(model: string, messages: seq<PromptMessage>, maxMessages: int): (r: OllamaRequest)
    ensures !r.stream && r.model == model
    ensures |r.messages| == Min(Max(maxMessages, 0), |messages|)
  {
    OllamaRequest(model, ToRequestMessages(SelectMessages(messages, maxMessages)), false)
  }

  /** The request `OpenAiLargeLanguageModelService.GenerateTextAsync` posts. */
  function OpenAiChatRequest(model: string, messages: seq<PromptMessage>, maxMessages: int): (r: OpenAiRequest)
    ensures r.model == model
    ensures |r.messages| == Min(Max(maxMessages, 0), |messages|)
  {
    OpenAiRequest(model, ToRequestMessages(SelectMessages(messages, maxMessages)))
  }

  /** At or under the limit every message is sent; over it the sent ones
      are the first `maxMessages` of the time order. Either way the window is
      ordered by time stamp and holds only messages that were given. */
  lemma SelectMessagesSound(messages: seq<PromptMessage>, maxMessages: int)
    ensures var r := SelectMessages(messages, maxMessages);
            && Sorted(r, TimeKey, false)
            && (|messages| <= maxMessages ==> multiset(r) == multiset(messages))
            && (|messages| > maxMessages ==> r == Chronological(messages)[..Max(maxMessages, 0)])
            && multiset(r) <= multiset(messages)
  {
    var sorted := Chronological(messages);
    var r := SelectMessages(messages, maxMessages);
    assert r == sorted[..|r|];
    forall i, j | 0 <= i < j < |r| ensures !Before(TimeKey(r[j]), TimeKey(r[i]), false) {
      assert r[i] == sorted[i] && r[j] == sorted[j];
    }
    assert sorted == r + sorted[|r|..];
  }

  /** Both services send the same window. */
  lemma ServicesAgree(model: string, messages: seq<PromptMessage>, maxMessages: int)
    ensures OllamaChatRequest(model, messages, maxMessages).messages
            == OpenAiChatRequest(model, messages, maxMessages).messages
  {
  }

  /** Messages with equal time stamps reach the request in the order they
      were given. */
  lemma EqualTimesKeepOrder(messages: seq<PromptMessage>, t: DateTime)
    ensures WithKey(Chronological(messages), TimeKey, Some(IntValue(t))) == WithKey(messages, TimeKey, Some(IntValue(t)))
  {
    SortByStable(messages, TimeKey, false, Some(IntValue(t)));
  }

  // ---------------------------------------------------------------------
  // The window as evidently intended
  // ---------------------------------------------------------------------

  /** As written, a conversation one message over the limit loses its newest
      message: with a limit of one, the older of two messages is sent and
      the newer one is not. */
  lemma NewestMessageDropped()
    ensures var older := PromptMessage("user", "first", 1);
            var newer := PromptMessage("user", "second", 2);
            SelectMessages([older, newer], 1) == [older]
  {
    var older := PromptMessage("user", "first", 1);
    var newer := PromptMessage("user", "second", 2);
    var s := Chronological([older, newer]);
    assert Sorted(s, TimeKey, false);
    assert multiset(s) == multiset{older, newer};
    assert older in multiset(s) && newer in multiset(s);
  }

  /** The window read as a limit on how much of the conversation stays in
      context: over the limit, the newest `maxMessages`, in time order. */
  function SelectLatestMessages(messages: seq<PromptMessage>, maxMessages: int): (r: seq<PromptMessage>)
    ensures |r| == Min(Max(maxMessages, 0), |messages|)
  {
    var sorted := Chronological(messages);
    if |sorted| > maxMessages then Skip(sorted, |sorted| - Max(maxMessages, 0)) else sorted
  }

  /** The corrected window always ends with a message no other message is
      newer than, and is the time-ordered tail of the conversation. */
  lemma SelectLatestKeepsNewest(messages: seq<PromptMessage>, maxMessages: int)
    requires |messages| >= 1 && maxMessages >= 1
    ensures var r := SelectLatestMessages(messages, maxMessages);
            && |r| >= 1
            && r == Chronological(messages)[|messages| - |r|..]
            && forall m :: m in messages ==> m.timeStamp <= r[|r| - 1].timeStamp
  {
    var sorted := Chronological(messages);
    var r := SelectLatestMessages(messages, maxMessages);
    assert r == sorted[|messages| - |r|..];
    assert r[|r| - 1] == sorted[|sorted| - 1];
    LastIsNewest(sorted);
    forall m | m in messages ensures m in sorted {
      assert m in multiset(messages);
    }
  }

  /** In a time-ordered conversation the last message is a newest one. */
  lemma LastIsNewest(sorted: seq<PromptMessage>)
    requires |sorted| >= 1 && Sorted(sorted, TimeKey, false)
    ensures forall m :: m in sorted ==> m.timeStamp <= sorted[|sorted| - 1].timeStamp
  {
    forall k | 0 <= k < |sorted| - 1 ensures sorted[k].timeStamp <= sorted[|sorted| - 1].timeStamp {
      assert !Before(TimeKey(sorted[|sorted| - 1]), TimeKey(sorted[k]), false);
    }
  }
}

=== FILE: query_filter.dfy ===
/**
  `QueryFilter<T>`: an ordered list of filter lambdas that repositories
  combine into one `Where` predicate. Mutating members return the new list;
  the ones `List<T>` guards by index return the `ArgumentOutOfRangeException`
  it throws instead.
 */
module QueryFilters {
  import opened Wrappers
  import opened Text
  import opened Exceptions
  import opened Entities
  import opened Predicates
  import FL = FilterListExtensions

  datatype QueryFilter = QueryFilter(items: seq<Lambda>)

  /** `new QueryFilter<T>()`. */
  function Empty(): (q: QueryFilter)
    ensures |q.items| == 0
  {
    QueryFilter([])
  }

  /** `new QueryFilter<T>(criteria)`. */
  function Single(criteria: Lambda): (q: QueryFilter)
    ensures q.items == [criteria]
  {
    Add(Empty(), criteria).0
  }

  /** `Add`: appends and returns the new item's index. */
  function Add(q: QueryFilter, criteria: Lambda): (r: (QueryFilter, int))
    ensures |r.0.items| == |q.items| + 1
    ensures r.1 == |r.0.items| - 1
    ensures r.0.items[..|q.items|] == q.items && r.0.items[r.1] == criteria
  {
    var items := q.items + [criteria];
    (QueryFilter(items), |items| - 1)
  }

  const InsertOutOfRange: Exception :=
    ArgumentOutOfRangeException(Some("index"), "Index must be within the bounds of the List.")

  const RemoveOutOfRange: Exception :=
    ArgumentOutOfRangeException(Some("index"),
                                "Index was out of range. Must be non-negative and less than the size of the collection.")

  /** `Insert(index, criteria)`: valid for `0 <= index <= Count`; later items
      move one place right. */
  function Insert(q: QueryFilter, index: int, criteria: Lambda): (r: Result<QueryFilter, Exception>)
    ensures r.Success? <==> 0 <= index <= |q.items|
    ensures r.Failure? ==> r.error == InsertOutOfRange
    ensures r.Success? ==>
              && |r.value.items| == |q.items| + 1
              && r.value.items[index] == criteria
              && (forall k :: 0 <= k < index ==> r.value.items[k] == q.items[k])
              && (forall k :: index < k < |r.value.items| ==> r.value.items[k] == q.items[k - 1])
  {
    if 0 <= index <= |q.items| then Success(QueryFilter(q.items[..index] + [criteria] + q.items[index..]))
    else Failure(InsertOutOfRange)
  }

  /** `RemoveAt(index)`: valid for `0 <= index < Count`; only that item goes
      and later items move one place left. */
  function RemoveAt(q: QueryFilter, index: int): (r: Result<QueryFilter, Exception>)
    ensures r.Success? <==> 0 <= index < |q.items|
    ensures r.Failure? ==> r.error == RemoveOutOfRange
    ensures r.Success? ==>
              && |r.value.items| == |q.items| - 1
              && (forall k :: 0 <= k < index ==> r.value.items[k] == q.items[k])
              && (forall k :: index <= k < |r.value.items| ==> r.value.items[k] == q.items[k + 1])
  {
    if 0 <= index < |q.items| then Success(QueryFilter(q.items[..index] + q.items[index + 1..]))
    else Failure(RemoveOutOfRange)
  }

  /** `Replace(index, criteria)`: `RemoveAt` then `Insert` at the same
      index. */
  function Replace(q: QueryFilter, index: int, criteria: Lambda): (r: Result<QueryFilter, Exception>)
    ensures r.Success? <==> 0 <= index < |q.items|
    ensures r.Failure? ==> r.error == RemoveOutOfRange
    ensures r.Success? ==>
              && |r.value.items| == |q.items|
              && r.value.items[index] == criteria
              && forall k :: 0 <= k < |q.items| && k != index ==> r.value.items[k] == q.items[k]
  {
    var removed :- RemoveAt(q, index);
    Insert(removed, index, criteria)
  }

  /** Inserting at an index and removing it again gives back the list. */
  lemma RemoveAtUndoesInsert(q: QueryFilter, index: int, criteria: Lambda)
    requires 0 <= index <= |q.items|
    ensures RemoveAt(Insert(q, index, criteria).value, index) == Success(q)
  {
    var inserted := Insert(q, index, criteria).value;
    assert RemoveAt(inserted, index).value.items == q.items;
  }

  /** Replacing an item with the one already there changes nothing. */
  lemma ReplaceWithSameIsIdentity(q: QueryFilter, index: int)
    requires 0 <= index < |q.items|
    ensures Replace(q, index, q.items[index]) == Success(q)
  {
    assert Replace(q, index, q.items[index]).value.items == q.items;
  }

  /** `Clear`. */
  function Clear(q: QueryFilter): (r: QueryFilter)
    ensures |r.items| == 0
  {
    QueryFilter([])
  }

  /** `Combine`: the items joined with `CombineAnd`. */
  function Combine(q: QueryFilter): Lambda {
    FL.CombineAnd(q.items)
  }

  function QueryCombineAnd(q: QueryFilter): Lambda {
    FL.CombineAnd(q.items)
  }

  function QueryCombineOr(q: QueryFilter): Lambda {
    FL.CombineOr(q.items)
  }

  /** A filter that holds closed lambdas with distinct parameter objects. */
  predicate Valid(q: QueryFilter) {
    AllClosed(q.items) && Hygienic(q.items)
  }

  /** `Combine` and `CombineAnd` are the same conjunction of all items and
      `CombineOr` is their disjunction; once cleared, `Combine` accepts every
      entity. */
  lemma CombineMeanings(q: QueryFilter, x: Entity, oracle: Oracle)
    requires Valid(q)
    ensures Combine(q) == QueryCombineAnd(q)
    ensures Apply(Combine(q), x, oracle) == Some(true)
            <==> forall i :: 0 <= i < |q.items| ==> Apply(q.items[i], x, oracle) == Some(true)
    ensures |q.items| >= 1 ==> Apply(QueryCombineOr(q), x, oracle) == FL.AnyOf(q.items, x, oracle)
    ensures Apply(Combine(Clear(q)), x, oracle) == Some(true)
  {
    FL.AllOfIsConjunction(q.items, x, oracle);
    if |q.items| >= 1 {
      FL.CombineMeaning(FL.And, q.items, x, oracle);
      FL.CombineMeaning(FL.Or, q.items, x, oracle);
    }
  }

  /** `ToString`: the entity type's name and the item count. */
  function ToString(q: QueryFilter, typeName: string): string {
    "QueryFilter<" + typeName + ">[" + IntToString(|q.items|) + "]"
  }

  /** The count can be read back from the text between the brackets. */
  lemma ToStringReportsCount(q: QueryFilter, typeName: string)
    requires |q.items| <= Int32Max
    ensures var s := ToString(q, typeName);
            var start := |"QueryFilter<" + typeName + ">["|;
            && start < |s| && s[|s| - 1] == ']'
            && ParseInt(s[start..|s| - 1]) == Some(|q.items|)
  {
    var s := ToString(q, typeName);
    var prefix := "QueryFilter<" + typeName + ">[";
    var digits := IntToString(|q.items|);
    assert s == prefix + digits + "]";
    assert s[|prefix|..|s| - 1] == digits;
    ParseIntToString(|q.items|);
  }
}

=== FILE: repository.dfy ===
/**
  The query side of the Entity Framework `Repository<TEntity>` and of
  `MongoRepository<TEntity>`. The stored entities are a sequence in the
  store's natural order; a query filters, counts, orders and pages it.
  Includes only load navigations and do not change which rows come back, so
  both repositories share one `ApplySpecification`.
 */
module Repositories {
  import opened Wrappers
  import opened Primitives
  import opened Text
  import opened Entities
  import opened Predicates
  import opened Sorting
  import opened PagingMath
  import opened Exceptions
  import opened Maybes
  import opened Specifications
  import SB = SpecificationBuilder
  import QF = QueryFilters
  import DB = AppDbContexts
  import MC = MongoContexts

  // ---------------------------------------------------------------------
  // Filtering
  // ---------------------------------------------------------------------

  /** `e` passes the `Where` predicate `f`. A predicate that cannot be
      evaluated on `e` (it throws) does not let `e` through. */
  predicate Matches(f: Lambda, e: Entity, oracle: Oracle) {
    Apply(f, e, oracle) == Some(true)
  }

  /** `Queryable.Where(f)`: the matching entities in store order. */
  function Filter(store: seq<Entity>, f: Lambda, oracle: Oracle): (r: seq<Entity>)
    ensures |r| <= |store|
    ensures forall e :: e in r <==> e in store && Matches(f, e, oracle)
  {
    if |store| == 0 then []
    else
      var rest := Filter(store[1..], f, oracle);
      assert forall e :: e in store <==> e == store[0] || e in store[1..];
      (if Matches(f, store[0], oracle) then [store[0]] else []) + rest
  }

  /** The number of entities `f` accepts, counted one by one. */
  function CountMatching(store: seq<Entity>, f: Lambda, oracle: Oracle): nat {
    if |store| == 0 then 0
    else (if Matches(f, store[0], oracle) then 1 else 0) + CountMatching(store[1..], f, oracle)
  }

  /** Filtering keeps exactly the matching entities, so its length is their
      count. */
  lemma {:induction false} FilterCount(store: seq<Entity>, f: Lambda, oracle: Oracle)
    ensures |Filter(store, f, oracle)| == CountMatching(store, f, oracle)
    decreases |store|
  {
    if |store| > 0 {
      FilterCount(store[1..], f, oracle);
    }
  }

  /** Filtering a store whose entities all match changes nothing. */
  lemma {:induction false} FilterAllMatch(store: seq<Entity>, f: Lambda, oracle: Oracle)
    requires forall i :: 0 <= i < |store| ==> Matches(f, store[i], oracle)
    ensures Filter(store, f, oracle) == store
    decreases |store|
  {
    if |store| > 0 {
      FilterAllMatch(store[1..], f, oracle);
    }
  }

  // ---------------------------------------------------------------------
  // Ordering
  // ---------------------------------------------------------------------

  /** The sort key of property `name`. */
  function PropertyKey(name: string): Entity -> Key {
    e => Property(e, name)
  }

  /** The key of the default ordering, `OrderBy("Id")`. */
  function IdKey(): Entity -> Key {
    PropertyKey(IdProperty)
  }

  /** Dynamic LINQ rejecting an ordering that names no property. */
  function NoPropertyOrField(name: string, typeName: string): Exception {
    OtherException("System.Linq.Dynamic.Core.Exceptions.ParseException",
                   "No property or field '" + name + "' exists in type '" + typeName + "'")
  }

  /** Dynamic LINQ's `OrderBy(name)` or `OrderBy(name + " descending")` for
      an ordering that is one property name, looked up ignoring case. */
  function OrderByName(rows: seq<Entity>, schema: Schema, typeName: string, name: string, desc: bool)
    : (r: Result<seq<Entity>, Exception>)
    ensures r.Success? <==> FindProperty(schema, name).Some?
    ensures r.Failure? ==> r.error == NoPropertyOrField(name, typeName)
    ensures r.Success? ==> multiset(r.value) == multiset(rows)
                           && Sorted(r.value, PropertyKey(FindProperty(schema, name).value.name), desc)
  {
    match FindProperty(schema, name)
    case None => Failure(NoPropertyOrField(name, typeName))
    case Some(p) =>
      SortBySorted(rows, PropertyKey(p.name), desc);
      Success(SortBy(rows, PropertyKey(p.name), desc))
  }

  /** Paging is requested when either paging field is set. */
  predicate PagingSet(spec: Specification) {
    spec.pageNumber.Some? || spec.pageSize.Some?
  }

  /** The ordering `ApplySpecification` puts on the filtered rows: by Id when
      paging without an order string, then the ascending order string if
      there is one, else the descending one. */
  function Order(rows: seq<Entity>, spec: Specification, schema: Schema, typeName: string)
    : (r: Result<seq<Entity>, Exception>)
    ensures r.Success? ==> multiset(r.value) == multiset(rows)
  {
    var defaulted :=
      if PagingSet(spec) && IsNullOrEmpty(spec.orderByString) && IsNullOrEmpty(spec.orderByDescendingString)
      then SortBy(rows, IdKey(), false)
      else rows;
    if !IsNullOrEmpty(spec.orderByString) then
      OrderByName(defaulted, schema, typeName, spec.orderByString.value, false)
    else if !IsNullOrEmpty(spec.orderByDescendingString) then
      OrderByName(defaulted, schema, typeName, spec.orderByDescendingString.value, true)
    else
      Success(defaulted)
  }

  /** What a paged query returns: the page's entities and the total count. */
  datatype Paged = Paged(items: seq<Entity>, totalCount: int)

  /** The rows skipped for `PageNumber`: `(PageNumber - 1) * (PageSize ?? 1)`. */
  function SkipCount(pageNumber: int, pageSize: Option<int>): int {
    (pageNumber - 1) * (if pageSize.Some? then pageSize.value else 1)
  }

  /** The paging step: skip when `PageNumber` is set, then take when
      `PageSize` is set. */
  function Page(ordered: seq<Entity>, pageNumber: Option<int>, pageSize: Option<int>): (r: seq<Entity>)
    ensures forall e :: e in r ==> e in ordered
    ensures pageSize.Some? ==> |r| <= Max(pageSize.value, 0)
  {
    var skipped := if pageNumber.Some? then Skip(ordered, SkipCount(pageNumber.value, pageSize)) else ordered;
    assert forall e :: e in skipped ==> e in ordered;
    if pageSize.Some? then Take(skipped, pageSize.value) else skipped
  }

  /** `ApplySpecification(spec)` of either repository, with the query already
      run: filter, count, order, then page. */
  function ApplySpecification(store: seq<Entity>, spec: Specification, schema: Schema, typeName: string,
                              oracle: Oracle): (r: Result<Paged, Exception>)
    ensures r.Success? ==> forall e :: e in r.value.items ==> e in store && Matches(ToExpression(spec), e, oracle)
    ensures r.Success? && spec.pageSize.Some? ==> |r.value.items| <= Max(spec.pageSize.value, 0)
  {
    var rows := Filter(store, ToExpression(spec), oracle);
    var ordered :- Order(rows, spec, schema, typeName);
    assert forall e :: e in ordered ==> e in rows by {
      forall e | e in ordered ensures e in rows {
        assert e in multiset(ordered);
      }
    }
    Success(Paged(Page(ordered, spec.pageNumber, spec.pageSize), |rows|))
  }

  /** The total count is taken after filtering and before ordering and
      paging: it is the number of entities the specification accepts. */
  lemma ApplySpecificationCount(store: seq<Entity>, spec: Specification, schema: Schema, typeName: string,
                                oracle: Oracle)
    requires ApplySpecification(store, spec, schema, typeName, oracle).Success?
    ensures ApplySpecification(store, spec, schema, typeName, oracle).value.totalCount
            == CountMatching(store, ToExpression(spec), oracle)
  {
    FilterCount(store, ToExpression(spec), oracle);
  }

  /** The query fails exactly when the order string in force names no
      property: the ascending one when set, else the descending one. */
  lemma ApplySpecificationFails(store: seq<Entity>, spec: Specification, schema: Schema, typeName: string,
                                oracle: Oracle)
    ensures var r := ApplySpecification(store, spec, schema, typeName, oracle);
            && (!IsNullOrEmpty(spec.orderByString) ==>
                  (r.Failure? <==> FindProperty(schema, spec.orderByString.value).None?))
            && (!IsNullOrEmpty(spec.orderByString) && r.Failure? ==>
                  r.error == NoPropertyOrField(spec.orderByString.value, typeName))
            && (IsNullOrEmpty(spec.orderByString) && !IsNullOrEmpty(spec.orderByDescendingString) ==>
                  (r.Failure? <==> FindProperty(schema, spec.orderByDescendingString.value).None?))
            && (IsNullOrEmpty(spec.orderByString) && IsNullOrEmpty(spec.orderByDescendingString) ==> r.Success?)
  {
  }

  /** Without paging or order strings the query returns every match, in
      store order, and counts them. */
  lemma ApplySpecificationPlain(store: seq<Entity>, spec: Specification, schema: Schema, typeName: string,
                                oracle: Oracle)
    requires spec.pageNumber.None? && spec.pageSize.None?
    requires IsNullOrEmpty(spec.orderByString) && IsNullOrEmpty(spec.orderByDescendingString)
    ensures var r := ApplySpecification(store, spec, schema, typeName, oracle);
            && r.Success?
            && r.value.items == Filter(store, ToExpression(spec), oracle)
            && r.value.totalCount == |r.value.items|
  {
  }

  /** Paging without an order string orders the page by Id; a whole page
      (`PageNumber` n, `PageSize` k > 0) is the n-th run of k rows of the
      Id-ordered matches. */
  lemma ApplySpecificationDefaultOrder(store: seq<Entity>, spec: Specification, schema: Schema, typeName: string,
                                       oracle: Oracle)
    requires PagingSet(spec)
    requires IsNullOrEmpty(spec.orderByString) && IsNullOrEmpty(spec.orderByDescendingString)
    ensures var r := ApplySpecification(store, spec, schema, typeName, oracle);
            && r.Success?
            && Sorted(r.value.items, IdKey(), false)
            && (spec.pageNumber.Some? && spec.pageSize.Some? && spec.pageNumber.value >= 1 && spec.pageSize.value > 0 ==>
                  r.value.items == PageSlice(SortBy(Filter(store, ToExpression(spec), oracle), IdKey(), false),
                                             spec.pageNumber.value, spec.pageSize.value))
  {
    var ordered := SortBy(Filter(store, ToExpression(spec), oracle), IdKey(), false);
    SortBySorted(Filter(store, ToExpression(spec), oracle), IdKey(), false);
    var skipped := if spec.pageNumber.Some? then Skip(ordered, SkipCount(spec.pageNumber.value, spec.pageSize)) else ordered;
    SkipKeepsSorted(ordered, if spec.pageNumber.Some? then SkipCount(spec.pageNumber.value, spec.pageSize) else 0, IdKey(), false);
    if spec.pageSize.Some? {
      TakeKeepsSorted(skipped, spec.pageSize.value, IdKey(), false);
    }
  }

  /** With `PageNumber` set and no `PageSize`, one row is skipped per page
      and nothing is cut off: page n returns every match from the n-th on. */
  lemma ApplySpecificationPageNumberOnly(store: seq<Entity>, spec: Specification, schema: Schema, typeName: string,
                                         oracle: Oracle)
    requires spec.pageNumber.Some? && spec.pageSize.None?
    requires IsNullOrEmpty(spec.orderByString) && IsNullOrEmpty(spec.orderByDescendingString)
    ensures var r := ApplySpecification(store, spec, schema, typeName, oracle);
            var ordered := SortBy(Filter(store, ToExpression(spec), oracle), IdKey(), false);
            && r.Success?
            && r.value.items == Skip(ordered, spec.pageNumber.value - 1)
            && (1 <= spec.pageNumber.value <= |ordered| ==> |r.value.items| == |ordered| - spec.pageNumber.value + 1)
  {
    var rows := Filter(store, ToExpression(spec), oracle);
    var ordered := SortBy(rows, IdKey(), false);
    assert Order(rows, spec, schema, typeName) == Success(ordered);
    assert SkipCount(spec.pageNumber.value, None) == spec.pageNumber.value - 1;
    assert Page(ordered, spec.pageNumber, None) == Skip(ordered, spec.pageNumber.value - 1);
  }

  /** A set ascending order string makes the descending one irrelevant. */
  lemma OrderByStringWins(store: seq<Entity>, spec: Specification, schema: Schema, typeName: string,
                          oracle: Oracle, other: NullableString)
    requires !IsNullOrEmpty(spec.orderByString)
    ensures ApplySpecification(store, ApplyOrderByDescending(spec, other), schema, typeName, oracle)
            == ApplySpecification(store, spec, schema, typeName, oracle)
  {
    var s2 := ApplyOrderByDescending(spec, other);
    var rows := Filter(store, ToExpression(spec), oracle);
    assert Order(rows, s2, schema, typeName) == Order(rows, spec, schema, typeName);
    SameQuery(store, s2, spec, schema, typeName, oracle);
  }

  /** `ApplySpecification` reads only the predicate, the paging fields and
      what `Order` makes of the filtered rows. */
  lemma SameQuery(store: seq<Entity>, s1: Specification, s2: Specification, schema: Schema, typeName: string,
                  oracle: Oracle)
    requires s1.criteria == s2.criteria && s1.pageNumber == s2.pageNumber && s1.pageSize == s2.pageSize
    requires var rows := Filter(store, ToExpression(s1), oracle);
             Order(rows, s1, schema, typeName) == Order(rows, s2, schema, typeName)
    ensures ApplySpecification(store, s1, schema, typeName, oracle)
            == ApplySpecification(store, s2, schema, typeName, oracle)
  {
    assert ToExpression(s1) == ToExpression(s2);
  }

  /** With an order string in force the items come out sorted by that
      property (ascending, or descending for the descending string) when no
      paging cuts them. */
  lemma ApplySpecificationOrdered(store: seq<Entity>, spec: Specification, schema: Schema, typeName: string,
                                  oracle: Oracle)
    requires !IsNullOrEmpty(spec.orderByString) || !IsNullOrEmpty(spec.orderByDescendingString)
    requires ApplySpecification(store, spec, schema, typeName, oracle).Success?
    ensures var items := ApplySpecification(store, spec, schema, typeName, oracle).value.items;
            var desc := IsNullOrEmpty(spec.orderByString);
            var name := if desc then spec.orderByDescendingString.value else spec.orderByString.value;
            Sorted(items, PropertyKey(FindProperty(schema, name).value.name), desc)
  {
    var desc := IsNullOrEmpty(spec.orderByString);
    var name := if desc then spec.orderByDescendingString.value else spec.orderByString.value;
    var key := PropertyKey(FindProperty(schema, name).value.name);
    var ordered := Order(Filter(store, ToExpression(spec), oracle), spec, schema, typeName).value;
    var skipped := if spec.pageNumber.Some? then Skip(ordered, SkipCount(spec.pageNumber.value, spec.pageSize)) else ordered;
    SkipKeepsSorted(ordered, if spec.pageNumber.Some? then SkipCount(spec.pageNumber.value, spec.pageSize) else 0, key, desc);
    if spec.pageSize.Some? {
      TakeKeepsSorted(skipped, spec.pageSize.value, key, desc);
    }
  }

  /** The expression orderings, the distinct flag and the includes are never
      consulted. */
  lemma UnusedFieldsIgnored(store: seq<Entity>, spec: Specification, schema: Schema, typeName: string,
                            oracle: Oracle, k: KeySelector)
    ensures var r := ApplySpecification(store, spec, schema, typeName, oracle);
            && ApplySpecification(store, ApplyOrderByExpression(spec, k), schema, typeName, oracle) == r
            && ApplySpecification(store, ApplyOrderByDescendingExpression(spec, k), schema, typeName, oracle) == r
            && ApplySpecification(store, ApplyDistinct(spec), schema, typeName, oracle) == r
            && ApplySpecification(store, AddInclude(spec, k), schema, typeName, oracle) == r
  {
    OnlyQueryFieldsRead(store, ApplyOrderByExpression(spec, k), spec, schema, typeName, oracle);
    OnlyQueryFieldsRead(store, ApplyOrderByDescendingExpression(spec, k), spec, schema, typeName, oracle);
    OnlyQueryFieldsRead(store, ApplyDistinct(spec), spec, schema, typeName, oracle);
    OnlyQueryFieldsRead(store, AddInclude(spec, k), spec, schema, typeName, oracle);
  }

  /** Two specifications that agree on the predicate, the paging fields and
      the order strings give the same query. */
  lemma OnlyQueryFieldsRead(store: seq<Entity>, s1: Specification, s2: Specification, schema: Schema,
                            typeName: string, oracle: Oracle)
    requires s1.criteria == s2.criteria && s1.pageNumber == s2.pageNumber && s1.pageSize == s2.pageSize
    requires s1.orderByString == s2.orderByString && s1.orderByDescendingString == s2.orderByDescendingString
    ensures ApplySpecification(store, s1, schema, typeName, oracle)
            == ApplySpecification(store, s2, schema, typeName, oracle)
  {
    var rows := Filter(store, ToExpression(s1), oracle);
    assert PagingSet(s1) == PagingSet(s2);
    assert Order(rows, s1, schema, typeName) == Order(rows, s2, schema, typeName);
    SameQuery(store, s1, s2, schema, typeName, oracle);
  }

  lemma SkipKeepsSorted(s: seq<Entity>, n: int, key: Entity -> Key, desc: bool)
    requires Sorted(s, key, desc)
    ensures Sorted(Skip(s, n), key, desc)
  {
    var r := Skip(s, n);
    var off := Min(Max(n, 0), |s|);
    forall i, j | 0 <= i < j < |r| ensures !Before(key(r[j]), key(r[i]), desc) {
      assert r[i] == s[i + off] && r[j] == s[j + off];
    }
  }

  lemma TakeKeepsSorted(s: seq<Entity>, n: int, key: Entity -> Key, desc: bool)
    requires Sorted(s, key, desc)
    ensures Sorted(Take(s, n), key, desc)
  {
    var r := Take(s, n);
    forall i, j | 0 <= i < j < |r| ensures !Before(key(r[j]), key(r[i]), desc) {
      assert r[i] == s[i] && r[j] == s[j];
    }
  }

  // ---------------------------------------------------------------------
  // The specification-driven reads
  // ---------------------------------------------------------------------

  /** `GetPagedAsync(spec)` of either repository: the query's items and its
      total count. */
  function GetPagedBySpecification(store: seq<Entity>, spec: Specification, schema: Schema, typeName: string,
                                   oracle: Oracle): (r: Result<(seq<Entity>, int), Exception>)
    ensures r.Success? ==> r.value.1 == CountMatching(store, ToExpression(spec), oracle)
    ensures r.Success? ==> forall e :: e in r.value.0 ==> e in store && Matches(ToExpression(spec), e, oracle)
  {
    var paged :- ApplySpecification(store, spec, schema, typeName, oracle);
    ApplySpecificationCount(store, spec, schema, typeName, oracle);
    Success((paged.items, paged.totalCount))
  }

  /** `Repository.Where(spec)`: the list `ApplySpecification` produces,
      paging and ordering included. */
  function EfWhere(store: seq<Entity>, spec: Specification, schema: Schema, typeName: string, oracle: Oracle)
    : (r: Result<Maybe<seq<Entity>>, Exception>)
    ensures r.Success? <==> ApplySpecification(store, spec, schema, typeName, oracle).Success?
    ensures r.Success? ==> HasValue(r.value)
                           && r.value.stored.value == ApplySpecification(store, spec, schema, typeName, oracle).value.items
  {
    var paged :- ApplySpecification(store, spec, schema, typeName, oracle);
    Success(From(Some(paged.items)))
  }

  /** `MongoRepository.Where(spec)`: every match, with no ordering or
      paging. */
  function MongoWhere(store: seq<Entity>, spec: Specification, oracle: Oracle): (r: Maybe<seq<Entity>>)
    ensures HasValue(r)
    ensures forall e :: e in r.stored.value <==> e in store && Matches(ToExpression(spec), e, oracle)
  {
    From(Some(Filter(store, ToExpression(spec), oracle)))
  }

  /** The Mongo `Where` ignores paging and ordering; the Entity Framework one
      agrees with it exactly when the specification sets neither. */
  lemma WhereDifference(store: seq<Entity>, spec: Specification, schema: Schema, typeName: string, oracle: Oracle,
                        n: int, size: int, name: NullableString)
    ensures MongoWhere(store, ApplyPaging(spec, n, size), oracle) == MongoWhere(store, spec, oracle)
    ensures MongoWhere(store, ApplyOrderBy(spec, name), oracle) == MongoWhere(store, spec, oracle)
    ensures spec.pageNumber.None? && spec.pageSize.None?
            && IsNullOrEmpty(spec.orderByString) && IsNullOrEmpty(spec.orderByDescendingString)
            ==> EfWhere(store, spec, schema, typeName, oracle) == Success(MongoWhere(store, spec, oracle))
  {
  }

  // ---------------------------------------------------------------------
  // GetPagedAsync(page, pageSize, specification, sortBy, sortDescending)
  // ---------------------------------------------------------------------

  /** `Expression.Property(x, sortBy)` and `Queryable.OrderBy[Descending]`
      on it: the property is found ignoring case, or the call throws. */
  function SortByProperty(rows: seq<Entity>, schema: Schema, typeName: string, sortBy: string, desc: bool)
    : (r: Result<seq<Entity>, Exception>)
    ensures r.Success? <==> FindProperty(schema, sortBy).Some?
    ensures r.Failure? ==> r.error == SB.PropertyNotDefined(sortBy, typeName)
    ensures r.Success? ==> multiset(r.value) == multiset(rows)
                           && Sorted(r.value, PropertyKey(FindProperty(schema, sortBy).value.name), desc)
  {
    match FindProperty(schema, sortBy)
    case None => Failure(SB.PropertyNotDefined(sortBy, typeName))
    case Some(p) =>
      SortBySorted(rows, PropertyKey(p.name), desc);
      Success(SortBy(rows, PropertyKey(p.name), desc))
  }

  /** The rows `GetPagedAsync` counts and pages: the specification's matches
      (all rows when there is none), sorted when `sortBy` is not blank. */
  function PagedRows(store: seq<Entity>, specification: Option<SB.Spec>, sortBy: NullableString,
                     sortDescending: bool, schema: Schema, typeName: string, parameter: ParamId, oracle: Oracle)
    : (r: Result<seq<Entity>, Exception>)
  {
    var rows := if specification.Some? then Filter(store, SB.Criteria(specification.value, parameter), oracle)
                else store;
    if !IsNullOrWhiteSpace(sortBy) then SortByProperty(rows, schema, typeName, sortBy.value, sortDescending)
    else Success(rows)
  }

  /** `GetPagedAsync(page, pageSize, specification, sortBy, sortDescending)`
      of either repository. */
  function GetPagedAsync(store: seq<Entity>, page: int, pageSize: int, specification: Option<SB.Spec>,
                         sortBy: NullableString, sortDescending: bool, schema: Schema, typeName: string,
                         parameter: ParamId, oracle: Oracle): (r: Result<(seq<Entity>, int), Exception>)
    ensures r.Success? ==> |r.value.0| <= Max(pageSize, 0)
  {
    var sorted :- PagedRows(store, specification, sortBy, sortDescending, schema, typeName, parameter, oracle);
    var skip := (page - 1) * pageSize;
    Success((Take(Skip(sorted, skip), pageSize), |sorted|))
  }

  /** The count is every match of the specification (every row without
      one); the items are the `page`-th run of `pageSize` rows, in the
      requested order; the call fails only on a `sortBy` naming no
      property. */
  lemma GetPagedAsyncSound(store: seq<Entity>, page: int, pageSize: int, specification: Option<SB.Spec>,
                           sortBy: NullableString, sortDescending: bool, schema: Schema, typeName: string,
                           parameter: ParamId, oracle: Oracle)
    requires page >= 1 && pageSize > 0
    ensures var r := GetPagedAsync(store, page, pageSize, specification, sortBy, sortDescending, schema, typeName,
                                   parameter, oracle);
            && (r.Failure? <==> !IsNullOrWhiteSpace(sortBy) && FindProperty(schema, sortBy.value).None?)
            && (r.Success? && specification.Some? ==>
                  r.value.1 == CountMatching(store, SB.Criteria(specification.value, parameter), oracle))
            && (r.Success? && specification.None? ==> r.value.1 == |store|)
            && (r.Success? ==>
                  var rows := PagedRows(store, specification, sortBy, sortDescending, schema, typeName, parameter,
                                        oracle).value;
                  var off := (page - 1) * pageSize;
                  && |r.value.0| == Min(pageSize, Max(0, |rows| - off))
                  && (off < |rows| ==> r.value.0 == rows[off..Min(off + pageSize, |rows|)]))
            && (r.Success? && !IsNullOrWhiteSpace(sortBy) ==>
                  Sorted(r.value.0, PropertyKey(FindProperty(schema, sortBy.value).value.name), sortDescending))
  {
    var r := PagedRows(store, specification, sortBy, sortDescending, schema, typeName, parameter, oracle);
    if specification.Some? {
      FilterCount(store, SB.Criteria(specification.value, parameter), oracle);
    }
    if r.Success? {
      PageSliceIsContiguous(r.value, page, pageSize);
      if !IsNullOrWhiteSpace(sortBy) {
        var key := PropertyKey(FindProperty(schema, sortBy.value).value.name);
        SkipKeepsSorted(r.value, (page - 1) * pageSize, key, sortDescending);
        TakeKeepsSorted(Skip(r.value, (page - 1) * pageSize), pageSize, key, sortDescending);
      }
    }
  }

  // ---------------------------------------------------------------------
  // GetQueryable, GetByIdAsync and Delete
  // ---------------------------------------------------------------------

  /** `GetQueryable(filter)`: the stored entities passing `filter.Combine()`. */
  function GetQueryable(store: seq<Entity>, q: QF.QueryFilter, oracle: Oracle): (r: seq<Entity>)
    ensures forall e :: e in r ==> e in store
  {
    Filter(store, QF.Combine(q), oracle)
  }

  /** An entity comes back from `GetQueryable` exactly when every filter of
      the list accepts it; a cleared list returns the whole store. */
  lemma GetQueryableMatchesAll(store: seq<Entity>, q: QF.QueryFilter, oracle: Oracle, e: Entity)
    requires QF.Valid(q)
    ensures e in GetQueryable(store, q, oracle)
            <==> e in store && forall i :: 0 <= i < |q.items| ==> Matches(q.items[i], e, oracle)
    ensures GetQueryable(store, QF.Clear(q), oracle) == store
  {
    QF.CombineMeanings(q, e, oracle);
    forall i | 0 <= i < |store| ensures Matches(QF.Combine(QF.Clear(q)), store[i], oracle) {
      QF.CombineMeanings(q, store[i], oracle);
    }
    FilterAllMatch(store, QF.Combine(QF.Clear(q)), oracle);
  }

  /** `MongoRepository.GetByIdAsync(id)`, which asks the context: the first
      document with the id, soft-deleted or not, and no special case for the
      empty id. */
  function MongoGetBydIdAsync(c: MC.Collection, id: Guid): (m: Maybe<MC.Document>)
    ensures HasNoValue(m) <==> forall i :: 0 <= i < |c| ==> MC.Id(c[i]) != id
    ensures HasValue(m) ==> m.stored.value in c && MC.Id(m.stored.value) == id
  {
    MC.GetBydIdAsync(c, id)
  }

  /** `Repository.Remove(entity)`: the context's `Remove` of the entity's
      entry, attaching the entity first when the context does not track its
      key yet. An entity added in this unit of work is let go of instead of
      being marked. The database is untouched until `SaveChangesAsync`. */
  function Remove(t: DB.Tracker, entity: DB.Entry): (r: DB.Tracker)
    ensures match DB.TrackedAt(t, entity.id)
            case Some(k) =>
              && |r| == |t|
              && (forall j :: 0 <= j < |t| && j != k ==> r[j] == t[j])
              && r[k].(state := t[k].state) == t[k]
              && (r[k].state == DB.Detached <==> t[k].state == DB.Added)
              && (r[k].state == DB.Deleted <==> t[k].state != DB.Added)
            case None =>
              r == t + [entity.(state := DB.Deleted)]
    ensures DB.UniqueKeys(t) ==> DB.UniqueKeys(r)
    ensures DB.UniqueKeys(t) ==>
              match DB.TrackedAt(r, entity.id)
              case Some(k) => r[k].state == DB.Deleted
              case None => DB.AddedAt(t, entity.id)
  {
    var tracked := DB.Track(t, entity);
    var k := tracked.1;
    var r := DB.Remove(tracked.0, k);
    assert DB.UniqueKeys(t) && r[k].state == DB.Deleted ==> DB.TrackedAt(r, entity.id) == Some(k) by {
      if DB.UniqueKeys(t) && r[k].state == DB.Deleted {
        DB.TrackedAtUnique(r, k);
      }
    }
    r
  }

  /** `Repository.Delete(id)`: `Value` of the lookup throws when nothing is
      found, including for the empty id; otherwise the found entity is
      removed. `load` gives the tracked entry a query makes of a stored
      entity (its type's kind and its audit columns). */
  function EfDelete(store: seq<Entity>, t: DB.Tracker, load: Entity -> DB.Entry, id: Guid)
    : (r: Result<DB.Tracker, Exception>)
    ensures r.Failure? <==> id == EmptyGuid || forall i :: 0 <= i < |store| ==> store[i].id != id
    ensures r.Failure? ==> r.error.InvalidOperationException?
    ensures r.Success? ==>
              && |t| <= |r.value| <= |t| + 1
              && (forall j :: 0 <= j < |t| && t[j].id != id ==> r.value[j] == t[j])
              && (DB.UniqueKeys(t) ==> DB.UniqueKeys(r.value))
              && (DB.UniqueKeys(t) ==>
                    match DB.TrackedAt(r.value, id)
                    case Some(k) => r.value[k].state == DB.Deleted
                    case None => DB.AddedAt(t, id))
  {
    var found := DB.GetBydIdAsync(store, id);
    var data :- Maybes.Value(found);
    Success(Remove(t, load(data).(id := data.id)))
  }

  /** However the rest of the unit of work looks, deleting a soft-deletable
      entity and saving keeps its row, so the lookup by id still finds it. */
  lemma EfDeleteKeepsSoftDeletableRow(store: seq<Entity>, t: DB.Tracker, load: Entity -> DB.Entry, id: Guid,
                                      saveBy: Guid, now: DateTime)
    ensures var r := EfDelete(store, t, load, id);
            r.Success?
            && (forall j :: 0 <= j < |r.value| && r.value[j].id == id && DB.Tracked(r.value[j]) ==>
                  r.value[j].softDeletable)
            && DB.SaveChangesAsync(r.value, saveBy, now).Success? ==>
              var saved := DB.SaveChangesAsync(r.value, saveBy, now).value.tracker;
              && (forall e :: e in store && e.id == id ==> e in DB.Persist(store, saved))
              && HasValue(DB.GetBydIdAsync(DB.Persist(store, saved), id))
  {
    var r := EfDelete(store, t, load, id);
    if r.Success?
       && (forall j :: 0 <= j < |r.value| && r.value[j].id == id && DB.Tracked(r.value[j]) ==>
             r.value[j].softDeletable)
       && DB.SaveChangesAsync(r.value, saveBy, now).Success? {
      DB.SaveKeepsSoftDeletableRows(r.value, saveBy, now, id);
      var saved := DB.SaveChangesAsync(r.value, saveBy, now).value.tracker;
      var e := DB.FirstWithId(store, id).value;
      assert e in DB.Persist(store, saved);
    }
  }

  /** A delete that is the only removal of its unit of work, then the save:
      a soft-deletable, auditable entity is kept with `Deleted = true` and
      the save's time; one without `ModifiedBy` makes the save throw; any
      other entity's row is deleted. An entity added in the same unit of
      work is only let go of, and every row stays. */
  lemma EfDeleteThenSave(store: seq<Entity>, t: DB.Tracker, load: Entity -> DB.Entry, id: Guid,
                         saveBy: Guid, now: DateTime)
    requires DB.UniqueKeys(t)
    ensures var r := EfDelete(store, t, load, id);
            r.Success? && DB.DeletedSet(t) == {} ==>
              var s := DB.SaveChangesAsync(r.value, saveBy, now);
              match DB.TrackedAt(r.value, id)
              case None =>
                && DB.AddedAt(t, id) && DB.DeletedSet(r.value) == {}
                && s.Success? && DB.Persist(store, s.value.tracker) == store
              case Some(k) =>
                var e := r.value[k];
                && e.state == DB.Deleted
                && (e.softDeletable && e.auditable ==>
                      && s.Success? && s.value.tracker[k].deleted && s.value.tracker[k].deletedOnUtc == Some(now)
                      && DB.Persist(store, s.value.tracker) == store)
                && (e.softDeletable && !e.auditable ==> s == Failure(DB.ModifiedByMissing))
                && (!e.softDeletable ==>
                      && s.Success?
                      && forall x :: x in DB.Persist(store, s.value.tracker) <==> x in store && x.id != id)
  {
    var r := EfDelete(store, t, load, id);
    if r.Success? && DB.DeletedSet(t) == {} {
      var data := DB.FirstWithId(store, id).value;
      var entity := load(data).(id := data.id);
      assert r.value == Remove(t, entity);
      RemoveOnlyDeletion(t, entity);
      match DB.TrackedAt(r.value, id)
      case None =>
        DB.SaveWithoutDeletion(store, r.value, saveBy, now);
      case Some(k) =>
        DB.SaveSingleDeletion(store, r.value, saveBy, now, k);
    }
  }

  /** In a unit of work with nothing else marked for deletion, the removed
      entity's entry is the only one Deleted, or none is when it was let go
      of. */
  lemma RemoveOnlyDeletion(t: DB.Tracker, entity: DB.Entry)
    requires DB.UniqueKeys(t) && DB.DeletedSet(t) == {}
    ensures var r := Remove(t, entity);
            match DB.TrackedAt(r, entity.id)
            case None => DB.DeletedSet(r) == {}
            case Some(k) => DB.DeletedSet(r) == {k}
  {
    var r := Remove(t, entity);
    forall j | 0 <= j < |r| && r[j].state == DB.Deleted ensures r[j].id == entity.id {
      if j < |t| {
        assert j !in DB.DeletedSet(t);
      }
    }
    match DB.TrackedAt(r, entity.id)
    case None =>
      assert DB.DeletedSet(r) == {};
    case Some(k) =>
      assert DB.UniqueKeys(r);
      forall j | 0 <= j < |r| && j != k ensures r[j].state != DB.Deleted {
      }
      assert DB.DeletedSet(r) == {k};
  }

  /** An entity added and removed in the same unit of work is let go of, so
      a save publishes none of its pending domain events: exactly those of
      the rest of the unit of work. */
  lemma AddedThenRemovedPublishesNothing(t: DB.Tracker, entity: DB.Entry, saveBy: Guid, now: DateTime)
    requires DB.AddedAt(t, entity.id)
    ensures var k := DB.TrackedAt(t, entity.id).value;
            var s := DB.SaveChangesAsync(Remove(t, entity), saveBy, now);
            s.Success? ==> s.value.published == DB.CollectEvents(t[..k] + t[k + 1..])
  {
    var k := DB.TrackedAt(t, entity.id).value;
    var r := Remove(t, entity);
    assert |r| == |t| && !DB.Tracked(r[k]);
    assert r[..k] == t[..k];
    assert r[k + 1..] == t[k + 1..];
    DB.CollectEventsSkipsUntracked(r, k);
    DB.SaveChangesAsyncSound(r, saveBy, now);
  }

  /** The smallest such unit of work: the context's `Insert` of an aggregate
      into an empty unit of work leaves it Added; removing it and saving
      then publishes nothing and writes nothing. */
  lemma AddedAggregateRemovedPublishesNothing(entity: DB.Entry, saveBy: Guid, now: DateTime)
    ensures var s := DB.SaveChangesAsync(Remove([entity.(state := DB.Added)], entity), saveBy, now);
            s.Success? && s.value.published == [] && s.value.written == 0
  {
    var t := [entity.(state := DB.Added)];
    assert DB.TrackedAt(t, entity.id) == Some(0);
    var r := Remove(t, entity);
    assert r == [entity.(state := DB.Detached)];
    assert DB.DeletedSet(r) == {};
    DB.SaveWithoutDeletion([], r, saveBy, now);
    DB.SaveChangesAsyncSound(r, saveBy, now);
    AddedThenRemovedPublishesNothing(t, entity, saveBy, now);
  }

  /** The entities of a Mongo collection, as the query side reads them. */
  function Stored(c: MC.Collection): (r: seq<Entity>)
    ensures |r| == |c| && forall i :: 0 <= i < |c| ==> r[i] == c[i].entity
  {
    seq(|c|, i requires 0 <= i < |c| => c[i].entity)
  }

  /** `MongoRepository.Delete(id)`: the context's `Remove` of what the lookup
      found, and nothing when it found nothing. */
  function MongoDelete(t: MC.EntityType, c: MC.Collection, id: Guid, saveBy: Guid,
                       markedAt: DateTime, stampedAt: DateTime): (r: MC.Collection)
  {
    var data := MongoGetBydIdAsync(c, id);
    if HasValue(data) then MC.Remove(t, c, data.stored.value, saveBy, markedAt, stampedAt) else c
  }

  /** An unknown id leaves the collection unchanged. A known id of a
      soft-deletable type keeps the document, marks it deleted and leaves it
      findable by the same id; of any other type it deletes the document and
      keeps the rest in order. Unlike the Entity Framework repository, the
      empty id is looked up like any other. */
  lemma MongoDeleteSound(t: MC.EntityType, c: MC.Collection, id: Guid, saveBy: Guid,
                         markedAt: DateTime, stampedAt: DateTime)
    ensures (forall i :: 0 <= i < |c| ==> MC.Id(c[i]) != id) ==> MongoDelete(t, c, id, saveBy, markedAt, stampedAt) == c
    ensures MC.IndexOfId(c, id).Some? && t.softDeletable ==>
              var k, r := MC.IndexOfId(c, id).value, MongoDelete(t, c, id, saveBy, markedAt, stampedAt);
              && |r| == |c| && r[k].entity == c[k].entity && r[k].deleted && r[k].deletedOnUtc == Some(markedAt)
              && (forall j :: 0 <= j < |c| && j != k ==> r[j] == c[j])
              && MongoGetBydIdAsync(r, id).stored == Some(r[k])
    ensures MC.IndexOfId(c, id).Some? && !t.softDeletable ==>
              var k := MC.IndexOfId(c, id).value;
              MongoDelete(t, c, id, saveBy, markedAt, stampedAt) == c[..k] + c[k + 1..]
    ensures (exists i :: 0 <= i < |c| && MC.Id(c[i]) == EmptyGuid) ==>
              HasValue(MongoGetBydIdAsync(c, EmptyGuid))
              && forall tracker, load :: EfDelete(Stored(c), tracker, load, EmptyGuid).Failure?
  {
    var k := MC.IndexOfId(c, id);
    if k.Some? {
      var found := c[k.value];
      assert MongoGetBydIdAsync(c, id).stored == Some(found);
      if t.softDeletable {
        MC.RemoveSoftDeletable(t, c, found, saveBy, markedAt, stampedAt, k.value);
      } else {
        MC.RemoveHard(t, c, found, saveBy, markedAt, stampedAt, k.value);
      }
    }
  }
}

=== FILE: sorting.dfy ===
/**
  The stable ordering `OrderBy`/`OrderByDescending` give a sequence: elements
  are arranged by a key, and elements with equal keys keep the order they
  had. Keys are optional values (a missing one sorts first), which covers
  property values and time stamps alike.
 */
module Sorting {
  import opened Wrappers
  import opened Entities

  type Key = Option<Value>

  /** The strict order on keys: a missing key first, then by value. */
  predicate KeyLess(a: Key, b: Key) {
    if a.None? then b.Some?
    else b.Some? && ValueLess(a.value, b.value)
  }

  /** `a` strictly precedes `b` in ascending order, or in descending order
      when `desc`. */
  predicate Before(a: Key, b: Key, desc: bool) {
    if desc then KeyLess(b, a) else KeyLess(a, b)
  }

  lemma BeforeStrictTotal(a: Key, b: Key, c: Key, desc: bool)
    ensures !Before(a, a, desc)
    ensures Before(a, b, desc) && Before(b, c, desc) ==> Before(a, c, desc)
    ensures a == b || Before(a, b, desc) || Before(b, a, desc)
  {
    if a.Some? && b.Some? && c.Some? {
      ValueLessStrictTotal(a.value, b.value, c.value);
      ValueLessStrictTotal(c.value, b.value, a.value);
    } else if a.Some? {
      ValueLessStrictTotal(a.value, a.value, a.value);
      if b.Some? {
        ValueLessStrictTotal(a.value, b.value, b.value);
      }
    } else if b.Some? && c.Some? {
      ValueLessStrictTotal(b.value, c.value, c.value);
      ValueLessStrictTotal(c.value, b.value, b.value);
    }
  }

  /** No element is ordered before an element that precedes it. */
  predicate Sorted<T>(s: seq<T>, key: T -> Key, desc: bool) {
    forall i, j :: 0 <= i < j < |s| ==> !Before(key(s[j]), key(s[i]), desc)
  }

  /** The elements of `s` whose key is `k`, in their order in `s`. */
  function WithKey<T>(s: seq<T>, key: T -> Key, k: Key): (r: seq<T>)
    ensures |r| <= |s|
  {
    if |s| == 0 then []
    else (if key(s[0]) == k then [s[0]] else []) + WithKey(s[1..], key, k)
  }

  lemma {:induction false} WithKeyConcat<T>(a: seq<T>, b: seq<T>, key: T -> Key, k: Key)
    ensures WithKey(a + b, key, k) == WithKey(a, key, k) + WithKey(b, key, k)
    decreases |a|
  {
    if |a| == 0 {
      assert a + b == b;
    } else {
      var head := if key(a[0]) == k then [a[0]] else [];
      assert (a + b)[0] == a[0];
      assert (a + b)[1..] == a[1..] + b;
      WithKeyConcat(a[1..], b, key, k);
      calc {
        WithKey(a + b, key, k);
        head + WithKey(a[1..] + b, key, k);
        head + (WithKey(a[1..], key, k) + WithKey(b, key, k));
        (head + WithKey(a[1..], key, k)) + WithKey(b, key, k);
      }
    }
  }

  /** Puts `x` into the sorted `s` after every element it does not strictly
      precede. */
  function InsertSorted<T>(x: T, s: seq<T>, key: T -> Key, desc: bool): (r: seq<T>)
    ensures |r| == |s| + 1
    ensures multiset(r) == multiset(s) + multiset{x}
  {
    if |s| == 0 then [x]
    else if Before(key(x), key(s[0]), desc) then [x] + s
    else
      var rest := InsertSorted(x, s[1..], key, desc);
      assert s == [s[0]] + s[1..];
      [s[0]] + rest
  }

  /** The stable sort of `s` by `key`. */
  function SortBy<T>(s: seq<T>, key: T -> Key, desc: bool): (r: seq<T>)
    ensures |r| == |s|
    ensures multiset(r) == multiset(s)
  {
    if |s| == 0 then []
    else
      var init := s[..|s| - 1];
      assert s == init + [s[|s| - 1]];
      InsertSorted(s[|s| - 1], SortBy(init, key, desc), key, desc)
  }

  lemma {:induction false} InsertSortedKeepsSorted<T>(x: T, s: seq<T>, key: T -> Key, desc: bool)
    requires Sorted(s, key, desc)
    ensures Sorted(InsertSorted(x, s, key, desc), key, desc)
    decreases |s|
  {
    var r := InsertSorted(x, s, key, desc);
    if |s| == 0 {
    } else if Before(key(x), key(s[0]), desc) {
      forall i, j | 0 <= i < j < |r| ensures !Before(key(r[j]), key(r[i]), desc) {
        if i == 0 {
          var kj := key(s[j - 1]);
          BeforeStrictTotal(kj, key(x), key(s[0]), desc);
          BeforeStrictTotal(key(s[0]), key(x), key(s[0]), desc);
        }
      }
    } else {
      var rest := InsertSorted(x, s[1..], key, desc);
      SortedTail(s, key, desc);
      InsertSortedKeepsSorted(x, s[1..], key, desc);
      forall j | 0 <= j < |rest| ensures !Before(key(rest[j]), key(s[0]), desc) {
        assert rest[j] in multiset(rest);
        if rest[j] != x {
          assert rest[j] in multiset(s[1..]);
          var m :| 0 <= m < |s[1..]| && s[1..][m] == rest[j];
          assert s[m + 1] == rest[j];
        }
      }
      assert r == [s[0]] + rest;
    }
  }

  /** Sorting yields an ordered sequence. */
  lemma {:induction false} SortBySorted<T>(s: seq<T>, key: T -> Key, desc: bool)
    ensures Sorted(SortBy(s, key, desc), key, desc)
    decreases |s|
  {
    if |s| > 0 {
      SortBySorted(s[..|s| - 1], key, desc);
      InsertSortedKeepsSorted(s[|s| - 1], SortBy(s[..|s| - 1], key, desc), key, desc);
    }
  }

  /** Inserting `x` leaves the other elements with `x`'s key in front of it. */
  lemma {:induction false} InsertSortedWithKey<T>(x: T, s: seq<T>, key: T -> Key, desc: bool, k: Key)
    requires Sorted(s, key, desc)
    ensures WithKey(InsertSorted(x, s, key, desc), key, k)
            == WithKey(s, key, k) + (if key(x) == k then [x] else [])
    decreases |s|
  {
    if |s| == 0 {
      assert [x][1..] == [];
    } else if Before(key(x), key(s[0]), desc) {
      InsertFrontWithKey(x, s, key, desc, k);
    } else {
      SortedTail(s, key, desc);
      InsertSortedWithKey(x, s[1..], key, desc, k);
      InsertPastHeadWithKey(x, s, key, desc, k);
    }
  }

  /** The tail of a sorted sequence is sorted. */
  lemma SortedTail<T>(s: seq<T>, key: T -> Key, desc: bool)
    requires |s| > 0 && Sorted(s, key, desc)
    ensures Sorted(s[1..], key, desc)
  {
    forall i, j | 0 <= i < j < |s[1..]| ensures !Before(key(s[1..][j]), key(s[1..][i]), desc) {
      assert s[1..][j] == s[j + 1] && s[1..][i] == s[i + 1];
    }
  }

  /** `x` inserted in front: no element of `s` shares its key. */
  lemma InsertFrontWithKey<T>(x: T, s: seq<T>, key: T -> Key, desc: bool, k: Key)
    requires |s| > 0 && Sorted(s, key, desc) && Before(key(x), key(s[0]), desc)
    ensures WithKey(InsertSorted(x, s, key, desc), key, k)
            == WithKey(s, key, k) + (if key(x) == k then [x] else [])
  {
    var r := [x] + s;
    assert r[0] == x && r[1..] == s;
    assert WithKey(r, key, k) == (if key(x) == k then [x] else []) + WithKey(s, key, k);
    if key(x) == k {
      NoneWithKey(s, key, desc, k);
    }
  }

  /** `x` inserted past the head: the head keeps its place in front. */
  lemma InsertPastHeadWithKey<T>(x: T, s: seq<T>, key: T -> Key, desc: bool, k: Key)
    requires |s| > 0 && !Before(key(x), key(s[0]), desc)
    requires WithKey(InsertSorted(x, s[1..], key, desc), key, k)
             == WithKey(s[1..], key, k) + (if key(x) == k then [x] else [])
    ensures WithKey(InsertSorted(x, s, key, desc), key, k)
            == WithKey(s, key, k) + (if key(x) == k then [x] else [])
  {
    var rest := InsertSorted(x, s[1..], key, desc);
    var head := if key(s[0]) == k then [s[0]] else [];
    var tail := if key(x) == k then [x] else [];
    assert WithKey(InsertSorted(x, s, key, desc), key, k) == head + WithKey(rest, key, k) by {
      InsertSortedPastHead(x, s, key, desc);
      WithKeyCons(s[0], rest, key, k);
    }
    assert WithKey(s, key, k) == head + WithKey(s[1..], key, k) by {
      WithKeyCons(s[0], s[1..], key, k);
      assert [s[0]] + s[1..] == s;
    }
    AppendAssoc(head, WithKey(s[1..], key, k), tail);
  }

  lemma AppendAssoc<T>(a: seq<T>, b: seq<T>, c: seq<T>)
    ensures a + (b + c) == (a + b) + c
  {
  }

  lemma InsertSortedPastHead<T>(x: T, s: seq<T>, key: T -> Key, desc: bool)
    requires |s| > 0 && !Before(key(x), key(s[0]), desc)
    ensures InsertSorted(x, s, key, desc) == [s[0]] + InsertSorted(x, s[1..], key, desc)
  {
  }

  lemma WithKeyCons<T>(a: T, t: seq<T>, key: T -> Key, k: Key)
    ensures WithKey([a] + t, key, k) == (if key(a) == k then [a] else []) + WithKey(t, key, k)
  {
    assert ([a] + t)[0] == a && ([a] + t)[1..] == t;
  }

  /** A key strictly before the first key of a sorted sequence occurs nowhere
      in it. */
  lemma NoneWithKey<T>(s: seq<T>, key: T -> Key, desc: bool, k: Key)
    requires |s| >= 1 && Sorted(s, key, desc) && Before(k, key(s[0]), desc)
    ensures WithKey(s, key, k) == []
  {
    forall i | 0 <= i < |s| ensures key(s[i]) != k {
      BeforeStrictTotal(k, key(s[0]), k, desc);
      if i > 0 {
        BeforeStrictTotal(key(s[i]), k, key(s[0]), desc);
      }
    }
    WithKeyAbsent(s, key, k);
  }

  lemma {:induction false} WithKeyAbsent<T>(s: seq<T>, key: T -> Key, k: Key)
    requires forall i :: 0 <= i < |s| ==> key(s[i]) != k
    ensures WithKey(s, key, k) == []
    decreases |s|
  {
    if |s| > 0 {
      WithKeyAbsent(s[1..], key, k);
    }
  }

  /** Stability: the elements sharing any one key come out in the order they
      went in. */
  lemma {:induction false} SortByStable<T>(s: seq<T>, key: T -> Key, desc: bool, k: Key)
    ensures WithKey(SortBy(s, key, desc), key, k) == WithKey(s, key, k)
    decreases |s|
  {
    if |s| > 0 {
      var init := s[..|s| - 1];
      var x := s[|s| - 1];
      var sorted := SortBy(init, key, desc);
      SortByStable(init, key, desc, k);
      SortBySorted(init, key, desc);
      InsertSortedWithKey(x, sorted, key, desc, k);
      WithKeySnoc(s, key, k);
    }
  }

  lemma WithKeySnoc<T>(s: seq<T>, key: T -> Key, k: Key)
    requires |s| >= 1
    ensures WithKey(s, key, k)
            == WithKey(s[..|s| - 1], key, k) + (if key(s[|s| - 1]) == k then [s[|s| - 1]] else [])
  {
    var x := s[|s| - 1];
    assert s == s[..|s| - 1] + [x];
    WithKeyConcat(s[..|s| - 1], [x], key, k);
    assert [x][1..] == [];
    assert WithKey([x], key, k) == (if key(x) == k then [x] else []) + WithKey([], key, k);
  }

  /** A sequence already in order, with no two equal keys out of place, is
      left as it is. */
  lemma {:induction false} SortBySortedIsIdentity<T>(s: seq<T>, key: T -> Key, desc: bool)
    requires Sorted(s, key, desc)
    ensures SortBy(s, key, desc) == s
    decreases |s|
  {
    if |s| > 0 {
      var init := s[..|s| - 1];
      var x := s[|s| - 1];
      assert init + [x] == s;
      SortedSplit(init, x, key, desc);
      SortBySortedIsIdentity(init, key, desc);
      InsertAtEnd(x, init, key, desc);
    }
  }

  /** Dropping the last element of a sorted sequence keeps it sorted, and
      that element precedes none of the others. */
  lemma SortedSplit<T>(init: seq<T>, x: T, key: T -> Key, desc: bool)
    requires Sorted(init + [x], key, desc)
    ensures Sorted(init, key, desc)
    ensures forall i :: 0 <= i < |init| ==> !Before(key(x), key(init[i]), desc)
  {
    var s := init + [x];
    forall i, j | 0 <= i < j < |init| ensures !Before(key(init[j]), key(init[i]), desc) {
      assert init[i] == s[i] && init[j] == s[j];
    }
    forall i | 0 <= i < |init| ensures !Before(key(x), key(init[i]), desc) {
      assert init[i] == s[i] && x == s[|init|];
    }
  }

  lemma {:induction false} InsertAtEnd<T>(x: T, s: seq<T>, key: T -> Key, desc: bool)
    requires forall i :: 0 <= i < |s| ==> !Before(key(x), key(s[i]), desc)
    ensures InsertSorted(x, s, key, desc) == s + [x]
    decreases |s|
  {
    if |s| > 0 {
      assert forall i :: 0 <= i < |s[1..]| ==> !Before(key(x), key(s[1..][i]), desc) by {
        forall i | 0 <= i < |s[1..]| ensures !Before(key(x), key(s[1..][i]), desc) {
          assert s[1..][i] == s[i + 1];
        }
      }
      InsertAtEnd(x, s[1..], key, desc);
      assert s == [s[0]] + s[1..];
    }
  }
}

=== FILE: spec_builder.dfy ===
/**
  `SpecificationBuilder`: turns parsed filter criteria into a specification
  whose `Criteria` is a predicate over the entity type. `ToSpecification`
  builds one criterion's lambda, OR-ing one comparison per value; `Build`
  folds the criteria to the left with And/Or specifications.
 */
module SpecificationBuilder {
  import opened Wrappers
  import opened Text
  import opened Entities
  import opened Predicates
  import opened Filters
  import opened Exceptions
  import EX = ExpressionExtensions

  // ---------------------------------------------------------------------
  // Specifications
  // ---------------------------------------------------------------------

  /** `DynamicSpecification`, `AndSpecification` and `OrSpecification`. */
  datatype Spec =
    | DynamicSpecification(expression: Lambda)
    | AndSpecification(left: Spec, right: Spec)
    | OrSpecification(left: Spec, right: Spec)

  /** Every lambda a specification holds is closed. */
  predicate ClosedSpec(s: Spec) {
    match s
    case DynamicSpecification(l) => Closed(l)
    case AndSpecification(a, b) => ClosedSpec(a) && ClosedSpec(b)
    case OrSpecification(a, b) => ClosedSpec(a) && ClosedSpec(b)
  }

  /** The `Criteria` property: the stored lambda, or the operands' criteria
      joined with `AndAlso`/`OrElse`. Each read creates fresh parameter
      objects; `parameter` stands for them, and which one is used does not
      change the predicate's meaning. */
  function Criteria(s: Spec, parameter: ParamId): (r: Lambda)
    ensures ClosedSpec(s) ==> Closed(r)
  {
    match s
    case DynamicSpecification(l) => l
    case AndSpecification(a, b) => EX.LambdaAndAlso(Criteria(a, parameter), Criteria(b, parameter), parameter)
    case OrSpecification(a, b) => EX.LambdaOrElse(Criteria(a, parameter), Criteria(b, parameter), parameter)
  }

  // ---------------------------------------------------------------------
  // Value conversion
  // ---------------------------------------------------------------------

  /** The white space `NumberStyles.Integer` lets surround a number:
      U+0009..U+000D and U+0020. */
  predicate IsNumberBlank(c: char) {
    c == ' ' || ('\t' <= c <= '\r')
  }

  function DropLeadingBlanks(s: string): (r: string)
    ensures |r| == 0 || !IsNumberBlank(r[0])
    ensures |r| <= |s| && r == s[|s| - |r|..]
  {
    if |s| > 0 && IsNumberBlank(s[0]) then DropLeadingBlanks(s[1..]) else s
  }

  function DropTrailingBlanks(s: string): (r: string)
    ensures |r| == 0 || !IsNumberBlank(r[|r| - 1])
    ensures |r| <= |s| && r == s[..|r|]
  {
    if |s| > 0 && IsNumberBlank(s[|s| - 1]) then DropTrailingBlanks(s[..|s| - 1]) else s
  }

  /** An optional sign followed by at least one decimal digit. */
  predicate LooksLikeInteger(t: string) {
    (|t| >= 1 && (t[0] == '-' || t[0] == '+') && AllDigits(t[1..])) || AllDigits(t)
  }

  function TypeName(kind: Kind): string {
    match kind
    case IntKind => "System.Int32"
    case TextKind => "System.String"
    case GuidKind => "System.Guid"
  }

  /** `Convert.ChangeType(valueStr, valueType)` from a string. A number is
      `Int32.Parse` with `NumberStyles.Integer`; a string is kept; a string
      never converts to a `Guid`, because `string` does not implement that
      conversion of `IConvertible`. */
  function ChangeType(s: string, kind: Kind): (r: Result<Value, Exception>)
    ensures r.Success? ==> KindOf(r.value) == kind
    ensures kind == TextKind ==> r == Success(TextValue(s))
    ensures kind == GuidKind ==> r.Failure?
  {
    match kind
    case TextKind => Success(TextValue(s))
    case GuidKind =>
      Failure(OtherException("System.InvalidCastException", "Invalid cast from 'System.String' to 'System.Guid'."))
    case IntKind =>
      var t := DropTrailingBlanks(DropLeadingBlanks(s));
      var n := ParseInt(t);
      if n.Some? then Success(IntValue(n.value))
      else if LooksLikeInteger(t) then
        Failure(OtherException("System.OverflowException", "Value was either too large or too small for an Int32."))
      else
        Failure(OtherException("System.FormatException", "The input string '" + s + "' was not in a correct format."))
  }

  /** Every 32-bit value converts back from its decimal text, with or without
      surrounding blanks. */
  lemma ChangeTypeReadsInt(n: int, before: string, after: string)
    requires Int32Min <= n <= Int32Max
    requires forall i :: 0 <= i < |before| ==> IsNumberBlank(before[i])
    requires forall i :: 0 <= i < |after| ==> IsNumberBlank(after[i])
    ensures ChangeType(before + IntToString(n) + after, IntKind) == Success(IntValue(n))
  {
    var digits := IntToString(n);
    ParseIntToString(n);
    assert IsDigit(digits[0]) || digits[0] == '-';
    assert IsDigit(digits[|digits| - 1]) by {
      if n < 0 { assert digits[|digits| - 1] == NatToString(-n)[|NatToString(-n)| - 1]; }
    }
    DropLeadingBlanksOf(before, digits + after);
    assert before + IntToString(n) + after == before + (digits + after);
    DropTrailingBlanksOf(digits, after);
  }

  lemma {:induction false} DropLeadingBlanksOf(blanks: string, s: string)
    requires forall i :: 0 <= i < |blanks| ==> IsNumberBlank(blanks[i])
    requires |s| >= 1 && !IsNumberBlank(s[0])
    ensures DropLeadingBlanks(blanks + s) == s
  {
    if |blanks| > 0 {
      assert (blanks + s)[1..] == blanks[1..] + s;
      DropLeadingBlanksOf(blanks[1..], s);
    } else {
      assert blanks + s == s;
    }
  }

  lemma {:induction false} DropTrailingBlanksOf(s: string, blanks: string)
    requires forall i :: 0 <= i < |blanks| ==> IsNumberBlank(blanks[i])
    requires |s| >= 1 && !IsNumberBlank(s[|s| - 1])
    ensures DropTrailingBlanks(s + blanks) == s
  {
    if |blanks| > 0 {
      var shorter := blanks[..|blanks| - 1];
      assert (s + blanks)[..|s + blanks| - 1] == s + shorter;
      DropTrailingBlanksOf(s, shorter);
    } else {
      assert s + blanks == s;
    }
  }

  // ---------------------------------------------------------------------
  // ToSpecification
  // ---------------------------------------------------------------------

  /** The `ExpressionType` name .NET reports for an ordering operator. */
  function OrderingName(op: FilterOperator): string {
    match op
    case GreaterThan => "GreaterThan"
    case GreaterThanOrEqual => "GreaterThanOrEqual"
    case LessThan => "LessThan"
    case _ => "LessThanOrEqual"
  }

  predicate IsOrdering(op: FilterOperator) {
    op == GreaterThan || op == GreaterThanOrEqual || op == LessThan || op == LessThanOrEqual
  }

  function CmpOf(op: FilterOperator): CmpOp
    requires IsOrdering(op) || op == Equals || op == NotEquals
  {
    match op
    case Equals => Eq
    case NotEquals => Ne
    case GreaterThan => Gt
    case GreaterThanOrEqual => Ge
    case LessThan => Lt
    case LessThanOrEqual => Le
  }

  /** The comparison `Expression.GreaterThan` and friends refuse to build on a
      type with no such operator: only `int` has one here. */
  function OperatorNotDefined(op: FilterOperator, kind: Kind): Exception {
    InvalidOperationException("The binary operator " + OrderingName(op) + " is not defined for the types '"
                              + TypeName(kind) + "' and '" + TypeName(kind) + "'.")
  }

  const NotImplemented: Exception := NotImplementedException("The method or operation is not implemented.")

  /** The predicate built for one value `valueStr` of a criterion on property
      `p` with operator `op` and value list `values`: the value is converted
      first, then the operator is applied. */
  function ValuePredicate(op: FilterOperator, values: seq<string>, p: PropertyInfo, x: ParamId, valueStr: string)
    : (r: Result<Expr, Exception>)
    ensures r.Success? ==> Free(r.value) == {x}
    ensures r.Success? <==>
              && ChangeType(valueStr, p.kind).Success?
              && !op.Undefined?
              && (IsOrdering(op) ==> p.kind == IntKind)
  {
    var value :- ChangeType(valueStr, p.kind);
    match op
    case Contains => Success(TextContains(x, p.name, valueStr))
    case In => Success(MemberOf(x, p.name, values))
    case Undefined(_) => Failure(NotImplemented)
    case _ =>
      if IsOrdering(op) && p.kind != IntKind then Failure(OperatorNotDefined(op, p.kind))
      else Success(Compare(CmpOf(op), x, p.name, value))
  }

  /** The `foreach` over the values: each value's predicate is OR-ed onto the
      accumulated expression, and the first exception ends the loop. */
  function FoldValues(op: FilterOperator, values: seq<string>, p: PropertyInfo, x: ParamId,
                      acc: Option<Expr>, rest: seq<string>): (r: Result<Option<Expr>, Exception>)
    ensures r.Success? ==> (r.value.Some? <==> acc.Some? || |rest| > 0)
    ensures r.Success? && r.value.Some? && (acc.Some? ==> Free(acc.value) <= {x}) ==> Free(r.value.value) <= {x}
    decreases |rest|
  {
    if |rest| == 0 then Success(acc)
    else
      var current :- ValuePredicate(op, values, p, x, rest[0]);
      var next := if acc.None? then current else OrElse(acc.value, current);
      FoldValues(op, values, p, x, Some(next), rest[1..])
  }

  /** The loop completes exactly when every value's predicate can be built,
      and otherwise ends with the exception of one of them. */
  lemma {:induction false} FoldValuesFails(op: FilterOperator, values: seq<string>, p: PropertyInfo, x: ParamId,
                                           acc: Option<Expr>, rest: seq<string>)
    ensures var r := FoldValues(op, values, p, x, acc, rest);
            && (r.Success? <==> forall k :: 0 <= k < |rest| ==> ValuePredicate(op, values, p, x, rest[k]).Success?)
            && (r.Failure? ==> exists k :: 0 <= k < |rest| && ValuePredicate(op, values, p, x, rest[k]) == Failure(r.error))
    decreases |rest|
  {
    if |rest| > 0 && ValuePredicate(op, values, p, x, rest[0]).Success? {
      var next := FoldValuesUnfold(op, values, p, x, acc, rest);
      FoldValuesFails(op, values, p, x, Some(next), rest[1..]);
      ShiftValues(op, values, p, x, rest);
    }
  }

  /** The loop past a first value whose predicate can be built. */
  lemma FoldValuesUnfold(op: FilterOperator, values: seq<string>, p: PropertyInfo, x: ParamId,
                         acc: Option<Expr>, rest: seq<string>) returns (next: Expr)
    requires |rest| > 0 && ValuePredicate(op, values, p, x, rest[0]).Success?
    ensures var current := ValuePredicate(op, values, p, x, rest[0]).value;
            next == if acc.None? then current else OrElse(acc.value, current)
    ensures FoldValues(op, values, p, x, acc, rest) == FoldValues(op, values, p, x, Some(next), rest[1..])
  {
    var current := ValuePredicate(op, values, p, x, rest[0]).value;
    next := if acc.None? then current else OrElse(acc.value, current);
  }

  /** The values after the first, re-indexed. */
  lemma ShiftValues(op: FilterOperator, values: seq<string>, p: PropertyInfo, x: ParamId, rest: seq<string>)
    requires |rest| > 0
    ensures (forall k :: 0 <= k < |rest| ==> ValuePredicate(op, values, p, x, rest[k]).Success?)
            <==> ValuePredicate(op, values, p, x, rest[0]).Success?
                 && forall k :: 0 <= k < |rest[1..]| ==> ValuePredicate(op, values, p, x, rest[1..][k]).Success?
    ensures forall err :: (exists k :: 0 <= k < |rest[1..]| && ValuePredicate(op, values, p, x, rest[1..][k]) == Failure(err))
                          ==> exists k :: 0 <= k < |rest| && ValuePredicate(op, values, p, x, rest[k]) == Failure(err)
  {
    ShiftFailures(op, values, p, x, rest);
    if ValuePredicate(op, values, p, x, rest[0]).Success?
       && forall k :: 0 <= k < |rest[1..]| ==> ValuePredicate(op, values, p, x, rest[1..][k]).Success? {
      ShiftSuccesses(op, values, p, x, rest);
    }
    if forall k :: 0 <= k < |rest| ==> ValuePredicate(op, values, p, x, rest[k]).Success? {
      forall k | 0 <= k < |rest[1..]| ensures ValuePredicate(op, values, p, x, rest[1..][k]).Success? {
        assert rest[1..][k] == rest[k + 1];
      }
    }
  }

  /** When the first value and all later ones build, every value builds. */
  lemma ShiftSuccesses(op: FilterOperator, values: seq<string>, p: PropertyInfo, x: ParamId, rest: seq<string>)
    requires |rest| > 0 && ValuePredicate(op, values, p, x, rest[0]).Success?
    requires forall k :: 0 <= k < |rest[1..]| ==> ValuePredicate(op, values, p, x, rest[1..][k]).Success?
    ensures forall k :: 0 <= k < |rest| ==> ValuePredicate(op, values, p, x, rest[k]).Success?
  {
    forall k | 0 < k < |rest| ensures ValuePredicate(op, values, p, x, rest[k]).Success? {
      assert rest[k] == rest[1..][k - 1];
    }
  }

  /** A failing value after the first is a failing value of the whole list. */
  lemma ShiftFailures(op: FilterOperator, values: seq<string>, p: PropertyInfo, x: ParamId, rest: seq<string>)
    requires |rest| > 0
    ensures forall err :: (exists k :: 0 <= k < |rest[1..]| && ValuePredicate(op, values, p, x, rest[1..][k]) == Failure(err))
                          ==> exists k :: 0 <= k < |rest| && ValuePredicate(op, values, p, x, rest[k]) == Failure(err)
  {
    forall err | exists k :: 0 <= k < |rest[1..]| && ValuePredicate(op, values, p, x, rest[1..][k]) == Failure(err)
      ensures exists k :: 0 <= k < |rest| && ValuePredicate(op, values, p, x, rest[k]) == Failure(err)
    {
      var k :| 0 <= k < |rest[1..]| && ValuePredicate(op, values, p, x, rest[1..][k]) == Failure(err);
      assert rest[k + 1] == rest[1..][k];
    }
  }

  /** `Expression.Property(parameter, name)` failing: no property of that
      name, ignoring case. */
  function PropertyNotDefined(name: string, typeName: string): Exception {
    ArgumentException("Instance property '" + name + "' is not defined for type '" + typeName + "'",
                      Some("propertyName"))
  }

  /** `Expression.Lambda` given no body. */
  const BodyNull: Exception := ArgumentNullException(Some("body"), "Value cannot be null.")

  /** `ToSpecification<T>(criterion)`; `typeName` is the entity type's name
      and `x` the parameter `Expression.Parameter(typeof(T), "x")` creates. */
  function ToSpecification(schema: Schema, typeName: string, c: FilterCriterion, x: ParamId)
    : (r: Result<Spec, Exception>)
    ensures r.Success? ==> r.value.DynamicSpecification? && r.value.expression.param == x && ClosedSpec(r.value)
  {
    var p := FindProperty(schema, c.property);
    if p.None? then Failure(PropertyNotDefined(c.property, typeName))
    else
      var body :- FoldValues(c.op, c.values, p.value, x, None, c.values);
      if body.None? then Failure(BodyNull)
      else Success(DynamicSpecification(Lambda(x, body.value)))
  }

  /** A criterion can be built exactly when its property exists, it has at
      least one value, and every value converts and admits the operator. */
  lemma ToSpecificationSucceeds(schema: Schema, typeName: string, c: FilterCriterion, x: ParamId)
    ensures ToSpecification(schema, typeName, c, x).Success? <==>
              && FindProperty(schema, c.property).Some?
              && |c.values| >= 1
              && forall k :: 0 <= k < |c.values| ==>
                   ValuePredicate(c.op, c.values, FindProperty(schema, c.property).value, x, c.values[k]).Success?
  {
    var p := FindProperty(schema, c.property);
    if p.Some? {
      FoldValuesFails(c.op, c.values, p.value, x, None, c.values);
    }
  }

  /** The error cases: an unknown property, a criterion without values, an
      operator with no name, and a value that does not convert (even for
      `Contains` and `In`, which do not use the converted value). */
  lemma ToSpecificationErrors(schema: Schema, typeName: string, c: FilterCriterion, x: ParamId)
    ensures FindProperty(schema, c.property).None? ==>
              ToSpecification(schema, typeName, c, x) == Failure(PropertyNotDefined(c.property, typeName))
    ensures FindProperty(schema, c.property).Some? && |c.values| == 0 ==>
              ToSpecification(schema, typeName, c, x) == Failure(BodyNull)
    ensures FindProperty(schema, c.property).Some? && |c.values| >= 1 && c.op.Undefined?
            && ChangeType(c.values[0], FindProperty(schema, c.property).value.kind).Success? ==>
              ToSpecification(schema, typeName, c, x) == Failure(NotImplemented)
    ensures (exists k :: 0 <= k < |c.values| && FindProperty(schema, c.property).Some?
                         && ChangeType(c.values[k], FindProperty(schema, c.property).value.kind).Failure?) ==>
              ToSpecification(schema, typeName, c, x).Failure?
  {
    var p := FindProperty(schema, c.property);
    if p.Some? {
      FoldValuesFails(c.op, c.values, p.value, x, None, c.values);
    }
    if p.Some? && |c.values| >= 1 && c.op.Undefined? && ChangeType(c.values[0], p.value.kind).Success? {
      assert ValuePredicate(c.op, c.values, p.value, x, c.values[0]) == Failure(NotImplemented);
    }
  }

  // ---------------------------------------------------------------------
  // What a criterion means
  // ---------------------------------------------------------------------

  /** What the operator asks of the property value `actual` for one value:
      `operand` is the value converted to the property's type, `valueStr`
      the raw text and `values` the criterion's whole value list. */
  predicate Holds(op: FilterOperator, actual: Value, operand: Value, valueStr: string, values: seq<string>) {
    match op
    case Equals => actual == operand
    case NotEquals => actual != operand
    case GreaterThan => actual.IntValue? && operand.IntValue? && actual.n > operand.n
    case GreaterThanOrEqual => actual.IntValue? && operand.IntValue? && actual.n >= operand.n
    case LessThan => actual.IntValue? && operand.IntValue? && actual.n < operand.n
    case LessThanOrEqual => actual.IntValue? && operand.IntValue? && actual.n <= operand.n
    case Contains => Text.Contains(ValueToString(actual), valueStr)
    case In => ValueToString(actual) in values
    case Undefined(_) => false
  }

  predicate ValueHolds(op: FilterOperator, values: seq<string>, kind: Kind, valueStr: string, actual: Value) {
    ChangeType(valueStr, kind).Success? && Holds(op, actual, ChangeType(valueStr, kind).value, valueStr, values)
  }

  /** An entity whose property has value `actual` meets a criterion when some
      value of the criterion holds of it. */
  predicate SomeValueHolds(op: FilterOperator, values: seq<string>, kind: Kind, rest: seq<string>, actual: Value) {
    exists k :: 0 <= k < |rest| && ValueHolds(op, values, kind, rest[k], actual)
  }

  /** One value's predicate evaluates to whether that value holds. */
  lemma ValuePredicateMeaning(op: FilterOperator, values: seq<string>, p: PropertyInfo, x: ParamId,
                              valueStr: string, e: Entity, oracle: Oracle)
    requires ValuePredicate(op, values, p, x, valueStr).Success?
    requires Property(e, p.name).Some? && KindOf(Property(e, p.name).value) == p.kind
    ensures Eval(ValuePredicate(op, values, p, x, valueStr).value, map[x := e], oracle)
            == Some(ValueHolds(op, values, p.kind, valueStr, Property(e, p.name).value))
  {
    var env := map[x := e];
    assert Read(env, x, p.name) == Property(e, p.name);
  }

  /** The accumulated disjunction evaluates to "the accumulator held, or some
      remaining value holds". */
  lemma {:induction false} FoldValuesMeaning(op: FilterOperator, values: seq<string>, p: PropertyInfo, x: ParamId,
                                             acc: Option<Expr>, rest: seq<string>, e: Entity, oracle: Oracle,
                                             held: bool)
    requires FoldValues(op, values, p, x, acc, rest).Success?
    requires FoldValues(op, values, p, x, acc, rest).value.Some?
    requires Property(e, p.name).Some? && KindOf(Property(e, p.name).value) == p.kind
    requires acc.Some? ==> Eval(acc.value, map[x := e], oracle) == Some(held)
    requires acc.None? ==> !held
    ensures Eval(FoldValues(op, values, p, x, acc, rest).value.value, map[x := e], oracle)
            == Some(held || SomeValueHolds(op, values, p.kind, rest, Property(e, p.name).value))
    decreases |rest|
  {
    if |rest| > 0 {
      var actual := Property(e, p.name).value;
      var now := held || ValueHolds(op, values, p.kind, rest[0], actual);
      var next := FoldValuesStep(op, values, p, x, acc, rest, e, oracle, held);
      FoldValuesMeaning(op, values, p, x, Some(next), rest[1..], e, oracle, now);
      SomeValueHoldsCons(op, values, p.kind, rest, actual);
    }
  }

  /** One turn of the loop: the first value's predicate joins the
      accumulator, and the joined expression evaluates to "held, or the first
      value holds". */
  lemma FoldValuesStep(op: FilterOperator, values: seq<string>, p: PropertyInfo, x: ParamId,
                       acc: Option<Expr>, rest: seq<string>, e: Entity, oracle: Oracle, held: bool)
      returns (next: Expr)
    requires |rest| > 0 && FoldValues(op, values, p, x, acc, rest).Success?
    requires Property(e, p.name).Some? && KindOf(Property(e, p.name).value) == p.kind
    requires acc.Some? ==> Eval(acc.value, map[x := e], oracle) == Some(held)
    requires acc.None? ==> !held
    ensures FoldValues(op, values, p, x, acc, rest) == FoldValues(op, values, p, x, Some(next), rest[1..])
    ensures Eval(next, map[x := e], oracle)
            == Some(held || ValueHolds(op, values, p.kind, rest[0], Property(e, p.name).value))
  {
    next := FoldValuesUnfold(op, values, p, x, acc, rest);
    var current := ValuePredicate(op, values, p, x, rest[0]).value;
    var holds := ValueHolds(op, values, p.kind, rest[0], Property(e, p.name).value);
    ValuePredicateMeaning(op, values, p, x, rest[0], e, oracle);
    OrElseStep(acc, current, map[x := e], oracle, held, holds);
  }

  /** OR-ing a value's predicate onto the accumulator adds that value's
      answer to the accumulated one. */
  lemma OrElseStep(acc: Option<Expr>, current: Expr, env: Env, oracle: Oracle, held: bool, holds: bool)
    requires Eval(current, env, oracle) == Some(holds)
    requires acc.Some? ==> Eval(acc.value, env, oracle) == Some(held)
    requires acc.None? ==> !held
    ensures Eval(if acc.None? then current else OrElse(acc.value, current), env, oracle) == Some(held || holds)
  {
  }

  lemma SomeValueHoldsCons(op: FilterOperator, values: seq<string>, kind: Kind, rest: seq<string>, actual: Value)
    requires |rest| >= 1
    ensures SomeValueHolds(op, values, kind, rest, actual)
            <==> ValueHolds(op, values, kind, rest[0], actual) || SomeValueHolds(op, values, kind, rest[1..], actual)
  {
    if SomeValueHolds(op, values, kind, rest[1..], actual) {
      LaterValueHolds(op, values, kind, rest, actual);
    }
    if SomeValueHolds(op, values, kind, rest, actual) && !ValueHolds(op, values, kind, rest[0], actual) {
      FirstValueFails(op, values, kind, rest, actual);
    }
  }

  /** A value after the first that holds is a value of the whole list. */
  lemma LaterValueHolds(op: FilterOperator, values: seq<string>, kind: Kind, rest: seq<string>, actual: Value)
    requires |rest| >= 1 && SomeValueHolds(op, values, kind, rest[1..], actual)
    ensures SomeValueHolds(op, values, kind, rest, actual)
  {
    var k :| 0 <= k < |rest[1..]| && ValueHolds(op, values, kind, rest[1..][k], actual);
    assert rest[k + 1] == rest[1..][k];
  }

  /** When the first value does not hold, the one that does comes later. */
  lemma FirstValueFails(op: FilterOperator, values: seq<string>, kind: Kind, rest: seq<string>, actual: Value)
    requires |rest| >= 1 && SomeValueHolds(op, values, kind, rest, actual)
    requires !ValueHolds(op, values, kind, rest[0], actual)
    ensures SomeValueHolds(op, values, kind, rest[1..], actual)
  {
    var k :| 0 <= k < |rest| && ValueHolds(op, values, kind, rest[k], actual);
    assert rest[1..][k - 1] == rest[k];
  }

  /** An entity meets a criterion when the property exists, can be read and
      some value of the criterion holds of it. */
  predicate Meets(schema: Schema, c: FilterCriterion, e: Entity) {
    var p := FindProperty(schema, c.property);
    && p.Some?
    && Property(e, p.value.name).Some?
    && SomeValueHolds(c.op, c.values, p.value.kind, c.values, Property(e, p.value.name).value)
  }

  /** A built criterion accepts exactly the conforming entities that meet it,
      and never throws on them. */
  lemma CriterionMeaning(schema: Schema, typeName: string, c: FilterCriterion, x: ParamId,
                         e: Entity, oracle: Oracle)
    requires Conforms(e, schema)
    requires ToSpecification(schema, typeName, c, x).Success?
    ensures Apply(ToSpecification(schema, typeName, c, x).value.expression, e, oracle) == Some(Meets(schema, c, e))
  {
    var p := FindProperty(schema, c.property).value;
    PropertyOfConforming(e, schema, p);
    FoldValuesMeaning(c.op, c.values, p, x, None, c.values, e, oracle, false);
  }

  // ---------------------------------------------------------------------
  // Build
  // ---------------------------------------------------------------------

  /** One step of the fold: the first specification as it is, later ones
      joined by their own criterion's logic. */
  function Join(acc: Option<Spec>, logic: FilterLogic, current: Spec): Spec {
    if acc.None? then current
    else if logic == And then AndSpecification(acc.value, current)
    else OrSpecification(acc.value, current)
  }

  function BuildFrom(schema: Schema, typeName: string, x: ParamId, acc: Option<Spec>, filters: seq<FilterCriterion>)
    : (r: Result<Option<Spec>, Exception>)
    ensures r.Success? ==> (r.value.Some? <==> acc.Some? || |filters| > 0)
    ensures r.Success? && r.value.Some? && (acc.Some? ==> ClosedSpec(acc.value)) ==> ClosedSpec(r.value.value)
    decreases |filters|
  {
    if |filters| == 0 then Success(acc)
    else
      var current :- ToSpecification(schema, typeName, filters[0], x);
      BuildFrom(schema, typeName, x, Some(Join(acc, filters[0].logic, current)), filters[1..])
  }

  /** `Build<T>(filters)`: `None` is the null an empty list gives. */
  function Build(schema: Schema, typeName: string, filters: seq<FilterCriterion>, x: ParamId)
    : (r: Result<Option<Spec>, Exception>)
    ensures r.Success? ==> (r.value.Some? <==> |filters| > 0)
    ensures r.Success? && r.value.Some? ==> ClosedSpec(r.value.value)
  {
    BuildFrom(schema, typeName, x, None, filters)
  }

  /** The reference meaning of a criteria list: a left fold of the criteria's
      truth values, each one joined by its own logic. */
  function LogicFold(schema: Schema, e: Entity, held: bool, filters: seq<FilterCriterion>): bool
    decreases |filters|
  {
    if |filters| == 0 then held
    else
      var m := Meets(schema, filters[0], e);
      LogicFold(schema, e, if filters[0].logic == And then held && m else held || m, filters[1..])
  }

  lemma {:induction false} BuildFromMeaning(schema: Schema, typeName: string, x: ParamId, acc: Spec,
                                            filters: seq<FilterCriterion>, parameter: ParamId,
                                            e: Entity, oracle: Oracle, held: bool)
    requires Conforms(e, schema)
    requires ClosedSpec(acc)
    requires Apply(Criteria(acc, parameter), e, oracle) == Some(held)
    requires BuildFrom(schema, typeName, x, Some(acc), filters).Success?
    ensures Apply(Criteria(BuildFrom(schema, typeName, x, Some(acc), filters).value.value, parameter), e, oracle)
            == Some(LogicFold(schema, e, held, filters))
    decreases |filters|
  {
    if |filters| > 0 {
      var f := filters[0];
      var current := ToSpecification(schema, typeName, f, x).value;
      CriterionMeaning(schema, typeName, f, x, e, oracle);
      var m := Meets(schema, f, e);
      var next := Join(Some(acc), f.logic, current);
      assert Criteria(current, parameter) == current.expression;
      if f.logic == And {
        EX.AndAlsoMeaning(Criteria(acc, parameter), Criteria(current, parameter), parameter, e, oracle);
      } else {
        EX.OrElseMeaning(Criteria(acc, parameter), Criteria(current, parameter), parameter, e, oracle);
      }
      BuildFromMeaning(schema, typeName, x, next, filters[1..], parameter, e, oracle,
                       if f.logic == And then held && m else held || m);
    }
  }

  /** A built specification accepts a conforming entity exactly when the
      left fold of its criteria does; the first criterion's logic plays no
      part. */
  lemma BuildMeaning(schema: Schema, typeName: string, filters: seq<FilterCriterion>, x: ParamId,
                     parameter: ParamId, e: Entity, oracle: Oracle)
    requires Conforms(e, schema)
    requires Build(schema, typeName, filters, x).Success? && |filters| >= 1
    ensures Apply(Criteria(Build(schema, typeName, filters, x).value.value, parameter), e, oracle)
            == Some(LogicFold(schema, e, Meets(schema, filters[0], e), filters[1..]))
  {
    var first := ToSpecification(schema, typeName, filters[0], x).value;
    CriterionMeaning(schema, typeName, filters[0], x, e, oracle);
    BuildFromMeaning(schema, typeName, x, first, filters[1..], parameter, e, oracle, Meets(schema, filters[0], e));
  }

  /** No criteria, no specification. */
  lemma BuildEmpty(schema: Schema, typeName: string, x: ParamId)
    ensures Build(schema, typeName, [], x) == Success(None)
  {
  }

  /** The first criterion's logic is ignored. */
  lemma FirstLogicIgnored(schema: Schema, typeName: string, filters: seq<FilterCriterion>, x: ParamId, logic: FilterLogic)
    requires |filters| >= 1
    ensures Build(schema, typeName, filters[0 := filters[0].(logic := logic)], x) == Build(schema, typeName, filters, x)
  {
    var g := filters[0 := filters[0].(logic := logic)];
    assert g[1..] == filters[1..];
  }

  /** Adding a criterion at the end nests the specification built so far to
      the left of it, joined by the new criterion's logic. */
  lemma {:induction false} BuildNestsLeft(schema: Schema, typeName: string, x: ParamId, acc: Option<Spec>,
                                          filters: seq<FilterCriterion>, last: FilterCriterion)
    requires BuildFrom(schema, typeName, x, acc, filters).Success?
    requires ToSpecification(schema, typeName, last, x).Success?
    ensures BuildFrom(schema, typeName, x, acc, filters + [last])
            == Success(Some(Join(BuildFrom(schema, typeName, x, acc, filters).value, last.logic,
                                 ToSpecification(schema, typeName, last, x).value)))
    decreases |filters|
  {
    if |filters| == 0 {
      assert [last][1..] == [];
      assert filters + [last] == [last];
    } else {
      assert (filters + [last])[0] == filters[0];
      assert (filters + [last])[1..] == filters[1..] + [last];
      var current := ToSpecification(schema, typeName, filters[0], x).value;
      BuildNestsLeft(schema, typeName, x, Some(Join(acc, filters[0].logic, current)), filters[1..], last);
    }
  }
}

=== FILE: specification.dfy ===
/**
  `Specification<TEntity>`: the query description the repositories read. It
  carries the filter predicate (`ToExpression`), optional paging, the
  ordering (as expressions or as property names), the include list and the
  distinct flag. The protected `Apply*`/`AddInclude` members are the only
  writers; each returns the new state here.
 */
module Specifications {
  import opened Wrappers
  import opened Text
  import opened Entities
  import opened Predicates

  /** An `Expression<Func<TEntity, object>>` used for ordering or includes;
      the model tells them apart by number and never looks inside. */
  type KeySelector = nat

  datatype Specification = Specification(
    criteria: Lambda,
    pageNumber: Option<int>,
    pageSize: Option<int>,
    orderBy: Option<KeySelector>,
    orderByDescending: Option<KeySelector>,
    orderByString: NullableString,
    orderByDescendingString: NullableString,
    includes: seq<KeySelector>,
    isDistinct: bool)

  /** A derived specification as its constructor leaves it: only the
      predicate is set. */
  function New(criteria: Lambda): (s: Specification)
    ensures s.criteria == criteria
    ensures s.pageNumber.None? && s.pageSize.None?
    ensures s.orderBy.None? && s.orderByDescending.None?
    ensures s.orderByString.None? && s.orderByDescendingString.None?
    ensures s.includes == [] && !s.isDistinct
  {
    Specification(criteria, None, None, None, None, None, None, [], false)
  }

  /** `ApplyPaging(pageNumber, pageSize)`: sets both, and nothing else. */
  function ApplyPaging(s: Specification, pageNumber: int, pageSize: int): (r: Specification)
    ensures r.pageNumber == Some(pageNumber) && r.pageSize == Some(pageSize)
    ensures r.(pageNumber := s.pageNumber, pageSize := s.pageSize) == s
  {
    s.(pageNumber := Some(pageNumber), pageSize := Some(pageSize))
  }

  /** `ApplyDistinct()`. */
  function ApplyDistinct(s: Specification): (r: Specification)
    ensures r.isDistinct
    ensures r.(isDistinct := s.isDistinct) == s
  {
    s.(isDistinct := true)
  }

  /** `ApplyOrderBy(Expression)`. */
  function ApplyOrderByExpression(s: Specification, selector: KeySelector): (r: Specification)
    ensures r.orderBy == Some(selector)
    ensures r.(orderBy := s.orderBy) == s
  {
    s.(orderBy := Some(selector))
  }

  /** `ApplyOrderByDescending(Expression)`. */
  function ApplyOrderByDescendingExpression(s: Specification, selector: KeySelector): (r: Specification)
    ensures r.orderByDescending == Some(selector)
    ensures r.(orderByDescending := s.orderByDescending) == s
  {
    s.(orderByDescending := Some(selector))
  }

  /** `ApplyOrderBy(string)`: sets only the ascending property name. */
  function ApplyOrderBy(s: Specification, propertyName: NullableString): (r: Specification)
    ensures r.orderByString == propertyName
    ensures r.orderByDescendingString == s.orderByDescendingString
    ensures r.(orderByString := s.orderByString) == s
  {
    s.(orderByString := propertyName)
  }

  /** `ApplyOrderByDescending(string)`: sets only the descending property
      name. */
  function ApplyOrderByDescending(s: Specification, propertyName: NullableString): (r: Specification)
    ensures r.orderByDescendingString == propertyName
    ensures r.orderByString == s.orderByString
    ensures r.(orderByDescendingString := s.orderByDescendingString) == s
  {
    s.(orderByDescendingString := propertyName)
  }

  /** `AddInclude`: appends to `Includes`. */
  function AddInclude(s: Specification, selector: KeySelector): (r: Specification)
    ensures |r.includes| == |s.includes| + 1 && r.includes[|s.includes|] == selector
    ensures r.includes[..|s.includes|] == s.includes
    ensures r.(includes := s.includes) == s
  {
    s.(includes := s.includes + [selector])
  }

  /** Setting the two order names does not depend on the order of the calls. */
  lemma OrderNamesIndependent(s: Specification, asc: NullableString, desc: NullableString)
    ensures ApplyOrderBy(ApplyOrderByDescending(s, desc), asc) == ApplyOrderByDescending(ApplyOrderBy(s, asc), desc)
  {
  }

  /** Includes are kept in call order. */
  lemma IncludesInCallOrder(s: Specification, a: KeySelector, b: KeySelector)
    ensures AddInclude(AddInclude(s, a), b).includes == s.includes + [a, b]
  {
  }

  /** `ToExpression()`. */
  function ToExpression(s: Specification): Lambda {
    s.criteria
  }

  /** The implicit conversion to `Expression<Func<TEntity, bool>>`. */
  function AsExpression(s: Specification): (r: Lambda)
    ensures r == ToExpression(s)
  {
    ToExpression(s)
  }

  /** `IsSatisfiedBy(entity)`: compiling the predicate and calling it. */
  function IsSatisfiedBy(s: Specification, e: Entity, oracle: Oracle): (r: Option<bool>)
    ensures r == Apply(AsExpression(s), e, oracle)
  {
    Apply(ToExpression(s), e, oracle)
  }

  /** None of the writers changes what the specification accepts. */
  lemma WritersKeepPredicate(s: Specification, n: int, size: int, name: NullableString, k: KeySelector,
                             e: Entity, oracle: Oracle)
    ensures IsSatisfiedBy(ApplyPaging(s, n, size), e, oracle) == IsSatisfiedBy(s, e, oracle)
    ensures IsSatisfiedBy(ApplyDistinct(s), e, oracle) == IsSatisfiedBy(s, e, oracle)
    ensures IsSatisfiedBy(ApplyOrderBy(s, name), e, oracle) == IsSatisfiedBy(s, e, oracle)
    ensures IsSatisfiedBy(ApplyOrderByDescending(s, name), e, oracle) == IsSatisfiedBy(s, e, oracle)
    ensures IsSatisfiedBy(ApplyOrderByExpression(s, k), e, oracle) == IsSatisfiedBy(s, e, oracle)
    ensures IsSatisfiedBy(ApplyOrderByDescendingExpression(s, k), e, oracle) == IsSatisfiedBy(s, e, oracle)
    ensures IsSatisfiedBy(AddInclude(s, k), e, oracle) == IsSatisfiedBy(s, e, oracle)
  {
  }
}

=== FILE: text.dfy ===
/**
  String helpers with the .NET meaning the services rely on: white-space
  tests, `String.Split` on one separator, ordinal substring search, ASCII
  lower-casing and the decimal rendering and parsing of 32-bit integers.
 */
module Text {
  import opened Wrappers

  /** A string reference that may be null. */
  type NullableString = Option<string>

  /** The characters `Char.IsWhiteSpace` accepts: the separators of Unicode
      categories Zs, Zl and Zp plus U+0009..U+000D, U+0085 and U+00A0. */
  predicate IsWhiteSpace(c: char) {
    || c == ' ' || ('\t' <= c <= '\r') || c == '\U{0085}' || c == '\U{00A0}'
    || c == '\U{1680}' || ('\U{2000}' <= c <= '\U{200A}') || c == '\U{2028}'
    || c == '\U{2029}' || c == '\U{202F}' || c == '\U{205F}' || c == '\U{3000}'
  }

  /** Every character of `s` is white space (vacuously true of ""). */
  predicate AllWhiteSpace(s: string) {
    forall i :: 0 <= i < |s| ==> IsWhiteSpace(s[i])
  }

  /** `string.IsNullOrWhiteSpace`. */
  predicate IsNullOrWhiteSpace(s: NullableString) {
    s.None? || AllWhiteSpace(s.value)
  }

  /** `string.IsNullOrEmpty`. */
  predicate IsNullOrEmpty(s: NullableString) {
    s.None? || |s.value| == 0
  }

  /** Ordinal substring test, `haystack.Contains(needle)`. */
  predicate Contains(haystack: string, needle: string) {
    exists i :: 0 <= i <= |haystack| - |needle| && OccursAt(haystack, needle, i)
  }

  /** `needle` occurs in `haystack` starting at index `i`. */
  predicate OccursAt(haystack: string, needle: string, i: int) {
    0 <= i <= |haystack| - |needle| && haystack[i..i + |needle|] == needle
  }

  lemma ContainsSelfSuffix(prefix: string, needle: string, suffix: string)
    ensures Contains(prefix + needle + suffix, needle)
  {
    var h := prefix + needle + suffix;
    assert OccursAt(h, needle, |prefix|);
  }

  /** A text that contains `a + b + c` contains `b`. */
  lemma ContainsInfix(haystack: string, a: string, b: string, c: string)
    requires Contains(haystack, a + b + c)
    ensures Contains(haystack, b)
  {
    var needle := a + b + c;
    var i :| 0 <= i <= |haystack| - |needle| && OccursAt(haystack, needle, i);
    forall k | 0 <= k < |b| ensures haystack[i + |a|..i + |a| + |b|][k] == b[k] {
      assert haystack[i + |a| + k] == haystack[i..i + |needle|][|a| + k] == needle[|a| + k];
    }
    assert OccursAt(haystack, b, i + |a|);
  }

  /** Number of occurrences of `c` in `s`. */
  function CountChar(s: string, c: char): nat {
    if |s| == 0 then 0 else (if s[0] == c then 1 else 0) + CountChar(s[1..], c)
  }

  /** `s.Split(sep)`: every separator splits, empty pieces are kept, and the
      result always has at least one element. */
  function Split(s: string, sep: char): (parts: seq<string>)
    ensures |parts| == CountChar(s, sep) + 1
    ensures forall k :: 0 <= k < |parts| ==> sep !in parts[k]
  {
    if |s| == 0 then [""]
    else
      var rest := Split(s[1..], sep);
      if s[0] == sep then [""] + rest
      else [[s[0]] + rest[0]] + rest[1..]
  }

  /** `string.Join(sep, parts)`. */
  function Join(parts: seq<string>, sep: char): string
    requires |parts| >= 1
  {
    if |parts| == 1 then parts[0] else parts[0] + [sep] + Join(parts[1..], sep)
  }

  /** Splitting and joining again gives back the original string. */
  lemma {:induction false} JoinSplit(s: string, sep: char)
    ensures Join(Split(s, sep), sep) == s
    decreases |s|
  {
    if |s| == 0 {
    } else {
      var rest := Split(s[1..], sep);
      JoinSplit(s[1..], sep);
      if s[0] == sep {
        assert Split(s, sep) == [""] + rest;
        assert ([""] + rest)[1..] == rest;
        assert s == [sep] + s[1..];
      } else {
        assert Split(s, sep) == [[s[0]] + rest[0]] + rest[1..];
        JoinConsChar(s[0], rest, sep);
        assert s == [s[0]] + s[1..];
      }
    }
  }

  /** Joining separator-free pieces and splitting again gives back the pieces. */
  lemma {:induction false} SplitJoin(parts: seq<string>, sep: char)
    requires |parts| >= 1
    requires forall k :: 0 <= k < |parts| ==> sep !in parts[k]
    ensures Split(Join(parts, sep), sep) == parts
    decreases |parts|, |parts[0]|
  {
    var p := parts[0];
    if |p| == 0 {
      if |parts| == 1 {
      } else {
        SplitJoin(parts[1..], sep);
        var j := Join(parts, sep);
        assert j == [sep] + Join(parts[1..], sep);
        assert j[1..] == Join(parts[1..], sep);
        assert parts == [""] + parts[1..];
      }
    } else {
      var shorter := [p[1..]] + parts[1..];
      assert forall k :: 0 <= k < |shorter| ==> sep !in shorter[k] by {
        forall k | 0 <= k < |shorter| ensures sep !in shorter[k] {
          if k == 0 {
            assert forall c :: c in p[1..] ==> c in p;
          } else {
            assert shorter[k] == parts[k];
          }
        }
      }
      SplitJoin(shorter, sep);
      assert shorter[0] == p[1..] && shorter[1..] == parts[1..];
      JoinConsChar(p[0], shorter, sep);
      assert [[p[0]] + p[1..]] + parts[1..] == parts by {
        assert [p[0]] + p[1..] == p;
      }
      assert p[0] != sep by {
        assert p[0] in p;
      }
      assert Join(parts, sep)[1..] == Join(shorter, sep);
    }
  }

  /** Putting a character in front of the first piece puts it in front of
      the joined string. */
  lemma JoinConsChar(c: char, parts: seq<string>, sep: char)
    requires |parts| >= 1
    ensures Join([[c] + parts[0]] + parts[1..], sep) == [c] + Join(parts, sep)
  {
    var longer := [[c] + parts[0]] + parts[1..];
    assert longer[0] == [c] + parts[0] && longer[1..] == parts[1..];
    if |parts| > 1 {
      var tail := [sep] + Join(parts[1..], sep);
      assert Join(parts, sep) == parts[0] + tail;
      assert Join(longer, sep) == ([c] + parts[0]) + tail;
      assert ([c] + parts[0]) + tail == [c] + (parts[0] + tail);
    }
  }

  /** A string without the separator splits into itself alone. */
  lemma {:induction false} SplitWithoutSeparator(s: string, sep: char)
    requires sep !in s
    ensures Split(s, sep) == [s]
    decreases |s|
  {
    if |s| > 0 {
      assert sep !in s[1..] by {
        assert forall c :: c in s[1..] ==> c in s;
      }
      SplitWithoutSeparator(s[1..], sep);
      assert s[0] != sep by {
        assert s[0] in s;
      }
      assert [s[0]] + s[1..] == s;
    }
  }

  /** `s.TrimStart()`: drops leading white space. */
  function TrimStart(s: string): (r: string)
    ensures |r| == 0 || !IsWhiteSpace(r[0])
    ensures |r| <= |s| && r == s[|s| - |r|..]
    ensures forall i :: 0 <= i < |s| - |r| ==> IsWhiteSpace(s[i])
  {
    if |s| > 0 && IsWhiteSpace(s[0]) then TrimStart(s[1..]) else s
  }

  /** `s.TrimEnd()`: drops trailing white space. */
  function TrimEnd(s: string): (r: string)
    ensures |r| == 0 || !IsWhiteSpace(r[|r| - 1])
    ensures |r| <= |s| && r == s[..|r|]
    ensures forall i :: |r| <= i < |s| ==> IsWhiteSpace(s[i])
  {
    if |s| > 0 && IsWhiteSpace(s[|s| - 1]) then TrimEnd(s[..|s| - 1]) else s
  }

  /** `s.Trim()`. */
  function Trim(s: string): (r: string)
    ensures |r| == 0 || (!IsWhiteSpace(r[0]) && !IsWhiteSpace(r[|r| - 1]))
  {
    TrimEnd(TrimStart(s))
  }

  /** Only white space is removed: trimming a string that neither starts nor
      ends with white space leaves it alone. */
  lemma TrimKeepsInnerText(s: string)
    requires |s| == 0 || (!IsWhiteSpace(s[0]) && !IsWhiteSpace(s[|s| - 1]))
    ensures Trim(s) == s
  {
  }

  /** ASCII lower-casing of one character. */
  function ToLowerChar(c: char): char {
    if 'A' <= c <= 'Z' then (c as int + 32) as char else c
  }

  /** ASCII lower-casing, `s.ToLower()` on ASCII text. */
  function ToLower(s: string): (r: string)
    ensures |r| == |s|
    ensures forall i :: 0 <= i < |s| ==> r[i] == ToLowerChar(s[i])
  {
    if |s| == 0 then "" else [ToLowerChar(s[0])] + ToLower(s[1..])
  }

  /** Lower-casing twice is lower-casing once. */
  lemma ToLowerIdempotent(s: string)
    ensures ToLower(ToLower(s)) == ToLower(s)
  {
  }

  /** Ordinal comparison that ignores ASCII case. */
  predicate EqualsIgnoreCase(a: string, b: string) {
    ToLower(a) == ToLower(b)
  }

  // ---------------------------------------------------------------------
  // Decimal rendering and parsing of 32-bit integers
  // ---------------------------------------------------------------------

  const Int32Min: int := -0x8000_0000
  const Int32Max: int := 0x7FFF_FFFF

  predicate IsDigit(c: char) {
    '0' <= c <= '9'
  }

  function DigitChar(d: nat): char
    requires d < 10
  {
    ('0' as int + d) as char
  }

  function DigitValue(c: char): nat
    requires IsDigit(c)
  {
    c as int - '0' as int
  }

  /** Decimal digits of a natural number, no leading zeros. */
  function NatToString(n: nat): (r: string)
    ensures |r| >= 1
    ensures forall i :: 0 <= i < |r| ==> IsDigit(r[i])
  {
    if n < 10 then [DigitChar(n)] else NatToString(n / 10) + [DigitChar(n % 10)]
  }

  /** `n.ToString()` for an integer: a minus sign for negatives, then digits. */
  function IntToString(n: int): string {
    if n < 0 then "-" + NatToString(-n) else NatToString(n)
  }

  /** Value of a non-empty digit string. */
  function DigitsValue(s: string): nat
    requires forall i :: 0 <= i < |s| ==> IsDigit(s[i])
  {
    if |s| == 0 then 0 else DigitsValue(s[..|s| - 1]) * 10 + DigitValue(s[|s| - 1])
  }

  predicate AllDigits(s: string) {
    |s| >= 1 && forall i :: 0 <= i < |s| ==> IsDigit(s[i])
  }

  /** `int.Parse` on the invariant culture: an optional sign then at least one
      digit; anything else, or a value outside the 32-bit range, fails. */
  function ParseInt(s: string): (r: Option<int>)
    ensures r.Some? ==> Int32Min <= r.value <= Int32Max
  {
    if |s| >= 1 && (s[0] == '-' || s[0] == '+') && AllDigits(s[1..]) then
      var m: int := DigitsValue(s[1..]);
      var v: int := if s[0] == '-' then -m else m;
      if Int32Min <= v <= Int32Max then Some(v) else None
    else if AllDigits(s) then
      var v := DigitsValue(s);
      if v <= Int32Max then Some(v) else None
    else None
  }

  lemma {:induction false} DigitsOfNat(n: nat)
    ensures DigitsValue(NatToString(n)) == n
  {
    if n >= 10 {
      DigitsOfNat(n / 10);
      var s := NatToString(n);
      assert s[..|s| - 1] == NatToString(n / 10);
    }
  }

  /** Rendering a 32-bit integer and parsing it back gives the integer. */
  lemma ParseIntToString(n: int)
    requires Int32Min <= n <= Int32Max
    ensures ParseInt(IntToString(n)) == Some(n)
  {
    if n < 0 {
      ParseNegativeToString(n);
    } else {
      ParseNonNegativeToString(n);
    }
  }

  lemma ParseNegativeToString(n: int)
    requires Int32Min <= n < 0
    ensures ParseInt(IntToString(n)) == Some(n)
  {
    var s := IntToString(n);
    assert s[0] == '-' && s[1..] == NatToString(-n);
    DigitsOfNat(-n);
  }

  lemma ParseNonNegativeToString(n: nat)
    requires n <= Int32Max
    ensures ParseInt(IntToString(n)) == Some(n)
  {
    DigitsOfNat(n);
    assert NatToString(n)[0] != '-' && NatToString(n)[0] != '+';
  }
}

=== FILE: value_object.dfy ===
/**
  Structural equality of value objects. A value object is compared through the
  sequence of atomic values it yields; the equality operators, both `Equals`
  overloads and the hash code are all defined over that sequence.
 */
module ValueObjects {
  import opened Wrappers

  /** One atomic value yielded by a value object. */
  datatype Atom = NullAtom | Str(s: string) | Int(i: int)

  /** A value object as the equality members see it: the name of its runtime
      type and its atomic values in yield order. */
  datatype ValueObject = ValueObject(runtimeType: string, atoms: seq<Atom>)

  /** Any object that can be passed to `Equals(object)`: a value object or an
      instance of some other type. */
  datatype Object = VO(vo: ValueObject) | Other(typeName: string)

  function TypeOf(o: Object): string {
    match o
    case VO(v) => v.runtimeType
    case Other(t) => t
  }

  /** `Enumerable.SequenceEqual` under the default equality comparer, walking
      both sequences in step. */
  predicate SequenceEqual(a: seq<Atom>, b: seq<Atom>) {
    if |a| == 0 || |b| == 0 then |a| == |b|
    else a[0] == b[0] && SequenceEqual(a[1..], b[1..])
  }

  /** Pairwise comparison is sequence equality. */
  lemma {:induction false} SequenceEqualIsEquality(a: seq<Atom>, b: seq<Atom>)
    ensures SequenceEqual(a, b) <==> a == b
  {
    if |a| != 0 && |b| != 0 {
      SequenceEqualIsEquality(a[1..], b[1..]);
      if a == b {
        assert a[1..] == b[1..];
      }
      if a[0] == b[0] && a[1..] == b[1..] {
        assert a == [a[0]] + a[1..];
        assert b == [b[0]] + b[1..];
      }
    }
  }

  /** `Equals(ValueObject other)`: false for null, otherwise the atomic values
      are compared; the runtime types are not. */
  function EqualsValueObject(self: ValueObject, other: Option<ValueObject>): (r: bool)
    ensures r <==> other.Some? && self.atoms == other.value.atoms
  {
    if other.None? then false
    else
      SequenceEqualIsEquality(self.atoms, other.value.atoms);
      SequenceEqual(self.atoms, other.value.atoms)
  }

  /** `Equals(object obj)`: false for null and for an object of another runtime
      type, otherwise the atomic values are compared. */
  function EqualsObject(self: ValueObject, obj: Option<Object>): (r: bool)
    ensures r <==> obj.Some? && obj.value.VO? && obj.value.vo.runtimeType == self.runtimeType
                   && obj.value.vo.atoms == self.atoms
  {
    if obj.None? then false
    else if TypeOf(obj.value) != self.runtimeType then false
    else if !obj.value.VO? then false
    else
      SequenceEqualIsEquality(self.atoms, obj.value.vo.atoms);
      SequenceEqual(self.atoms, obj.value.vo.atoms)
  }

  /** The `==` operator: two nulls are equal, a null and a non-null are not,
      and two instances are compared by `Equals(ValueObject)`. */
  function OpEquals(a: Option<ValueObject>, b: Option<ValueObject>): (r: bool)
    ensures r <==> (a.None? && b.None?) || (a.Some? && b.Some? && a.value.atoms == b.value.atoms)
  {
    if a.None? && b.None? then true
    else if a.None? || b.None? then false
    else EqualsValueObject(a.value, b)
  }

  /** The `!=` operator. */
  function OpNotEquals(a: Option<ValueObject>, b: Option<ValueObject>): (r: bool)
    ensures r <==> (a.Some? || b.Some?) && (a.None? || b.None? || a.value.atoms != b.value.atoms)
  {
    !OpEquals(a, b)
  }

  /** `Equals(object)` is the stricter of the two overloads. */
  lemma EqualsObjectImpliesEqualsValueObject(self: ValueObject, other: ValueObject)
    ensures EqualsObject(self, Some(VO(other))) ==> EqualsValueObject(self, Some(other))
    ensures EqualsValueObject(self, Some(other)) && self.runtimeType == other.runtimeType
            ==> EqualsObject(self, Some(VO(other)))
  {
  }

  /** `HashCode.Add` folded over the atomic values, then `ToHashCode`. The
      per-process seed and the mixing function are parameters. */
  function HashAtoms(acc: int, atoms: seq<Atom>, mix: (int, Atom) -> int): int
    decreases |atoms|
  {
    if |atoms| == 0 then acc else HashAtoms(mix(acc, atoms[0]), atoms[1..], mix)
  }

  function HashCode(self: ValueObject, seed: int, mix: (int, Atom) -> int, finish: int -> int): int {
    finish(HashAtoms(seed, self.atoms, mix))
  }

  /** Objects that are equal under either `Equals` overload hash alike. */
  lemma HashConsistent(a: ValueObject, b: ValueObject, seed: int, mix: (int, Atom) -> int,
                       finish: int -> int)
    requires EqualsValueObject(a, Some(b))
    ensures HashCode(a, seed, mix, finish) == HashCode(b, seed, mix, finish)
  {
  }
}

=== FILE: wrappers.dfy ===
/** Failure-compatible wrappers used throughout the model. */
module Wrappers {

  /** A value that may be absent (a C# null or a missing entry). */
  datatype Option<+T> = None | Some(value: T) {

    predicate IsFailure() {
      None?
    }

    function PropagateFailure<U>(): Option<U>
      requires None?
    {
      None
    }

    function Extract(): T
      requires Some?
    {
      value
    }

    function GetOr(default: T): T {
      match this
      case Some(v) => v
      case None => default
    }
  }

  /** Either a value or an error value. */
  datatype Result<+R, +E> = Success(value: R) | Failure(error: E) {

    predicate IsFailure() {
      Failure?
    }

    function PropagateFailure<U>(): Result<U, E>
      requires Failure?
    {
      Failure(error)
    }

    function Extract(): R
      requires Success?
    {
      value
    }
  }

  /** A check that either passes or fails with an error value. */
  datatype Outcome<+E> = Pass | Fail(error: E)
}
